=== FILE: README.md ===
# novel-game layer engine, modelled in Dafny

novel-game is a node editor for visual novels. The user wires producer nodes
(`layerImage`, `layerText`) through on/off controllers (`layerOnOff`) into
consumers (`layerPreview`, `layerTimeline`, slide shows, dialogue previews,
a visual-novel export and player). After every edit the editor runs
recomputation passes over the node/edge graph. These passes walk upstream
from a consumer, gather layer records, apply the controllers' on/off maps,
deduplicate, stable-sort by z-index, and write a result back only when it
differs from what the node already stores.

This project models that engine and the smaller cores around it:

- `common.dfy`: options, JavaScript `||` on strings and numbers,
  `Math.round` of a quotient, `trim`, a stable insertion sort by key,
  association lists standing for JavaScript objects, and first-per-key
  deduplication.
- `graph.dfy`: nodes, edges, node data, layer records, and edge queries.
- `walk.dfy`: the visited-set depth-first walk upstream, as a function and
  as a class with a recursive method.
- `chain_layers.dfy`: `collectChainLayers`.
- `upstream_layers.dfy`: `collectAllUpstreamLayers`.
- `linear_chains.dfy`: the single-predecessor chains followed by the slide
  show, video slide show, dialogue preview and timeline branches.
- `timeline_frames.dfy`: the timeline branch's background key and frames.
- `sync_media.dfy`: `syncMediaNodes`, the whole pass.
- `layer_onoff.dfy`: the on/off controller node's state and output.
- `editor_actions.dfy`: the editor's connection rule for novel roots, node
  and edge deletion, cloning, and the node size set by an image upload.
- `editor_effects.dfy`: the editor's two recompute effects, for layer image
  visibility and for layer preview contents.
- `workflow_load.dfy`: the layer chains rebuilt after a workflow is loaded.
- `layer_preview.dfy`: the layer preview node's filtered, z-sorted layer
  list and its record of images that failed to load.
- `layout.dfy`: the three `resolveLayout` variants, for images (in
  `LayerImageNode.jsx` and, identically, `ImageStyleEditor.jsx`), for text
  (in `LayerTextNode.jsx` and `TextStyleEditor.jsx`) and for the timeline.
- `patch.dfy`: the object spread `{ ...data, ...updates }` on node data.
- `layer_image.dfy`: the layer image node's upstream visibility, default
  completion, style application and output.
- `layer_text.dfy`: the layer text node's text area, displayed box, output
  and `update`.
- `layer_timeline.dfy`: the layer timeline node's frames, its layer
  collection and its frame timer and draw-token guard.
- `style_registry.dfy`: the text and image style editors' new-style check,
  style creation, change and deletion.
- `novel_export.dfy`: the visual-novel export walk that numbers dialogues,
  images and choices.
- `line_colors.dfy`: the export preview's per-line colours.
- `novel_player.dfy`: the visual-novel player's position, branches and
  typing.
- `colored_text.dfy`: `parseColoredText` and its entity decoding.
- `typing_box.dfy`: the typing preview box's animation, skip and visible
  lines.
- `slideshow.dfy`: the slide show node's timer, dots and interval.
- `dialogue_preview.dfy`: the dialogue preview node's typing and advance.

## Model

| member | source | states |
|---|---|---|
| Common.SortByKeyFacts | app/src/utils/syncMediaNodes.js:303 | the z-index sort returns an ascending permutation of its input that keeps the input order among equal keys, as JavaScript's stable sort does |
| Dedup.KeepFirst | app/src/utils/syncMediaNodes.js:294-299 | the `processedNodes` guard appends exactly the first record per key not seen before and adds every key to the set |
| Walk.Walker.Explore | app/src/utils/syncMediaNodes.js:135-165 | the recursive walk with a shared visited set ends in the state the walk function gives |
| Walk.DfsComplete | app/src/utils/syncMediaNodes.js:135-165 | without an early exit the walk enters every node upstream of its start, even on cyclic graphs |
| Walk.DfsSound | app/src/utils/syncMediaNodes.js:135-165 | the walk enters only nodes upstream of its start |
| ChainLayers.SpliceLayer | app/src/utils/syncMediaNodes.js:28-43 | a spliced controller output keeps its id, carries the controller's id as nodeId, and holds the original layer as payload |
| ChainLayers.ChainCollector.Splice | app/src/utils/syncMediaNodes.js:28-43 | the forEach over a controller's outputs appends each spliced output, in order, and leaves the processed set alone |
| ChainLayers.Contribution | app/src/utils/syncMediaNodes.js:22-111 | every record a producer contributes carries that producer's id |
| ChainLayers.CollectChainLayers | app/src/utils/syncMediaNodes.js:10-126 | the recursive walk with shared processed set and collected list yields the chain-layer function's result, and every record names a node of the graph |
| ChainLayers.ChainLayersFacts | app/src/utils/syncMediaNodes.js:14-21 | each processed id is a producer of the graph; the records with node id k are exactly k's contribution if k was processed and none otherwise, so each producer contributes at most once per call |
| ChainLayers.ChainLayersInputOnly | app/src/utils/syncMediaNodes.js:113-120 | the result does not change when every edge whose target handle is not 'input' is removed |
| ChainLayers.ExploreChainProcesses | app/src/utils/syncMediaNodes.js:14-21 | a producer not on the current path is processed once the walk reaches it |
| ChainLayers.ControllerSplicesFirst | app/src/utils/syncMediaNodes.js:23-46 | a controller at the start splices its own outputs first, each stamped with its id |
| ChainLayers.ControllerContinues | app/src/utils/syncMediaNodes.js:113-120 | after splicing, every producer feeding the controller through an input edge is still gathered |
| UpstreamLayers.ControllerStates | app/src/utils/syncMediaNodes.js:145-151 | a controller contributes its layerStates, else true for every output layer with an id, else nothing |
| UpstreamLayers.ConfigDefaults | app/src/utils/syncMediaNodes.js:153-159 | slots already set keep their value; unset config slots take the config's enabled flag; no other key appears |
| UpstreamLayers.MergeController | app/src/utils/syncMediaNodes.js:142-159 | the controller's own entries win, earlier entries survive otherwise, and unset config slots default to enabled |
| UpstreamLayers.UpstreamLayer | app/src/utils/syncMediaNodes.js:212-240 | a gathered record carries the slot id and the producer's id as nodeId and sourceNodeId |
| UpstreamLayers.CollectAllUpstreamLayers | app/src/utils/syncMediaNodes.js:129-260 | the two recursive walks yield the upstream-layers function's result |
| UpstreamLayers.FoundIffControllerUpstream | app/src/utils/syncMediaNodes.js:133-175 | the first walk finds a controller iff some controller lies upstream; with none upstream the merged map is empty |
| UpstreamLayers.UpstreamLayersFacts | app/src/utils/syncMediaNodes.js:192-259 | only slot ids whose merged state is exactly true are shown, each once, each from a layer node filling that slot, sorted by z |
| Walk.StoppedWalkIsInert | app/src/utils/syncMediaNodes.js:196-198 | once every switched-on slot is found the walk enters nothing more |
| Walk.DfsCompleteUnlessStopped | app/src/utils/syncMediaNodes.js:192-259 | a walk that has not found every switched-on slot has entered every node upstream of its start |
| UpstreamLayers.UpstreamLayersReach | app/src/utils/syncMediaNodes.js:192-259 | every shown layer is produced by a layer node upstream of the start filling its slot, and every switched-on slot filled by a layer node upstream of the start is shown |
| LinearChains.Chain | app/src/utils/syncMediaNodes.js:350-370 | the chain starts at its start id, holds no empty id, and is no longer than its step bound |
| LinearChains.ChainSteps | app/src/utils/syncMediaNodes.js:350-370 | each step follows the first 'input' edge into the current node, and the chain ends where there is none |
| LinearChains.ChainDistinct | app/src/utils/syncMediaNodes.js:350-370 | a chain that ends visits no node twice |
| LinearChains.CycleNeverEnds | app/src/utils/syncMediaNodes.js:350-370 | a chain that re-enters a closed set of nodes never ends, whatever the step bound |
| LinearChains.ChainFuel | app/src/utils/syncMediaNodes.js:350-370 | a larger step bound gives the same chain once the chain ends |
| LinearChains.ChainItemsStep | app/src/utils/syncMediaNodes.js:350-378 | the collected items are those of the chain further upstream followed by the current node's item: upstream first |
| LinearChains.PicksMembers | app/src/utils/syncMediaNodes.js:350-370 | an item is collected iff some chain node of the matching kind yields it |
| LinearChains.CollectChain | app/src/utils/syncMediaNodes.js:350-378 | the `while (currentId)` loop with push and reverse yields the chain items |
| TimelineFrames.BackgroundKey | app/src/utils/syncMediaNodes.js:612-621 | the min-z loop yields the background-key function's result |
| TimelineFrames.BackgroundKeyIsFirstMinimum | app/src/utils/syncMediaNodes.js:612-621 | the background key is absent iff the config is empty, else it is the first key with the strictly smallest z |
| TimelineFrames.BuildFrames | app/src/utils/syncMediaNodes.js:623-650 | the frame loop yields the frames function's result |
| TimelineFrames.Emitting | app/src/utils/syncMediaNodes.js:623-650 | a node emits iff its layer is in the config and is not the background |
| TimelineFrames.FrameCount | app/src/utils/syncMediaNodes.js:623-650 | one frame per emitting chain node |
| TimelineFrames.FramesSorted | app/src/utils/syncMediaNodes.js:645-648 | every frame lists its layers in ascending zIndex |
| TimelineFrames.LatestStatePerLayer | app/src/utils/syncMediaNodes.js:630-642 | the state of each config layer is built from the latest chain node that updated it, and is absent when none did |
| TimelineFrames.LastFrameHoldsState | app/src/utils/syncMediaNodes.js:645-648 | the frame a node emits holds every layer's current record exactly once |
| SyncMedia.ImageBranchFacts | app/src/utils/syncMediaNodes.js:470-493 | a layer image node is rewritten iff the source of its first incoming edge exists with a non-empty image path different from its own; the rewrite copies that path and URL and changes no other field |
| SyncMedia.Rewrite | app/src/utils/syncMediaNodes.js:305-307 | a list is written iff it differs from the stored one, absent counting as empty |
| SyncMedia.OnOffBranchRun | app/src/utils/syncMediaNodes.js:264-334 | the layerOnOff branch as written yields the branch function's result |
| SyncMedia.OnOffCollect | app/src/utils/syncMediaNodes.js:285-300 | the per-edge loop keeps, across all inputs' chains in edge order, the first record of each producer node |
| SyncMedia.ControllerLayersFacts | app/src/utils/syncMediaNodes.js:293-319 | a controller's list is sorted by z, holds one record per producer node, only gathered records, and covers every gathered producer |
| SyncMedia.OnOffWithoutInputs | app/src/utils/syncMediaNodes.js:268-281 | without input edges the list becomes empty, written only when it was not |
| SyncMedia.ChainFromRun | app/src/utils/syncMediaNodes.js:337-468 | the slide show, video and dialogue branches as written yield the chain function's result |
| SyncMedia.PreviewBranchRun | app/src/utils/syncMediaNodes.js:501-575 | the layerPreview branch as written yields the branch function's result |
| SyncMedia.PreviewCollect | app/src/utils/syncMediaNodes.js:521-538 | the per-edge loop keeps the first record per layer id across all inputs and merges their states, later inputs winning |
| SyncMedia.PreviewLayersOfMembers | app/src/utils/syncMediaNodes.js:520-541 | a layer reaches the preview iff the upstream walk of one of its inputs shows it |
| SyncMedia.PreviewLayersFacts | app/src/utils/syncMediaNodes.js:520-548 | a preview's list is sorted by z, shows each layer id once, and covers every id its inputs show |
| SyncMedia.PreviewWithoutControllers | app/src/utils/syncMediaNodes.js:170-189 | with no controller upstream of any input the preview's layers and states are empty |
| SyncMedia.TimelineFramesRun | app/src/utils/syncMediaNodes.js:578-664 | the timeline branch as written yields the frames function's result |
| SyncMedia.SyncNode | app/src/utils/syncMediaNodes.js:262-667 | a kind without a branch passes through; a rewritten node's data differs from what it stored |
| SyncMedia.SyncMediaNodes | app/src/utils/syncMediaNodes.js:262-674 | changed iff some node is rewritten; unchanged means the very same array; otherwise same length, and each node is replaced by its recomputed form |
| SyncMedia.SyncEach | app/src/utils/syncMediaNodes.js:262-667 | the map recomputes every node in order, replaces exactly the rewritten ones, and reports a change iff one was rewritten |
| SyncMedia.SyncKeepsShape | app/src/utils/syncMediaNodes.js:666-674 | the pass keeps every node's id and kind, in order |
| SyncMedia.SyncNodeWritesOnlyItsField | app/src/utils/syncMediaNodes.js:262-667 | each branch writes only its own stored field(s) |
| SyncMedia.SyncNodeSettles | app/src/utils/syncMediaNodes.js:262-667 | a node the pass rewrote needs no further rewrite against the same graph |
| SyncMedia.SyncNodeFuel | app/src/utils/syncMediaNodes.js:337-468 | the step bound does not change the result as long as the chains end within it |
| LayerOnOff.ConfigLayersOrdered | app/src/Nodes/LayerOnOffNode.jsx:37-49 | the config layers are one per config entry (name, type and enabled defaulted), in ascending z, ties in declaration order |
| LayerOnOff.TabsOf | app/src/Nodes/LayerOnOffNode.jsx:52-63 | the tabs start with 'all' and list the configured types after it |
| LayerOnOff.Controller.LoadConfig | app/src/Nodes/LayerOnOffNode.jsx:33-72 | a config with layers installs the ordered config layers and the tabs; one without layers changes nothing; a failed load installs the default tabs |
| LayerOnOff.ReseedEntry | app/src/Nodes/LayerOnOffNode.jsx:91-111 | ids the upstream list does not mention keep their entry; a mentioned id takes the last defined `visible`, else keeps its value, else takes the config's enabled flag (false when not in config) |
| LayerOnOff.Controller.Reseed | app/src/Nodes/LayerOnOffNode.jsx:91-111 | missing upstream layers change nothing; otherwise the upstream list is kept and the map is reseeded layer by layer |
| LayerOnOff.Toggled | app/src/Nodes/LayerOnOffNode.jsx:120-134 | the toggled key reads the negation of its old reading (undefined becomes true); every other key is unchanged |
| LayerOnOff.ToggleTwice | app/src/Nodes/LayerOnOffNode.jsx:120-134 | toggling twice restores the key's on/off reading |
| LayerOnOff.Controller.ToggleLayer | app/src/Nodes/LayerOnOffNode.jsx:120-134 | the map becomes the toggled map; nothing else changes |
| LayerOnOff.TabLayers | app/src/Nodes/LayerOnOffNode.jsx:155-158 | 'all' gives every config layer; another tab gives exactly the config layers of that type |
| LayerOnOff.ToggleTabEntry | app/src/Nodes/LayerOnOffNode.jsx:137-158 | every config layer of the active tab is set to the value; every other key is unchanged |
| LayerOnOff.Controller.ToggleCurrentLayers | app/src/Nodes/LayerOnOffNode.jsx:137-153 | the loop over the active tab's layers yields the bulk-switch function's map; nothing else changes |
| LayerOnOff.CountOn | app/src/Nodes/LayerOnOffNode.jsx:162 | a visible count never exceeds the list's length and equals it iff every layer is on |
| LayerOnOff.TabStatsFacts | app/src/Nodes/LayerOnOffNode.jsx:164-171 | each tab has exactly one entry, describing that tab, whose visible count is at most its total |
| LayerOnOff.StatsBounded | app/src/Nodes/LayerOnOffNode.jsx:161-183 | the statistics' visible counts never exceed their totals, overall, per tab and for the current tab |
| LayerOnOff.PassOn | app/src/Nodes/LayerOnOffNode.jsx:198-204 | exactly the upstream layers whose state is on, stamped visible and passed through |
| LayerOnOff.OutputFacts | app/src/Nodes/LayerOnOffNode.jsx:186-215 | the output holds exactly the switched-on upstream layers, stamped, sorted by z with upstream order kept among ties; empty upstream gives [] |
| LayerOnOff.Published | app/src/Nodes/LayerOnOffNode.jsx:218-229 | the node's data gets the map and the output layers; every other field is kept |
| EditorActions.FindHandle | app/src/Editor.jsx:316-321 | the handle found has the id asked for; none is found exactly when no handle has it |
| EditorActions.ConnectRule | app/src/Editor.jsx:310-370 | a connection is ignored exactly when an endpoint node or handle is missing; otherwise it is rejected exactly when both endpoints carry novel roots and they differ; an accepted one stamps `sourceRoot \|\| targetRoot \|\| (export source ? its id : none)` on both endpoints and changes nothing else |
| EditorActions.ConnectWithinNovel | app/src/Editor.jsx:333-355 | endpoints of the same novel, or with at least one endpoint outside any novel, can always be connected |
| EditorActions.StampRoot | app/src/Editor.jsx:362-370 | only the two endpoints get the root id; every other field of every node is kept |
| EditorActions.WithoutNode | app/src/Editor.jsx:1114 | the remaining nodes are exactly those with a different id |
| EditorActions.WithoutEdgesOf | app/src/Editor.jsx:1133-1135 | the remaining edges are exactly those neither starting nor ending at the node |
| EditorActions.ClearRoot | app/src/Editor.jsx:1118-1128 | nodes carrying the cleared root lose it, and nothing else changes |
| EditorActions.DeleteFacts | app/src/Editor.jsx:1107-1128 | after a delete no node has the id; deleting an export also clears its root (its own `novelRootId`, else its id) from every remaining node and changes nothing else |
| EditorActions.DeleteFromMenu | app/src/Editor.jsx:1107-1139 | with the menu closed nothing changes; otherwise the edges of the node go and every remaining node is recomputed by the media pass against the old edges |
| EditorActions.DeleteEdgeFromMenu | app/src/Editor.jsx:1099-1103 | the edges left are exactly those with another id |
| EditorActions.CloneFacts | app/src/Editor.jsx:1142-1164 | a clone is appended after the untouched nodes with the new id, the same kind, size and data, and its position shifted by (50, 50); a missing node or closed menu changes nothing |
| EditorActions.UploadSize | app/src/Editor.jsx:143-160 | the width lies in [120, 300], a width already in range is kept with the height unchanged, and a rescaled height is the rounded proportional height; 60 is added for header and footer |
| EditorActions.ApplyUpload | app/src/Editor.jsx:162-197 | only the uploading node is rewritten |
| EditorActions.UploadFacts | app/src/Editor.jsx:162-197 | a layer image node gets only its saved path and URL; any other node gets the file fields, the image's own size and the computed node size |
| Graph.FindLayer | app/src/Editor.jsx:927 | the output layer found has the node's layer id; none is found exactly when none has it |
| EditorEffects.LastVisibleWins | app/src/Editor.jsx:919-936 | visibility defaults to true and the last incoming edge that says something wins; a controller without an entry for the layer, or a source without output, leaves it unchanged |
| EditorEffects.UpstreamVisibility | app/src/Editor.jsx:919-936 | the forEach over incoming edges ends with the visibility the fold gives |
| EditorEffects.ImageSyncFacts | app/src/Editor.jsx:912-958 | a layer image node is rewritten exactly when its output is missing or shows the wrong visibility; the new output mirrors the node's data with both flags set; a rewritten node needs no second rewrite |
| EditorEffects.ImageUpdate | app/src/Editor.jsx:912-958 | the map callback computes the rewrite the specification gives |
| EditorEffects.ImageVisibilityEffect | app/src/Editor.jsx:905-969 | without a controller nothing happens; otherwise every node is mapped through the rewrite and the new list is handed back only when some node changed |
| EditorEffects.OutputVisibility | app/src/Editor.jsx:996-1000 | the merged map gains exactly the non-empty output ids and keeps every other entry |
| EditorEffects.OutputVisibilityLastWins | app/src/Editor.jsx:996-1000 | each id takes `visible !== false` of the last output layer carrying it |
| EditorEffects.PreviewRecord | app/src/Editor.jsx:1024-1046 | the record carries the layer id, the producer as node and source node, and `visible: true` |
| EditorEffects.PreviewRecords | app/src/Editor.jsx:1016-1048 | the records are exactly those of collected producers whose layer is named and not switched off; when every producer is shown there is one record per producer |
| EditorEffects.PreviewFor | app/src/Editor.jsx:978-1049 | the recursive walk over every incoming edge with one visited set, then the record building, give what the specification gives |
| EditorEffects.PreviewUpdate | app/src/Editor.jsx:976-1073 | the map callback computes the rewrite the specification gives |
| EditorEffects.PreviewEffect | app/src/Editor.jsx:972-1082 | every node is mapped through the rewrite and the new list is handed back only when some preview changed |
| EditorEffects.PreviewWalkReach | app/src/Editor.jsx:983-1009 | the walk enters only nodes upstream of the preview, and every node upstream of it but itself |
| EditorEffects.PreviewWalkFacts | app/src/Editor.jsx:983-1009 | the walk finds a controller exactly when one lies upstream, keeps the map empty until then, and collects exactly the layer nodes upstream |
| EditorEffects.PreviewFacts | app/src/Editor.jsx:1011-1049 | with no controller upstream the preview gets no layers and an empty map; otherwise it gets one record per upstream layer node whose layer is shown (no deduplication by layer id), nothing else, sorted by z |
| EditorEffects.PreviewSyncSettles | app/src/Editor.jsx:1051-1073 | a preview is written exactly when its stored states or layers differ; both state fields get the merged map; a written preview needs no second write |
| WorkflowLoad.ChainEntry | app/src/Editor.jsx:775-791 | the entry carries the slot id, the producer's id, the slot's z and `enabled: true` |
| WorkflowLoad.Gathered | app/src/Editor.jsx:768-793 | a layer node naming a config slot not yet in the map appends its entry; a slot already present keeps its first producer |
| WorkflowLoad.GatherFor | app/src/Editor.jsx:754-804 | one walk per incoming edge, each with a fresh visited set and a shared map, then the z sort, give the specification's layers |
| WorkflowLoad.ChainUpdate | app/src/Editor.jsx:751-841 | the map callback computes the rewrite the specification gives |
| WorkflowLoad.BuildChains | app/src/Editor.jsx:743-846 | without a controller the nodes are kept; otherwise every controller is rebuilt and every other node kept |
| WorkflowLoad.IdsMono | app/src/Editor.jsx:774 | a map only extended keeps every key it had |
| WorkflowLoad.GatherEdgesKeeps | app/src/Editor.jsx:760-801 | over all the edges entries are only appended, so the first producer of a slot stays, and every entry names a config slot, once, made by a layer node filling it |
| WorkflowLoad.GatherEdgesReach | app/src/Editor.jsx:760-801 | every slot filled by a layer node upstream of an incoming edge's source gets an entry |
| WorkflowLoad.ChainLayersFacts | app/src/Editor.jsx:754-806 | a controller's layers are sorted by z, one per config slot, each made by a layer node filling that slot, and cover every slot filled upstream |
| WorkflowLoad.AllOn | app/src/Editor.jsx:809-812 | every gathered id, and nothing else, is switched on |
| WorkflowLoad.ChainDataFacts | app/src/Editor.jsx:809-841 | the controller publishes its layers, every gathered slot switched on, and one output entry per layer in the same order, visible, chained and carrying the slot's config |
| WorkflowLoad.MergeDirectFacts | app/src/Editor.jsx:856-863 | the preview's map has exactly the keys of the controllers wired straight into it, and is all on when their maps are |
| WorkflowLoad.SetPreviewInputs | app/src/Editor.jsx:849-876 | every preview gets the merged map of its direct controllers; other nodes are kept |
| WorkflowLoad.LoadChains | app/src/Editor.jsx:740-878 | after both delayed updates every node keeps its id and kind and every preview holds an all-on map; each node is the first update's rewrite (applied only when a controller exists) with the second update's preview inputs applied against that rewritten graph |
| LayerPreview.StatesOf | app/src/Nodes/LayerPreviewNode.jsx:34 | the input map wins whenever present, even empty; else the node's own map; else no entries |
| LayerPreview.VisibleMembers | app/src/Nodes/LayerPreviewNode.jsx:44-59 | a record survives the map and filter iff it has an `id` or `layerId` whose state is not `false`, and it is then stamped visible with that key |
| LayerPreview.DisplayFacts | app/src/Nodes/LayerPreviewNode.jsx:27-69 | no `layers` shows nothing; otherwise exactly the surviving records, each stamped visible with a non-empty key that is not switched off, sorted by z as a stable permutation of the filtered list |
| LayerPreview.DisplayCountBounded | app/src/Nodes/LayerPreviewNode.jsx:121 | the header's shown count never exceeds the received count |
| LayerPreview.PreviewView.ImageError | app/src/Nodes/LayerPreviewNode.jsx:72-78 | a failed load records that id only: that layer is drawn no more, and whether any other layer is drawn does not change |
| Layout.Clamp | app/src/Nodes/LayerImageNode.jsx:86-87 | the clamped coordinate is never negative, at most the free extent when that is not negative, and an in-range value is kept |
| Layout.RoundAfterClamp | app/src/Nodes/LayerImageNode.jsx:86-90 | clamping a half-unit coordinate and rounding it afterwards gives the same integer as rounding first and clamping after |
| Layout.ResolveImage | app/src/Nodes/LayerImageNode.jsx:13-94 | the image box is at least 1×1 and lies at a non-negative position no further than the canvas's free extent |
| Layout.ImagePresetFacts | app/src/Nodes/LayerImageNode.jsx:36-84 | a given coordinate is kept up to the clamp, a missing one comes from the preset, and an unknown or absent preset places the box as `center` |
| Layout.ImageSizeFallback | app/src/Nodes/LayerImageNode.jsx:24-31 | without sizes or ratios the box takes the image's natural size, else 1920×1080, at least 1 |
| Layout.ImageResolveSettles | app/src/Nodes/LayerImageNode.jsx:13-94 | resolving a resolved image box again as an explicit layout gives the same box |
| Layout.ResolveText | app/src/Nodes/LayerTextNode.jsx:24-63 | the text box has a non-negative position and lies inside the canvas whenever it fits |
| Layout.TextDefaults | app/src/Editors/TextStyleEditor.jsx:16-48 | the default box is the full canvas width, a quarter of its height rounded, anchored bottom centre; `top_left` starts at the margin; a given coordinate is kept up to the clamp |
| Layout.TextResolveSettles | app/src/Nodes/LayerTextNode.jsx:24-63 | resolving a resolved text box again as an explicit layout gives the same box |
| Layout.ResolveTimeline | app/src/Nodes/LayerTimelineNode.jsx:31-88 | the timeline box has a non-negative position and lies inside the canvas whenever it fits |
| Layout.TimelineDropsLoneCoordinate | app/src/Nodes/LayerTimelineNode.jsx:49-77 | when one coordinate is missing the other one given is ignored and both come from the preset |
| Layout.ImageTimelineAgree | app/src/Nodes/LayerTimelineNode.jsx:31-88 | with both coordinates given or both missing and sizes of at least 1, the image and timeline variants agree; a size 0 is kept by the timeline and raised to 1 by the image variant |
| DataPatch.Write | app/src/Nodes/LayerImageNode.jsx:261 | one field write of a spread sets that field, leaves every other patchable field's value as it was, and touches no other field |
| DataPatch.WriteHeld | app/src/Nodes/LayerImageNode.jsx:261 | writing the value a field already holds changes nothing |
| DataPatch.PatchedLast | app/src/Nodes/LayerImageNode.jsx:261 | after `{ ...data, ...updates }` a field holds the last write to it |
| DataPatch.PatchedUntouched | app/src/Nodes/LayerImageNode.jsx:261 | a field the patch does not name keeps its value |
| DataPatch.PatchedKeepsOthers | app/src/Nodes/LayerImageNode.jsx:261 | fields no patch can name are never touched |
| DataPatch.PatchedHeld | app/src/Nodes/LayerTextNode.jsx:169-181 | a patch all of whose writes are already held leaves the data as it is, so skipping `onChange` loses nothing |
| LayerImage.UnwiredPropsShowLayer | app/src/Nodes/LayerImageNode.jsx:154-182 | with the graph a controller's `visible: false` hides the layer, while without the `nodes` and `edges` props the effect shows it |
| LayerImage.UpstreamVisibleRules | app/src/Nodes/LayerImageNode.jsx:154-182 | no input edge shows the node; a controller's entry for the layer decides by `visible !== false`; a controller without one keeps the old value; any other source decides by its output's visibility |
| LayerImage.UpstreamVisibleSettles | app/src/Nodes/LayerImageNode.jsx:154-182 | the new value either ignores the old one or is the old one, so a second run of the effect changes nothing |
| LayerImage.DefaultLayer | app/src/Nodes/LayerImageNode.jsx:191-193 | the default layer key is never empty |
| LayerImage.Completion | app/src/Nodes/LayerImageNode.jsx:185-205 | `onChange` is skipped iff nothing is missing; otherwise exactly the missing settings are filled (canvas size, first config layer or `bg_base`, scale 1, first style key) and every other field is kept |
| LayerImage.CompletionSettles | app/src/Nodes/LayerImageNode.jsx:185-205 | after one completion nothing is missing any more, given a canvas without a zero side and a non-empty first style key |
| LayerImage.UpdateData | app/src/Nodes/LayerImageNode.jsx:259-262 | an empty patch calls nothing; otherwise the merged data differs only in patchable fields |
| LayerImage.StyleUpdate | app/src/Nodes/LayerImageNode.jsx:264-296 | with a style id, a loaded style and an image width, the display fields become the resolved box and nothing else patchable or unpatchable changes; otherwise nothing happens |
| LayerImage.StyleUpdateStored | app/src/Nodes/LayerImageNode.jsx:307-309 | after a style is applied, the stored display fields give back the box the node draws, which lies in the canvas |
| LayerImage.ImageOutputOf | app/src/Nodes/LayerImageNode.jsx:312-343 | no output while hidden upstream; otherwise a visible image record under `layer \|\| 'image_main'`, stamped with the node, the drawn box and the slot's `z \|\| 20` |
| LayerImage.WithOutput | app/src/Nodes/LayerImageNode.jsx:346-349 | publishing the output changes only `output` |
| LayerText.TextAreaSize | app/src/Nodes/LayerTextNode.jsx:7-19 | the area width is the given width, else 95% of the canvas rounded; the height is absent when neither height nor ratio is given and when it would be 0 |
| LayerText.AreaVersusBox | app/src/Nodes/LayerTextNode.jsx:7-63 | with sizes given the text area and the displayed box agree; with none the area is narrower than the box |
| LayerText.DisplaySettings | app/src/Nodes/LayerTextNode.jsx:129-165 | without a style or a canvas the box comes from the layer slot (100 for a falsy size); otherwise it is the resolved layout in the canvas, with 1280×720 for falsy sides |
| LayerText.TextOutputOf | app/src/Nodes/LayerTextNode.jsx:193-214 | hidden upstream gives a null output; otherwise a visible text record for the slot with the merged text, speaker, style, box and z |
| LayerText.Update | app/src/Nodes/LayerTextNode.jsx:168-226 | `onChange` is called iff some write changes the data; the result is stamped with the slot selected before the patch and its `z \|\| 1000`, a non-empty caption, and an output iff visible |
| LayerText.UpdateFacts | app/src/Nodes/LayerTextNode.jsx:168-226 | a skipped update would not have changed the data; a performed one keeps the last write of every field but `layerId` and `zIndex` |
| LayerText.ChangeLayerKeepsOldSlot | app/src/Nodes/LayerTextNode.jsx:307-318 | choosing slot b over slot a through `update` as written stores layer b but layerId, zIndex and the output id of a |
| LayerText.UpdateIntended | app/src/Nodes/LayerTextNode.jsx:168-226 | the corrected update is called iff some write changes the data, and stamps the slot selected after the patch |
| LayerText.ChangeLayerIntended | app/src/Nodes/LayerTextNode.jsx:307-318 | with the corrected update, choosing a slot makes layer, layerId, zIndex and output id agree on it |
| LayerTimeline.DisplayFrames | app/src/Nodes/LayerTimelineNode.jsx:121 | the shown frames are the frames after the first, in order |
| LayerTimeline.FrameCanvas | app/src/Nodes/LayerTimelineNode.jsx:207-208 | the canvas never has a zero side; a non-zero frame width and height are kept, and a zero (or missing) one falls back to 1280 and 720 |
| LayerTimeline.PushedMembers | app/src/Nodes/LayerTimelineNode.jsx:227-241 | an entry is pushed iff some layer at some index has an image URL and gives that entry |
| LayerTimeline.CollectLayers | app/src/Nodes/LayerTimelineNode.jsx:222-257 | the collected list is sorted by z, holds only entries with an image and an id, and holds an entry for every layer with an image |
| LayerTimeline.TimelineView.KeepIndexValid | app/src/Nodes/LayerTimelineNode.jsx:171-179 | afterwards the index is in range (0 without frames), and an index in range is kept |
| LayerTimeline.TimelineView.Tick | app/src/Nodes/LayerTimelineNode.jsx:182-190 | with two frames or more the index moves to the next, wrapping; otherwise the timer does not run |
| LayerTimeline.TimelineView.BeginDraw | app/src/Nodes/LayerTimelineNode.jsx:205 | each draw gets a token larger than every earlier one |
| LayerTimeline.TimelineView.Draw | app/src/Nodes/LayerTimelineNode.jsx:263-293 | a canvas write happens iff its run holds the latest token |
| LayerTimeline.StaleRunDrawsNothing | app/src/Nodes/LayerTimelineNode.jsx:205-293 | once a newer draw has begun, none of an older draw's writes reaches the canvas |
| StyleRegistry.Spread | app/src/Editors/TextStyleEditor.jsx:307-319 | in `{ ...a, ...b }` a member of b wins and every other member of a is kept |
| StyleRegistry.SetMember | app/src/Editors/TextStyleEditor.jsx:307-319 | setting a member gives it the new value (an undefined value removes it) and keeps every other member |
| StyleRegistry.KeyTrim | app/src/Editors/TextStyleEditor.jsx:89-99 | a key passing the character check has nothing to trim, so the key handed on is the key checked |
| StyleRegistry.Submit | app/src/Editors/TextStyleEditor.jsx:75-100 | the checks run in order: a blank key, then a blank caption, then a bad character are refused; a key is accepted iff it passes those and `existingStyles[key]` is falsy, and the key and the trimmed caption are handed on |
| StyleRegistry.PrototypeNameRefused | app/src/Editors/TextStyleEditor.jsx:94 | the key `toString` is refused as existing by an empty registry |
| StyleRegistry.SubmitOwn | app/src/Editors/TextStyleEditor.jsx:75-100 | the corrected check accepts exactly the well-formed keys the registry does not itself hold with a truthy value |
| StyleRegistry.SubmitOwnAcceptsNew | app/src/Editors/TextStyleEditor.jsx:94 | with the corrected check every well-formed key the registry lacks, `toString` included, is accepted |
| StyleRegistry.NewStyle | app/src/Editors/TextStyleEditor.jsx:324-376 | a new style has the new caption; with a present base style it copies every other member of it; otherwise it is the default (text: layer `text_main`; image: type `background`, scale mode `cover`) |
| StyleRegistry.NestedValue | app/src/Editors/TextStyleEditor.jsx:313-316 | a truthy nested patch member overrides the old member field by field; otherwise the old member stays, even when the patch names it |
| StyleRegistry.WithNested | app/src/Editors/TextStyleEditor.jsx:313-316 | each nested member gets its merged value and every other member is kept |
| StyleRegistry.MergedFields | app/src/Editors/TextStyleEditor.jsx:307-319 | a patch replaces the plain members it names, merges the nested ones field by field, and keeps every member it does not name |
| StyleRegistry.RemovePutNew | app/src/Editors/TextStyleEditor.jsx:378-396 | adding a key the registry lacks and then deleting it gives back the registry |
| StyleRegistry.StyleEditor.constructor | app/src/Editors/TextStyleEditor.jsx:290-299 | a usable load installs the dictionary and selects its first key; an unusable one leaves it empty with nothing selected |
| StyleRegistry.StyleEditor.Change | app/src/Editors/TextStyleEditor.jsx:307-319 | only the selected style changes, to the merge of the patch into it; the keys and the selection stay |
| StyleRegistry.StyleEditor.Create | app/src/Editors/TextStyleEditor.jsx:324-381 | a present key changes nothing; otherwise the key gets its new style and is selected |
| StyleRegistry.StyleEditor.Delete | app/src/Editors/TextStyleEditor.jsx:384-402 | with a selected, existing style and a confirmation the style is removed, every other one kept, and the first remaining key is selected; otherwise nothing changes |
| StyleRegistry.CreateThenDelete | app/src/Editors/TextStyleEditor.jsx:324-402 | creating a style under a new key and deleting it restores the registry and selects its first key |
| NovelExport.Range | app/src/Nodes/VisualNovelExportNode.jsx:42 | the numbers a, …, b - 1 in order |
| NovelExport.ChoiceEdges | app/src/Nodes/VisualNovelExportNode.jsx:74 | exactly the `yes`/`no` edges leaving the choice |
| NovelExport.NextTarget | app/src/Nodes/VisualNovelExportNode.jsx:97-98 | a next node found is the target of a non-branch edge leaving the node |
| NovelExport.WalkNumbered | app/src/Nodes/VisualNovelExportNode.jsx:42-100 | the walk hands out exactly the consecutive numbers from its start counter, in order, and numbers every choice after its branches |
| NovelExport.StepNumbered | app/src/Nodes/VisualNovelExportNode.jsx:50-95 | each node type hands out exactly the consecutive numbers it uses |
| NovelExport.ChoiceNumbered | app/src/Nodes/VisualNovelExportNode.jsx:73-84 | a choice's branches take their numbers before the choice takes the next one |
| NovelExport.BranchesNumbered | app/src/Nodes/VisualNovelExportNode.jsx:75-78 | the branches built one after another share the counter without gaps |
| NovelExport.WalkStops | app/src/Nodes/VisualNovelExportNode.jsx:44-98 | the walk stops at an empty id, a node already on the path or a missing node; another node type adds nothing and the walk goes on |
| NovelExport.NumbersDistinct | app/src/Nodes/VisualNovelExportNode.jsx:42-100 | the numbers strictly increase from the start counter, so none repeats |
| NovelExport.ChoiceEntry | app/src/Nodes/VisualNovelExportNode.jsx:73-84 | a choice has one branch per `yes`/`no` edge in edge order, captioned by its handle, all numbered before it |
| NovelExport.BuildChain | app/src/Nodes/VisualNovelExportNode.jsx:42-100 | the `while` loop with its visited set and counter yields the walk's entries and final counter |
| NovelExport.EntryOf | app/src/Nodes/VisualNovelExportNode.jsx:50-95 | the chain of type tests yields what the node adds and the counter after it |
| NovelExport.BuildBranches | app/src/Nodes/VisualNovelExportNode.jsx:74-78 | the `map` over branch edges yields the branches and the shared counter |
| NovelExport.StartEdge | app/src/Nodes/VisualNovelExportNode.jsx:103 | the start edge leaves the export node; there is none iff no edge leaves it |
| NovelExport.BuildTimeline | app/src/Nodes/VisualNovelExportNode.jsx:102-106 | no edge out gives an empty timeline; otherwise the walk from its target, numbered 1, 2, … in order, every choice after its branches |
| LineColors.TypeColor | app/src/Nodes/VisualNovelExportNode.jsx:34-39 | a type's colour is never empty |
| LineColors.MatchAtMeaning | app/src/Nodes/VisualNovelExportNode.jsx:152 | a match is `"type":`, white space, a quoted non-empty name without quotes, and its group is that name |
| LineColors.FirstMatchLeftmost | app/src/Nodes/VisualNovelExportNode.jsx:152 | the group comes from the leftmost match; no match means no position matches |
| LineColors.InfosAt | app/src/Nodes/VisualNovelExportNode.jsx:144-160 | what the first pass reads of line i depends on that line only |
| LineColors.PassFacts | app/src/Nodes/VisualNovelExportNode.jsx:143-174 | every block the first pass records is well formed and the blocks are nested or apart |
| LineColors.LastTagLine | app/src/Nodes/VisualNovelExportNode.jsx:152-157 | the last `"type"` line of a range that sees a given `{` as the innermost open one; none means no line of the range is one |
| LineColors.LastTagMeaning | app/src/Nodes/VisualNovelExportNode.jsx:152-157 | the colour a `{` entry ends up with is that of the last `"type"` line seeing it innermost, a later one overwriting an earlier one; no such line leaves it without colour |
| LineColors.PassExact | app/src/Nodes/VisualNovelExportNode.jsx:143-174 | from any state its invariants describe, the first pass records exactly the matched `{`/`}` pairs with a `"type"` line seeing their `{` innermost |
| LineColors.CloseNothingOpen | app/src/Nodes/VisualNovelExportNode.jsx:159-161 | a `}` with no `{` open pops nothing and records nothing |
| LineColors.BlockRecorded | app/src/Nodes/VisualNovelExportNode.jsx:143-174 | a block from line s to line e with colour c is recorded iff line e holds the `}` matching the `{` of line s and c is the colour of the last `"type"` line that saw that `{` innermost |
| LineColors.BlockMeaning | app/src/Nodes/VisualNovelExportNode.jsx:147-170 | a recorded block runs from a `{` line to the `}` line matching it and holds a `"type"` line of its colour |
| LineColors.BlockColor | app/src/Nodes/VisualNovelExportNode.jsx:152-168 | a recorded block's colour is that of the last `"type"` line inside it that saw its `{` innermost; `"type"` lines of nested blocks do not count |
| LineColors.BlocksLaminar | app/src/Nodes/VisualNovelExportNode.jsx:159-170 | blocks are recorded in the order they close, nested or apart |
| LineColors.FirstCoveringNone | app/src/Nodes/VisualNovelExportNode.jsx:182-188 | the search finds no block iff none covers the line |
| LineColors.FirstCoveringIndex | app/src/Nodes/VisualNovelExportNode.jsx:182-188 | the block found covers the line and no earlier block does |
| LineColors.InnermostWins | app/src/Nodes/VisualNovelExportNode.jsx:176-188 | the block that colours a line lies inside every other recorded block around it |
| LineColors.ScanBlocks | app/src/Nodes/VisualNovelExportNode.jsx:138-174 | the first `while` loop yields the blocks of the definition |
| LineColors.FindCovering | app/src/Nodes/VisualNovelExportNode.jsx:182-188 | the `for … break` search yields the first covering block |
| LineColors.ColorLine | app/src/Nodes/VisualNovelExportNode.jsx:179-193 | one step of the second pass sets line i's colour and no other |
| LineColors.ColorLines | app/src/Nodes/VisualNovelExportNode.jsx:135-196 | the second pass over a default-filled array gives each line the colour of the first block covering it, green on a `"no":` line |
| LineColors.ComputeLineColors | app/src/Nodes/VisualNovelExportNode.jsx:134-199 | one colour per line, each the colour of the definition |
| LineColors.LineColorFacts | app/src/Nodes/VisualNovelExportNode.jsx:176-196 | a `"no":` line is green; a line outside every block keeps the default; a line inside one takes the colour of some `"type"` line |
| LineColors.FirstCoveringColor | app/src/Nodes/VisualNovelExportNode.jsx:176-196 | a line other than a `"no":` line inside a recorded block takes the colour of the innermost recorded block around it, which is that of the last `"type"` line in that block seeing its `{` innermost |
| NovelPlayer.NextFacts | app/src/Nodes/VisualNovelPlayerNode.jsx:125-156 | going forward keeps the position reachable, never enters a branch, stays on the main timeline outside a branch, moves by at most one main entry, and only reveals text while a dialogue is partly shown |
| NovelPlayer.NextStuckWithoutCurrent | app/src/Nodes/VisualNovelPlayerNode.jsx:126 | with no current entry going forward does nothing |
| NovelPlayer.PrevUndoesNext | app/src/Nodes/VisualNovelPlayerNode.jsx:125-173 | going back undoes a forward step within the main timeline or a branch; after leaving a branch it returns to the choice, not into the branch |
| NovelPlayer.PrevFacts | app/src/Nodes/VisualNovelPlayerNode.jsx:159-173 | going back keeps the position reachable, never enters a branch, and steps back one main entry outside a branch |
| NovelPlayer.EnterFacts | app/src/Nodes/VisualNovelPlayerNode.jsx:176-181 | entering a branch keeps the position reachable and makes its first entry current (none for an empty branch) |
| NovelPlayer.BranchEndPastLast | app/src/Nodes/VisualNovelPlayerNode.jsx:133-153 | finishing the branch of a last-entry choice leaves the player past the end, where nothing is current and going forward is stuck until going back |
| NovelPlayer.Player.constructor | app/src/Nodes/VisualNovelPlayerNode.jsx:7-18 | the player starts empty at index 0 outside any branch |
| NovelPlayer.Player.Load | app/src/Nodes/VisualNovelPlayerNode.jsx:23-45 | a timeline array restarts the player at index 0 outside any branch with no dialogue shown; anything else changes nothing |
| NovelPlayer.Player.ShowCurrent | app/src/Nodes/VisualNovelPlayerNode.jsx:90-122 | on a dialogue it becomes the last dialogue, the text is emptied and typing restarts on its text; otherwise typing stops and the rest is kept |
| NovelPlayer.Player.TypingTick | app/src/Nodes/VisualNovelPlayerNode.jsx:106-114 | a tick shows one more character and stops the interval at the end of the text |
| NovelPlayer.Player.GoNext | app/src/Nodes/VisualNovelPlayerNode.jsx:125-156 | the position moves as the step function says; a partly typed dialogue outside a branch is shown in full and its typing stops |
| NovelPlayer.Player.GoPrev | app/src/Nodes/VisualNovelPlayerNode.jsx:159-173 | the position moves back as the step function says and nothing else changes |
| NovelPlayer.Player.SelectChoice | app/src/Nodes/VisualNovelPlayerNode.jsx:176-181 | the chosen branch plays from its first entry and the main index is kept |
| NovelPlayer.TypeOut | app/src/Nodes/VisualNovelPlayerNode.jsx:90-122 | starting a dialogue and letting the interval run shows exactly its whole text and stops the interval |
| ColoredText.DecodeNonEmpty | app/src/utils/parseColoredText.jsx:11 | decoding never empties a text |
| ColoredText.DecodeAmpHead | app/src/utils/parseColoredText.jsx:11 | `&amp;` followed by a text without `&` decodes to `&` and that text: the `&lt;` and `&gt;` passes leave it alone |
| ColoredText.DecodeOnce | app/src/utils/parseColoredText.jsx:11 | the entity passes run once each, `&amp;` last, so `&amp;lt;` gives `&lt;` |
| ColoredText.DecodeEscaped | app/src/utils/parseColoredText.jsx:11 | decoding undoes HTML escaping of `&`, `<` and `>` |
| ColoredText.Exec | app/src/utils/parseColoredText.jsx:16-19 | a match found starts at or after the search position and fits in the text |
| ColoredText.ExecLeftmost | app/src/utils/parseColoredText.jsx:16-19 | the match found is a match there and none starts earlier; none found means none exists |
| ColoredText.FirstCloseFacts | app/src/utils/parseColoredText.jsx:16 | the lazy `.*?` stops at the first closing tag and crosses no line terminator |
| ColoredText.ScanText | app/src/utils/parseColoredText.jsx:19-35 | the pieces put back together give the text again: nothing is lost or repeated |
| ColoredText.ScanWellFormed | app/src/utils/parseColoredText.jsx:16-35 | gaps are non-empty; each span has an opening tag `<color=#RRGGBB>` in any case, with that colour, and a closing `</color>`, and its content crosses no line terminator nor holds a closing tag |
| ColoredText.NoMatchOneGap | app/src/utils/parseColoredText.jsx:33-35 | a non-empty text without a tag is one gap holding all of it |
| ColoredText.ParseFacts | app/src/utils/parseColoredText.jsx:8-38 | an empty text gives the placeholder; a non-empty text always gives parts; one without a tag gives a single plain part, the decoded text |
| ColoredText.PushMatch | app/src/utils/parseColoredText.jsx:20-28 | one match pushes the text before it when there is any, then its span |
| ColoredText.CollectParts | app/src/utils/parseColoredText.jsx:13-35 | the `while` over `exec` yields the parts of the definition |
| ColoredText.ParseColoredText | app/src/utils/parseColoredText.jsx:8-38 | the function as written gives the result of the definition |
| TypingBox.SplitNoNewline | app/src/utils/TypingPreviewBox.jsx:89 | the pieces of a split hold no newline |
| TypingBox.JoinSplit | app/src/utils/TypingPreviewBox.jsx:88-91 | joining the split text with newlines gives the text back |
| TypingBox.SplitJoin | app/src/utils/TypingPreviewBox.jsx:88-91 | splitting newline-free lines joined with newlines gives the lines back |
| TypingBox.KeptLines | app/src/utils/TypingPreviewBox.jsx:90 | `slice(0, maxLines)` keeps at most all of the lines |
| TypingBox.VisibleTextFacts | app/src/utils/TypingPreviewBox.jsx:88-91 | the visible text begins the displayed text and is exactly its first kept lines, so at most `maxLines` of them; with no limit it is the whole text |
| TypingBox.TargetIndex | app/src/utils/TypingPreviewBox.jsx:47-48 | there is a target only for a non-zero speed: the floor of elapsed over speed when it is positive, and the n with (n+1)·speed < elapsed ≤ n·speed when it is negative |
| TypingBox.Advance | app/src/utils/TypingPreviewBox.jsx:50-53 | an advancing frame never moves the index back nor past the end |
| TypingBox.AdvanceTimes | app/src/utils/TypingPreviewBox.jsx:47-58 | with a positive speed a frame `speed·length` ms after the start reaches the end, and one before `speed·(index+1)` ms changes nothing |
| TypingBox.AdvanceOddSpeeds | app/src/utils/TypingPreviewBox.jsx:48 | speed 0 shows everything on the first later frame; a negative speed never advances |
| TypingBox.TypingPreview.constructor | app/src/utils/TypingPreviewBox.jsx:14-21 | nothing is shown or skipped at first |
| TypingBox.TypingPreview.Start | app/src/utils/TypingPreviewBox.jsx:23-68 | the frame is cancelled and the state reset; disabled typing shows the whole text, enabled typing requests a frame whose closure sees the old skipped flag |
| TypingBox.TypingPreview.Step | app/src/utils/TypingPreviewBox.jsx:47-60 | the index moves to the target when that passes it, the shown text is that prefix, and the animation stops exactly at the end |
| TypingBox.TypingPreview.Frame | app/src/utils/TypingPreviewBox.jsx:43-61 | a closure that captured a skipped state stops with nothing changed; otherwise it steps |
| TypingBox.TypingPreview.FrameIntended | app/src/utils/TypingPreviewBox.jsx:43-61 | testing the current skipped flag, a frame always steps |
| TypingBox.TypingPreview.Click | app/src/utils/TypingPreviewBox.jsx:77-86 | an allowed first skip shows the whole text, marks it skipped and cancels the frame; otherwise nothing changes |
| TypingBox.SkipThenNewText | app/src/utils/TypingPreviewBox.jsx:45-68 | a text skipped by a click and then replaced never shows the new text |
| TypingBox.SkipThenNewTextIntended | app/src/utils/TypingPreviewBox.jsx:45-68 | with the corrected skip test the replacing text is typed out in full |
| SlideShow.NextSlide | app/src/Nodes/SlideShowNode.jsx:38 | the next index is in range |
| SlideShow.TicksAdvance | app/src/Nodes/SlideShowNode.jsx:37-39 | k ticks advance the index by k, wrapping |
| SlideShow.FullRound | app/src/Nodes/SlideShowNode.jsx:37-39 | one full round of ticks returns every index to itself |
| SlideShow.Slides.constructor | app/src/Nodes/SlideShowNode.jsx:10-17 | the interval starts at the node's value, 5000 when absent or 0, and the index at 0 |
| SlideShow.Slides.SetImages | app/src/Nodes/SlideShowNode.jsx:7 | new images keep the index and the interval; the timer keeps running only over two images or more |
| SlideShow.Slides.SyncInterval | app/src/Nodes/SlideShowNode.jsx:11-15 | a defined interval, even 0, replaces the local one; an undefined one changes nothing |
| SlideShow.Slides.KeepIndexInRange | app/src/Nodes/SlideShowNode.jsx:19-28 | no images or an index past the end resets it to 0; an index in range stays |
| SlideShow.Slides.RestartTimer | app/src/Nodes/SlideShowNode.jsx:30-42 | under two images the index goes to 0 and no timer runs; otherwise a timer runs and the index stays |
| SlideShow.Slides.Tick | app/src/Nodes/SlideShowNode.jsx:37-39 | a tick moves to the next image, wrapping after the last, and the index stays in range |
| SlideShow.Slides.DotClick | app/src/Nodes/SlideShowNode.jsx:55-57 | a dot selects its image and nothing else changes |
| SlideShow.Slides.IntervalChange | app/src/Nodes/SlideShowNode.jsx:44-53 | the local interval becomes the input's value, and the callback, when present, gets the node id and that value |
| SlideShow.RoundTrip | app/src/Nodes/SlideShowNode.jsx:37-39 | a full round of ticks from any shown image returns to it |
| DialoguePreview.CurrentDialogue | app/src/Nodes/DialoguePreviewNode.jsx:12-18 | an index in range gives its dialogue; any other gives the "not connected" placeholder |
| DialoguePreview.TypingSpeed | app/src/Nodes/DialoguePreviewNode.jsx:20 | the node's own speed when defined, else 50 |
| DialoguePreview.NextDialogue | app/src/Nodes/DialoguePreviewNode.jsx:52 | with dialogues the next index is in range, the following one or 0 after the last; without any the index stays |
| DialoguePreview.Preview.constructor | app/src/Nodes/DialoguePreviewNode.jsx:6-9 | the preview starts at index 0 with nothing shown |
| DialoguePreview.Preview.StartTyping | app/src/Nodes/DialoguePreviewNode.jsx:22-42 | the text is emptied; typing runs iff the current dialogue's text is not empty |
| DialoguePreview.Preview.Tick | app/src/Nodes/DialoguePreviewNode.jsx:34-41 | a tick shows one more character and typing ends with the last one |
| DialoguePreview.Preview.SetData | app/src/Nodes/DialoguePreviewNode.jsx:42-60 | new data replaces the list; typing restarts iff the current text or the speed changed |
| DialoguePreview.Preview.Advance | app/src/Nodes/DialoguePreviewNode.jsx:44-60 | a click in a `.nodrag` element does nothing; while typing the whole text is shown and typing stops; otherwise the next dialogue is chosen and typing restarts iff the index changed |
| DialoguePreview.TypeOut | app/src/Nodes/DialoguePreviewNode.jsx:22-42 | starting a dialogue and letting the interval run shows exactly its text |

## Left out

- Linear chains: the source's `while (currentId)` loops have no visited guard and never end on a cycle. The model bounds them with a ghost step count and requires `ChainsEnd`; `LinearChains.CycleNeverEnds` states the non-termination.
- `JSON.stringify` comparisons are modelled as structural equality of datatypes; key order of JavaScript objects is not modelled.
- Floating-point ratios are modelled as rationals; `Math.round(p/q)` on them is written out.
- `Date.now()`: clone ids and the `_timestamp` fields written by the editor are not modelled; the clone's new id is a parameter.
- `onConnect` after the decision: `addEdge`, the edge colour and the alert text are presentation and library code, and the `syncMediaNodes(currentNodes, newEdges)` pass it runs after adding the edge (app/src/Editor.jsx:386-388) is not chained onto `Connect`; `Connect` returns the decision and the node update only. That pass is `SyncMedia.SyncMediaNodes` applied to the new edge list.
- `handleImageUpload`: the file save, object URL and image decoding are parameters; `UploadSize` requires a positive decoded width (a zero-width image would divide by zero in the source).
- The editor effects run again whenever they change the nodes; the model states one run of each, and a node rewritten by one run needs no rewrite in a run over the same graph, but convergence of repeated runs over a whole graph is not modelled.
- The two delayed updates of the workflow load are modelled as two sequential steps; their 100 ms timers and the state of the graph between them are not modelled.
- Nodes are assumed to carry a `data` object; the source's optional chaining on `node.data` is not modelled.
- JavaScript strings are sequences of UTF-16 code units and Dafny's `char` is a Unicode scalar value; texts outside the Basic Multilingual Plane are typed and split per code point here.
- Timers and animation frames are explicit method calls; their periods are not modelled (the dialogue preview's typing speed, the player's `current.typingSpeed ?? 40`, the slide show's `intervalMs`, the timeline's `intervalMs`).
- Loading images and videos, and the player's blob URLs, are input and output; the natural image size is a parameter.
- LayerImage.StyleUpdate: the `opacity`, `blendMode`, `scaleMode`, `filters` and `box` fields it also writes, and `resolveScale`, are not modelled.
- LayerText: the copy of the style's text settings and the comparison against `__nodeSize` are reduced to equality of the modelled fields.
- TypingBox: the blinking cursor and the style object are presentation and are not modelled.
- TypingBox: the frame timestamps of `requestAnimationFrame` and `performance.now()` are fractional milliseconds and `speed` is any number; the model takes whole milliseconds and an integer `speed`, so `TypingBox.TargetIndex` floors an integer quotient.
- Layout: a `layout` member set to `null` reads as absent for `x`, `y`, `width` and `height`; a null `widthRatio`, `heightRatio` or preset (which the source's defaults do not replace, so a null ratio gives a zero size before the `Math.max(1, …)` floor) is not modelled.
- SlideShow.Slides.IntervalChange: `Number(e.target.value)` is taken to be an integer; a non-numeric input (NaN) is not modelled.
- Rendering, JSX keys, background colours and canvas drawing are presentation; the layer timeline's image loading and load failures are not modelled, and a draw is an abstract operation.
- The export's JSON text, its preview button and its save call are not modelled; the line colours take the lines of that text as input.
- ColoredText: the React `key` of each span is not modelled.
- LayerOnOff.Published: the node writes `layerStates`, `outputLayers` and `_timestamp` into `props.data` in place (app/src/Nodes/LayerOnOffNode.jsx:218-223), with no `setNodes` or `onChange`; through aliasing the write lands in the editor's node array, where the media sync (app/src/utils/syncMediaNodes.js:23-28, 147-148) reads it on its next run, but React does not re-render for it, so the editor's effects over the nodes are not re-run by it. The model returns the written data as a new value, so the aliasing and the missed re-render are not captured, and `_timestamp` (a clock reading) is dropped.
- Numeric `x || 0` style fallbacks in the slide show and the timeline are modelled on integers.
- NovelPlayer.Player: the character images at app/src/Nodes/VisualNovelPlayerNode.jsx:214-223 read `char.path` where no `char` is declared, so the render as written throws before any of the player's state is shown; the model assumes the node renders and models its state and handlers only.
- LayerImage.UpstreamVisibleRules: the editor's node type map (app/src/Editor.jsx:1990-2003) passes no `nodes` or `edges` props to the layer image and layer text nodes, so as mounted the effect always takes the no-input branch and shows the layer; the rules are stated for the graph the effect evidently means to read (see Findings).

## Findings

| source | as written | input that shows it | evidently intended | confidence | as-written member | corrected member |
|---|---|---|---|---|---|---|
| app/src/Nodes/LayerTextNode.jsx:185-187 | `update` stamps `layerId` and `zIndex` from the slot selected before the patch is applied, so choosing another layer in the select stores the old slot's id and z | data on slot `a` (z 5), slots `a` and `b` (z 7), the select changes the layer to `b`: the result has layer `b`, layerId `a`, zIndex 5 and output id `a` | the slot named by the patched data | not executed; a later display-settings update may stamp the new slot | LayerText.ChangeLayerKeepsOldSlot | LayerText.ChangeLayerIntended |
| app/src/Editors/TextStyleEditor.jsx:94 | `existingStyles[key]` also finds members inherited from `Object.prototype` (the image style editor repeats the test at line 159, and `handleCreateNewStyle` repeats it at line 325, which `StyleRegistry.StyleEditor.Create` models through `Present`) | key `toString` on an empty registry is refused as an existing style | only the registry's own keys count | not executed | StyleRegistry.PrototypeNameRefused | StyleRegistry.SubmitOwnAcceptsNew |
| app/src/utils/TypingPreviewBox.jsx:45-68 | the animation frame tests the `isSkipped` captured when the effect was created, and the effect resets `isSkipped` without reading it anew | text `ab` skipped by a click, then the text changes to `cd`: the first frame stops, and the box shows the empty string with no animation pending | frames of the new text see the reset flag and type it out | not executed | TypingBox.SkipThenNewText | TypingBox.SkipThenNewTextIntended |
| app/src/Editor.jsx:1990-2003 | the layer image and layer text nodes are registered without `nodes` and `edges` props, and their visibility effects (app/src/Nodes/LayerImageNode.jsx:156-158, app/src/Nodes/LayerTextNode.jsx:94-96) read `props.edges` and `props.nodes`, so they never see an input edge | a layer node whose input comes from a controller listing the layer with `visible: false` is still shown | the effects read the graph's nodes and edges and obey the controller | not executed | LayerImage.UnwiredPropsShowLayer | LayerImage.UpstreamVisibleRules |

=== FILE: chain_layers.dfy ===
/** `collectChainLayers`: the depth-first walk a layer on/off controller runs
    upstream along 'input' edges to gather the layer records of the producer
    nodes (image layers, text layers and other controllers) feeding it. */
module ChainLayers {
  import opened Common
  import opened Graph

  /** Nodes whose layer records the walk gathers. */
  predicate IsProducer(n: Node) {
    (n.kind == "layerOnOff" && n.data.outputLayers.Some?)
    || n.kind == "layerImage" || n.kind == "layerText"
  }

  /** The record a controller's output layer becomes once spliced: the
      controller's id is stamped as `nodeId`, the layer itself is the payload. */
  function SpliceLayer(l: Layer, controllerId: string): (r: Layer)
    ensures r.id == l.id && r.nodeId == controllerId && r.data == Spliced(l)
  {
    MkLayer(l.id, Or(l.name, l.id), l.kind, l.zIndex, controllerId, Spliced(l)).(source := "chain")
  }

  /** The layer record of an image producer (slot key `layer || 'image_main'`). */
  function ImageChainLayer(n: Node): Layer {
    var key := Or(n.data.layer, "image_main");
    var def := SlotDef(n.data.editorConfig, key);
    MkLayer(key, Or(def.caption, Or(n.data.caption, "画像レイヤー")), "image", def.z,
            n.id, ChainProducer("image", n.data, key, def)).(source := "chain")
  }

  /** The layer record of a text producer (slot key `layer || layerId || 'text_main'`). */
  function TextChainLayer(n: Node): Layer {
    var key := Or(n.data.layer, Or(n.data.layerId, "text_main"));
    var def := SlotDef(n.data.editorConfig, key);
    MkLayer(key, Or(def.caption, Or(n.data.caption, "テキストレイヤー")), Or(def.kind, "text"),
            OrZ(def.z, OrZ(n.data.zIndex, 1000)),
            n.id, ChainProducer("text", n.data, key, def)).(source := "chain")
  }

  /** What a producer pushes when the walk first processes it; every record
      carries the producer's own id as `nodeId`. */
  function Contribution(n: Node): (r: seq<Layer>)
    ensures forall l :: l in r ==> l.nodeId == n.id
  {
    if n.kind == "layerOnOff" then
      (if n.data.outputLayers.Some? then SpliceAll(n.data.outputLayers.value, n.id) else [])
    else if n.kind == "layerImage" then [ImageChainLayer(n)]
    else if n.kind == "layerText" then [TextChainLayer(n)]
    else []
  }

  function SpliceAll(outs: seq<Layer>, controllerId: string): (r: seq<Layer>)
    ensures |r| == |outs|
    ensures forall i :: 0 <= i < |r| ==> r[i] == SpliceLayer(outs[i], controllerId)
  {
    if outs == [] then [] else [SpliceLayer(outs[0], controllerId)] + SpliceAll(outs[1..], controllerId)
  }

  /** The walk's shared state: `processedNodes` and `collectedLayers`. */
  datatype ChainState = ChainState(processed: set<string>, collected: seq<Layer>)

  /** `exploreChain(nodeId, visited)`: `visited` holds the nodes on the current
      path, `processed` the producers already gathered by any path. */
  function ExploreChain(g: Graph, id: string, visited: set<string>, st: ChainState): ChainState
    decreases |NodeIds(g.nodes) - visited|, 0
  {
    if id in visited || id in st.processed then st
    else match FindNode(g.nodes, id)
      case None => st
      case Some(n) =>
        var st1 := if IsProducer(n) then ChainState(st.processed + {id}, st.collected + Contribution(n)) else st;
        SetCardStep(NodeIds(g.nodes), visited, id);
        ExploreEdges(g, IncomingInput(g.edges, id), visited + {id}, st1)
  }

  /** `inputEdges.forEach(edge => exploreChain(edge.source, new Set(visited)))`. */
  function ExploreEdges(g: Graph, es: seq<Edge>, visited: set<string>, st: ChainState): ChainState
    decreases |NodeIds(g.nodes) - visited|, 1, |es|
  {
    if es == [] then st
    else ExploreEdges(g, es[1..], visited, ExploreChain(g, es[0].source, visited, st))
  }

  /** `collectChainLayers(startNodeId, nodes, edges)`. */
  function ChainLayersOf(g: Graph, start: string): seq<Layer> {
    ExploreChain(g, start, {}, ChainState({}, [])).collected
  }

  /** Adding an unvisited node of the graph to `visited` shrinks the set of
      nodes the walk can still enter: the walk terminates on cyclic graphs. */
  // -------------------------------------------------------------------
  // The walk, as the source writes it: shared mutable state and recursion.
  // -------------------------------------------------------------------

  class ChainCollector {
    var processed: set<string>
    var collected: seq<Layer>

    constructor ()
      ensures processed == {} && collected == []
    {
      processed := {};
      collected := [];
    }

    function State(): ChainState
      reads this
    {
      ChainState(processed, collected)
    }

    method Explore(g: Graph, id: string, visited: set<string>)
      modifies this
      ensures State() == ExploreChain(g, id, visited, old(State()))
      decreases |NodeIds(g.nodes) - visited|, 0
    {
      if id in visited || id in processed {
        return;
      }
      var found := FindNode(g.nodes, id);
      if found.None? {
        return;
      }
      var n := found.value;
      Gather(n);
      SetCardStep(NodeIds(g.nodes), visited, id);
      ExploreInputs(g, IncomingInput(g.edges, id), visited + {id});
    }

    /** The producer branches: mark the node processed and push its records. */
    method Gather(n: Node)
      modifies this
      requires n.id !in processed
      ensures State() == if IsProducer(n) then ChainState(old(processed) + {n.id}, old(collected) + Contribution(n))
                         else old(State())
    {
      if n.kind == "layerOnOff" && n.data.outputLayers.Some? {
        processed := processed + {n.id};
        Splice(n.data.outputLayers.value, n.id);
      } else if n.kind == "layerImage" {
        processed := processed + {n.id};
        collected := collected + [ImageChainLayer(n)];
      } else if n.kind == "layerText" {
        processed := processed + {n.id};
        collected := collected + [TextChainLayer(n)];
      }
    }

    /** The loop pushing a controller's output layers, each stamped with the controller's id. */
    method Splice(outs: seq<Layer>, controllerId: string)
      modifies this
      ensures processed == old(processed)
      ensures collected == old(collected) + SpliceAll(outs, controllerId)
    {
      var j := 0;
      while j < |outs|
        invariant 0 <= j <= |outs|
        invariant processed == old(processed)
        invariant collected == old(collected) + SpliceAll(outs[..j], controllerId)
      {
        assert outs[..j + 1] == outs[..j] + [outs[j]];
        SpliceAllAppend(outs[..j], [outs[j]], controllerId);
        collected := collected + [SpliceLayer(outs[j], controllerId)];
        j := j + 1;
      }
      assert outs[..j] == outs;
    }

    /** The `forEach` over the node's incoming 'input' edges. */
    method ExploreInputs(g: Graph, inputs: seq<Edge>, visited: set<string>)
      modifies this
      ensures State() == ExploreEdges(g, inputs, visited, old(State()))
      decreases |NodeIds(g.nodes) - visited|, 1
    {
      var i := 0;
      while i < |inputs|
        invariant 0 <= i <= |inputs|
        invariant ExploreEdges(g, inputs[i..], visited, State()) == ExploreEdges(g, inputs, visited, old(State()))
      {
        assert inputs[i..][1..] == inputs[i + 1..];
        Explore(g, inputs[i].source, visited);
        i := i + 1;
      }
    }
  }

  lemma {:induction false} SpliceAllAppend(a: seq<Layer>, b: seq<Layer>, id: string)
    ensures SpliceAll(a + b, id) == SpliceAll(a, id) + SpliceAll(b, id)
  {
  }

  /** `collectChainLayers` run with its own fresh state. */
  method CollectChainLayers(g: Graph, start: string) returns (layers: seq<Layer>)
    ensures layers == ChainLayersOf(g, start)
    ensures forall l :: l in layers ==> FindNode(g.nodes, l.nodeId).Some?
  {
    var c := new ChainCollector();
    c.Explore(g, start, {});
    layers := c.collected;
    ChainLayersFacts(g, start);
  }

  // -------------------------------------------------------------------
  // Properties of the walk.
  // -------------------------------------------------------------------

  /** The records of `s` gathered from node `k`. */
  function LayersOf(s: seq<Layer>, k: string): (r: seq<Layer>)
    ensures forall l :: l in r <==> l in s && l.nodeId == k
  {
    if s == [] then []
    else (if s[0].nodeId == k then [s[0]] else []) + LayersOf(s[1..], k)
  }

  lemma {:induction false} LayersOfAppend(a: seq<Layer>, b: seq<Layer>, k: string)
    ensures LayersOf(a + b, k) == LayersOf(a, k) + LayersOf(b, k)
  {
    if a == [] {
      assert a + b == b;
    } else {
      assert (a + b)[1..] == a[1..] + b;
      LayersOfAppend(a[1..], b, k);
    }
  }

  lemma {:induction false} LayersOfAllSame(s: seq<Layer>, k: string, m: string)
    requires forall l :: l in s ==> l.nodeId == m
    ensures LayersOf(s, k) == if k == m then s else []
  {
    if s != [] {
      assert s[0] in s;
      assert forall l :: l in s[1..] ==> l in s;
      LayersOfAllSame(s[1..], k, m);
      assert s == [s[0]] + s[1..];
    }
  }

  /** The walk's invariant: each processed id is a producer node of the graph
      whose contribution is exactly the records gathered with its id, and
      nothing has been gathered for any other id. */
  ghost predicate Gathered(g: Graph, st: ChainState) {
    (forall k :: k in st.processed ==> FindNode(g.nodes, k).Some? && IsProducer(FindNode(g.nodes, k).value))
    && (forall k :: LayersOf(st.collected, k)
          == if k in st.processed then Contribution(FindNode(g.nodes, k).value) else [])
  }

  /** Processing one more producer keeps `Gathered`. */
  lemma GatheredStep(g: Graph, st: ChainState, id: string, n: Node)
    requires Gathered(g, st) && id !in st.processed
    requires FindNode(g.nodes, id) == Some(n) && IsProducer(n)
    ensures Gathered(g, ChainState(st.processed + {id}, st.collected + Contribution(n)))
  {
    var st1 := ChainState(st.processed + {id}, st.collected + Contribution(n));
    forall k ensures LayersOf(st1.collected, k)
                     == if k in st1.processed then Contribution(FindNode(g.nodes, k).value) else [] {
      LayersOfAppend(st.collected, Contribution(n), k);
      LayersOfAllSame(Contribution(n), k, id);
      if k == id {
        assert LayersOf(st.collected, k) == [];
        assert LayersOf(st1.collected, k) == [] + Contribution(n);
      } else {
        assert LayersOf(st1.collected, k) == LayersOf(st.collected, k) + [];
        assert k in st1.processed <==> k in st.processed;
      }
    }
    assert forall k :: k in st1.processed ==> k in st.processed || k == id;
  }

  /** A step of the walk keeps `Gathered`, only adds processed ids, and only
      appends records. */
  lemma {:induction false} ExploreChainFacts(g: Graph, id: string, visited: set<string>, st: ChainState)
    requires Gathered(g, st)
    ensures var r := ExploreChain(g, id, visited, st);
      Gathered(g, r) && st.processed <= r.processed && st.collected <= r.collected
    decreases |NodeIds(g.nodes) - visited|, 0
  {
    if id in visited || id in st.processed {
    } else {
      match FindNode(g.nodes, id)
      case None =>
      case Some(n) =>
        var st1 := if IsProducer(n) then ChainState(st.processed + {id}, st.collected + Contribution(n)) else st;
        if IsProducer(n) {
          GatheredStep(g, st, id, n);
        }
        SetCardStep(NodeIds(g.nodes), visited, id);
        ExploreEdgesFacts(g, IncomingInput(g.edges, id), visited + {id}, st1);
    }
  }

  lemma {:induction false} ExploreEdgesFacts(g: Graph, es: seq<Edge>, visited: set<string>, st: ChainState)
    requires Gathered(g, st)
    ensures var r := ExploreEdges(g, es, visited, st);
      Gathered(g, r) && st.processed <= r.processed && st.collected <= r.collected
    decreases |NodeIds(g.nodes) - visited|, 1, |es|
  {
    if es != [] {
      var st1 := ExploreChain(g, es[0].source, visited, st);
      ExploreChainFacts(g, es[0].source, visited, st);
      ExploreEdgesFacts(g, es[1..], visited, st1);
    }
  }

  /** Each producer contributes at most once per call: the records gathered
      with node id k are exactly k's contribution if k was processed and
      nothing otherwise, and every record comes from a node of the graph. */
  lemma ChainLayersFacts(g: Graph, start: string)
    ensures var r := ExploreChain(g, start, {}, ChainState({}, []));
      && (forall k :: k in r.processed ==> FindNode(g.nodes, k).Some? && IsProducer(FindNode(g.nodes, k).value))
      && (forall k :: LayersOf(r.collected, k)
            == if k in r.processed then Contribution(FindNode(g.nodes, k).value) else [])
    ensures forall l :: l in ChainLayersOf(g, start) ==> FindNode(g.nodes, l.nodeId).Some?
  {
    ExploreChainFacts(g, start, {}, ChainState({}, []));
    var r := ExploreChain(g, start, {}, ChainState({}, []));
    forall l | l in r.collected ensures FindNode(g.nodes, l.nodeId).Some? {
      assert l in LayersOf(r.collected, l.nodeId);
    }
  }

  /** The walk follows only 'input' edges: dropping every other edge from the
      graph does not change what it gathers. */
  lemma {:induction false} ExploreChainInputOnly(g: Graph, id: string, visited: set<string>, st: ChainState)
    ensures ExploreChain(g, id, visited, st)
            == ExploreChain(Graph(g.nodes, InputEdgesOnly(g.edges)), id, visited, st)
    decreases |NodeIds(g.nodes) - visited|, 0
  {
    var h := Graph(g.nodes, InputEdgesOnly(g.edges));
    if id in visited || id in st.processed {
    } else {
      match FindNode(g.nodes, id)
      case None =>
      case Some(n) =>
        var st1 := if IsProducer(n) then ChainState(st.processed + {id}, st.collected + Contribution(n)) else st;
        SetCardStep(NodeIds(g.nodes), visited, id);
        IncomingInputOfInputEdges(g.edges, id);
        ExploreEdgesInputOnly(g, IncomingInput(g.edges, id), visited + {id}, st1);
    }
  }

  lemma {:induction false} ExploreEdgesInputOnly(g: Graph, es: seq<Edge>, visited: set<string>, st: ChainState)
    ensures ExploreEdges(g, es, visited, st)
            == ExploreEdges(Graph(g.nodes, InputEdgesOnly(g.edges)), es, visited, st)
    decreases |NodeIds(g.nodes) - visited|, 1, |es|
  {
    if es != [] {
      ExploreChainInputOnly(g, es[0].source, visited, st);
      ExploreEdgesInputOnly(g, es[1..], visited, ExploreChain(g, es[0].source, visited, st));
    }
  }

  lemma ChainLayersInputOnly(g: Graph, start: string)
    ensures ChainLayersOf(g, start) == ChainLayersOf(Graph(g.nodes, InputEdgesOnly(g.edges)), start)
  {
    ExploreChainInputOnly(g, start, {}, ChainState({}, []));
  }

  /** A walk only ever processes more: a processed id stays processed. */
  lemma {:induction false} ExploreEdgesGrows(g: Graph, es: seq<Edge>, visited: set<string>, st: ChainState)
    ensures st.processed <= ExploreEdges(g, es, visited, st).processed
    decreases |NodeIds(g.nodes) - visited|, 1, |es|
  {
    if es != [] {
      ExploreChainGrows(g, es[0].source, visited, st);
      ExploreEdgesGrows(g, es[1..], visited, ExploreChain(g, es[0].source, visited, st));
    }
  }

  lemma {:induction false} ExploreChainGrows(g: Graph, id: string, visited: set<string>, st: ChainState)
    ensures st.processed <= ExploreChain(g, id, visited, st).processed
    decreases |NodeIds(g.nodes) - visited|, 0
  {
    if id !in visited && id !in st.processed {
      match FindNode(g.nodes, id)
      case None =>
      case Some(n) =>
        var st1 := if IsProducer(n) then ChainState(st.processed + {id}, st.collected + Contribution(n)) else st;
        SetCardStep(NodeIds(g.nodes), visited, id);
        ExploreEdgesGrows(g, IncomingInput(g.edges, id), visited + {id}, st1);
    }
  }

  /** A walk only ever appends to the gathered records. */
  lemma {:induction false} ExploreEdgesExtends(g: Graph, es: seq<Edge>, visited: set<string>, st: ChainState)
    ensures st.collected <= ExploreEdges(g, es, visited, st).collected
    decreases |NodeIds(g.nodes) - visited|, 1, |es|
  {
    if es != [] {
      ExploreChainExtends(g, es[0].source, visited, st);
      ExploreEdgesExtends(g, es[1..], visited, ExploreChain(g, es[0].source, visited, st));
    }
  }

  lemma {:induction false} ExploreChainExtends(g: Graph, id: string, visited: set<string>, st: ChainState)
    ensures st.collected <= ExploreChain(g, id, visited, st).collected
    decreases |NodeIds(g.nodes) - visited|, 0
  {
    if id !in visited && id !in st.processed {
      match FindNode(g.nodes, id)
      case None =>
      case Some(n) =>
        var st1 := if IsProducer(n) then ChainState(st.processed + {id}, st.collected + Contribution(n)) else st;
        SetCardStep(NodeIds(g.nodes), visited, id);
        ExploreEdgesExtends(g, IncomingInput(g.edges, id), visited + {id}, st1);
    }
  }

  /** A producer not on the current path is processed once the walk reaches it. */
  lemma ExploreChainProcesses(g: Graph, id: string, visited: set<string>, st: ChainState)
    requires id !in visited && FindNode(g.nodes, id).Some? && IsProducer(FindNode(g.nodes, id).value)
    ensures id in ExploreChain(g, id, visited, st).processed
  {
    if id !in st.processed {
      var n := FindNode(g.nodes, id).value;
      var st1 := ChainState(st.processed + {id}, st.collected + Contribution(n));
      SetCardStep(NodeIds(g.nodes), visited, id);
      assert ExploreChain(g, id, visited, st) == ExploreEdges(g, IncomingInput(g.edges, id), visited + {id}, st1);
      ExploreEdgesGrows(g, IncomingInput(g.edges, id), visited + {id}, st1);
    }
  }

  /** Every edge in `es` whose source is a producer node not in `visited` ends
      up processed. */
  lemma {:induction false} ExploreEdgesReachesSources(g: Graph, es: seq<Edge>, visited: set<string>, st: ChainState)
    ensures forall e :: e in es && e.source !in visited && FindNode(g.nodes, e.source).Some?
                        && IsProducer(FindNode(g.nodes, e.source).value)
                        ==> e.source in ExploreEdges(g, es, visited, st).processed
    decreases |es|
  {
    if es != [] {
      var st1 := ExploreChain(g, es[0].source, visited, st);
      ExploreEdgesReachesSources(g, es[1..], visited, st1);
      ExploreEdgesGrows(g, es[1..], visited, st1);
      if es[0].source !in visited && FindNode(g.nodes, es[0].source).Some?
         && IsProducer(FindNode(g.nodes, es[0].source).value) {
        ExploreChainProcesses(g, es[0].source, visited, st);
      }
    }
  }

  /** The first step of a walk started at a controller with output layers. */
  lemma ControllerStep(g: Graph, start: string)
    requires FindNode(g.nodes, start).Some?
    requires FindNode(g.nodes, start).value.kind == "layerOnOff"
    requires FindNode(g.nodes, start).value.data.outputLayers.Some?
    ensures |NodeIds(g.nodes) - {start}| < |NodeIds(g.nodes) - {}|
    ensures ExploreChain(g, start, {}, ChainState({}, []))
            == ExploreEdges(g, IncomingInput(g.edges, start), {start},
                            ChainState({start}, SpliceAll(FindNode(g.nodes, start).value.data.outputLayers.value, start)))
  {
    var n := FindNode(g.nodes, start).value;
    SetCardStep(NodeIds(g.nodes), {}, start);
    assert IsProducer(n);
    assert Contribution(n) == SpliceAll(n.data.outputLayers.value, start);
    var e: set<string> := {};
    var c: seq<Layer> := [];
    assert e + {start} == {start};
    assert c + Contribution(n) == Contribution(n);
  }

  /** A controller at the start of the walk splices its own output layers,
      stamped with its own id, before anything else. */
  lemma ControllerSplicesFirst(g: Graph, start: string)
    requires FindNode(g.nodes, start).Some?
    requires FindNode(g.nodes, start).value.kind == "layerOnOff"
    requires FindNode(g.nodes, start).value.data.outputLayers.Some?
    ensures var outs := FindNode(g.nodes, start).value.data.outputLayers.value;
      && |outs| <= |ChainLayersOf(g, start)|
      && ChainLayersOf(g, start)[..|outs|] == SpliceAll(outs, start)
  {
    var outs := FindNode(g.nodes, start).value.data.outputLayers.value;
    ControllerStep(g, start);
    ExploreEdgesExtends(g, IncomingInput(g.edges, start), {start}, ChainState({start}, SpliceAll(outs, start)));
  }

  /** After splicing, the walk goes on upstream of the controller: every
      producer feeding it through an 'input' edge is gathered too. */
  lemma ControllerContinues(g: Graph, start: string)
    requires FindNode(g.nodes, start).Some?
    requires FindNode(g.nodes, start).value.kind == "layerOnOff"
    requires FindNode(g.nodes, start).value.data.outputLayers.Some?
    ensures var r := ExploreChain(g, start, {}, ChainState({}, []));
      forall e :: e in IncomingInput(g.edges, start) && e.source != start
                  && FindNode(g.nodes, e.source).Some? && IsProducer(FindNode(g.nodes, e.source).value)
                  ==> e.source in r.processed
  {
    var outs := FindNode(g.nodes, start).value.data.outputLayers.value;
    ControllerStep(g, start);
    ExploreEdgesReachesSources(g, IncomingInput(g.edges, start), {start}, ChainState({start}, SpliceAll(outs, start)));
  }
}

=== FILE: colored_text.dfy ===
/** `parseColoredText` (app/src/utils/parseColoredText.jsx): a dialogue text
    is entity-decoded, then cut at every `<color=#RRGGBB>…</color>` tag pair
    into plain segments and coloured spans. */
module ColoredText {
  import opened Common

  /** What an empty text shows. */
  const EmptyLine := "(空のセリフ)"

  // -------------------------------------------------------------------
  // Entity decoding.
  // -------------------------------------------------------------------

  /** `s.replace(/pat/g, rep)`: every occurrence of pat, left to right and
      without overlap, replaced by rep. */
  function ReplaceAll(s: string, pat: string, rep: string): string
    requires pat != []
    decreases |s|
  {
    if |s| < |pat| then s
    else if s[..|pat|] == pat then rep + ReplaceAll(s[|pat|..], pat, rep)
    else [s[0]] + ReplaceAll(s[1..], pat, rep)
  }

  /** `&lt;` → `<`, then `&gt;` → `>`, then `&amp;` → `&`, one pass each. */
  function Decode(s: string): string {
    ReplaceAll(ReplaceAll(ReplaceAll(s, "&lt;", "<"), "&gt;", ">"), "&amp;", "&")
  }

  lemma {:induction false} ReplaceAllNonEmpty(s: string, pat: string, rep: string)
    requires pat != [] && rep != [] && s != []
    ensures ReplaceAll(s, pat, rep) != []
  {
  }

  /** Decoding never empties a text. */
  lemma DecodeNonEmpty(s: string)
    requires s != []
    ensures Decode(s) != []
  {
    ReplaceAllNonEmpty(s, "&lt;", "<");
    ReplaceAllNonEmpty(ReplaceAll(s, "&lt;", "<"), "&gt;", ">");
    ReplaceAllNonEmpty(ReplaceAll(ReplaceAll(s, "&lt;", "<"), "&gt;", ">"), "&amp;", "&");
  }

  /** `&amp;` followed by a text without `&`: the first two passes leave
      it alone and the last one turns the entity into `&`. */
  lemma DecodeAmpHead(rest: string)
    requires NoAmp(rest)
    ensures Decode("&amp;" + rest) == "&" + rest
  {
    var s := "&amp;" + rest;
    ReplaceSkips(rest, [], "&lt;", "<");
    ReplaceSkips(rest, [], "&gt;", ">");
    ReplaceSkips(rest, [], "&amp;", "&");
    assert rest + [] == rest;
    ReplaceShort([], "&lt;", "<");
    ReplaceShort([], "&gt;", ">");
    ReplaceShort([], "&amp;", "&");
    ReplacePast("&amp;", rest, "&lt;", "<");
    ReplacePast("&amp;", rest, "&gt;", ">");
    ReplaceAt("&amp;", rest, "&");
  }

  /** The passes run once each, `&amp;` last: `&amp;lt;` decodes to `&lt;`,
      not to `<`. */
  lemma DecodeOnce()
    ensures Decode("&amp;lt;") == "&lt;"
  {
    DecodeAmpHead("lt;");
    assert "&amp;" + "lt;" == "&amp;lt;";
    assert "&" + "lt;" == "&lt;";
  }

  /** HTML escaping of `&`, and of `<` and `>` when asked. */
  function Escape(s: string, lt: bool, gt: bool): string {
    if s == [] then []
    else
      (if s[0] == '&' then "&amp;"
       else if s[0] == '<' && lt then "&lt;"
       else if s[0] == '>' && gt then "&gt;"
       else [s[0]]) + Escape(s[1..], lt, gt)
  }

  predicate NoAmp(x: string) {
    forall i :: 0 <= i < |x| ==> x[i] != '&'
  }

  /** Where the pattern does not start, one character passes unchanged. */
  lemma ReplaceMiss(s: string, pat: string, rep: string)
    requires pat != [] && s != [] && !(|pat| <= |s| && s[..|pat|] == pat)
    ensures ReplaceAll(s, pat, rep) == [s[0]] + ReplaceAll(s[1..], pat, rep)
  {
    if |s| < |pat| {
      ReplaceShort(s[1..], pat, rep);
      assert s == [s[0]] + s[1..];
    }
  }

  /** A replacement whose pattern starts with `&` passes over a piece
      without `&` unchanged. */
  lemma {:induction false} ReplaceSkips(x: string, rest: string, pat: string, rep: string)
    requires pat != [] && pat[0] == '&' && NoAmp(x)
    ensures ReplaceAll(x + rest, pat, rep) == x + ReplaceAll(rest, pat, rep)
    decreases |x|
  {
    if x != [] {
      var s := x + rest;
      assert !(|pat| <= |s| && s[..|pat|] == pat) by {
        if |pat| <= |s| { assert s[..|pat|][0] == x[0]; }
      }
      ReplaceMiss(s, pat, rep);
      assert s[1..] == x[1..] + rest;
      ReplaceSkips(x[1..], rest, pat, rep);
      assert x == [x[0]] + x[1..];
    } else {
      assert x + rest == rest;
    }
  }

  lemma ReplaceShort(s: string, pat: string, rep: string)
    requires pat != [] && |s| < |pat|
    ensures ReplaceAll(s, pat, rep) == s
  {
  }

  /** The entity itself at the front is replaced. */
  lemma ReplaceAt(pat: string, rest: string, rep: string)
    requires pat != []
    ensures ReplaceAll(pat + rest, pat, rep) == rep + ReplaceAll(rest, pat, rep)
  {
    var s := pat + rest;
    assert s[..|pat|] == pat;
    assert s[|pat|..] == rest;
  }

  /** Another entity at the front (its second character differs from the
      pattern's) passes unchanged. */
  lemma ReplacePast(head: string, rest: string, pat: string, rep: string)
    requires |pat| >= 2 && pat[0] == '&'
    requires |head| >= 2 && head[0] == '&' && head[1] != pat[1] && NoAmp(head[1..])
    ensures ReplaceAll(head + rest, pat, rep) == head + ReplaceAll(rest, pat, rep)
  {
    var s := head + rest;
    assert !(|pat| <= |s| && s[..|pat|] == pat) by {
      if |pat| <= |s| { assert s[..|pat|][1] == head[1]; }
    }
    ReplaceMiss(s, pat, rep);
    assert s[1..] == head[1..] + rest;
    ReplaceSkips(head[1..], rest, pat, rep);
    assert head == [head[0]] + head[1..];
  }

  lemma {:induction false} DecodeLt(s: string)
    ensures ReplaceAll(Escape(s, true, true), "&lt;", "<") == Escape(s, false, true)
  {
    if s != [] {
      DecodeLt(s[1..]);
      var rest := Escape(s[1..], true, true);
      if s[0] == '&' {
        ReplacePast("&amp;", rest, "&lt;", "<");
      } else if s[0] == '<' {
        ReplaceAt("&lt;", rest, "<");
      } else if s[0] == '>' {
        ReplacePast("&gt;", rest, "&lt;", "<");
      } else {
        ReplaceSkips([s[0]], rest, "&lt;", "<");
      }
    }
  }

  lemma {:induction false} DecodeGt(s: string)
    ensures ReplaceAll(Escape(s, false, true), "&gt;", ">") == Escape(s, false, false)
  {
    if s != [] {
      DecodeGt(s[1..]);
      var rest := Escape(s[1..], false, true);
      if s[0] == '&' {
        ReplacePast("&amp;", rest, "&gt;", ">");
      } else if s[0] == '>' {
        ReplaceAt("&gt;", rest, ">");
      } else {
        ReplaceSkips([s[0]], rest, "&gt;", ">");
      }
    }
  }

  lemma {:induction false} DecodeAmp(s: string)
    ensures ReplaceAll(Escape(s, false, false), "&amp;", "&") == s
  {
    if s != [] {
      DecodeAmp(s[1..]);
      var rest := Escape(s[1..], false, false);
      if s[0] == '&' {
        ReplaceAt("&amp;", rest, "&");
      } else {
        ReplaceSkips([s[0]], rest, "&amp;", "&");
      }
      assert s == [s[0]] + s[1..];
    }
  }

  /** Decoding undoes HTML escaping of `&`, `<` and `>`. */
  lemma DecodeEscaped(s: string)
    ensures Decode(Escape(s, true, true)) == s
  {
    DecodeLt(s);
    DecodeGt(s);
    DecodeAmp(s);
  }

  // -------------------------------------------------------------------
  // The pattern /<color=(#[0-9A-Fa-f]{6})>(.*?)<\/color>/gi.
  // -------------------------------------------------------------------

  /** Case folding of the `i` flag for the tags' letters: only ASCII
      letters fold onto ASCII letters. */
  function Fold(c: char): char {
    if 'A' <= c <= 'Z' then (c as int + 32) as char else c
  }

  predicate SameIgnoringCase(a: string, b: string) {
    |a| == |b| && forall i :: 0 <= i < |a| ==> Fold(a[i]) == Fold(b[i])
  }

  predicate IsHex(c: char) { '0' <= c <= '9' || 'a' <= c <= 'f' || 'A' <= c <= 'F' }

  /** The characters `.` does not match. */
  predicate IsLineTerminator(c: char) {
    c == '\n' || c == '\r' || c == '\U{2028}' || c == '\U{2029}'
  }

  /** `<color=#hhhhhh>` (tag letters in any case) at p. */
  predicate OpenAt(t: string, p: nat) {
    && p + 15 <= |t|
    && SameIgnoringCase(t[p..p + 7], "<color=")
    && t[p + 7] == '#' && (forall i :: p + 8 <= i < p + 14 ==> IsHex(t[i]))
    && t[p + 14] == '>'
  }

  /** `</color>` (in any case) at k. */
  predicate CloseAt(t: string, k: nat) {
    k + 8 <= |t| && SameIgnoringCase(t[k..k + 8], "</color>")
  }

  /** The lazy `(.*?)` from k: the first closing tag reached without
      crossing a line terminator. */
  function FirstClose(t: string, k: nat): (r: Option<nat>)
    requires k <= |t|
    ensures r.Some? ==> k <= r.value && CloseAt(t, r.value)
    decreases |t| - k
  {
    if CloseAt(t, k) then Some(k)
    else if k < |t| && !IsLineTerminator(t[k]) then FirstClose(t, k + 1)
    else None
  }

  /** A match: it starts at `start`, its colour (group 1) is
      `t[start + 7..start + 14]`, its text (group 2) runs from
      `start + 15` to `contentEnd`, and it ends at `contentEnd + 8`. */
  datatype Match = Match(start: nat, color: string, contentEnd: nat)
  {
    function End(): nat { contentEnd + 8 }
  }

  /** The match starting exactly at p, if any. */
  function MatchAt(t: string, p: nat): (r: Option<Match>)
    requires p <= |t|
    ensures r.Some? ==> r.value.start == p && p + 15 <= r.value.contentEnd && r.value.End() <= |t|
  {
    if OpenAt(t, p) then
      match FirstClose(t, p + 15)
      case Some(e) => Some(Match(p, t[p + 7..p + 14], e))
      case None => None
    else None
  }

  /** `regex.exec(t)` with `lastIndex` at `from`: the leftmost match
      starting at or after `from`. */
  function Exec(t: string, from: nat): (r: Option<Match>)
    requires from <= |t|
    ensures r.Some? ==> from <= r.value.start && r.value.start + 15 <= r.value.contentEnd && r.value.End() <= |t|
    decreases |t| - from
  {
    if MatchAt(t, from).Some? then MatchAt(t, from)
    else if from == |t| then None
    else Exec(t, from + 1)
  }

  /** The match `Exec` finds really is a match there, and none starts
      earlier. */
  lemma {:induction false} ExecLeftmost(t: string, from: nat)
    requires from <= |t|
    ensures Exec(t, from).Some? ==> MatchAt(t, Exec(t, from).value.start) == Exec(t, from)
    ensures Exec(t, from).Some? ==> forall p :: from <= p < Exec(t, from).value.start ==> MatchAt(t, p).None?
    ensures Exec(t, from).None? ==> forall p :: from <= p <= |t| ==> MatchAt(t, p).None?
    decreases |t| - from
  {
    if MatchAt(t, from).None? && from < |t| {
      ExecLeftmost(t, from + 1);
    }
  }

  /** The text of a match ends at the first closing tag after the opening
      one, and holds no line terminator. */
  lemma {:induction false} FirstCloseFacts(t: string, k: nat)
    requires k <= |t| && FirstClose(t, k).Some?
    ensures forall j :: k <= j < FirstClose(t, k).value ==> !IsLineTerminator(t[j]) && !CloseAt(t, j)
    decreases |t| - k
  {
    if !CloseAt(t, k) {
      FirstCloseFacts(t, k + 1);
    }
  }

  // -------------------------------------------------------------------
  // The pieces of a text.
  // -------------------------------------------------------------------

  /** A stretch of text between matches, or a match with its tags. */
  datatype Piece =
    | Gap(text: string)
    | Tagged(open: string, color: string, content: string, close: string)

  /** The pieces one match contributes: the text before it, if any, and
      the match itself. */
  function Step(t: string, c: nat, m: Match): seq<Piece>
    requires c <= m.start && m.start + 15 <= m.contentEnd && m.End() <= |t|
  {
    (if m.start > c then [Gap(t[c..m.start])] else [])
    + [Tagged(t[m.start..m.start + 15], m.color, t[m.start + 15..m.contentEnd], t[m.contentEnd..m.End()])]
  }

  /** The pieces of t from position c on, as the `exec` loop meets them. */
  function Scan(t: string, c: nat): seq<Piece>
    requires c <= |t|
    decreases |t| - c
  {
    match Exec(t, c)
    case None => if c < |t| then [Gap(t[c..])] else []
    case Some(m) => Step(t, c, m) + Scan(t, m.End())
  }

  /** The pieces written out again, tags included. */
  function Text(ps: seq<Piece>): string {
    if ps == [] then []
    else
      (match ps[0]
       case Gap(s) => s
       case Tagged(o, _, c, e) => o + c + e) + Text(ps[1..])
  }

  lemma {:induction false} TextAppend(a: seq<Piece>, b: seq<Piece>)
    ensures Text(a + b) == Text(a) + Text(b)
    decreases |a|
  {
    if a == [] {
      assert a + b == b;
    } else {
      assert (a + b)[0] == a[0] && (a + b)[1..] == a[1..] + b;
      TextAppend(a[1..], b);
    }
  }

  lemma StepText(t: string, c: nat, m: Match)
    requires c <= m.start && m.start + 15 <= m.contentEnd && m.End() <= |t|
    ensures Text(Step(t, c, m)) == t[c..m.End()]
  {
    var a, e := m.start, m.End();
    var gap: seq<Piece> := if a > c then [Gap(t[c..a])] else [];
    var tag := Tagged(t[a..a + 15], m.color, t[a + 15..m.contentEnd], t[m.contentEnd..e]);
    assert Step(t, c, m) == gap + [tag];
    TextAppend(gap, [tag]);
    GapText(t, c, a);
    TagText(t, m);
    Slices(t, c, a, e);
  }

  lemma GapText(t: string, c: nat, a: nat)
    requires c <= a <= |t|
    ensures Text(if a > c then [Gap(t[c..a])] else []) == t[c..a]
  {
    if a > c {
      assert Text([Gap(t[c..a])]) == t[c..a] + Text([]);
    }
  }

  lemma TagText(t: string, m: Match)
    requires m.start + 15 <= m.contentEnd && m.End() <= |t|
    ensures Text([Tagged(t[m.start..m.start + 15], m.color, t[m.start + 15..m.contentEnd], t[m.contentEnd..m.End()])])
            == t[m.start..m.End()]
  {
    var a, d, e := m.start, m.contentEnd, m.End();
    assert Text([Tagged(t[a..a + 15], m.color, t[a + 15..d], t[d..e])]) == t[a..a + 15] + t[a + 15..d] + t[d..e] + Text([]);
    Slices(t, a, a + 15, d);
    Slices(t, a, d, e);
  }

  lemma Slices(t: string, i: nat, j: nat, k: nat)
    requires i <= j <= k <= |t|
    ensures t[i..j] + t[j..k] == t[i..k]
  {
  }

  /** Putting the tags back around each span's text gives the input: the
      segments and span texts are the input with exactly the matched tags
      taken out. */
  lemma {:induction false} ScanText(t: string, c: nat)
    requires c <= |t|
    ensures Text(Scan(t, c)) == t[c..]
    decreases |t| - c
  {
    match Exec(t, c)
    case None =>
      if c < |t| {
        assert Text([Gap(t[c..])]) == t[c..] + Text([]);
      }
    case Some(m) =>
      ScanText(t, m.End());
      TextAppend(Step(t, c, m), Scan(t, m.End()));
      StepText(t, c, m);
      SliceSplit(t, c, m.End());
  }

  lemma SliceSplit(t: string, c: nat, e: nat)
    requires c <= e <= |t|
    ensures t[c..] == t[c..e] + t[e..]
  {
  }

  /** What each piece is: gaps are never empty; a tagged piece's opening
      tag is `<color=` (any case), `#` and six hex digits, then `>`, with
      exactly that `#` and six digits as its colour; its closing tag is
      `</color>` (any case); its text crosses no line terminator and holds
      no closing tag. */
  predicate WellFormedPiece(p: Piece) {
    match p
    case Gap(s) => s != []
    case Tagged(o, col, c, e) => IsOpenTag(o, col) && SameIgnoringCase(e, "</color>") && IsBody(c, e)
  }

  predicate IsOpenTag(o: string, col: string) {
    && |o| == 15 && SameIgnoringCase(o[..7], "<color=") && o[14] == '>'
    && col == o[7..14] && |col| == 7 && col[0] == '#' && (forall i :: 1 <= i < 7 ==> IsHex(col[i]))
  }

  predicate IsBody(c: string, e: string) {
    && (forall i :: 0 <= i < |c| ==> !IsLineTerminator(c[i]))
    && (forall j :: 0 <= j < |c| ==> !CloseAt(c + e, j))
  }

  lemma OpenFacts(t: string, s: nat, o: string, col: string)
    requires OpenAt(t, s) && o == t[s..s + 15] && col == t[s + 7..s + 14]
    ensures IsOpenTag(o, col)
  {
    assert o[..7] == t[s..s + 7];
    forall i | 0 <= i < 7 ensures o[7..14][i] == col[i] {
      assert o[7 + i] == t[s + 7 + i];
    }
    forall i | 1 <= i < 7 ensures IsHex(col[i]) {
      assert col[i] == t[s + 7 + i];
    }
  }

  /** The text of a match, followed by its closing tag: no line
      terminator in it, and the closing tag only at its end. */
  lemma BodyFacts(t: string, k: nat, e: nat, body: string, close: string)
    requires k <= e && e + 8 <= |t| && body == t[k..e] && close == t[e..e + 8]
    requires forall j :: k <= j < e ==> !IsLineTerminator(t[j]) && !CloseAt(t, j)
    ensures IsBody(body, close)
  {
    var w := body + close;
    assert w == t[k..e + 8];
    forall j | 0 <= j < |body| ensures !CloseAt(w, j) {
      assert !CloseAt(t, k + j);
      if j + 8 <= |w| {
        var a, b := w[j..j + 8], t[k + j..k + j + 8];
        forall i | 0 <= i < 8 ensures a[i] == b[i] {
          assert w[j + i] == t[k + j + i];
        }
        assert a == b;
      }
    }
  }

  /** The tagged piece of a match is well formed. */
  lemma TagWellFormed(t: string, m: Match)
    requires m.start <= |t| && MatchAt(t, m.start) == Some(m)
    ensures WellFormedPiece(Tagged(t[m.start..m.start + 15], m.color, t[m.start + 15..m.contentEnd], t[m.contentEnd..m.End()]))
  {
    var s := m.start;
    var o, c, e := t[s..s + 15], t[s + 15..m.contentEnd], t[m.contentEnd..m.End()];
    assert OpenAt(t, s) && FirstClose(t, s + 15) == Some(m.contentEnd) && m.color == t[s + 7..s + 14];
    FirstCloseFacts(t, s + 15);
    BodyFacts(t, s + 15, m.contentEnd, c, e);
    OpenFacts(t, s, o, m.color);
    assert SameIgnoringCase(e, "</color>");
  }

  lemma StepWellFormed(t: string, c: nat, m: Match)
    requires c <= m.start <= |t| && MatchAt(t, m.start) == Some(m)
    ensures forall p :: p in Step(t, c, m) ==> WellFormedPiece(p)
  {
    TagWellFormed(t, m);
  }

  lemma {:induction false} ScanWellFormed(t: string, c: nat)
    requires c <= |t|
    ensures forall p :: p in Scan(t, c) ==> WellFormedPiece(p)
    decreases |t| - c
  {
    var r := Exec(t, c);
    if r.Some? {
      var m := r.value;
      assert Scan(t, c) == Step(t, c, m) + Scan(t, m.End());
      ScanWellFormed(t, m.End());
      ExecLeftmost(t, c);
      StepWellFormed(t, c, m);
    }
  }

  /** Without a match, a non-empty text is one gap holding all of it. */
  lemma NoMatchOneGap(t: string)
    requires t != [] && Exec(t, 0).None?
    ensures Scan(t, 0) == [Gap(t)]
  {
  }

  // -------------------------------------------------------------------
  // The result.
  // -------------------------------------------------------------------

  /** An element of `parts`: a plain string or a coloured `<span>`. */
  datatype Part = Plain(text: string) | Span(color: string, content: string)

  /** The function's result: a string, or the array of parts. */
  datatype Parsed = Whole(text: string) | Parts(parts: seq<Part>)

  function PartOf(p: Piece): Part {
    match p
    case Gap(s) => Plain(s)
    case Tagged(_, col, c, _) => Span(col, c)
  }

  function PartsOf(ps: seq<Piece>): (r: seq<Part>)
    ensures |r| == |ps|
  {
    if ps == [] then [] else [PartOf(ps[0])] + PartsOf(ps[1..])
  }

  lemma {:induction false} PartsOfAppend(a: seq<Piece>, b: seq<Piece>)
    ensures PartsOf(a + b) == PartsOf(a) + PartsOf(b)
    decreases |a|
  {
    if a == [] {
      assert a + b == b;
    } else {
      assert (a + b)[0] == a[0] && (a + b)[1..] == a[1..] + b;
      PartsOfAppend(a[1..], b);
    }
  }

  /** The parts one match contributes. */
  lemma StepParts(t: string, c: nat, m: Match)
    requires c <= m.start && m.start + 15 <= m.contentEnd && m.End() <= |t|
    ensures PartsOf(Step(t, c, m)) ==
      (if m.start > c then [Plain(t[c..m.start])] else []) + [Span(m.color, t[m.start + 15..m.contentEnd])]
  {
    var gap: seq<Piece> := if m.start > c then [Gap(t[c..m.start])] else [];
    var tag := Tagged(t[m.start..m.start + 15], m.color, t[m.start + 15..m.contentEnd], t[m.contentEnd..m.End()]);
    PartsOfAppend(gap, [tag]);
  }

  /** One turn of the loop: a match found at or after c contributes its
      parts, and the scan goes on from its end. */
  lemma ScanStep(t: string, c: nat)
    requires c <= |t| && Exec(t, c).Some?
    ensures PartsOf(Scan(t, c)) == PartsOf(Step(t, c, Exec(t, c).value)) + PartsOf(Scan(t, Exec(t, c).value.End()))
  {
    var m := Exec(t, c).value;
    assert Scan(t, c) == Step(t, c, m) + Scan(t, m.End());
    PartsOfAppend(Step(t, c, m), Scan(t, m.End()));
  }

  /** The end of the loop: without a further match, the rest of the text
      is the last part, if it is not empty. */
  lemma ScanDone(t: string, c: nat)
    requires c <= |t| && Exec(t, c).None?
    ensures PartsOf(Scan(t, c)) == if c < |t| then [Plain(t[c..])] else []
  {
  }

  /** `parseColoredText(text)` as a value: the placeholder for an empty
      text; otherwise the parts of the decoded text, or the decoded text
      when there are none. */
  function Parse(text: string): Parsed {
    if text == [] then Whole(EmptyLine)
    else
      var t := Decode(text);
      var ps := PartsOf(Scan(t, 0));
      if |ps| > 0 then Parts(ps) else Whole(t)
  }

  /** A non-empty text always gives parts; a text without any tag gives
      one plain part, the decoded text. */
  lemma ParseFacts(text: string)
    ensures text == [] ==> Parse(text) == Whole(EmptyLine)
    ensures text != [] ==> Parse(text).Parts?
    ensures text != [] && Exec(Decode(text), 0).None? ==> Parse(text) == Parts([Plain(Decode(text))])
  {
    if text != [] {
      var t := Decode(text);
      DecodeNonEmpty(text);
      ScanText(t, 0);
      assert Text(Scan(t, 0)) == t;
    }
  }

  /** Pushing one match's parts: the text before it when there is any,
      then its span. */
  method PushMatch(t: string, current: nat, m: Match, parts: seq<Part>) returns (parts': seq<Part>)
    requires current <= m.start && m.start + 15 <= m.contentEnd && m.End() <= |t|
    ensures parts' == parts + PartsOf(Step(t, current, m))
  {
    StepParts(t, current, m);
    parts' := parts;
    if m.start > current {
      parts' := parts' + [Plain(t[current..m.start])];
    }
    parts' := parts' + [Span(m.color, t[m.start + 15..m.contentEnd])];
  }

  lemma Assoc<T>(a: seq<T>, b: seq<T>, c: seq<T>)
    ensures a + b + c == a + (b + c)
  {
  }

  /** The loop's invariant: the parts pushed so far, followed by those of
      the rest of the text from `current` on, are all the text's parts. */
  ghost predicate CollectedSoFar(t: string, current: nat, parts: seq<Part>, all: seq<Part>) {
    current <= |t| && parts + PartsOf(Scan(t, current)) == all
  }

  lemma CollectAdvance(t: string, current: nat, m: Match, parts: seq<Part>, parts': seq<Part>, all: seq<Part>)
    requires CollectedSoFar(t, current, parts, all) && Exec(t, current) == Some(m)
    requires parts' == parts + PartsOf(Step(t, current, m))
    ensures CollectedSoFar(t, m.End(), parts', all)
  {
    ScanStep(t, current);
    Assoc(parts, PartsOf(Step(t, current, m)), PartsOf(Scan(t, m.End())));
  }

  lemma CollectDone(t: string, current: nat, parts: seq<Part>, all: seq<Part>)
    requires CollectedSoFar(t, current, parts, all) && Exec(t, current).None?
    ensures all == parts + if current < |t| then [Plain(t[current..])] else []
  {
    ScanDone(t, current);
  }

  /** The `while` over `regex.exec`: for each match the text before it,
      then its span; then the rest. */
  method CollectParts(t: string) returns (parts: seq<Part>)
    ensures parts == PartsOf(Scan(t, 0))
  {
    ghost var all := PartsOf(Scan(t, 0));
    parts := [];
    var current := 0;
    var m := Exec(t, 0);
    while m.Some?
      invariant current <= |t| && m == Exec(t, current) && CollectedSoFar(t, current, parts, all)
      decreases |t| - current
    {
      var k := m.value;
      var parts' := PushMatch(t, current, k, parts);
      CollectAdvance(t, current, k, parts, parts', all);
      parts := parts';
      current := k.End();
      m := Exec(t, current);
    }
    CollectDone(t, current, parts, all);
    if current < |t| {
      parts := parts + [Plain(t[current..])];
    }
  }

  /** The function as written: the placeholder for an empty text, then
      decoding, the match loop, and the choice between parts and text. */
  method ParseColoredText(text: string) returns (r: Parsed)
    ensures r == Parse(text)
  {
    if text == [] {
      return Whole(EmptyLine);
    }
    var t := Decode(text);
    var parts := CollectParts(t);
    r := if |parts| > 0 then Parts(parts) else Whole(t);
  }
}

=== FILE: common.dfy ===
/** Small building blocks shared by every part of the model: optional values,
    a JSON-like value for style objects, JavaScript's `Math.round` on a
    quotient, `String.prototype.trim`, and the stable ascending sort that
    `Array.prototype.sort` performs with a numeric key comparator. */
module Common {

  datatype Option<T> = None | Some(value: T) {
    function GetOr(default: T): T {
      match this
      case Some(v) => v
      case None => default
    }
  }

  /** A JSON value as the editors read and write it; object members keep
      their insertion order, as JavaScript objects do for string keys. */
  datatype Json =
    | JNull
    | JBool(b: bool)
    | JNum(n: Ratio)
    | JStr(s: string)
    | JArr(items: seq<Json>)
    | JObj(members: seq<(string, Json)>)

  /** A floating-point ratio of the source written as an exact fraction. */
  type PosInt = n: int | n > 0 witness 1
  datatype Ratio = Ratio(num: int, den: PosInt)

  /** Entering one more node shrinks the set of nodes not yet entered. */
  lemma SetCardStep(u: set<string>, visited: set<string>, id: string)
    requires id in u && id !in visited
    ensures |u - (visited + {id})| < |u - visited|
  {
    assert u - (visited + {id}) == (u - visited) - {id};
  }

  /** `Math.round(p / q)`: the integer nearest to p/q, halves rounded up. */
  function RoundDiv(p: int, q: int): (r: int)
    requires q > 0
    ensures 2 * q * r <= 2 * p + q < 2 * q * r + 2 * q
  {
    var n := 2 * p + q;
    var d := 2 * q;
    assert n == d * (n / d) + n % d && 0 <= n % d < d;
    n / d
  }

  /** `Math.round(base * ratio)`. */
  function RoundTimes(base: int, ratio: Ratio): int {
    RoundDiv(base * ratio.num, ratio.den)
  }

  /** `a || b` on strings: "" is the only falsy string. */
  function Or(a: string, b: string): string { if a != "" then a else b }

  /** `a || b` on numbers: 0 is the only falsy number. */
  function OrZ(a: int, b: int): int { if a != 0 then a else b }

  function Max(a: int, b: int): int { if a < b then b else a }
  function Min(a: int, b: int): int { if a < b then a else b }

  /** The characters `String.prototype.trim` removes and `\s` matches:
      white space and line terminators. */
  predicate IsJsSpace(c: char) {
    c == ' ' || c == '\t' || c == '\n' || c == '\r' || c == '\U{B}' || c == '\U{C}'
    || c == '\U{A0}' || c == '\U{1680}' || ('\U{2000}' <= c <= '\U{200A}')
    || c == '\U{2028}' || c == '\U{2029}' || c == '\U{202F}' || c == '\U{205F}'
    || c == '\U{3000}' || c == '\U{FEFF}'
  }

  predicate IsBlank(s: string) {
    forall i :: 0 <= i < |s| ==> IsJsSpace(s[i])
  }

  /** The number of white-space characters `s` starts with. */
  function LeadingSpaces(s: string): (n: nat)
    ensures n <= |s|
    ensures forall i :: 0 <= i < n ==> IsJsSpace(s[i])
    ensures n < |s| ==> !IsJsSpace(s[n])
  {
    if s != [] && IsJsSpace(s[0]) then 1 + LeadingSpaces(s[1..]) else 0
  }

  function TrimStart(s: string): (r: string)
    ensures |r| <= |s| && r == s[|s| - |r|..]
    ensures IsBlank(s[..|s| - |r|])
    ensures r != [] ==> !IsJsSpace(r[0])
  {
    s[LeadingSpaces(s)..]
  }

  function TrimEnd(s: string): (r: string)
    ensures |r| <= |s| && r == s[..|r|]
    ensures IsBlank(s[|r|..])
    ensures r != [] ==> !IsJsSpace(r[|r| - 1])
  {
    if s != [] && IsJsSpace(s[|s| - 1]) then TrimEnd(s[..|s| - 1]) else s
  }

  /** `s.trim()`. */
  function Trim(s: string): string {
    TrimEnd(TrimStart(s))
  }

  /** `!s.trim()` holds exactly for strings made only of white space. */
  lemma TrimEmptyIffBlank(s: string)
    ensures Trim(s) == [] <==> IsBlank(s)
  {
    var a := TrimStart(s);
    if a == [] {
      assert s[..|s|] == s;
    } else {
      assert s[|s| - |a|] == a[0];
    }
  }

  /** A string that has no white space at all is its own trim. */
  lemma TrimNoSpace(s: string)
    requires forall i :: 0 <= i < |s| ==> !IsJsSpace(s[i])
    ensures Trim(s) == s
  {
  }

  // ---------------------------------------------------------------------
  // Stable sort by an integer key.
  // ---------------------------------------------------------------------

  /** Inserts x before the first element whose key is not smaller. */
  function InsertByKey<T>(x: T, s: seq<T>, key: T -> int): seq<T> {
    if s == [] then [x]
    else if key(x) <= key(s[0]) then [x] + s
    else [s[0]] + InsertByKey(x, s[1..], key)
  }

  /** `[...s].sort((a, b) => key(a) - key(b))`: JavaScript's sort is
      stable, so elements with equal keys keep their order. */
  function SortByKey<T>(s: seq<T>, key: T -> int): seq<T> {
    if s == [] then [] else InsertByKey(s[0], SortByKey(s[1..], key), key)
  }

  predicate SortedByKey<T>(s: seq<T>, key: T -> int) {
    forall i, j :: 0 <= i < j < |s| ==> key(s[i]) <= key(s[j])
  }

  /** The elements of s whose key is k, in their order in s. */
  function WithKey<T>(s: seq<T>, key: T -> int, k: int): seq<T> {
    if s == [] then []
    else (if key(s[0]) == k then [s[0]] else []) + WithKey(s[1..], key, k)
  }

  lemma {:induction false} InsertByKeyPerm<T>(x: T, s: seq<T>, key: T -> int)
    ensures multiset(InsertByKey(x, s, key)) == multiset(s) + multiset{x}
  {
    if s != [] && key(x) > key(s[0]) {
      InsertByKeyPerm(x, s[1..], key);
      assert s == [s[0]] + s[1..];
    }
  }

  lemma {:induction false} InsertByKeySorted<T>(x: T, s: seq<T>, key: T -> int)
    requires SortedByKey(s, key)
    ensures SortedByKey(InsertByKey(x, s, key), key)
  {
    if s != [] && key(x) > key(s[0]) {
      var t := InsertByKey(x, s[1..], key);
      InsertByKeySorted(x, s[1..], key);
      InsertByKeyPerm(x, s[1..], key);
      forall j | 0 <= j < |t| ensures key(s[0]) <= key(t[j]) {
        var e := t[j];
        assert e in multiset(t);
        if e != x {
          assert e in multiset(s[1..]);
          var m :| 0 <= m < |s[1..]| && s[1..][m] == e;
          assert s[1 + m] == e;
        }
      }
    }
  }

  lemma WithKeyCons<T>(h: T, t: seq<T>, key: T -> int, k: int)
    ensures WithKey([h] + t, key, k) == (if key(h) == k then [h] else []) + WithKey(t, key, k)
  {
    assert ([h] + t)[1..] == t;
  }

  lemma {:induction false} InsertByKeyWithKey<T>(x: T, s: seq<T>, key: T -> int, k: int)
    ensures WithKey(InsertByKey(x, s, key), key, k)
            == (if key(x) == k then [x] else []) + WithKey(s, key, k)
  {
    if s == [] {
      WithKeyCons(x, [], key, k);
    } else if key(x) <= key(s[0]) {
      WithKeyCons(x, s, key, k);
    } else {
      var t := InsertByKey(x, s[1..], key);
      InsertByKeyWithKey(x, s[1..], key, k);
      WithKeyCons(s[0], t, key, k);
      WithKeyCons(s[0], s[1..], key, k);
      assert [s[0]] + s[1..] == s;
      assert key(x) == k ==> key(s[0]) != k;
    }
  }

  /** The sort returns an ascending permutation of its input that keeps,
      for every key, the input order of the elements with that key. */
  lemma SortByKeyFacts<T>(s: seq<T>, key: T -> int)
    ensures SortedByKey(SortByKey(s, key), key)
    ensures multiset(SortByKey(s, key)) == multiset(s)
    ensures |SortByKey(s, key)| == |s|
    ensures forall k :: WithKey(SortByKey(s, key), key, k) == WithKey(s, key, k)
  {
    SortByKeyPerm(s, key);
    SortByKeyAscending(s, key);
    forall k ensures WithKey(SortByKey(s, key), key, k) == WithKey(s, key, k) {
      SortByKeyStable(s, key, k);
    }
    assert |SortByKey(s, key)| == |multiset(SortByKey(s, key))|;
  }

  lemma {:induction false} SortByKeyPerm<T>(s: seq<T>, key: T -> int)
    ensures multiset(SortByKey(s, key)) == multiset(s)
  {
    if s != [] {
      SortByKeyPerm(s[1..], key);
      InsertByKeyPerm(s[0], SortByKey(s[1..], key), key);
      assert s == [s[0]] + s[1..];
    }
  }

  lemma {:induction false} SortByKeyAscending<T>(s: seq<T>, key: T -> int)
    ensures SortedByKey(SortByKey(s, key), key)
  {
    if s != [] {
      SortByKeyAscending(s[1..], key);
      InsertByKeySorted(s[0], SortByKey(s[1..], key), key);
    }
  }

  lemma {:induction false} SortByKeyStable<T>(s: seq<T>, key: T -> int, k: int)
    ensures WithKey(SortByKey(s, key), key, k) == WithKey(s, key, k)
  {
    if s != [] {
      SortByKeyStable(s[1..], key, k);
      InsertByKeyWithKey(s[0], SortByKey(s[1..], key), key, k);
    }
  }

  /** Membership is unchanged by the sort. */
  lemma SortByKeyMembers<T>(s: seq<T>, key: T -> int, x: T)
    ensures x in SortByKey(s, key) <==> x in s
  {
    SortByKeyFacts(s, key);
    assert x in SortByKey(s, key) <==> x in multiset(SortByKey(s, key));
  }

  /** A sequence already in ascending key order is left as it is. */
  lemma {:induction false} SortByKeySorted<T>(s: seq<T>, key: T -> int)
    requires SortedByKey(s, key)
    ensures SortByKey(s, key) == s
  {
    if s != [] {
      assert SortedByKey(s[1..], key);
      SortByKeySorted(s[1..], key);
      if |s| > 1 { assert key(s[0]) <= key(s[1]); }
    }
  }

  // ---------------------------------------------------------------------
  // Ordered association lists: the JavaScript objects whose key order
  // matters (config layers, style dictionaries).
  // ---------------------------------------------------------------------

  function Keys<V>(entries: seq<(string, V)>): seq<string> {
    if entries == [] then [] else [entries[0].0] + Keys(entries[1..])
  }

  /** `Object.values(obj)`. */
  function Values<V>(entries: seq<(string, V)>): (r: seq<V>)
    ensures |r| == |entries|
    ensures forall i :: 0 <= i < |entries| ==> r[i] == entries[i].1
  {
    if entries == [] then [] else [entries[0].1] + Values(entries[1..])
  }

  /** `obj[key]` on an object with the given entries (the first entry wins). */
  function Lookup<V>(entries: seq<(string, V)>, key: string): (r: Option<V>)
    ensures r.Some? <==> key in Keys(entries)
  {
    if entries == [] then None
    else if entries[0].0 == key then Some(entries[0].1)
    else Lookup(entries[1..], key)
  }

  /** `{ ...obj, [key]: v }`: an existing key keeps its position. */
  function Put<V>(entries: seq<(string, V)>, key: string, v: V): (r: seq<(string, V)>)
    ensures Lookup(r, key) == Some(v)
    ensures forall k :: k != key ==> Lookup(r, k) == Lookup(entries, k)
    ensures key in Keys(entries) ==> Keys(r) == Keys(entries)
    ensures key !in Keys(entries) ==> Keys(r) == Keys(entries) + [key]
  {
    if entries == [] then [(key, v)]
    else if entries[0].0 == key then [(key, v)] + entries[1..]
    else [entries[0]] + Put(entries[1..], key, v)
  }

  /** `delete obj[key]`. */
  function Remove<V>(entries: seq<(string, V)>, key: string): (r: seq<(string, V)>)
    ensures Lookup(r, key) == None
    ensures forall k :: k != key ==> Lookup(r, k) == Lookup(entries, k)
    ensures Keys(r) == RemoveAll(Keys(entries), key)
  {
    if entries == [] then []
    else if entries[0].0 == key then Remove(entries[1..], key)
    else [entries[0]] + Remove(entries[1..], key)
  }

  /** `ks.filter(k => k !== key)`. */
  function RemoveAll(ks: seq<string>, key: string): (r: seq<string>)
    ensures key !in r
    ensures forall k :: k != key ==> (k in r <==> k in ks)
  {
    if ks == [] then []
    else if ks[0] == key then RemoveAll(ks[1..], key)
    else [ks[0]] + RemoveAll(ks[1..], key)
  }

  /** The lists `f` gives for each element of `es`, concatenated in order. */
  function Concat<E, T>(es: seq<E>, f: E -> seq<T>): seq<T>
    decreases |es|
  {
    if es == [] then [] else Concat(es[..|es| - 1], f) + f(es[|es| - 1])
  }

  lemma ConcatPrefixStep<E, T>(es: seq<E>, f: E -> seq<T>, k: nat)
    requires k < |es|
    ensures Concat(es[..k + 1], f) == Concat(es[..k], f) + f(es[k])
  {
    assert es[..k + 1][..k] == es[..k];
  }

  /** An item is in the concatenation iff one of the parts holds it. */
  lemma {:induction false} ConcatMembers<E, T>(es: seq<E>, f: E -> seq<T>, x: T)
    ensures x in Concat(es, f) <==> exists i :: 0 <= i < |es| && x in f(es[i])
    decreases |es|
  {
    if es != [] {
      var init := es[..|es| - 1];
      ConcatMembers(init, f, x);
      if exists i :: 0 <= i < |init| && x in f(init[i]) {
        var i :| 0 <= i < |init| && x in f(init[i]);
        assert init[i] == es[i];
      }
      if exists i :: 0 <= i < |es| && x in f(es[i]) {
        var i :| 0 <= i < |es| && x in f(es[i]);
        if i < |init| { assert init[i] == es[i]; }
      }
    }
  }
}

module Dedup {
  /** Keeps the first element for each key, skipping keys already in `seen`
      (the `if (!seen.has(key)) { seen.add(key); out.push(x) }` idiom). */
  function FirstPerKey<T>(s: seq<T>, key: T -> string, seen: set<string>): (r: seq<T>)
    ensures forall x :: x in r ==> x in s && key(x) !in seen
    ensures forall i, j :: 0 <= i < j < |r| ==> key(r[i]) != key(r[j])
  {
    if s == [] then []
    else if key(s[0]) in seen then FirstPerKey(s[1..], key, seen)
    else
      var t := FirstPerKey(s[1..], key, seen + {key(s[0])});
      assert forall x :: x in t ==> key(x) != key(s[0]);
      [s[0]] + t
  }

  /** Every key of the input not already seen is kept. */
  lemma {:induction false} FirstPerKeyCovers<T>(s: seq<T>, key: T -> string, seen: set<string>, x: T)
    requires x in s && key(x) !in seen
    ensures exists y :: y in FirstPerKey(s, key, seen) && key(y) == key(x)
  {
    if key(s[0]) in seen {
      FirstPerKeyCovers(s[1..], key, seen, x);
    } else if key(s[0]) == key(x) {
      assert FirstPerKey(s, key, seen)[0] == s[0];
    } else {
      FirstPerKeyCovers(s[1..], key, seen + {key(s[0])}, x);
      var y :| y in FirstPerKey(s[1..], key, seen + {key(s[0])}) && key(y) == key(x);
      assert y in FirstPerKey(s, key, seen);
    }
  }

  /** The element kept for a key is the first element of the input with it. */
  lemma {:induction false} FirstPerKeyKeepsFirst<T>(s: seq<T>, key: T -> string, seen: set<string>, i: int)
    requires 0 <= i < |s| && key(s[i]) !in seen
    requires forall j :: 0 <= j < i ==> key(s[j]) != key(s[i])
    ensures s[i] in FirstPerKey(s, key, seen)
  {
    if i > 0 {
      if key(s[0]) in seen {
        FirstPerKeyKeepsFirst(s[1..], key, seen, i - 1);
      } else {
        FirstPerKeyKeepsFirst(s[1..], key, seen + {key(s[0])}, i - 1);
      }
    }
  }

  predicate FirstWithKey<T>(s: seq<T>, key: T -> string, i: int)
    requires 0 <= i < |s|
  {
    forall j :: 0 <= j < i ==> key(s[j]) != key(s[i])
  }

  /** Nothing but first occurrences is kept. */
  lemma {:induction false} FirstPerKeyOnlyFirst<T>(s: seq<T>, key: T -> string, seen: set<string>, x: T)
    requires x in FirstPerKey(s, key, seen)
    ensures exists i :: 0 <= i < |s| && s[i] == x && FirstWithKey(s, key, i)
  {
    var seen' := if key(s[0]) in seen then seen else seen + {key(s[0])};
    if key(s[0]) !in seen && x == s[0] {
      assert FirstWithKey(s, key, 0);
    } else {
      assert x in FirstPerKey(s[1..], key, seen');
      FirstPerKeyOnlyFirst(s[1..], key, seen', x);
      var i :| 0 <= i < |s[1..]| && s[1..][i] == x && FirstWithKey(s[1..], key, i);
      assert s[i + 1] == x;
      assert key(x) !in seen';
      forall j | 0 <= j < i + 1 ensures key(s[j]) != key(s[i + 1]) {
        if j > 0 { assert s[j] == s[1..][j - 1]; }
      }
      assert FirstWithKey(s, key, i + 1);
    }
  }

  function KeySet<T>(s: seq<T>, key: T -> string): set<string> {
    set i | 0 <= i < |s| :: key(s[i])
  }

  lemma KeySetAppend<T>(a: seq<T>, b: seq<T>, key: T -> string)
    ensures KeySet(a + b, key) == KeySet(a, key) + KeySet(b, key)
  {
    var ab := a + b;
    forall k | k in KeySet(ab, key) ensures k in KeySet(a, key) + KeySet(b, key) {
      var i :| 0 <= i < |ab| && key(ab[i]) == k;
      if i >= |a| { assert ab[i] == b[i - |a|]; }
    }
    forall k | k in KeySet(a, key) + KeySet(b, key) ensures k in KeySet(ab, key) {
      if k in KeySet(a, key) {
        var i :| 0 <= i < |a| && key(a[i]) == k;
        assert ab[i] == a[i];
      } else {
        var i :| 0 <= i < |b| && key(b[i]) == k;
        assert ab[|a| + i] == b[i];
      }
    }
  }

  /** Deduplicating two lists in a row is deduplicating their concatenation. */
  lemma {:induction false} FirstPerKeyAppend<T>(a: seq<T>, b: seq<T>, key: T -> string, seen: set<string>)
    ensures FirstPerKey(a + b, key, seen) == FirstPerKey(a, key, seen) + FirstPerKey(b, key, seen + KeySet(a, key))
    decreases |a|
  {
    if a == [] {
      assert a + b == b;
      assert KeySet(a, key) == {};
      assert seen + KeySet(a, key) == seen;
    } else {
      var ab := a + b;
      assert ab[0] == a[0] && ab[1..] == a[1..] + b;
      KeySetHead(a, key);
      var k := key(a[0]);
      if k in seen {
        FirstPerKeyAppend(a[1..], b, key, seen);
        assert seen + KeySet(a, key) == seen + KeySet(a[1..], key);
      } else {
        FirstPerKeyAppend(a[1..], b, key, seen + {k});
        assert seen + {k} + KeySet(a[1..], key) == seen + KeySet(a, key);
        assert FirstPerKey(ab, key, seen) == [a[0]] + FirstPerKey(ab[1..], key, seen + {k});
      }
    }
  }

  lemma KeySetHead<T>(a: seq<T>, key: T -> string)
    requires a != []
    ensures KeySet(a, key) == {key(a[0])} + KeySet(a[1..], key)
  {
    KeySetAppend([a[0]], a[1..], key);
    assert a == [a[0]] + a[1..];
    assert KeySet([a[0]], key) == {key(a[0])};
  }

  /** One more element: it is kept iff its key is new. */
  lemma KeepFirstStep<T>(s: seq<T>, i: int, key: T -> string, seen: set<string>)
    requires 0 <= i < |s|
    ensures FirstPerKey(s[..i + 1], key, seen)
            == FirstPerKey(s[..i], key, seen) + (if key(s[i]) in seen + KeySet(s[..i], key) then [] else [s[i]])
    ensures KeySet(s[..i + 1], key) == KeySet(s[..i], key) + {key(s[i])}
  {
    FirstPerKeyAppend(s[..i], [s[i]], key, seen);
    KeySetAppend(s[..i], [s[i]], key);
    assert s[..i + 1] == s[..i] + [s[i]];
    assert KeySet([s[i]], key) == {key(s[i])};
  }

  /** `s.forEach(x => { if (!seen.has(key(x))) { seen.add(key(x)); out.push(x) } })`. */
  method KeepFirst<T>(out: seq<T>, seen: set<string>, s: seq<T>, key: T -> string)
    returns (out': seq<T>, seen': set<string>)
    ensures out' == out + FirstPerKey(s, key, seen)
    ensures seen' == seen + KeySet(s, key)
  {
    out', seen' := out, seen;
    for i := 0 to |s|
      invariant out' == out + FirstPerKey(s[..i], key, seen)
      invariant seen' == seen + KeySet(s[..i], key)
    {
      KeepFirstStep(s, i, key, seen);
      if key(s[i]) !in seen' {
        seen' := seen' + {key(s[i])};
        out' := out' + [s[i]];
      }
    }
    assert s[..|s|] == s;
  }

  predicate DistinctKeys<T>(c: seq<T>, key: T -> string) {
    forall i, j :: 0 <= i < j < |c| ==> key(c[i]) != key(c[j])
  }

  /** In a list whose keys are pairwise distinct, every element occurs once. */
  lemma {:induction false} OnceIfDistinct<T>(c: seq<T>, key: T -> string, a: int)
    requires DistinctKeys(c, key) && 0 <= a < |c|
    ensures multiset(c)[c[a]] == 1
  {
    if |c| > 0 {
      assert c == [c[0]] + c[1..];
      assert DistinctKeys(c[1..], key) by {
        forall i, j | 0 <= i < j < |c[1..]| ensures key(c[1..][i]) != key(c[1..][j]) {
          assert c[1..][i] == c[i + 1] && c[1..][j] == c[j + 1];
        }
      }
      if a == 0 {
        assert c[0] !in c[1..] by {
          forall k | 0 <= k < |c[1..]| ensures c[1..][k] != c[0] { assert c[1..][k] == c[k + 1]; }
        }
        assert multiset(c[1..])[c[0]] == 0;
      } else {
        OnceIfDistinct(c[1..], key, a - 1);
        assert c[1..][a - 1] == c[a];
        assert key(c[0]) != key(c[a]);
      }
    }
  }

  /** A permutation of a list with pairwise distinct keys has pairwise distinct keys. */
  lemma DistinctKeysPerm<T>(c: seq<T>, s: seq<T>, key: T -> string)
    requires DistinctKeys(c, key) && multiset(s) == multiset(c)
    ensures DistinctKeys(s, key)
  {
    forall i, j | 0 <= i < j < |s| ensures key(s[i]) != key(s[j]) {
      if key(s[i]) == key(s[j]) {
        assert s[i] in multiset(c) && s[j] in multiset(c);
        var a :| 0 <= a < |c| && c[a] == s[i];
        var b :| 0 <= b < |c| && c[b] == s[j];
        if a == b {
          assert multiset(s)[s[i]] >= 2 by {
            assert s == s[..i] + [s[i]] + s[i + 1..j] + [s[j]] + s[j + 1..];
          }
          OnceIfDistinct(c, key, a);
        }
      }
    }
  }
}

=== FILE: dialogue_preview.dfy ===
/** `DialoguePreviewNode` (app/src/Nodes/DialoguePreviewNode.jsx): steps
    through a list of dialogues, typing each one out a character per timer
    tick.  Ticks and clicks are explicit method calls. */
module DialoguePreview {
  import opened Common
  import opened Graph

  /** What the node shows when the index does not name a dialogue. */
  const Unconnected := DialogueItem("", "未接続", "---", "接続されていません", "#888", "#9c27b0")

  const DefaultTypingSpeed := 50

  /** `currentDialogue`: the dialogue at the index, or the placeholder. */
  function CurrentDialogue(dialogues: seq<DialogueItem>, index: nat): (d: DialogueItem)
    ensures index < |dialogues| ==> d == dialogues[index]
    ensures index >= |dialogues| ==> d.characterName == "---" && d.dialogueText == "接続されていません"
                                     && d.nameColor == "#888" && d.caption == "未接続"
                                     && d.headerColor == "#9c27b0"
  {
    if index < |dialogues| then dialogues[index] else Unconnected
  }

  /** `typingSpeed`: the node's own speed when defined, else 50 ms. */
  function TypingSpeed(speed: Option<int>): (ms: int)
    ensures speed.None? ==> ms == DefaultTypingSpeed
    ensures speed.Some? ==> ms == speed.value
  {
    speed.GetOr(DefaultTypingSpeed)
  }

  /** The index after advancing past the current dialogue. */
  function NextDialogue(index: nat, count: nat): (r: nat)
    ensures count > 0 ==> r < count
    ensures count > 0 && index + 1 < count ==> r == index + 1
    ensures count > 0 && index + 1 == count ==> r == 0
    ensures count == 0 ==> r == index
  {
    if count > 0 then (index + 1) % count else index
  }

  class Preview {
    /** `data.dialogues || []` */
    var dialogues: seq<DialogueItem>
    /** `currentIndex` */
    var index: nat
    /** `displayedText` */
    var displayed: string
    /** `isTyping`; the typing interval runs exactly while it is set. */
    var typing: bool
    /** The running interval's `fullText` and its counter `idx`. */
    var fullText: string
    var typed: nat

    /** While typing, the displayed text is the first `typed` characters
        of the text being typed, and some are still missing. */
    predicate Valid()
      reads this
    {
      typing ==> typed < |fullText| && displayed == fullText[..typed]
    }

    constructor (ds: seq<DialogueItem>)
      ensures Valid()
      ensures dialogues == ds && index == 0 && displayed == "" && !typing
    {
      dialogues := ds;
      index := 0;
      displayed := "";
      typing := false;
      fullText := "";
      typed := 0;
    }

    function Current(): DialogueItem
      reads this
    {
      CurrentDialogue(dialogues, index)
    }

    /** `startTyping`: the text is emptied and the old interval cleared;
        an empty dialogue text ends typing at once, any other starts an
        interval typing it from its first character. */
    method StartTyping()
      requires Valid()
      modifies this
      ensures Valid()
      ensures dialogues == old(dialogues) && index == old(index)
      ensures displayed == "" && fullText == Current().dialogueText && typed == 0
      ensures typing <==> Current().dialogueText != ""
    {
      fullText := Current().dialogueText;
      displayed := "";
      typing := true;
      typed := 0;
      if fullText == "" {
        typing := false;
        return;
      }
    }

    /** One interval tick: one more character is shown; after the last
        one the interval stops and typing ends. */
    method Tick()
      requires Valid() && typing
      modifies this
      ensures Valid()
      ensures dialogues == old(dialogues) && index == old(index) && fullText == old(fullText)
      ensures typed == old(typed) + 1 && displayed == fullText[..typed]
      ensures typing <==> typed < |fullText|
    {
      typed := typed + 1;
      displayed := fullText[..typed];
      if typed >= |fullText| {
        typing := false;
      }
    }

    /** New node data: the dialogue list is replaced, and typing starts
        over exactly when the current dialogue's text or the typing speed
        changed (the effect's dependency on `startTyping`). */
    method SetData(ds: seq<DialogueItem>, speedChanged: bool)
      requires Valid()
      modifies this
      ensures Valid()
      ensures dialogues == ds && index == old(index)
      ensures var restart := speedChanged || Current().dialogueText != old(Current().dialogueText);
              && (restart ==> displayed == "" && fullText == Current().dialogueText && typed == 0
                              && (typing <==> Current().dialogueText != ""))
              && (!restart ==> displayed == old(displayed) && typing == old(typing) && typed == old(typed))
    {
      var before := Current().dialogueText;
      dialogues := ds;
      if speedChanged || Current().dialogueText != before {
        StartTyping();
      }
    }

    /** `handleAdvance`, followed by the effect that restarts typing when
        the index changed.  A click inside a `.nodrag` element does
        nothing; while typing, the whole text is shown, typing stops and
        the index stays; otherwise the next dialogue, wrapping, is chosen
        when there are any. */
    method Advance(fromNoDrag: bool)
      requires Valid()
      modifies this
      ensures Valid()
      ensures dialogues == old(dialogues)
      ensures fromNoDrag ==>
                index == old(index) && displayed == old(displayed) && typing == old(typing)
      ensures !fromNoDrag && old(typing) ==>
                index == old(index) && displayed == Current().dialogueText && !typing
      ensures !fromNoDrag && !old(typing) ==> index == NextDialogue(old(index), |dialogues|)
      ensures !fromNoDrag && !old(typing) && index != old(index) ==>
                displayed == "" && fullText == Current().dialogueText && typed == 0
                && (typing <==> Current().dialogueText != "")
      ensures !fromNoDrag && !old(typing) && index == old(index) ==>
                displayed == old(displayed) && !typing
    {
      if fromNoDrag {
        return;
      }
      if typing {
        displayed := Current().dialogueText;
        typing := false;
      } else {
        var before := index;
        if |dialogues| > 0 {
          index := (index + 1) % |dialogues|;
        }
        if index != before {
          StartTyping();
        }
      }
    }
  }

  /** Starting to type a dialogue and letting the interval run until it
      stops shows exactly the dialogue's text. */
  method TypeOut(p: Preview)
    requires p.Valid()
    modifies p
    ensures p.displayed == p.Current().dialogueText && !p.typing
    ensures p.index == old(p.index) && p.dialogues == old(p.dialogues)
  {
    p.StartTyping();
    while p.typing
      invariant p.Valid() && p.fullText == p.Current().dialogueText
      invariant p.index == old(p.index) && p.dialogues == old(p.dialogues)
      invariant !p.typing ==> p.displayed == p.fullText
      decreases |p.fullText| - p.typed
    {
      p.Tick();
      if !p.typing {
        assert p.typed == |p.fullText|;
      }
    }
  }
}

=== FILE: editor_actions.dfy ===
/** The editor's direct graph edits: the connection rule that keeps every
    visual novel's nodes apart (`onConnect`), node deletion and cloning from
    the context menu, and the node size an uploaded image gives its node. */
module EditorActions {
  import opened Common
  import opened Graph
  import opened SyncMedia

  // -------------------------------------------------------------------
  // onConnect
  // -------------------------------------------------------------------

  /** `handles?.find(h => h.id === id)`. */
  function FindHandle(hs: seq<Handle>, id: string): (r: Option<Handle>)
    ensures r.Some? ==> r.value in hs && r.value.id == id
    ensures r.None? <==> forall h :: h in hs ==> h.id != id
  {
    if hs == [] then None
    else if hs[0].id == id then Some(hs[0])
    else FindHandle(hs[1..], id)
  }

  /** The parameters of a connection the user drew. */
  datatype Connection = Connection(source: string, target: string, sourceHandle: string, targetHandle: string)

  datatype ConnectOutcome =
      /** an endpoint node or handle is missing: nothing happens */
    | Ignored
      /** the two endpoints belong to different novels: an alert, no edge */
    | Rejected
      /** the edge is added; `nodes` carries the root id stamped on both endpoints */
    | Accepted(nodes: seq<Node>, rootId: string)

  /** Both endpoints of an accepted connection get the root id; nothing else changes. */
  function StampRoot(nodes: seq<Node>, a: string, b: string, root: string): (r: seq<Node>)
    ensures |r| == |nodes|
    ensures forall i :: 0 <= i < |nodes| ==>
      r[i].data.novelRootId == (if nodes[i].id == a || nodes[i].id == b then root else nodes[i].data.novelRootId)
      && r[i].(data := r[i].data.(novelRootId := nodes[i].data.novelRootId)) == nodes[i]
  {
    if nodes == [] then []
    else
      var n := nodes[0];
      [if n.id == a || n.id == b then n.(data := n.data.(novelRootId := root)) else n]
      + StampRoot(nodes[1..], a, b, root)
  }

  /** The data types a visual-novel export accepts on a first connection. */
  const NovelAcceptTypes := ["image", "video", "dialogue"]

  /** The decision of `onConnect` and the node update it makes. */
  function Connect(nodes: seq<Node>, c: Connection): ConnectOutcome {
    var s := FindNode(nodes, c.source);
    var t := FindNode(nodes, c.target);
    if s.None? || t.None? then Ignored
    else
      var sh := FindHandle(s.value.data.handles, c.sourceHandle);
      var th := FindHandle(t.value.data.handles, c.targetHandle);
      if sh.None? || th.None? then Ignored
      else
        var sr := s.value.data.novelRootId;
        var tr := t.value.data.novelRootId;
        var isRoot := s.value.kind == "visualNovelExport";
        var initial := isRoot && tr == "" && th.value.dataType in NovelAcceptTypes;
        var same := sr != "" && tr != "" && sr == tr;
        var propagate := (sr != "" && tr == "") || (sr == "" && tr != "");
        var unassigned := sr == "" && tr == "";
        if !unassigned && !initial && !same && !propagate then Rejected
        else
          var root := Or(sr, Or(tr, if isRoot then s.value.id else ""));
          Accepted(if root != "" then StampRoot(nodes, s.value.id, t.value.id, root) else nodes, root)
  }

  /** The connection rule: a connection is ignored exactly when an endpoint
      node or handle is missing; otherwise it is rejected exactly when both
      endpoints already belong to a novel and the two novels differ.  An
      accepted connection stamps the source's root, else the target's, else
      (from an export node) the export's own id, on both endpoints. */
  lemma ConnectRule(nodes: seq<Node>, c: Connection)
    ensures var s := FindNode(nodes, c.source);
      var t := FindNode(nodes, c.target);
      var missing := s.None? || t.None?
        || FindHandle(s.value.data.handles, c.sourceHandle).None?
        || FindHandle(t.value.data.handles, c.targetHandle).None?;
      && (Connect(nodes, c).Ignored? <==> missing)
      && (!missing ==>
            (Connect(nodes, c).Rejected? <==>
               s.value.data.novelRootId != "" && t.value.data.novelRootId != ""
               && s.value.data.novelRootId != t.value.data.novelRootId))
      && (Connect(nodes, c).Accepted? ==>
            var root := Connect(nodes, c).rootId;
            && root == Or(s.value.data.novelRootId, Or(t.value.data.novelRootId,
                          if s.value.kind == "visualNovelExport" then s.value.id else ""))
            && |Connect(nodes, c).nodes| == |nodes|
            && forall i :: 0 <= i < |nodes| ==>
                 var m := Connect(nodes, c).nodes[i];
                 && m.data.novelRootId == (if root != "" && (nodes[i].id == c.source || nodes[i].id == c.target)
                                           then root else nodes[i].data.novelRootId)
                 && m.(data := m.data.(novelRootId := nodes[i].data.novelRootId)) == nodes[i])
  {
    var s := FindNode(nodes, c.source);
    var t := FindNode(nodes, c.target);
    if Connect(nodes, c).Accepted? {
      var root := Connect(nodes, c).rootId;
      if root == "" {
        forall i | 0 <= i < |nodes|
          ensures nodes[i].(data := nodes[i].data.(novelRootId := nodes[i].data.novelRootId)) == nodes[i]
        {
        }
      }
    }
  }

  /** Two nodes of the same novel stay connectable, and a node outside any
      novel can join one. */
  lemma ConnectWithinNovel(nodes: seq<Node>, c: Connection)
    requires FindNode(nodes, c.source).Some? && FindNode(nodes, c.target).Some?
    requires FindHandle(FindNode(nodes, c.source).value.data.handles, c.sourceHandle).Some?
    requires FindHandle(FindNode(nodes, c.target).value.data.handles, c.targetHandle).Some?
    requires FindNode(nodes, c.source).value.data.novelRootId == FindNode(nodes, c.target).value.data.novelRootId
             || FindNode(nodes, c.source).value.data.novelRootId == ""
             || FindNode(nodes, c.target).value.data.novelRootId == ""
    ensures Connect(nodes, c).Accepted?
  {
    ConnectRule(nodes, c);
  }

  // -------------------------------------------------------------------
  // Delete and clone
  // -------------------------------------------------------------------

  /** `nds.filter(n => n.id !== id)`. */
  function WithoutNode(nodes: seq<Node>, id: string): (r: seq<Node>)
    ensures forall n :: n in r <==> n in nodes && n.id != id
    ensures |r| <= |nodes|
  {
    if nodes == [] then []
    else (if nodes[0].id != id then [nodes[0]] else []) + WithoutNode(nodes[1..], id)
  }

  /** `eds.filter(e => e.source !== id && e.target !== id)`. */
  function WithoutEdgesOf(edges: seq<Edge>, id: string): (r: seq<Edge>)
    ensures forall e :: e in r <==> e in edges && e.source != id && e.target != id
  {
    if edges == [] then []
    else (if edges[0].source != id && edges[0].target != id then [edges[0]] else []) + WithoutEdgesOf(edges[1..], id)
  }

  /** Every node carrying root id `root` loses it; nothing else changes. */
  function ClearRoot(nodes: seq<Node>, root: string): (r: seq<Node>)
    ensures |r| == |nodes|
    ensures forall i :: 0 <= i < |nodes| ==>
      r[i].data.novelRootId == (if nodes[i].data.novelRootId == root then "" else nodes[i].data.novelRootId)
      && r[i].(data := r[i].data.(novelRootId := nodes[i].data.novelRootId)) == nodes[i]
  {
    if nodes == [] then []
    else
      var n := nodes[0];
      [if n.data.novelRootId == root then n.(data := n.data.(novelRootId := "")) else n] + ClearRoot(nodes[1..], root)
  }

  /** The node list `deleteNodeFromMenu` hands to `syncMediaNodes`. */
  function AfterDelete(nodes: seq<Node>, id: string): seq<Node> {
    var del := FindNode(nodes, id);
    var kept := WithoutNode(nodes, id);
    if del.Some? && del.value.kind == "visualNovelExport" then ClearRoot(kept, Or(del.value.data.novelRootId, del.value.id))
    else kept
  }

  /** Deleting removes every node with the id and keeps the others in
      order; deleting a visual-novel export also clears its root id (its
      own `novelRootId`, else its id) from every remaining node, changing
      nothing else. */
  lemma DeleteFacts(nodes: seq<Node>, id: string)
    requires id != ""
    ensures id !in NodeIds(AfterDelete(nodes, id))
    ensures var del := FindNode(nodes, id);
      !(del.Some? && del.value.kind == "visualNovelExport") ==> AfterDelete(nodes, id) == WithoutNode(nodes, id)
    ensures var del := FindNode(nodes, id);
      del.Some? && del.value.kind == "visualNovelExport" ==>
        var root := Or(del.value.data.novelRootId, del.value.id);
        && |AfterDelete(nodes, id)| == |WithoutNode(nodes, id)|
        && forall i :: 0 <= i < |AfterDelete(nodes, id)| ==>
             var m := AfterDelete(nodes, id)[i];
             var k := WithoutNode(nodes, id)[i];
             && m.data.novelRootId != root
             && m.(data := m.data.(novelRootId := k.data.novelRootId)) == k
             && (k.data.novelRootId != root ==> m == k)
  {
    var del := FindNode(nodes, id);
    var kept := WithoutNode(nodes, id);
    if del.Some? && del.value.kind == "visualNovelExport" {
      var r := AfterDelete(nodes, id);
      var root := Or(del.value.data.novelRootId, del.value.id);
      assert root != "" by {
        assert del.value.id == id;
        assert del.value in nodes;
      }
      forall x | x in r ensures x.id != id {
        var i :| 0 <= i < |r| && r[i] == x;
        assert kept[i] in kept;
      }
      forall i | 0 <= i < |r| ensures kept[i].data.novelRootId != root ==> r[i] == kept[i] {
        if kept[i].data.novelRootId != root {
          assert r[i].(data := r[i].data.(novelRootId := kept[i].data.novelRootId)) == kept[i];
        }
      }
    }
  }

  /** `deleteNodeFromMenu`; `menuNode` is the context menu's node id, ""
      when the menu is closed.  The node goes, so do its edges, and the
      pass runs on the remaining nodes with the edges as they were before. */
  method DeleteFromMenu(g: Graph, menuNode: string, ghost fuel: nat) returns (nodes: seq<Node>, edges: seq<Edge>)
    requires menuNode != "" ==> ChainsEnd(Graph(AfterDelete(g.nodes, menuNode), g.edges), fuel)
    ensures menuNode == "" ==> nodes == g.nodes && edges == g.edges
    ensures menuNode != "" ==> edges == WithoutEdgesOf(g.edges, menuNode)
    ensures menuNode != "" ==>
      var h := Graph(AfterDelete(g.nodes, menuNode), g.edges);
      |nodes| == |h.nodes| && forall i :: 0 <= i < |h.nodes| ==> nodes[i] == Synced(h, h.nodes[i], fuel)
  {
    if menuNode == "" {
      return g.nodes, g.edges;
    }
    var changed;
    nodes, changed := SyncMediaNodes(Graph(AfterDelete(g.nodes, menuNode), g.edges), fuel);
    edges := WithoutEdgesOf(g.edges, menuNode);
  }

  /** `deleteEdgeFromMenu`: every edge with the menu's edge id goes. */
  function DeleteEdgeFromMenu(edges: seq<Edge>, menuEdge: string): (r: seq<Edge>)
    ensures menuEdge == "" ==> r == edges
    ensures menuEdge != "" ==> forall e :: e in r <==> e in edges && e.id != menuEdge
    ensures |r| <= |edges|
  {
    if menuEdge == "" || edges == [] then edges
    else (if edges[0].id != menuEdge then [edges[0]] else []) + DeleteEdgeFromMenu(edges[1..], menuEdge)
  }

  /** `{...original, id: newId, position: original.position + (50, 50), data: {...original.data}}`. */
  function CloneOf(n: Node, newId: string): Node {
    n.(id := newId, pos := Pos(n.pos.x + 50, n.pos.y + 50))
  }

  /** `cloneNodeFromMenu`: `newId` stands for `${type}_${Date.now()}`. */
  function CloneFromMenu(nodes: seq<Node>, menuNode: string, newId: string): seq<Node> {
    if menuNode == "" then nodes
    else match FindNode(nodes, menuNode)
      case None => nodes
      case Some(n) => nodes + [CloneOf(n, newId)]
  }

  /** A clone is appended after the untouched nodes: the copy has the new
      id, the same kind, size and data, and sits 50 to the right and below. */
  lemma CloneFacts(nodes: seq<Node>, menuNode: string, newId: string)
    ensures var r := CloneFromMenu(nodes, menuNode, newId);
      && (menuNode == "" || FindNode(nodes, menuNode).None? ==> r == nodes)
      && (menuNode != "" && FindNode(nodes, menuNode).Some? ==>
            var n := FindNode(nodes, menuNode).value;
            && |r| == |nodes| + 1 && r[..|nodes|] == nodes
            && r[|nodes|].id == newId && r[|nodes|].kind == n.kind && r[|nodes|].data == n.data
            && r[|nodes|].size == n.size && r[|nodes|].pos == Pos(n.pos.x + 50, n.pos.y + 50)
            && n.id == menuNode && n in nodes)
  {
  }

  // -------------------------------------------------------------------
  // Image upload
  // -------------------------------------------------------------------

  const MaxWidth := 300
  const MinWidth := 120
  const HeaderFooterHeight := 60

  /** The node size for a decoded image of w × h pixels: the width clamped
      into [120, 300], the height scaled with it, plus 60 for the node's
      header and footer. */
  function UploadSize(w: int, h: int): (r: Size)
    requires w > 0 && h >= 0
    ensures MinWidth <= r.width <= MaxWidth
    ensures MinWidth <= w <= MaxWidth ==> r == Size(w, h + HeaderFooterHeight)
    ensures w != r.width ==>
      var body := r.height - HeaderFooterHeight;
      2 * w * body <= 2 * h * r.width + w < 2 * w * body + 2 * w
  {
    var (w1, h1) := if w > MaxWidth then (MaxWidth, RoundDiv(h * MaxWidth, w)) else (w, h);
    var (w2, h2) := if w1 < MinWidth then (MinWidth, RoundDiv(h1 * MinWidth, w1)) else (w1, h1);
    Size(w2, h2 + HeaderFooterHeight)
  }

  datatype UploadedFile = UploadedFile(name: string, size: int)

  /** The node update of `handleImageUpload`; `savedPath` and `url` are
      what the file save and the object URL gave. */
  function Uploaded(n: Node, savedPath: string, url: string, file: UploadedFile, w: int, h: int): Node
    requires w > 0 && h >= 0
  {
    if n.kind == "layerImage" then n.(data := n.data.(layerImagePath := savedPath, imageUrl := url))
    else n.(size := Some(UploadSize(w, h)),
            data := n.data.(fileName := file.name, fileSize := file.size, imagePath := savedPath,
                            imageUrl := url, imageWidth := w, imageHeight := h))
  }

  function ApplyUpload(nodes: seq<Node>, id: string, savedPath: string, url: string,
                       file: UploadedFile, w: int, h: int): (r: seq<Node>)
    requires w > 0 && h >= 0
    ensures |r| == |nodes|
    ensures forall i :: 0 <= i < |nodes| ==> r[i] == (if nodes[i].id == id then Uploaded(nodes[i], savedPath, url, file, w, h) else nodes[i])
  {
    if nodes == [] then []
    else [if nodes[0].id == id then Uploaded(nodes[0], savedPath, url, file, w, h) else nodes[0]]
         + ApplyUpload(nodes[1..], id, savedPath, url, file, w, h)
  }

  /** Only the uploading node changes.  A layer image node gets only its
      path and URL; any other node also gets its file fields and the size
      computed from the image. */
  lemma UploadFacts(nodes: seq<Node>, id: string, savedPath: string, url: string, file: UploadedFile, w: int, h: int, i: int)
    requires w > 0 && h >= 0 && 0 <= i < |nodes|
    ensures var m := ApplyUpload(nodes, id, savedPath, url, file, w, h)[i];
      && m.id == nodes[i].id && m.kind == nodes[i].kind && m.pos == nodes[i].pos
      && (nodes[i].id != id ==> m == nodes[i])
      && (nodes[i].id == id && nodes[i].kind == "layerImage" ==>
            m.size == nodes[i].size && m.data.layerImagePath == savedPath && m.data.imageUrl == url
            && m.data.(layerImagePath := nodes[i].data.layerImagePath, imageUrl := nodes[i].data.imageUrl) == nodes[i].data)
      && (nodes[i].id == id && nodes[i].kind != "layerImage" ==>
            m.size == Some(UploadSize(w, h)) && m.data.imagePath == savedPath && m.data.imageUrl == url
            && m.data.imageWidth == w && m.data.imageHeight == h)
  {
  }
}

=== FILE: editor_effects.dfy ===
/** The two effects the editor runs whenever its nodes or edges change: one
    pushes each layer image node's upstream visibility into its `output`,
    the other recomputes what every layer preview shows from the on/off
    controllers and layer nodes upstream of it.  Each maps over the node
    list and hands the new list back only when some node changed. */
module EditorEffects {
  import opened Common
  import opened Graph
  import opened Walk
  import UpstreamLayers

  // -------------------------------------------------------------------
  // Layer image visibility
  // -------------------------------------------------------------------

  /** What one incoming edge says about the visibility of layer `key`:
      a controller's output entry for that layer, or any other source's
      published output; None when the edge says nothing. */
  function EdgeVisibility(nodes: seq<Node>, e: Edge, key: string): Option<bool> {
    match FindNode(nodes, e.source)
    case None => None
    case Some(src) =>
      if src.kind == "layerOnOff" then
        match FindLayer(src.data.outputLayers.GetOr([]), key)
        case Some(l) => Some(l.visible != Some(false))
        case None => None
      else if src.data.output.Some? then Some(src.data.output.value.visible)
      else None
  }

  /** The `incomingEdges.forEach` fold: every edge that says something
      overwrites the value so far. */
  function LastVisible(nodes: seq<Node>, es: seq<Edge>, key: string, v: bool): bool
    decreases |es|
  {
    if es == [] then v
    else LastVisible(nodes, es[1..], key, EdgeVisibility(nodes, es[0], key).GetOr(v))
  }

  /** Visibility defaults to the starting value and the last edge that says
      something wins; edges that say nothing (a controller without an entry
      for the layer, a source without output) leave it as it was. */
  lemma {:induction false} LastVisibleWins(nodes: seq<Node>, es: seq<Edge>, key: string, v: bool)
    ensures (forall j :: 0 <= j < |es| ==> EdgeVisibility(nodes, es[j], key).None?) ==>
      LastVisible(nodes, es, key, v) == v
    ensures forall j :: (0 <= j < |es| && EdgeVisibility(nodes, es[j], key).Some?
                         && (forall k :: j < k < |es| ==> EdgeVisibility(nodes, es[k], key).None?)) ==>
      LastVisible(nodes, es, key, v) == EdgeVisibility(nodes, es[j], key).value
    decreases |es|
  {
    if es != [] {
      var v1 := EdgeVisibility(nodes, es[0], key).GetOr(v);
      LastVisibleWins(nodes, es[1..], key, v1);
      forall j | 0 <= j < |es| && EdgeVisibility(nodes, es[j], key).Some?
        && (forall k :: j < k < |es| ==> EdgeVisibility(nodes, es[k], key).None?)
        ensures LastVisible(nodes, es, key, v) == EdgeVisibility(nodes, es[j], key).value
      {
        if j == 0 {
          forall k | 0 <= k < |es[1..]| ensures EdgeVisibility(nodes, es[1..][k], key).None? {
            assert es[1..][k] == es[k + 1];
          }
        } else {
          assert es[1..][j - 1] == es[j];
          forall k | j - 1 < k < |es[1..]| ensures EdgeVisibility(nodes, es[1..][k], key).None? {
            assert es[1..][k] == es[k + 1];
          }
        }
      }
      if forall j :: 0 <= j < |es| ==> EdgeVisibility(nodes, es[j], key).None? {
        forall k | 0 <= k < |es[1..]| ensures EdgeVisibility(nodes, es[1..][k], key).None? {
          assert es[1..][k] == es[k + 1];
        }
      }
    }
  }

  /** The visibility a layer image node receives from everything feeding it. */
  function UpstreamVisible(nodes: seq<Node>, edges: seq<Edge>, n: Node): bool {
    LastVisible(nodes, Incoming(edges, n.id), n.data.layer, true)
  }

  /** The `incomingEdges.forEach` loop itself. */
  method UpstreamVisibility(nodes: seq<Node>, edges: seq<Edge>, n: Node) returns (visible: bool)
    ensures visible == UpstreamVisible(nodes, edges, n)
  {
    var es := Incoming(edges, n.id);
    visible := true;
    for i := 0 to |es|
      invariant LastVisible(nodes, es[i..], n.data.layer, visible) == UpstreamVisible(nodes, edges, n)
    {
      assert es[i..][1..] == es[i + 1..];
      var seen := EdgeVisibility(nodes, es[i], n.data.layer);
      if seen.Some? {
        visible := seen.value;
      }
    }
    assert es[|es|..] == [];
  }

  /** The new data of a layer image node whose output must change, or None. */
  function ImageSync(nodes: seq<Node>, edges: seq<Edge>, n: Node): Option<NodeData> {
    if n.kind != "layerImage" then None
    else
      var v := UpstreamVisible(nodes, edges, n);
      if n.data.output.None? || n.data.output.value.visible != v then
        Some(n.data.(output := Some(Mirror(n.data, v, v))))
      else None
  }

  predicate HasController(nodes: seq<Node>) {
    exists n :: n in nodes && n.kind == "layerOnOff"
  }

  /** Only layer image nodes change, and only when their output is missing
      or shows the wrong visibility; the new output mirrors the node's data
      with both visibility flags set and nothing else of the node changes.
      A node so rewritten needs no further rewrite against the same graph. */
  lemma ImageSyncFacts(nodes: seq<Node>, edges: seq<Edge>, n: Node)
    ensures var d := ImageSync(nodes, edges, n);
      var v := UpstreamVisible(nodes, edges, n);
      && (d.Some? <==> n.kind == "layerImage" && (n.data.output.None? || n.data.output.value.visible != v))
      && (d.Some? ==> d.value.output == Some(Mirror(n.data, v, v)) && d.value.(output := n.data.output) == n.data)
      && ImageSync(nodes, edges, Applied(n, d)).None?
  {
    var d := ImageSync(nodes, edges, n);
    if d.Some? {
      assert UpstreamVisible(nodes, edges, Applied(n, d)) == UpstreamVisible(nodes, edges, n);
    }
  }

  function ImageRewrite(nodes: seq<Node>, edges: seq<Edge>): Node -> Option<NodeData> {
    n => ImageSync(nodes, edges, n)
  }

  /** The `nodes.map` callback for one node, as the source runs it. */
  method ImageUpdate(nodes: seq<Node>, edges: seq<Edge>, n: Node) returns (d: Option<NodeData>)
    ensures d == ImageRewrite(nodes, edges)(n)
  {
    d := None;
    if n.kind == "layerImage" {
      var v := UpstreamVisibility(nodes, edges, n);
      if n.data.output.None? || n.data.output.value.visible != v {
        d := Some(n.data.(output := Some(Mirror(n.data, v, v))));
      }
    }
  }

  /** The whole effect: nothing happens without a controller in the graph;
      otherwise every layer image node is brought up to date and the new
      list is handed back only when one of them changed. */
  method ImageVisibilityEffect(nodes: seq<Node>, edges: seq<Edge>) returns (result: seq<Node>, changed: bool)
    ensures !HasController(nodes) ==> result == nodes && !changed
    ensures HasController(nodes) ==>
      result == RewriteEach(nodes, ImageRewrite(nodes, edges)) && (changed <==> AnyRewrite(nodes, ImageRewrite(nodes, edges)))
    ensures !changed ==> result == nodes
  {
    if !exists n :: n in nodes && n.kind == "layerOnOff" {
      return nodes, false;
    }
    var updated: seq<Node> := [];
    changed := false;
    for i := 0 to |nodes|
      invariant RewrittenSoFar(nodes, ImageRewrite(nodes, edges), i, updated, changed)
    {
      var d := ImageUpdate(nodes, edges, nodes[i]);
      RewriteStep(nodes, ImageRewrite(nodes, edges), i, updated, changed, d);
      updated := updated + [Applied(nodes[i], d)];
      changed := changed || d.Some?;
    }
    RewriteDone(nodes, ImageRewrite(nodes, edges), updated, changed);
    result := if changed then updated else nodes;
  }

  // -------------------------------------------------------------------
  // Layer preview contents
  // -------------------------------------------------------------------

  /** The walk's accumulator: whether a controller was entered, the merged
      on/off map, and the layer nodes entered, in walk order. */
  datatype PreviewAcc = PreviewAcc(found: bool, states: map<string, bool>, collected: seq<Node>)

  /** `layerStates[layer.id] = layer.visible !== false` for each output
      layer with an id, in order. */
  function OutputVisibility(outs: seq<Layer>, m: map<string, bool>): (r: map<string, bool>)
    ensures forall k :: k in r <==> k in m || (k != "" && exists l :: l in outs && l.id == k)
    ensures forall k :: k in m && (k == "" || forall l :: l in outs ==> l.id != k) ==> r[k] == m[k]
    decreases |outs|
  {
    if outs == [] then m
    else OutputVisibility(outs[1..], if outs[0].id != "" then m[outs[0].id := outs[0].visible != Some(false)] else m)
  }

  /** Each id takes the visibility of the last output layer carrying it. */
  lemma {:induction false} OutputVisibilityLastWins(outs: seq<Layer>, m: map<string, bool>, j: int)
    requires 0 <= j < |outs| && outs[j].id != ""
    requires forall j' :: j < j' < |outs| ==> outs[j'].id != outs[j].id
    ensures OutputVisibility(outs, m)[outs[j].id] == (outs[j].visible != Some(false))
    decreases |outs|
  {
    var m1 := if outs[0].id != "" then m[outs[0].id := outs[0].visible != Some(false)] else m;
    if j == 0 {
      assert forall l :: l in outs[1..] ==> l.id != outs[0].id by {
        forall l | l in outs[1..] ensures l.id != outs[0].id {
          var k :| 0 <= k < |outs[1..]| && outs[1..][k] == l;
          assert outs[1..][k] == outs[k + 1];
        }
      }
    } else {
      assert outs[1..][j - 1] == outs[j];
      forall j' | j - 1 < j' < |outs[1..]| ensures outs[1..][j'].id != outs[1..][j - 1].id {
        assert outs[1..][j'] == outs[j' + 1];
      }
      OutputVisibilityLastWins(outs[1..], m1, j - 1);
    }
  }

  /** What a controller contributes: `Object.assign` of its `layerStates`
      when it has them, otherwise the visibility of its output layers. */
  function MergeStates(m: map<string, bool>, n: Node): map<string, bool> {
    if n.data.layerStates.Some? then m + n.data.layerStates.value
    else if n.data.outputLayers.Some? then OutputVisibility(n.data.outputLayers.value, m)
    else m
  }

  function PreviewStep(n: Node, a: PreviewAcc): PreviewAcc {
    var a1 := if n.kind == "layerOnOff" then PreviewAcc(true, MergeStates(a.states, n), a.collected) else a;
    if UpstreamLayers.IsLayerNode(n) then a1.(collected := a1.collected + [n]) else a1
  }

  function NoStop(a: PreviewAcc): bool { false }

  /** `n.data?.layerId || n.data?.layer`. */
  function LayerKey(n: Node): string { Or(n.data.layerId, n.data.layer) }

  /** A producer is shown when it names a layer whose state is not exactly false. */
  predicate Shown(states: map<string, bool>, key: string) {
    key != "" && !(key in states && !states[key])
  }

  /** The record a shown producer becomes. */
  function PreviewRecord(n: Node, key: string, cfg: Option<EditorConfig>): (r: Layer)
    ensures r.id == key && r.nodeId == n.id && r.sourceNodeId == n.id && r.visible == Some(true)
  {
    var def := SlotDef(cfg, key);
    MkLayer(key, Or(def.caption, Or(n.data.caption, key)), if n.kind == "layerImage" then "image" else "text",
            OrZ(def.z, n.data.zIndex), n.id, PreviewPicked(n.data, def))
      .(source := "chain", sourceNodeId := n.id, visible := Some(true))
  }

  /** The `map(...).filter(l => l !== null)` over the collected producers. */
  function PreviewRecords(c: seq<Node>, states: map<string, bool>, cfg: Option<EditorConfig>): (r: seq<Layer>)
    ensures forall l :: l in r <==> exists n :: n in c && Shown(states, LayerKey(n)) && l == PreviewRecord(n, LayerKey(n), cfg)
    ensures (forall n :: n in c ==> Shown(states, LayerKey(n))) ==> |r| == |c|
  {
    if c == [] then []
    else
      var n := c[0];
      (if Shown(states, LayerKey(n)) then [PreviewRecord(n, LayerKey(n), cfg)] else [])
      + PreviewRecords(c[1..], states, cfg)
  }

  datatype Preview = Preview(states: map<string, bool>, layers: seq<Layer>)

  /** The walk over every edge into the preview node, one `visited` set for all. */
  function PreviewWalk(g: Graph, id: string): WalkState<PreviewAcc> {
    DfsEdges(g, Incoming(g.edges, id), WalkState({}, PreviewAcc(false, map[], [])), PreviewStep, NoStop)
  }

  /** The merged states and the shown layers: none without a controller. */
  function PreviewOf(g: Graph, id: string, cfg: Option<EditorConfig>): Preview {
    var a := PreviewWalk(g, id).acc;
    Preview(a.states, if !a.found then [] else SortByKey(PreviewRecords(a.collected, a.states, cfg), ZKey))
  }

  /** The new data of a layer preview node whose states or layers differ, or None. */
  function PreviewSync(g: Graph, cfg: Option<EditorConfig>, n: Node): Option<NodeData> {
    if n.kind != "layerPreview" then None
    else
      var p := PreviewOf(g, n.id, cfg);
      if n.data.inputStates.GetOr(map[]) != p.states || n.data.layers.GetOr([]) != p.layers then
        Some(n.data.(inputStates := Some(p.states), layers := Some(p.layers), layerStates := Some(p.states)))
      else None
  }

  /** The walk and the record building, as the source runs them. */
  method PreviewFor(g: Graph, id: string, cfg: Option<EditorConfig>) returns (p: Preview)
    ensures p == PreviewOf(g, id, cfg)
  {
    var w := new Walker(PreviewAcc(false, map[], []));
    w.ExploreAll(g, Incoming(g.edges, id), PreviewStep, NoStop);
    var a := w.acc;
    if !a.found {
      return Preview(a.states, []);
    }
    p := Preview(a.states, SortByKey(PreviewRecords(a.collected, a.states, cfg), ZKey));
  }

  function PreviewRewrite(g: Graph, cfg: Option<EditorConfig>): Node -> Option<NodeData> {
    n => PreviewSync(g, cfg, n)
  }

  /** The `nodes.map` callback for one node, as the source runs it. */
  method PreviewUpdate(g: Graph, cfg: Option<EditorConfig>, n: Node) returns (d: Option<NodeData>)
    ensures d == PreviewRewrite(g, cfg)(n)
  {
    d := None;
    if n.kind == "layerPreview" {
      var p := PreviewFor(g, n.id, cfg);
      if n.data.inputStates.GetOr(map[]) != p.states || n.data.layers.GetOr([]) != p.layers {
        d := Some(n.data.(inputStates := Some(p.states), layers := Some(p.layers), layerStates := Some(p.states)));
      }
    }
  }

  /** The whole effect over the node list: the new list is handed back
      only when some preview changed. */
  method PreviewEffect(nodes: seq<Node>, edges: seq<Edge>, cfg: Option<EditorConfig>) returns (result: seq<Node>, changed: bool)
    ensures result == RewriteEach(nodes, PreviewRewrite(Graph(nodes, edges), cfg))
    ensures changed <==> AnyRewrite(nodes, PreviewRewrite(Graph(nodes, edges), cfg))
    ensures !changed ==> result == nodes
  {
    var g := Graph(nodes, edges);
    var updated: seq<Node> := [];
    changed := false;
    for i := 0 to |nodes|
      invariant RewrittenSoFar(nodes, PreviewRewrite(g, cfg), i, updated, changed)
    {
      var d := PreviewUpdate(g, cfg, nodes[i]);
      RewriteStep(nodes, PreviewRewrite(g, cfg), i, updated, changed, d);
      updated := updated + [Applied(nodes[i], d)];
      changed := changed || d.Some?;
    }
    RewriteDone(nodes, PreviewRewrite(g, cfg), updated, changed);
    result := if changed then updated else nodes;
  }

  // -------------------------------------------------------------------
  // What the preview walk gathers.
  // -------------------------------------------------------------------

  /** The walk's invariant: `found` says whether a controller was entered,
      the map stays empty until then, and the collected nodes are exactly
      the layer nodes entered. */
  ghost predicate PreviewInv(g: Graph, w: WalkState<PreviewAcc>) {
    && (w.acc.found <==> exists v :: v in w.visited && UpstreamLayers.IsControllerAt(g, v))
    && (!w.acc.found ==> w.acc.states == map[])
    && (forall m :: m in w.acc.collected ==> m in g.nodes && UpstreamLayers.IsLayerNode(m) && m.id in w.visited)
    && (forall v :: v in w.visited && FindNode(g.nodes, v).Some? && UpstreamLayers.IsLayerNode(FindNode(g.nodes, v).value)
          ==> FindNode(g.nodes, v).value in w.acc.collected)
  }

  lemma PreviewStepKeeps(g: Graph, id: string, n: Node, w: WalkState<PreviewAcc>)
    requires PreviewInv(g, w) && id !in w.visited && FindNode(g.nodes, id) == Some(n)
    ensures PreviewInv(g, WalkState(w.visited + {id}, PreviewStep(n, w.acc)))
  {
    var w1 := WalkState(w.visited + {id}, PreviewStep(n, w.acc));
    if n.kind == "layerOnOff" {
      assert UpstreamLayers.IsControllerAt(g, id);
    }
    assert forall m :: m in w.acc.collected ==> m in w1.acc.collected;
  }

  lemma {:induction false} DfsPreview(g: Graph, id: string, w: WalkState<PreviewAcc>)
    requires PreviewInv(g, w)
    ensures PreviewInv(g, Dfs(g, id, w, PreviewStep, NoStop))
    decreases |NodeIds(g.nodes) - w.visited|, 0
  {
    if id !in w.visited {
      match FindNode(g.nodes, id)
      case None =>
        assert !UpstreamLayers.IsControllerAt(g, id);
      case Some(n) =>
        SetCardStep(NodeIds(g.nodes), w.visited, id);
        PreviewStepKeeps(g, id, n, w);
        DfsEdgesPreview(g, Incoming(g.edges, id), WalkState(w.visited + {id}, PreviewStep(n, w.acc)));
    }
  }

  lemma {:induction false} DfsEdgesPreview(g: Graph, es: seq<Edge>, w: WalkState<PreviewAcc>)
    requires PreviewInv(g, w)
    ensures PreviewInv(g, DfsEdges(g, es, w, PreviewStep, NoStop))
    decreases |NodeIds(g.nodes) - w.visited|, 1, |es|
  {
    if es != [] {
      var w1 := Dfs(g, es[0].source, w, PreviewStep, NoStop);
      DfsPreview(g, es[0].source, w);
      SubsetCard(NodeIds(g.nodes), w.visited, w1.visited);
      DfsEdgesPreview(g, es[1..], w1);
    }
  }

  /** The walk enters only nodes upstream of the preview, and enters every
      node upstream of it other than the preview itself. */
  lemma PreviewWalkReach(g: Graph, id: string)
    requires FindNode(g.nodes, id).Some?
    ensures forall v :: v in PreviewWalk(g, id).visited ==> Upstream(g, id, v)
    ensures forall x :: Upstream(g, id, x) && x != id ==> x in PreviewWalk(g, id).visited
  {
    var es := Incoming(g.edges, id);
    var w0 := WalkState({}, PreviewAcc(false, map[], []));
    UpstreamRefl(g, id);
    forall e | e in es ensures Upstream(g, id, e.source) {
      UpstreamStep(g, id, id, e);
    }
    DfsEdgesSound(g, id, es, w0, PreviewStep, NoStop);
    var r := PreviewWalk(g, id);
    DfsEdgesCloses(g, es, w0, PreviewStep, NoStop, {});
    forall x | Upstream(g, id, x) && x != id ensures x in r.visited {
      var p :| UpPath(g, p) && p[0] == id && p[|p| - 1] == x;
      assert UpStep(g, p[0], p[1]);
      var e :| e in g.edges && e.target == p[0] && e.source == p[1];
      assert e in es;
      UpPathTail(g, p);
      ClosedHoldsPath(g, r.visited, p[1..]);
      assert p[1..][|p[1..]| - 1] == x;
    }
  }

  /** What the walk gathers, in the graph's terms: it finds a controller
      exactly when one lies upstream, and it collects exactly the layer
      nodes upstream of the preview. */
  lemma PreviewWalkFacts(g: Graph, id: string)
    requires FindNode(g.nodes, id).Some? && FindNode(g.nodes, id).value.kind == "layerPreview"
    ensures var a := PreviewWalk(g, id).acc;
      && (a.found <==> exists x :: Upstream(g, id, x) && UpstreamLayers.IsControllerAt(g, x))
      && (!a.found ==> a.states == map[])
      && (forall m :: m in a.collected ==> m in g.nodes && UpstreamLayers.IsLayerNode(m) && Upstream(g, id, m.id))
      && (forall x :: Upstream(g, id, x) && FindNode(g.nodes, x).Some? && UpstreamLayers.IsLayerNode(FindNode(g.nodes, x).value)
            ==> FindNode(g.nodes, x).value in a.collected)
  {
    var w0 := WalkState({}, PreviewAcc(false, map[], []));
    DfsEdgesPreview(g, Incoming(g.edges, id), w0);
    PreviewWalkReach(g, id);
    var r := PreviewWalk(g, id);
    if exists x :: Upstream(g, id, x) && UpstreamLayers.IsControllerAt(g, x) {
      var x :| Upstream(g, id, x) && UpstreamLayers.IsControllerAt(g, x);
      assert x != id;
      assert x in r.visited;
    }
  }

  /** What a preview shows:
      - nothing, and an empty map, when no controller lies upstream;
      - otherwise one record per layer node upstream whose layer is shown
        (two producers of the same layer id give two records), and nothing
        else, sorted by z. */
  lemma PreviewFacts(g: Graph, id: string, cfg: Option<EditorConfig>)
    requires FindNode(g.nodes, id).Some? && FindNode(g.nodes, id).value.kind == "layerPreview"
    ensures var p := PreviewOf(g, id, cfg);
      && ((forall x :: Upstream(g, id, x) ==> !UpstreamLayers.IsControllerAt(g, x)) ==> p == Preview(map[], []))
      && SortedByKey(p.layers, ZKey)
      && (forall l :: l in p.layers ==>
            exists m :: m in g.nodes && UpstreamLayers.IsLayerNode(m) && Upstream(g, id, m.id)
                        && Shown(p.states, LayerKey(m)) && l == PreviewRecord(m, LayerKey(m), cfg))
      && ((exists x :: Upstream(g, id, x) && UpstreamLayers.IsControllerAt(g, x)) ==>
            forall x :: Upstream(g, id, x) && FindNode(g.nodes, x).Some? && UpstreamLayers.IsLayerNode(FindNode(g.nodes, x).value)
                        && Shown(p.states, LayerKey(FindNode(g.nodes, x).value))
              ==> PreviewRecord(FindNode(g.nodes, x).value, LayerKey(FindNode(g.nodes, x).value), cfg) in p.layers)
  {
    PreviewWalkFacts(g, id);
    var a := PreviewWalk(g, id).acc;
    var p := PreviewOf(g, id, cfg);
    if a.found {
      var c := PreviewRecords(a.collected, a.states, cfg);
      SortByKeyFacts(c, ZKey);
      forall l | l in p.layers ensures l in c { SortByKeyMembers(c, ZKey, l); }
      forall l | l in c ensures l in p.layers { SortByKeyMembers(c, ZKey, l); }
    }
  }

  /** A preview rewritten by the effect needs no further rewrite against
      the same graph; one whose states and layers already agree is kept. */
  lemma PreviewSyncSettles(g: Graph, cfg: Option<EditorConfig>, n: Node)
    ensures var d := PreviewSync(g, cfg, n);
      && (d.Some? <==>
            (n.kind == "layerPreview"
             && (n.data.inputStates.GetOr(map[]) != PreviewOf(g, n.id, cfg).states
                 || n.data.layers.GetOr([]) != PreviewOf(g, n.id, cfg).layers)))
      && (d.Some? ==> d.value.layerStates == d.value.inputStates == Some(PreviewOf(g, n.id, cfg).states))
      && PreviewSync(g, cfg, Applied(n, d)).None?
  {
  }
}

=== FILE: graph.dfy ===
/** The editor's node/edge graph and the records that flow along it.
    A node's `data` is a JavaScript object in the editor; here it is one
    record holding every field the dataflow passes read or write.  Absent
    strings are "" and absent z values 0 wherever the editor only ever
    tests them for truthiness (`x || default`); fields whose absence is
    tested with `??` or `!data.field` are `Option`s. */
module Graph {
  import opened Common

  datatype Pos = Pos(x: int, y: int)
  datatype Size = Size(width: int, height: int)

  /** A connection point of a node: its id and the data type it carries. */
  datatype Handle = Handle(id: string, dataType: string)

  /** One entry of `editorConfig.layers` (`caption` is its `label`); `{}` is `EmptyDef`. */
  datatype LayerDef = LayerDef(caption: string, kind: string, z: int, enabled: bool,
                               x: int, y: int, width: int, height: int)

  const EmptyDef := LayerDef("", "", 0, false, 0, 0, 0, 0)

  datatype Canvas = Canvas(width: Option<int>, height: Option<int>)

  /** The editor configuration: layer slots in declaration order and the canvas. */
  datatype EditorConfig = EditorConfig(layers: seq<(string, LayerDef)>, canvas: Option<Canvas>)

  /** `editorConfig?.layers?.[key] || {}`. */
  function SlotDef(cfg: Option<EditorConfig>, key: string): LayerDef {
    if cfg.None? then EmptyDef else Lookup(cfg.value.layers, key).GetOr(EmptyDef)
  }

  /** `!!editorConfig?.layers?.[key]`. */
  predicate HasSlot(cfg: Option<EditorConfig>, key: string) {
    cfg.Some? && key in Keys(cfg.value.layers)
  }

  /** The `data` object carried by a layer record.  Each constructor stands
      for the object a pass builds from the listed inputs (by spreading and
      picking their fields), so two payloads are equal exactly when they were
      built the same way from equal inputs. */
  datatype Payload =
    | NoPayload
      /** `{...layer.data, ...layer, visible: true, sourceType: 'layerOnOff', layerId}` */
    | Spliced(layer: Layer)
      /** `{...node.data, ...node.data.output, type, sourceType, layerId, layerName, layerConfig}` */
    | ChainProducer(kind: string, node: NodeData, key: string, def: LayerDef)
      /** the fields picked from `output ?? data` by the preview collector */
    | Picked(node: NodeData, def: LayerDef)
      /** `{...node.data, imageUrl, layerImagePath}` */
    | Copied(node: NodeData)
      /** `{...node.data, imageUrl, text, display geometry, layerConfig}` */
    | PreviewPicked(node: NodeData, def: LayerDef)

  /** A layer record as passed between nodes (`layers`, `outputLayers`). */
  datatype Layer = Layer(
    id: string, name: string, kind: string, zIndex: int, nodeId: string,
    data: Payload, source: string, sourceNodeId: string,
    visible: Option<bool>, passedThrough: bool, enabled: Option<bool>,
    hasChain: bool, config: Option<LayerDef>, layerId: string)

  /** A bare layer record: only the fields every builder sets. */
  function MkLayer(id: string, name: string, kind: string, zIndex: int,
                   nodeId: string, data: Payload): Layer {
    Layer(id, name, kind, zIndex, nodeId, data, "", "", None, false, None, false, None, "")
  }

  /** `(layer.zIndex || 0)`: the sort key every layer list uses. */
  function ZKey(l: Layer): int { l.zIndex }

  function LayerId(l: Layer): string { l.id }
  function LayerNodeId(l: Layer): string { l.nodeId }

  /** `outputLayers?.find(l => l.id === key)`. */
  function FindLayer(ls: seq<Layer>, key: string): (r: Option<Layer>)
    ensures r.Some? ==> r.value in ls && r.value.id == key
    ensures r.None? <==> forall l :: l in ls ==> l.id != key
  {
    if ls == [] then None
    else if ls[0].id == key then Some(ls[0])
    else FindLayer(ls[1..], key)
  }

  datatype Box = Box(x: int, y: int, width: int, height: int)

  /** What a producer node publishes in `data.output`. */
  datatype Output =
    | ImageOutput(id: string, layerId: string, nodeId: string, imageUrl: string,
                  imageStyleId: string, box: Box, zIndex: int, visible: bool)
    | TextOutput(id: string, layerId: string, nodeId: string, text: string,
                 characterName: string, styleId: string, box: Box, zIndex: int, visible: bool)
      /** `{...node.data, visible, upstreamVisible}` written by the editor */
    | Mirror(node: NodeData, visible: bool, upstreamVisible: bool)

  /** A slideshow entry (`images` / `videos`). */
  datatype MediaItem = MediaItem(id: string, path: string, url: string, fileName: string)

  /** A dialogue preview entry. */
  datatype DialogueItem = DialogueItem(id: string, caption: string, characterName: string,
                                       dialogueText: string, nameColor: string, headerColor: string)

  /** One layer of a timeline frame. */
  datatype FrameLayer = FrameLayer(id: string, imageUrl: string, x: int, y: int,
                                   scale: Ratio, zIndex: int)

  datatype Frame = Frame(layers: seq<FrameLayer>, backgroundWidth: int, backgroundHeight: int)

  /** `caption` is the node's `label`. */
  datatype NodeData = NodeData(
    caption: string, layer: string, layerId: string, zIndex: int, text: string,
    editorConfig: Option<EditorConfig>,
    layers: Option<seq<Layer>>, outputLayers: Option<seq<Layer>>,
    layerStates: Option<map<string, bool>>,
    /** `inputs?.layerStates` */
    inputStates: Option<map<string, bool>>,
    output: Option<Output>,
    imagePath: string, imageUrl: string, layerImagePath: string,
    fileName: string, fileSize: int, imageWidth: int, imageHeight: int,
    videoPath: string, videoUrl: string,
    images: Option<seq<MediaItem>>, videos: Option<seq<MediaItem>>,
    characterName: string, dialogueText: string, nameColor: string, headerColor: string,
    dialogues: Option<seq<DialogueItem>>,
    frames: Option<seq<Frame>>,
    x: Option<int>, y: Option<int>, scale: Option<Ratio>,
    backgroundWidth: Option<int>, backgroundHeight: Option<int>,
    novelRootId: string, handles: seq<Handle>,
    imageStyleId: string, styleId: string,
    displayX: Option<int>, displayY: Option<int>,
    displayWidth: Option<int>, displayHeight: Option<int>,
    /** `__nodeSize` */
    nodeSize: Option<Size>,
    question: string)

  const EmptyData := NodeData(
    "", "", "", 0, "", None, None, None, None, None, None,
    "", "", "", "", 0, 0, 0, "", "", None, None,
    "", "", "", "", None, None, None, None, None, None, None, "", [],
    "", "", None, None, None, None, None, "")

  /** A node: `type` is `kind`; `style.width/height` is `size`. */
  datatype Node = Node(id: string, kind: string, pos: Pos, size: Option<Size>, data: NodeData)

  datatype Edge = Edge(id: string, source: string, target: string,
                       sourceHandle: string, targetHandle: string)

  datatype Graph = Graph(nodes: seq<Node>, edges: seq<Edge>)

  /** `nodes.find(n => n.id === id)`. */
  function FindNode(nodes: seq<Node>, id: string): (r: Option<Node>)
    ensures r.Some? ==> r.value in nodes && r.value.id == id
    ensures r.None? <==> id !in NodeIds(nodes)
  {
    if nodes == [] then None
    else if nodes[0].id == id then Some(nodes[0])
    else FindNode(nodes[1..], id)
  }

  function NodeIds(nodes: seq<Node>): set<string> {
    set n | n in nodes :: n.id
  }

  /** `edges.filter(e => e.target === id)`. */
  function Incoming(edges: seq<Edge>, id: string): (r: seq<Edge>)
    ensures forall e :: e in r <==> e in edges && e.target == id
    ensures |r| <= |edges|
  {
    if edges == [] then []
    else (if edges[0].target == id then [edges[0]] else []) + Incoming(edges[1..], id)
  }

  /** `edges.filter(e => e.target === id && e.targetHandle === 'input')`. */
  function IncomingInput(edges: seq<Edge>, id: string): (r: seq<Edge>)
    ensures forall e :: e in r <==> e in edges && e.target == id && e.targetHandle == "input"
  {
    if edges == [] then []
    else (if edges[0].target == id && edges[0].targetHandle == "input" then [edges[0]] else [])
         + IncomingInput(edges[1..], id)
  }

  /** `edges.find(e => e.target === id && e.targetHandle === 'input')`. */
  function FirstInput(edges: seq<Edge>, id: string): (r: Option<Edge>)
    ensures r.Some? ==> r.value in edges && r.value.target == id && r.value.targetHandle == "input"
    ensures r.None? ==> IncomingInput(edges, id) == []
    ensures r.Some? ==> IncomingInput(edges, id) != [] && IncomingInput(edges, id)[0] == r.value
  {
    if edges == [] then None
    else if edges[0].target == id && edges[0].targetHandle == "input" then Some(edges[0])
    else FirstInput(edges[1..], id)
  }

  /** Only the 'input' edges of a graph. */
  function InputEdgesOnly(edges: seq<Edge>): (r: seq<Edge>)
    ensures forall e :: e in r <==> e in edges && e.targetHandle == "input"
  {
    if edges == [] then []
    else (if edges[0].targetHandle == "input" then [edges[0]] else []) + InputEdgesOnly(edges[1..])
  }

  lemma {:induction false} IncomingInputOfInputEdges(edges: seq<Edge>, id: string)
    ensures IncomingInput(InputEdgesOnly(edges), id) == IncomingInput(edges, id)
  {
    if edges != [] {
      IncomingInputOfInputEdges(edges[1..], id);
      var h := if edges[0].targetHandle == "input" then [edges[0]] else [];
      assert InputEdgesOnly(edges) == h + InputEdgesOnly(edges[1..]);
      IncomingInputAppend(h, InputEdgesOnly(edges[1..]), id);
    }
  }

  lemma {:induction false} IncomingInputAppend(a: seq<Edge>, b: seq<Edge>, id: string)
    ensures IncomingInput(a + b, id) == IncomingInput(a, id) + IncomingInput(b, id)
  {
    if a != [] {
      assert (a + b)[1..] == a[1..] + b;
      IncomingInputAppend(a[1..], b, id);
    } else {
      assert a + b == b;
    }
  }

  /** `nodes.map(...)` that replaces data only: ids, kinds and order are kept. */
  predicate SameShape(a: seq<Node>, b: seq<Node>) {
    |a| == |b| && forall i :: 0 <= i < |a| ==> a[i].id == b[i].id && a[i].kind == b[i].kind
  }

  /** A node with its data replaced when a pass rewrote it. */
  function Applied(n: Node, d: Option<NodeData>): Node {
    if d.Some? then n.(data := d.value) else n
  }

  /** `nodes.map(node => ...)` where the callback returns the node itself or
      a copy with new data: f gives the new data, or None to keep the node. */
  function RewriteEach(ns: seq<Node>, f: Node -> Option<NodeData>): (r: seq<Node>)
    ensures |r| == |ns|
    ensures forall i :: 0 <= i < |ns| ==> r[i] == Applied(ns[i], f(ns[i]))
  {
    if ns == [] then [] else [Applied(ns[0], f(ns[0]))] + RewriteEach(ns[1..], f)
  }

  predicate AnyRewrite(ns: seq<Node>, f: Node -> Option<NodeData>) {
    exists i :: 0 <= i < |ns| && f(ns[i]).Some?
  }

  /** A map that rewrites nothing gives back the same nodes. */
  lemma {:induction false} NoRewriteKeeps(ns: seq<Node>, f: Node -> Option<NodeData>)
    requires !AnyRewrite(ns, f)
    ensures RewriteEach(ns, f) == ns
  {
    assert forall i :: 0 <= i < |ns| ==> f(ns[i]).None?;
  }

  /** The first i nodes mapped: the new list so far and whether any of
      them was rewritten. */
  predicate RewrittenSoFar(ns: seq<Node>, f: Node -> Option<NodeData>, i: int, updated: seq<Node>, changed: bool) {
    && 0 <= i <= |ns| && |updated| == i
    && (forall j :: 0 <= j < i ==> updated[j] == Applied(ns[j], f(ns[j])))
    && (changed <==> exists j :: 0 <= j < i && f(ns[j]).Some?)
  }

  lemma RewriteStep(ns: seq<Node>, f: Node -> Option<NodeData>, i: int, updated: seq<Node>, changed: bool, d: Option<NodeData>)
    requires RewrittenSoFar(ns, f, i, updated, changed) && i < |ns| && d == f(ns[i])
    ensures RewrittenSoFar(ns, f, i + 1, updated + [Applied(ns[i], d)], changed || d.Some?)
  {
  }

  lemma RewriteDone(ns: seq<Node>, f: Node -> Option<NodeData>, updated: seq<Node>, changed: bool)
    requires RewrittenSoFar(ns, f, |ns|, updated, changed)
    ensures updated == RewriteEach(ns, f) && (changed <==> AnyRewrite(ns, f))
    ensures !changed ==> RewriteEach(ns, f) == ns
  {
    if !changed {
      NoRewriteKeeps(ns, f);
    }
  }

  /** Nodes with the same ids in the same order are found at the same place. */
  lemma {:induction false} FindNodeSameShape(a: seq<Node>, b: seq<Node>, id: string)
    requires SameShape(a, b)
    ensures FindNode(a, id).Some? <==> FindNode(b, id).Some?
    ensures FindNode(a, id).Some? ==> FindNode(a, id).value.kind == FindNode(b, id).value.kind
    ensures FindNode(a, id).Some? ==> exists i :: 0 <= i < |a| && FindNode(a, id) == Some(a[i]) && FindNode(b, id) == Some(b[i])
  {
    if a != [] {
      if a[0].id != id {
        assert SameShape(a[1..], b[1..]) by {
          forall i | 0 <= i < |a[1..]| ensures a[1..][i].id == b[1..][i].id && a[1..][i].kind == b[1..][i].kind {
            assert a[1..][i] == a[i + 1] && b[1..][i] == b[i + 1];
          }
        }
        FindNodeSameShape(a[1..], b[1..], id);
        if FindNode(a, id).Some? {
          var i :| 0 <= i < |a[1..]| && FindNode(a[1..], id) == Some(a[1..][i]) && FindNode(b[1..], id) == Some(b[1..][i]);
          assert a[1..][i] == a[i + 1] && b[1..][i] == b[i + 1];
        }
      } else {
        assert FindNode(a, id) == Some(a[0]) && FindNode(b, id) == Some(b[0]);
      }
    }
  }
}

=== FILE: layer_image.dfy ===
/** The image layer node (app/src/Nodes/LayerImageNode.jsx): how it learns
    whether it is switched on upstream, how it completes missing settings,
    how a selected image style becomes its display box, and what it
    publishes as `data.output`. */
module LayerImage {
  import opened Common
  import opened Graph
  import opened Layout
  import opened DataPatch

  /** `editorConfig?.canvas?.width ?? 1280` and `?.height ?? 720`. */
  function CanvasOf(d: NodeData): Size {
    if d.editorConfig.None? || d.editorConfig.value.canvas.None? then Size(1280, 720)
    else Size(d.editorConfig.value.canvas.value.width.GetOr(1280),
              d.editorConfig.value.canvas.value.height.GetOr(720))
  }

  // -------------------------------------------------------------------
  // Upstream visibility (shared with the text layer node).
  // -------------------------------------------------------------------

  /** The upstream-visibility effect: the new value of `upstreamVisible`
      given its previous value `prev`, for node `id` showing layer `layer`. */
  function UpstreamVisible(prev: bool, nodes: seq<Node>, edges: seq<Edge>, id: string, layer: string): bool {
    match FirstInput(edges, id)
    case None => true
    case Some(e) =>
      match FindNode(nodes, e.source)
      case None => prev
      case Some(src) =>
        if src.kind == "layerOnOff" && src.data.outputLayers.Some? then
          match FindLayer(src.data.outputLayers.value, layer)
          case Some(l) => l.visible != Some(false)
          case None => prev
        else if src.data.output.Some? then src.data.output.value.visible
        else prev
  }

  /** The four rules: no input edge shows the node; a controller's entry for
      the layer decides unless it says `visible: false`; a controller without
      an entry leaves the value as it was; any other source decides by its
      published output. */
  lemma UpstreamVisibleRules(prev: bool, nodes: seq<Node>, edges: seq<Edge>, id: string, layer: string)
    ensures IncomingInput(edges, id) == [] ==> UpstreamVisible(prev, nodes, edges, id, layer)
    ensures forall src, l :: IncomingInput(edges, id) != [] && FindNode(nodes, IncomingInput(edges, id)[0].source) == Some(src)
              && src.kind == "layerOnOff" && src.data.outputLayers.Some?
              && FindLayer(src.data.outputLayers.value, layer) == Some(l)
              ==> (UpstreamVisible(prev, nodes, edges, id, layer) <==> l.visible != Some(false))
    ensures forall src :: IncomingInput(edges, id) != [] && FindNode(nodes, IncomingInput(edges, id)[0].source) == Some(src)
              && src.kind == "layerOnOff" && src.data.outputLayers.Some?
              && (forall l :: l in src.data.outputLayers.value ==> l.id != layer)
              ==> UpstreamVisible(prev, nodes, edges, id, layer) == prev
    ensures forall src :: IncomingInput(edges, id) != [] && FindNode(nodes, IncomingInput(edges, id)[0].source) == Some(src)
              && !(src.kind == "layerOnOff" && src.data.outputLayers.Some?) && src.data.output.Some?
              ==> UpstreamVisible(prev, nodes, edges, id, layer) == src.data.output.value.visible
  {
  }

  /** The editor mounts the node without `nodes` and `edges` among its
      props, so the effect reads no input edge and always shows the layer:
      a controller that hides the layer is not obeyed as the node is
      mounted, while the rules above, given the graph, hide it. */
  lemma UnwiredPropsShowLayer(prev: bool, nodes: seq<Node>, edges: seq<Edge>, id: string, layer: string, src: Node, l: Layer)
    requires IncomingInput(edges, id) != [] && FindNode(nodes, IncomingInput(edges, id)[0].source) == Some(src)
    requires src.kind == "layerOnOff" && src.data.outputLayers.Some?
    requires FindLayer(src.data.outputLayers.value, layer) == Some(l) && l.visible == Some(false)
    ensures !UpstreamVisible(prev, nodes, edges, id, layer)
    ensures UpstreamVisible(prev, [], [], id, layer)
  {
    UpstreamVisibleRules(prev, nodes, edges, id, layer);
    UpstreamVisibleRules(prev, [], [], id, layer);
  }

  /** The value either does not depend on the previous one at all, or is
      the previous one; so running the effect again changes nothing. */
  lemma UpstreamVisibleSettles(prev: bool, nodes: seq<Node>, edges: seq<Edge>, id: string, layer: string)
    ensures (forall p, q :: UpstreamVisible(p, nodes, edges, id, layer) == UpstreamVisible(q, nodes, edges, id, layer))
            || (forall p :: UpstreamVisible(p, nodes, edges, id, layer) == p)
    ensures var v := UpstreamVisible(prev, nodes, edges, id, layer);
            UpstreamVisible(v, nodes, edges, id, layer) == v
  {
    var e := FirstInput(edges, id);
    if e.Some? {
      var s := FindNode(nodes, e.value.source);
      if s.Some? && s.value.kind == "layerOnOff" && s.value.data.outputLayers.Some? {
        var f := FindLayer(s.value.data.outputLayers.value, layer);
        if f.None? {
          assert forall p :: UpstreamVisible(p, nodes, edges, id, layer) == p;
        }
      }
    }
  }

  // -------------------------------------------------------------------
  // Completing missing settings.
  // -------------------------------------------------------------------

  /** `Object.keys(editorConfig?.layers ?? {})[0] || 'bg_base'`. */
  function DefaultLayer(d: NodeData): (k: string)
    ensures k != ""
  {
    var keys := if d.editorConfig.None? then [] else Keys(d.editorConfig.value.layers);
    Or(if keys == [] then "" else keys[0], "bg_base")
  }

  /** Nothing left for the completion effect to fill in. */
  predicate Complete(d: NodeData, styleKeys: seq<string>) {
    d.backgroundWidth.GetOr(0) != 0 && d.backgroundHeight.GetOr(0) != 0
    && d.layer != "" && d.scale.Some? && (d.imageStyleId != "" || styleKeys == [])
  }

  /** The initial-value effect: the data passed to `onChange`, or None when
      it is not called.  `styleKeys` are the keys of the loaded image styles. */
  function Completion(d: NodeData, styleKeys: seq<string>): (r: Option<NodeData>)
    ensures r.None? <==> Complete(d, styleKeys)
    ensures r.Some? ==> var e := r.value;
              && e.backgroundWidth.Some? && e.backgroundHeight.Some? && e.layer != "" && e.scale.Some?
              && (d.backgroundWidth.GetOr(0) != 0 ==> e.backgroundWidth == d.backgroundWidth)
              && (d.backgroundWidth.GetOr(0) == 0 ==> e.backgroundWidth == Some(CanvasOf(d).width))
              && (d.backgroundHeight.GetOr(0) == 0 ==> e.backgroundHeight == Some(CanvasOf(d).height))
              && (d.layer == "" ==> e.layer == DefaultLayer(d))
              && (d.scale.None? ==> e.scale == Some(Ratio(1, 1)))
              && (d.imageStyleId == "" && styleKeys != [] ==> e.imageStyleId == styleKeys[0])
              && e.(backgroundWidth := d.backgroundWidth, backgroundHeight := d.backgroundHeight,
                    layer := d.layer, scale := d.scale, imageStyleId := d.imageStyleId) == d
  {
    if Complete(d, styleKeys) then None
    else
      var c := CanvasOf(d);
      Some(d.(backgroundWidth := if d.backgroundWidth.GetOr(0) == 0 then Some(c.width) else d.backgroundWidth,
              backgroundHeight := if d.backgroundHeight.GetOr(0) == 0 then Some(c.height) else d.backgroundHeight,
              layer := if d.layer == "" then DefaultLayer(d) else d.layer,
              scale := if d.scale.None? then Some(Ratio(1, 1)) else d.scale,
              imageStyleId := if d.imageStyleId == "" && styleKeys != [] then styleKeys[0] else d.imageStyleId))
  }

  /** After one completion the effect has nothing more to do, unless the
      canvas has a zero side or the first style key is empty (both falsy,
      so they would be filled in again on every run). */
  lemma CompletionSettles(d: NodeData, styleKeys: seq<string>)
    requires CanvasOf(d).width != 0 && CanvasOf(d).height != 0
    requires styleKeys != [] ==> styleKeys[0] != ""
    ensures Completion(d, styleKeys).Some? ==> Completion(Completion(d, styleKeys).value, styleKeys).None?
  {
    if Completion(d, styleKeys).Some? {
      var e := Completion(d, styleKeys).value;
      assert e.editorConfig == d.editorConfig;
      assert CanvasOf(e) == CanvasOf(d);
    }
  }

  // -------------------------------------------------------------------
  // Display box.
  // -------------------------------------------------------------------

  /** `updateData(updates)`: None when the patch is empty (no `onChange`). */
  function UpdateData(d: NodeData, patch: seq<Field>): (r: Option<NodeData>)
    ensures r.None? <==> patch == []
    ensures r.Some? ==> Restored(r.value, d) == d
  {
    PatchedKeepsOthers(d, patch);
    if patch == [] then None else Some(Patched(d, patch))
  }

  /** The display fields written for a resolved box. */
  function BoxPatch(b: Box): seq<Field> {
    [DisplayX(b.x), DisplayY(b.y), DisplayWidth(b.width), DisplayHeight(b.height)]
  }

  /** `applyStyleAndScale(dimensions)`: `layout` is the selected style's
      layout (`NoLayout` for a style without one), None when the style id
      names no loaded style; nothing happens without a style or an image
      width. */
  function StyleUpdate(d: NodeData, layout: Option<LayoutSpec>, image: Size): (r: Option<NodeData>)
    ensures r.Some? <==> d.imageStyleId != "" && layout.Some? && image.width != 0
    ensures r.Some? ==>
              var b := ResolveImage(layout.value, CanvasOf(d), image);
              && r.value.displayX == Some(b.x) && r.value.displayY == Some(b.y)
              && r.value.displayWidth == Some(b.width) && r.value.displayHeight == Some(b.height)
              && Restored(r.value, d) == d
  {
    if d.imageStyleId == "" || layout.None? || image.width == 0 then None
    else
      var b := ResolveImage(layout.value, CanvasOf(d), image);
      var p := BoxPatch(b);
      assert LastFor(p, 0) && LastFor(p, 1) && LastFor(p, 2) && LastFor(p, 3);
      PatchedLast(d, p, 0);
      PatchedLast(d, p, 1);
      PatchedLast(d, p, 2);
      PatchedLast(d, p, 3);
      UpdateData(d, p)
  }

  /** `data.displayX || 0`, …, `data.displayWidth || canvasW`, …: the box
      drawn when no style applies. */
  function StoredBox(d: NodeData): Box {
    var c := CanvasOf(d);
    Box(d.displayX.GetOr(0), d.displayY.GetOr(0),
        OrZ(d.displayWidth.GetOr(0), c.width), OrZ(d.displayHeight.GetOr(0), c.height))
  }

  /** The box the node draws and publishes. */
  function DisplayBox(d: NodeData, layout: Option<LayoutSpec>, image: Size): Box {
    if d.imageStyleId != "" && image.width != 0
    then ResolveImage(layout.GetOr(LayoutSpec(None, None, None, None, None, None, None, 0)), CanvasOf(d), image)
    else StoredBox(d)
  }

  /** Once a style has been applied, the stored display fields reproduce the
      box it resolved, and the resolved box lies in the canvas. */
  lemma StyleUpdateStored(d: NodeData, layout: Option<LayoutSpec>, image: Size)
    requires StyleUpdate(d, layout, image).Some?
    ensures var e := StyleUpdate(d, layout, image).value;
            var b := ResolveImage(layout.value, CanvasOf(d), image);
            && StoredBox(e) == b && DisplayBox(d, layout, image) == b
            && b.width >= 1 && b.height >= 1 && 0 <= b.x && 0 <= b.y
  {
    var e := StyleUpdate(d, layout, image).value;
    assert Restored(e, d) == d;
    assert e.editorConfig == d.editorConfig;
  }

  // -------------------------------------------------------------------
  // Output.
  // -------------------------------------------------------------------

  /** `outputData`: nothing while hidden upstream; otherwise the layer record
      for the display box `box`. */
  function ImageOutputOf(d: NodeData, nodeId: string, upstreamVisible: bool, box: Box): (r: Option<Output>)
    ensures r.None? <==> !upstreamVisible
    ensures r.Some? ==> var o := r.value;
              && o.ImageOutput? && o.visible && o.nodeId == nodeId && o.box == box
              && o.id == Or(d.layer, "image_main") && o.id != "" && o.layerId == d.layer
              && o.zIndex == (if SlotDef(d.editorConfig, d.layer).z != 0 then SlotDef(d.editorConfig, d.layer).z else 20)
              && o.imageUrl == d.imageUrl && o.imageStyleId == d.imageStyleId
  {
    if !upstreamVisible then None
    else Some(ImageOutput(Or(d.layer, "image_main"), d.layer, nodeId, d.imageUrl, d.imageStyleId,
                          box, OrZ(SlotDef(d.editorConfig, d.layer).z, 20), true))
  }

  /** The in-place write `props.data.output = outputData`: only `output` changes. */
  function WithOutput(d: NodeData, out: Option<Output>): (r: NodeData)
    ensures r.output == out && r.(output := d.output) == d
  {
    d.(output := out)
  }
}

=== FILE: layer_onoff.dfy ===
/** The on/off controller node (`LayerOnOffNode`).  It lists the config
    layer slots ordered by `z`, keeps a per-layer-id on/off map, reseeds
    that map whenever the upstream layer list changes, lets the user flip
    one layer or a whole tab, and publishes the switched-on upstream layers
    as its `outputLayers`. */
module LayerOnOff {
  import opened Common
  import opened Graph

  // -------------------------------------------------------------------
  // Config layers and tabs.
  // -------------------------------------------------------------------

  /** An entry of the node's `configLayers` list. */
  datatype ConfigLayer = ConfigLayer(id: string, name: string, kind: string, zIndex: int,
                                     enabled: bool, config: LayerDef)

  /** `{ id, name: label || id, type: type || 'unknown', zIndex: z || 0, enabled: enabled || false, config }`. */
  function ToConfigLayer(e: (string, LayerDef)): ConfigLayer {
    ConfigLayer(e.0, Or(e.1.caption, e.0), Or(e.1.kind, "unknown"), e.1.z, e.1.enabled, e.1)
  }

  function MapConfig(entries: seq<(string, LayerDef)>): (r: seq<ConfigLayer>)
    ensures |r| == |entries|
    ensures forall i :: 0 <= i < |entries| ==> r[i] == ToConfigLayer(entries[i])
  {
    if entries == [] then [] else [ToConfigLayer(entries[0])] + MapConfig(entries[1..])
  }

  function ConfigZ(c: ConfigLayer): int { c.zIndex }

  /** `Object.entries(config.layers).map(...)` then the sort by `zIndex`. */
  function ConfigLayersOf(entries: seq<(string, LayerDef)>): seq<ConfigLayer> {
    SortByKey(MapConfig(entries), ConfigZ)
  }

  /** The config layers are one per config entry, in ascending `z`, slots
      with equal `z` in declaration order. */
  lemma ConfigLayersOrdered(entries: seq<(string, LayerDef)>)
    ensures SortedByKey(ConfigLayersOf(entries), ConfigZ)
    ensures multiset(ConfigLayersOf(entries)) == multiset(MapConfig(entries))
    ensures forall c :: c in ConfigLayersOf(entries) <==> exists i :: 0 <= i < |entries| && c == ToConfigLayer(entries[i])
    ensures forall z :: WithKey(ConfigLayersOf(entries), ConfigZ, z) == WithKey(MapConfig(entries), ConfigZ, z)
  {
    SortByKeyFacts(MapConfig(entries), ConfigZ);
    forall c ensures c in ConfigLayersOf(entries) <==> exists i :: 0 <= i < |entries| && c == ToConfigLayer(entries[i]) {
      SortByKeyMembers(MapConfig(entries), ConfigZ, c);
      if c in MapConfig(entries) {
        var i :| 0 <= i < |MapConfig(entries)| && MapConfig(entries)[i] == c;
        assert c == ToConfigLayer(entries[i]);
      }
      if exists i :: 0 <= i < |entries| && c == ToConfigLayer(entries[i]) {
        var i :| 0 <= i < |entries| && c == ToConfigLayer(entries[i]);
        assert MapConfig(entries)[i] == c;
      }
    }
  }

  /** A tab of the node: a layer type, or 'all'. */
  datatype TabType = TabType(id: string, name: string, color: string)

  /** An entry of `config.layerTypes`. */
  datatype TabDef = TabDef(name: string, color: string)

  const AllTab := TabType("all", "全て", "#4fc")

  const DefaultTabs := [AllTab, TabType("image", "画像", "#4af"), TabType("text", "文", "#fa4"),
                        TabType("ui", "UI", "#8f4")]

  /** `getDefaultColor(typeId)`. */
  function DefaultColor(typeId: string): string {
    if typeId == "image" then "#4af"
    else if typeId == "text" then "#fa4"
    else if typeId == "ui" then "#8f4"
    else if typeId == "video" then "#f4a"
    else if typeId == "audio" then "#8cf"
    else if typeId == "3d" then "#c8f"
    else if typeId == "effect" then "#fc4"
    else if typeId == "mask" then "#a8f"
    else if typeId == "adjustment" then "#4fc"
    else "#888"
  }

  function ToTab(e: (string, TabDef)): TabType {
    TabType(e.0, Or(e.1.name, e.0), Or(e.1.color, DefaultColor(e.0)))
  }

  function MapTabs(types: seq<(string, TabDef)>): (r: seq<TabType>)
    ensures |r| == |types|
    ensures forall i :: 0 <= i < |types| ==> r[i] == ToTab(types[i])
  {
    if types == [] then [] else [ToTab(types[0])] + MapTabs(types[1..])
  }

  /** The tabs after a config load: 'all' then the configured types, or the
      four default tabs when the config lists none. */
  function TabsOf(types: seq<(string, TabDef)>): (r: seq<TabType>)
    ensures r != [] && r[0] == AllTab
    ensures types != [] ==> r[1..] == MapTabs(types)
  {
    if |types| > 0 then [AllTab] + MapTabs(types) else DefaultTabs
  }

  /** What `loadConfig` resolved to: it threw, or it gave a config whose
      `layers` may be missing. */
  datatype ConfigLoad =
    | LoadFailed
    | Loaded(layers: Option<seq<(string, LayerDef)>>, layerTypes: seq<(string, TabDef)>)

  // -------------------------------------------------------------------
  // The on/off map.
  // -------------------------------------------------------------------

  /** `!!layerStates[id]`: a missing key reads as off. */
  predicate On(states: map<string, bool>, id: string) {
    id in states && states[id]
  }

  /** `configLayers.find(cl => cl.id === id)?.enabled || false`. */
  function ConfigEnabled(cls: seq<ConfigLayer>, id: string): (r: bool)
    ensures r ==> exists c :: c in cls && c.id == id && c.enabled
  {
    if cls == [] then false
    else if cls[0].id == id then cls[0].enabled
    else ConfigEnabled(cls[1..], id)
  }

  /** The ids of a layer list. */
  function IdsOf(ls: seq<Layer>): set<string>
    decreases |ls|
  {
    if ls == [] then {} else IdsOf(ls[..|ls| - 1]) + {ls[|ls| - 1].id}
  }

  /** One pass of the reseed loop for one upstream layer. */
  function ReseedOne(states: map<string, bool>, l: Layer, cls: seq<ConfigLayer>): map<string, bool> {
    if l.visible.Some? then states[l.id := l.visible.value]
    else if l.id in states then states
    else states[l.id := ConfigEnabled(cls, l.id)]
  }

  /** The reseed loop over the first |ls| upstream layers. */
  function Reseeded(states: map<string, bool>, ls: seq<Layer>, cls: seq<ConfigLayer>): map<string, bool>
    decreases |ls|
  {
    if ls == [] then states else ReseedOne(Reseeded(states, ls[..|ls| - 1], cls), ls[|ls| - 1], cls)
  }

  /** The `visible` of the last layer with id k that defines one. */
  function LastVisible(ls: seq<Layer>, k: string): (r: Option<bool>)
    ensures r.Some? ==> k in IdsOf(ls)
    decreases |ls|
  {
    if ls == [] then None
    else
      var last := ls[|ls| - 1];
      if last.id == k && last.visible.Some? then last.visible else LastVisible(ls[..|ls| - 1], k)
  }

  /** After a reseed, an id the upstream list does not mention keeps its
      entry (or its absence).  A mentioned id holds the last defined
      `visible` among its layers; without one, its earlier value if it had
      one, else the config's `enabled` flag. */
  lemma {:induction false} ReseedEntry(states: map<string, bool>, ls: seq<Layer>, cls: seq<ConfigLayer>, k: string)
    ensures var r := Reseeded(states, ls, cls);
      && (k !in IdsOf(ls) ==> (k in r <==> k in states) && (k in states ==> r[k] == states[k]))
      && (k in IdsOf(ls) ==> k in r && r[k] == (if LastVisible(ls, k).Some? then LastVisible(ls, k).value
                                               else if k in states then states[k]
                                               else ConfigEnabled(cls, k)))
    decreases |ls|
  {
    if ls != [] {
      ReseedEntry(states, ls[..|ls| - 1], cls, k);
    }
  }

  // -------------------------------------------------------------------
  // Toggles.
  // -------------------------------------------------------------------

  /** `{ ...prev, [id]: !prev[id] }`. */
  function Toggled(states: map<string, bool>, id: string): (r: map<string, bool>)
    ensures id in r && r[id] == !On(states, id)
    ensures forall k :: k != id ==> (k in r <==> k in states) && (k in states ==> r[k] == states[k])
  {
    states[id := !On(states, id)]
  }

  /** Two toggles restore the layer's on/off reading; a missing entry comes
      back as an explicit false. */
  lemma ToggleTwice(states: map<string, bool>, id: string)
    ensures Toggled(Toggled(states, id), id) == states[id := On(states, id)]
  {
    var r := Toggled(Toggled(states, id), id);
    var s := states[id := On(states, id)];
    assert forall k :: k in r <==> k in s;
    assert forall k :: k in r ==> r[k] == s[k];
  }

  /** `getCurrentTabLayers()`: every config layer on 'all', else those of the tab's type. */
  function TabLayers(cls: seq<ConfigLayer>, tab: string): (r: seq<ConfigLayer>)
    ensures |r| <= |cls|
    ensures forall c :: c in r <==> c in cls && (tab == "all" || c.kind == tab)
    ensures tab == "all" ==> r == cls
  {
    if tab == "all" then cls else OfKind(cls, tab)
  }

  function OfKind(cls: seq<ConfigLayer>, tab: string): (r: seq<ConfigLayer>)
    ensures |r| <= |cls|
    ensures forall c :: c in r <==> c in cls && c.kind == tab
  {
    if cls == [] then []
    else (if cls[0].kind == tab then [cls[0]] else []) + OfKind(cls[1..], tab)
  }

  /** The ids of a config layer list. */
  function ConfigIds(cls: seq<ConfigLayer>): set<string> {
    set c | c in cls :: c.id
  }

  /** The bulk switch over the first |cls| layers. */
  function SetAll(states: map<string, bool>, cls: seq<ConfigLayer>, v: bool): map<string, bool>
    decreases |cls|
  {
    if cls == [] then states else SetAll(states, cls[..|cls| - 1], v)[cls[|cls| - 1].id := v]
  }

  /** The bulk switch sets exactly the listed ids to v. */
  lemma {:induction false} SetAllEntry(states: map<string, bool>, cls: seq<ConfigLayer>, v: bool, k: string)
    ensures var r := SetAll(states, cls, v);
      && (k in ConfigIds(cls) ==> k in r && r[k] == v)
      && (k !in ConfigIds(cls) ==> (k in r <==> k in states) && (k in states ==> r[k] == states[k]))
    decreases |cls|
  {
    if cls != [] {
      var init := cls[..|cls| - 1];
      SetAllEntry(states, init, v, k);
      assert ConfigIds(cls) == ConfigIds(init) + {cls[|cls| - 1].id} by {
        assert cls == init + [cls[|cls| - 1]];
      }
    }
  }

  /** `toggleCurrentLayers(v)`: every config layer of the active tab is set
      to v ('all' meaning every config layer); no other key changes. */
  lemma ToggleTabEntry(states: map<string, bool>, cls: seq<ConfigLayer>, tab: string, v: bool, k: string)
    ensures var r := SetAll(states, TabLayers(cls, tab), v);
      && ((exists c :: c in cls && c.id == k && (tab == "all" || c.kind == tab)) ==> k in r && r[k] == v)
      && ((forall c :: c in cls && c.id == k ==> tab != "all" && c.kind != tab) ==>
            (k in r <==> k in states) && (k in states ==> r[k] == states[k]))
  {
    SetAllEntry(states, TabLayers(cls, tab), v, k);
    if exists c :: c in cls && c.id == k && (tab == "all" || c.kind == tab) {
      var c :| c in cls && c.id == k && (tab == "all" || c.kind == tab);
      assert c in TabLayers(cls, tab);
    }
  }

  // -------------------------------------------------------------------
  // Statistics.
  // -------------------------------------------------------------------

  /** `cls.filter(l => layerStates[l.id]).length`. */
  function CountOn(cls: seq<ConfigLayer>, states: map<string, bool>): (n: nat)
    ensures n <= |cls|
    ensures n == |cls| <==> forall c :: c in cls ==> On(states, c.id)
  {
    if cls == [] then 0
    else (if On(states, cls[0].id) then 1 else 0) + CountOn(cls[1..], states)
  }

  datatype TabStat = TabStat(total: nat, visible: nat)

  datatype Stats = Stats(total: nat, visible: nat, tabStats: seq<(string, TabStat)>,
                         currentLayers: nat, currentVisible: nat)

  function TabStatOf(cls: seq<ConfigLayer>, states: map<string, bool>, tab: string): TabStat {
    var ls := TabLayers(cls, tab);
    TabStat(|ls|, CountOn(ls, states))
  }

  /** `layerTypes.forEach(type => { tabStats[type.id] = ... })` over the first |types| tabs. */
  function TabStatsOf(cls: seq<ConfigLayer>, states: map<string, bool>, types: seq<TabType>): seq<(string, TabStat)>
    decreases |types|
  {
    if types == [] then []
    else
      var t := types[|types| - 1];
      Put(TabStatsOf(cls, states, types[..|types| - 1]), t.id, TabStatOf(cls, states, t.id))
  }

  function StatsOf(cls: seq<ConfigLayer>, states: map<string, bool>, types: seq<TabType>, tab: string): Stats {
    var cur := TabLayers(cls, tab);
    Stats(|cls|, CountOn(cls, states), TabStatsOf(cls, states, types), |cur|, CountOn(cur, states))
  }

  /** Every tab's entry belongs to a tab of the list and describes that tab;
      every tab has an entry; visible counts never exceed totals. */
  lemma {:induction false} TabStatsFacts(cls: seq<ConfigLayer>, states: map<string, bool>, types: seq<TabType>, k: string)
    ensures var ts := TabStatsOf(cls, states, types);
      && (Lookup(ts, k).Some? <==> exists t :: t in types && t.id == k)
      && (Lookup(ts, k).Some? ==> Lookup(ts, k).value == TabStatOf(cls, states, k)
                                  && Lookup(ts, k).value.visible <= Lookup(ts, k).value.total)
    decreases |types|
  {
    if types != [] {
      var init := types[..|types| - 1];
      TabStatsFacts(cls, states, init, k);
      assert types == init + [types[|types| - 1]];
      assert forall t :: t in types <==> t in init || t == types[|types| - 1];
    }
  }

  /** The statistics panel: counts bounded by totals, in every tab. */
  lemma StatsBounded(cls: seq<ConfigLayer>, states: map<string, bool>, types: seq<TabType>, tab: string)
    ensures var s := StatsOf(cls, states, types, tab);
      && s.total == |cls| && s.visible <= s.total && s.currentVisible <= s.currentLayers <= s.total
      && forall k :: Lookup(s.tabStats, k).Some? ==> Lookup(s.tabStats, k).value.visible <= Lookup(s.tabStats, k).value.total
  {
    forall k ensures Lookup(TabStatsOf(cls, states, types), k).Some? ==>
        Lookup(TabStatsOf(cls, states, types), k).value.visible <= Lookup(TabStatsOf(cls, states, types), k).value.total {
      TabStatsFacts(cls, states, types, k);
    }
  }

  // -------------------------------------------------------------------
  // Output.
  // -------------------------------------------------------------------

  /** `{ ...layer, visible: true, passedThrough: true }`. */
  function Stamp(l: Layer): Layer {
    l.(visible := Some(true), passedThrough := true)
  }

  /** `upstream.filter(layer => layerStates[layer.id]).map(Stamp)`. */
  function PassOn(ls: seq<Layer>, states: map<string, bool>): (r: seq<Layer>)
    ensures |r| <= |ls|
    ensures forall x :: x in r <==> exists l :: l in ls && On(states, l.id) && x == Stamp(l)
  {
    if ls == [] then []
    else (if On(states, ls[0].id) then [Stamp(ls[0])] else []) + PassOn(ls[1..], states)
  }

  /** `outputData.layers`. */
  function OutputOf(upstream: seq<Layer>, states: map<string, bool>): seq<Layer> {
    if |upstream| == 0 then [] else SortByKey(PassOn(upstream, states), ZKey)
  }

  /** The published layers are exactly the switched-on upstream layers,
      each stamped visible and passed through, in ascending `zIndex`, the
      upstream order kept among equal `zIndex`; empty upstream gives []. */
  lemma OutputFacts(upstream: seq<Layer>, states: map<string, bool>)
    ensures upstream == [] ==> OutputOf(upstream, states) == []
    ensures forall x :: x in OutputOf(upstream, states) <==> exists l :: l in upstream && On(states, l.id) && x == Stamp(l)
    ensures forall x :: x in OutputOf(upstream, states) ==> x.visible == Some(true) && x.passedThrough
    ensures SortedByKey(OutputOf(upstream, states), ZKey)
    ensures multiset(OutputOf(upstream, states)) == multiset(PassOn(upstream, states))
    ensures forall z :: WithKey(OutputOf(upstream, states), ZKey, z) == WithKey(PassOn(upstream, states), ZKey, z)
  {
    if upstream != [] {
      SortByKeyFacts(PassOn(upstream, states), ZKey);
      forall x ensures x in OutputOf(upstream, states) <==> x in PassOn(upstream, states) {
        SortByKeyMembers(PassOn(upstream, states), ZKey, x);
      }
    }
  }

  /** The write into the node's own data: `layerStates` and `outputLayers`;
      every other field is kept. */
  function Published(d: NodeData, upstream: seq<Layer>, states: map<string, bool>): (r: NodeData)
    ensures r.layerStates == Some(states) && r.outputLayers == Some(OutputOf(upstream, states))
    ensures r.(layerStates := d.layerStates, outputLayers := d.outputLayers) == d
  {
    d.(layerStates := Some(states), outputLayers := Some(OutputOf(upstream, states)))
  }

  // -------------------------------------------------------------------
  // The node's state.
  // -------------------------------------------------------------------

  class Controller {
    var configLayers: seq<ConfigLayer>
    var layerStates: map<string, bool>
    var activeTab: string
    var layerTypes: seq<TabType>
    var upstreamLayers: seq<Layer>

    /** The state a freshly mounted node starts from. */
    constructor ()
      ensures configLayers == [] && layerStates == map[] && activeTab == "all"
      ensures layerTypes == [] && upstreamLayers == []
    {
      configLayers := [];
      layerStates := map[];
      activeTab := "all";
      layerTypes := [];
      upstreamLayers := [];
    }

    /** The config load effect.  A config without `layers` changes nothing;
        a failed load only installs the default tabs. */
    method LoadConfig(load: ConfigLoad)
      modifies this
      ensures load.Loaded? && load.layers.Some? ==>
        configLayers == ConfigLayersOf(load.layers.value) && layerTypes == TabsOf(load.layerTypes)
      ensures load.Loaded? && load.layers.None? ==>
        configLayers == old(configLayers) && layerTypes == old(layerTypes)
      ensures load.LoadFailed? ==> configLayers == old(configLayers) && layerTypes == DefaultTabs
      ensures layerStates == old(layerStates) && activeTab == old(activeTab) && upstreamLayers == old(upstreamLayers)
    {
      match load
      case LoadFailed =>
        layerTypes := DefaultTabs;
      case Loaded(layers, types) =>
        if layers.Some? {
          configLayers := SortByKey(MapConfig(layers.value), ConfigZ);
          if |types| > 0 {
            layerTypes := [AllTab] + MapTabs(types);
          } else {
            layerTypes := DefaultTabs;
          }
        }
    }

    /** The upstream effect: keep the new upstream list and reseed the map
        from it, layer by layer.  Missing `data.layers` changes nothing. */
    method Reseed(layers: Option<seq<Layer>>)
      modifies this
      ensures layers.None? ==> upstreamLayers == old(upstreamLayers) && layerStates == old(layerStates)
      ensures layers.Some? ==>
        upstreamLayers == layers.value && layerStates == Reseeded(old(layerStates), layers.value, configLayers)
      ensures configLayers == old(configLayers) && activeTab == old(activeTab) && layerTypes == old(layerTypes)
    {
      if layers.None? {
        return;
      }
      var ls := layers.value;
      upstreamLayers := ls;
      var next := layerStates;
      for i := 0 to |ls|
        invariant next == Reseeded(layerStates, ls[..i], configLayers)
      {
        assert ls[..i + 1][..i] == ls[..i];
        var l := ls[i];
        if l.visible.Some? {
          next := next[l.id := l.visible.value];
        } else if l.id !in next {
          next := next[l.id := ConfigEnabled(configLayers, l.id)];
        }
      }
      assert ls[..|ls|] == ls;
      layerStates := next;
    }

    /** `toggleLayer(id)`. */
    method ToggleLayer(id: string)
      modifies this
      ensures layerStates == Toggled(old(layerStates), id)
      ensures configLayers == old(configLayers) && activeTab == old(activeTab)
      ensures layerTypes == old(layerTypes) && upstreamLayers == old(upstreamLayers)
    {
      layerStates := layerStates[id := !(id in layerStates && layerStates[id])];
    }

    /** `toggleCurrentLayers(v)`: the loop over the active tab's layers. */
    method ToggleCurrentLayers(v: bool)
      modifies this
      ensures layerStates == SetAll(old(layerStates), TabLayers(configLayers, activeTab), v)
      ensures configLayers == old(configLayers) && activeTab == old(activeTab)
      ensures layerTypes == old(layerTypes) && upstreamLayers == old(upstreamLayers)
    {
      var current := TabLayers(configLayers, activeTab);
      var next := layerStates;
      for i := 0 to |current|
        invariant next == SetAll(layerStates, current[..i], v)
      {
        assert current[..i + 1][..i] == current[..i];
        next := next[current[i].id := v];
      }
      assert current[..|current|] == current;
      layerStates := next;
    }

    /** The tab buttons. */
    method SelectTab(tab: string)
      modifies this
      ensures activeTab == tab
      ensures configLayers == old(configLayers) && layerStates == old(layerStates)
      ensures layerTypes == old(layerTypes) && upstreamLayers == old(upstreamLayers)
    {
      activeTab := tab;
    }
  }
}

=== FILE: layer_preview.dfy ===
/** The layer preview node (app/src/Nodes/LayerPreviewNode.jsx): the list
    of layers it draws, derived from its `data`, and the rule that decides
    whether an image layer is drawn at all. */
module LayerPreview {
  import opened Common
  import opened Graph

  /** `data?.inputs?.layerStates || data?.layerStates || {}`: an object is
      truthy even when empty, so a present input map always wins. */
  function StatesOf(d: NodeData): (r: map<string, bool>)
    ensures d.inputStates.Some? ==> r == d.inputStates.value
    ensures d.inputStates.None? && d.layerStates.Some? ==> r == d.layerStates.value
    ensures d.inputStates.None? && d.layerStates.None? ==> r == map[]
  {
    if d.inputStates.Some? then d.inputStates.value
    else if d.layerStates.Some? then d.layerStates.value
    else map[]
  }

  /** `layer.id || layer.layerId`. */
  function KeyOf(l: Layer): string { Or(l.id, l.layerId) }

  /** `layerStates[layerId] !== false`: an unlisted id counts as visible. */
  predicate Shown(states: map<string, bool>, id: string) {
    !(id in states && !states[id])
  }

  /** `{ ...layer, visible: isVisible, layerId }` for a layer that survives
      the filter, where `isVisible` is true. */
  function Displayed(l: Layer): Layer {
    l.(visible := Some(true), layerId := KeyOf(l))
  }

  /** `layers.map(...).filter(layer => layer !== null && layer.visible)`. */
  function Visible(ls: seq<Layer>, states: map<string, bool>): (r: seq<Layer>)
    ensures |r| <= |ls|
  {
    if ls == [] then []
    else
      var l := ls[0];
      (if KeyOf(l) != "" && Shown(states, KeyOf(l)) then [Displayed(l)] else [])
      + Visible(ls[1..], states)
  }

  /** The membership of the filtered list, in both directions. */
  lemma {:induction false} VisibleMembers(ls: seq<Layer>, states: map<string, bool>, x: Layer)
    ensures x in Visible(ls, states)
            <==> exists l :: l in ls && KeyOf(l) != "" && Shown(states, KeyOf(l)) && x == Displayed(l)
  {
    if ls != [] {
      VisibleMembers(ls[1..], states, x);
      assert forall l :: l in ls <==> l == ls[0] || l in ls[1..];
    }
  }

  /** The effect's result: `displayLayers`. */
  function DisplayLayers(d: NodeData): seq<Layer> {
    if d.layers.None? then [] else SortByKey(Visible(d.layers.value, StatesOf(d)), ZKey)
  }

  /** With no `data.layers` nothing is displayed.  Otherwise the displayed
      layers are exactly the layers that have an `id` or `layerId` and whose
      state is not `false`, each stamped `visible: true` with
      `layerId = id || layerId`, in ascending `zIndex` with the input order
      kept among equal `zIndex`. */
  lemma DisplayFacts(d: NodeData)
    ensures d.layers.None? ==> DisplayLayers(d) == []
    ensures d.layers.Some? ==> forall x :: x in DisplayLayers(d) <==>
              exists l :: l in d.layers.value && KeyOf(l) != "" && Shown(StatesOf(d), KeyOf(l)) && x == Displayed(l)
    ensures forall x :: x in DisplayLayers(d) ==>
              x.visible == Some(true) && x.layerId != "" && Shown(StatesOf(d), x.layerId)
    ensures SortedByKey(DisplayLayers(d), ZKey)
    ensures d.layers.Some? ==> multiset(DisplayLayers(d)) == multiset(Visible(d.layers.value, StatesOf(d)))
    ensures d.layers.Some? ==> forall z :: WithKey(DisplayLayers(d), ZKey, z) == WithKey(Visible(d.layers.value, StatesOf(d)), ZKey, z)
  {
    if d.layers.Some? {
      var v := Visible(d.layers.value, StatesOf(d));
      SortByKeyFacts(v, ZKey);
      forall x ensures x in DisplayLayers(d) <==> x in v {
        SortByKeyMembers(v, ZKey, x);
      }
      forall x ensures x in v <==>
          exists l :: l in d.layers.value && KeyOf(l) != "" && Shown(StatesOf(d), KeyOf(l)) && x == Displayed(l) {
        VisibleMembers(d.layers.value, StatesOf(d), x);
      }
    }
  }

  /** The header's "shown / total" count: never more shown than received. */
  lemma DisplayCountBounded(d: NodeData)
    requires d.layers.Some?
    ensures |DisplayLayers(d)| <= |d.layers.value|
  {
    SortByKeyFacts(Visible(d.layers.value, StatesOf(d)), ZKey);
  }

  // -------------------------------------------------------------------
  // Drawing an image layer.
  // -------------------------------------------------------------------

  /** The preview's view state: the ids of layers whose image failed to load. */
  class PreviewView {
    var failed: set<string>

    constructor ()
      ensures failed == {}
    {
      failed := {};
    }

    /** `imageUrl = layer.data?.imageUrl || layer.imageUrl`; an image layer
        is drawn only when that URL is non-empty and its id has no
        recorded load error. */
    predicate DrawsImage(id: string, dataUrl: string, layerUrl: string)
      reads this
    {
      Or(dataUrl, layerUrl) != "" && id !in failed
    }

    /** `handleImageError`: records the failure for that id only. */
    method ImageError(id: string)
      modifies this
      ensures failed == old(failed) + {id}
      ensures forall a, b :: !DrawsImage(id, a, b)
      ensures forall k, a, b :: k != id ==> (DrawsImage(k, a, b) <==> old(DrawsImage(k, a, b)))
    {
      failed := failed + {id};
    }
  }
}

=== FILE: layer_text.dfy ===
/** The text layer node (app/src/Nodes/LayerTextNode.jsx): the size of its
    text area, the box it displays, and `update`, which merges a patch into
    its data, re-stamps the layer it belongs to and rebuilds its output. */
module LayerText {
  import opened Common
  import opened Graph
  import opened Layout
  import opened DataPatch

  // -------------------------------------------------------------------
  // Sizes.
  // -------------------------------------------------------------------

  /** `resolveTextAreaSize(style, editorConfig)` for a style whose layout is
      `l`: the width is the given width, else the ratio of the canvas width,
      else 95% of it; the height is the given height, else the ratio of the
      canvas height, and absent (`undefined`) when that value is 0 or when
      neither is given. */
  function TextAreaSize(l: LayoutSpec, canvas: Size): (r: (int, Option<int>))
    ensures l.width.Some? ==> r.0 == l.width.value
    ensures l.width.None? && l.widthRatio.None? ==> 20 * r.0 - 10 <= 19 * canvas.width < 20 * r.0 + 10
    ensures l.height.None? && l.heightRatio.None? ==> r.1.None?
    ensures l.height.Some? ==> r.1 == (if l.height.value != 0 then l.height else None)
  {
    var w := if l.width.Some? then l.width.value
             else if l.widthRatio.Some? then RoundTimes(canvas.width, l.widthRatio.value)
             else RoundTimes(canvas.width, Ratio(19, 20));
    var h := if l.height.Some? then (if l.height.value != 0 then l.height else None)
             else if l.heightRatio.Some? then
               (if canvas.height * l.heightRatio.value.num != 0 then Some(RoundTimes(canvas.height, l.heightRatio.value)) else None)
             else None;
    (w, h)
  }

  /** The text area and the displayed box disagree on their defaults: with
      nothing given the area is 95% of the canvas width while the box is the
      full width (and has a height where the area has none); with a size
      given they agree. */
  lemma AreaVersusBox(l: LayoutSpec, canvas: Size)
    ensures l.width.Some? ==> TextAreaSize(l, canvas).0 == ResolveText(l, canvas).width
    ensures l.height.Some? && l.height.value != 0 ==> TextAreaSize(l, canvas).1 == Some(ResolveText(l, canvas).height)
    ensures l.width.None? && l.widthRatio.None? && canvas.width >= 20 ==>
              TextAreaSize(l, canvas).0 < ResolveText(l, canvas).width
  {
  }

  // -------------------------------------------------------------------
  // The displayed box.
  // -------------------------------------------------------------------

  /** `data.layer || 'text_main'`. */
  function CurrentKey(d: NodeData): string { Or(d.layer, "text_main") }

  /** `displaySettings`: `layout` is the selected text style's layout (None
      when no style is selected).  Without a style or a canvas the box comes
      from the layer slot, defaulting to (0, 0, 100, 100); otherwise it is
      the resolved layout in the canvas (`|| 1280`, `|| 720`). */
  function DisplaySettings(d: NodeData, layout: Option<LayoutSpec>): (r: Box)
    ensures (layout.None? || d.editorConfig.None? || d.editorConfig.value.canvas.None?) ==>
              var def := SlotDef(d.editorConfig, CurrentKey(d));
              && r.x == def.x && r.y == def.y
              && r.width == (if def.width != 0 then def.width else 100)
              && r.height == (if def.height != 0 then def.height else 100)
    ensures layout.Some? && d.editorConfig.Some? && d.editorConfig.value.canvas.Some? ==>
              var c := d.editorConfig.value.canvas.value;
              r == ResolveText(layout.value, Size(OrZ(c.width.GetOr(0), 1280), OrZ(c.height.GetOr(0), 720)))
              && r.x >= 0 && r.y >= 0
  {
    if layout.None? || d.editorConfig.None? || d.editorConfig.value.canvas.None? then
      var def := SlotDef(d.editorConfig, CurrentKey(d));
      Box(def.x, def.y, OrZ(def.width, 100), OrZ(def.height, 100))
    else
      var c := d.editorConfig.value.canvas.value;
      ResolveText(layout.value, Size(OrZ(c.width.GetOr(0), 1280), OrZ(c.height.GetOr(0), 720)))
  }

  // -------------------------------------------------------------------
  // update(patch).
  // -------------------------------------------------------------------

  /** The `hasChanged` test: some write of the patch differs from the data. */
  predicate Changes(d: NodeData, patch: seq<Field>) {
    exists i :: 0 <= i < |patch| && !Holds(d, patch[i])
  }

  /** The output a text node publishes while visible upstream. */
  function TextOutputOf(u: NodeData, key: string, z: int, nodeId: string, upstreamVisible: bool, display: Box): (r: Option<Output>)
    ensures r.None? <==> !upstreamVisible
    ensures r.Some? ==> var o := r.value;
              && o.TextOutput? && o.visible && o.id == key && o.layerId == key && o.nodeId == nodeId
              && o.text == u.text && o.characterName == u.characterName && o.styleId == u.styleId
              && o.box == display && o.zIndex == z
  {
    if upstreamVisible then Some(TextOutput(key, key, nodeId, u.text, u.characterName, u.styleId, display, z, true))
    else None
  }

  /** The merged data with `label`, `layerId`, `zIndex` and `output` set
      for the layer slot `key`. */
  function Stamped(u: NodeData, cfg: Option<EditorConfig>, key: string, nodeId: string, upstreamVisible: bool, display: Box): NodeData {
    var z := OrZ(SlotDef(cfg, key).z, 1000);
    u.(caption := Or(u.caption, "テキストレイヤー"), layerId := key, zIndex := z,
       output := TextOutputOf(u, key, z, nodeId, upstreamVisible, display))
  }

  /** `update(patch)` as written: the data passed to `onChange`, or None when
      it is not called.  The slot is the one selected BEFORE the patch. */
  function Update(d: NodeData, patch: seq<Field>, nodeId: string, upstreamVisible: bool, display: Box): (r: Option<NodeData>)
    ensures r.None? <==> !Changes(d, patch)
    ensures r.Some? ==> r.value.layerId == CurrentKey(d)
                        && r.value.zIndex == OrZ(SlotDef(d.editorConfig, CurrentKey(d)).z, 1000)
                        && r.value.caption != ""
                        && (r.value.output.None? <==> !upstreamVisible)
  {
    if !Changes(d, patch) then None
    else Some(Stamped(Patched(d, patch), d.editorConfig, CurrentKey(d), nodeId, upstreamVisible, display))
  }

  /** When `update` skips `onChange`, the merge would not have changed the
      data anyway; when it calls it, every write of the patch to a field
      other than `layerId` and `zIndex` is in the result. */
  lemma UpdateFacts(d: NodeData, patch: seq<Field>, nodeId: string, upstreamVisible: bool, display: Box, i: int)
    requires 0 <= i < |patch| && LastFor(patch, i)
    ensures !Changes(d, patch) ==> Patched(d, patch) == d
    ensures Changes(d, patch) && Key(patch[i]) != "layerId" && Key(patch[i]) != "zIndex" ==>
              Holds(Update(d, patch, nodeId, upstreamVisible, display).value, patch[i])
  {
    if !Changes(d, patch) {
      PatchedHeld(d, patch);
    } else {
      PatchedLast(d, patch, i);
    }
  }

  /** `onChangeLayer`'s patch: the new slot, its id and its `z || 1000`. */
  function LayerPatch(d: NodeData, newLayer: string): seq<Field> {
    [LayerKey(newLayer), LayerId(newLayer), ZIndex(OrZ(SlotDef(d.editorConfig, newLayer).z, 1000))]
  }

  /** Choosing another slot through `update` as written leaves `layerId` and
      `zIndex` at the PREVIOUS slot's values: here slot "a" (z 5) is
      replaced by slot "b" (z 7), yet the data says layer "b", layerId "a",
      zIndex 5, and the output is published under id "a". */
  lemma ChangeLayerKeepsOldSlot(d: NodeData, nodeId: string, display: Box)
    requires d.layer == "a" && d.layerId == "a" && d.zIndex == 5
    requires d.editorConfig == Some(EditorConfig([("a", EmptyDef.(z := 5)), ("b", EmptyDef.(z := 7))], None))
    ensures var r := Update(d, LayerPatch(d, "b"), nodeId, true, display);
            && r.Some? && r.value.layer == "b" && r.value.layerId == "a" && r.value.zIndex == 5
            && r.value.output.value.id == "a"
  {
    var p := LayerPatch(d, "b");
    assert !Holds(d, p[0]);
    assert LastFor(p, 0);
    PatchedLast(d, p, 0);
  }

  /** `update` as evidently intended: the slot is the one selected after
      the patch, so `onChangeLayer`'s values stick. */
  function UpdateIntended(d: NodeData, patch: seq<Field>, nodeId: string, upstreamVisible: bool, display: Box): (r: Option<NodeData>)
    ensures r.None? <==> !Changes(d, patch)
    ensures r.Some? ==> r.value.layerId == CurrentKey(Patched(d, patch))
  {
    if !Changes(d, patch) then None
    else
      var u := Patched(d, patch);
      Some(Stamped(u, d.editorConfig, CurrentKey(u), nodeId, upstreamVisible, display))
  }

  /** With the intended `update`, choosing slot k makes the data and the
      output agree on k and on its `z || 1000`. */
  lemma ChangeLayerIntended(d: NodeData, newLayer: string, nodeId: string, display: Box)
    requires newLayer != "" && d.layer != newLayer
    ensures var r := UpdateIntended(d, LayerPatch(d, newLayer), nodeId, true, display);
            && r.Some? && r.value.layer == newLayer && r.value.layerId == newLayer
            && r.value.zIndex == OrZ(SlotDef(d.editorConfig, newLayer).z, 1000)
            && r.value.output.value.id == newLayer
  {
    var p := LayerPatch(d, newLayer);
    assert !Holds(d, p[0]);
    assert LastFor(p, 0);
    PatchedLast(d, p, 0);
  }
}

=== FILE: layer_timeline.dfy ===
/** The layer timeline node (app/src/Nodes/LayerTimelineNode.jsx): which
    frames it shows, the slide index kept valid by its effects and advanced
    by its timer, the draw token that cancels stale draws, and the list of
    layers one draw composes. */
module LayerTimeline {
  import opened Common
  import opened Graph

  /** `frames.slice(1)`: frame 0 is never shown. */
  function DisplayFrames(frames: seq<Frame>): (r: seq<Frame>)
    ensures frames == [] ==> r == []
    ensures frames != [] ==> |r| == |frames| - 1 && forall i :: 0 <= i < |r| ==> r[i] == frames[i + 1]
  {
    if frames == [] then [] else frames[1..]
  }

  /** `frame.backgroundWidth || 1280` × `frame.backgroundHeight || 720`. */
  function FrameCanvas(f: Frame): (r: Size)
    ensures r.width != 0 && r.height != 0
    ensures f.backgroundWidth != 0 ==> r.width == f.backgroundWidth
    ensures f.backgroundHeight != 0 ==> r.height == f.backgroundHeight
    ensures f.backgroundWidth == 0 ==> r.width == 1280
    ensures f.backgroundHeight == 0 ==> r.height == 720
  {
    Size(OrZ(f.backgroundWidth, 1280), OrZ(f.backgroundHeight, 720))
  }

  // -------------------------------------------------------------------
  // The layers one draw composes.
  // -------------------------------------------------------------------

  /** One entry of `allLayers`. */
  datatype DrawItem = DrawItem(id: string, imageUrl: string, zIndex: int, x: int, y: int, scale: Ratio)

  function DrawZ(it: DrawItem): int { it.zIndex }

  /** The decimal digits of n, as a template literal prints them. */
  function NatStr(n: nat): (s: string)
    ensures s != [] && forall i :: 0 <= i < |s| ==> '0' <= s[i] <= '9'
  {
    var d := ['0', '1', '2', '3', '4', '5', '6', '7', '8', '9'][n % 10];
    if n < 10 then [d] else NatStr(n / 10) + [d]
  }

  /** The entry pushed for the layer at index `idx`: the id falls back to
      `layer_<idx>`, a falsy `zIndex` to `idx * 10`, a falsy scale to 1. */
  function ItemOf(l: FrameLayer, idx: nat): DrawItem {
    DrawItem(Or(l.id, "layer_" + NatStr(idx)), l.imageUrl, OrZ(l.zIndex, idx * 10),
             l.x, l.y, if l.scale.num == 0 then Ratio(1, 1) else l.scale)
  }

  /** The entries pushed for the layers `ls[..k]`, in order: only layers with
      an `imageUrl`. */
  function Pushed(ls: seq<FrameLayer>, k: nat): (r: seq<DrawItem>)
    requires k <= |ls|
    ensures |r| <= k
  {
    if k == 0 then []
    else Pushed(ls, k - 1) + (if ls[k - 1].imageUrl != "" then [ItemOf(ls[k - 1], k - 1)] else [])
  }

  /** Every entry comes from a layer with an image at some index, and every
      such layer gives one. */
  lemma {:induction false} PushedMembers(ls: seq<FrameLayer>, k: nat, it: DrawItem)
    requires k <= |ls|
    ensures it in Pushed(ls, k) <==> exists i :: 0 <= i < k && ls[i].imageUrl != "" && it == ItemOf(ls[i], i)
  {
    if k > 0 {
      PushedMembers(ls, k - 1, it);
      var last := if ls[k - 1].imageUrl != "" then [ItemOf(ls[k - 1], k - 1)] else [];
      assert Pushed(ls, k) == Pushed(ls, k - 1) + last;
      if it in Pushed(ls, k) && it !in Pushed(ls, k - 1) {
        assert it in last;
        assert 0 <= k - 1 < k && ls[k - 1].imageUrl != "" && it == ItemOf(ls[k - 1], k - 1);
      }
      if exists i :: 0 <= i < k && ls[i].imageUrl != "" && it == ItemOf(ls[i], i) {
        var i :| 0 <= i < k && ls[i].imageUrl != "" && it == ItemOf(ls[i], i);
        if i == k - 1 {
          assert it in last;
        }
      }
    }
  }

  /** Collecting and sorting `allLayers` (the `forEach` pushes, then the sort). */
  method CollectLayers(ls: seq<FrameLayer>) returns (all: seq<DrawItem>)
    ensures all == SortByKey(Pushed(ls, |ls|), DrawZ)
    ensures SortedByKey(all, DrawZ)
    ensures forall it :: it in all ==> it.imageUrl != "" && it.id != ""
    ensures forall i :: 0 <= i < |ls| && ls[i].imageUrl != "" ==> ItemOf(ls[i], i) in all
  {
    all := [];
    for i := 0 to |ls|
      invariant all == Pushed(ls, i)
    {
      if ls[i].imageUrl != "" {
        all := all + [ItemOf(ls[i], i)];
      }
    }
    var pushed := all;
    all := SortByKey(all, DrawZ);
    SortByKeyFacts(pushed, DrawZ);
    forall it | it in all ensures it.imageUrl != "" && it.id != "" {
      SortByKeyMembers(pushed, DrawZ, it);
      PushedMembers(ls, |ls|, it);
    }
    forall i | 0 <= i < |ls| && ls[i].imageUrl != "" ensures ItemOf(ls[i], i) in all {
      PushedMembers(ls, |ls|, ItemOf(ls[i], i));
      SortByKeyMembers(pushed, DrawZ, ItemOf(ls[i], i));
    }
  }

  // -------------------------------------------------------------------
  // The node's state.
  // -------------------------------------------------------------------

  /** One canvas operation of a draw run. */
  datatype DrawOp = Clear(token: nat) | Blit(token: nat, item: DrawItem)

  class TimelineView {
    /** `currentSlideIndex` */
    var index: nat
    /** `drawTokenRef.current` */
    var latest: nat
    /** What has been drawn on the canvas, in order. */
    var drawn: seq<DrawOp>

    constructor ()
      ensures index == 0 && latest == 0 && drawn == []
    {
      index := 0;
      latest := 0;
      drawn := [];
    }

    /** The index-safety effect: no display frames, or an index past the
        end, resets the index to 0; a valid index is kept. */
    method KeepIndexValid(count: nat)
      modifies this
      ensures count > 0 ==> index < count
      ensures count == 0 ==> index == 0
      ensures old(index) < count ==> index == old(index)
      ensures latest == old(latest) && drawn == old(drawn)
    {
      if count == 0 || index >= count {
        index := 0;
      }
    }

    /** One tick of the slideshow timer, which only runs with at least two
        display frames: the index moves to the next frame, wrapping to 0. */
    method Tick(count: nat)
      modifies this
      ensures count >= 2 ==> index == (old(index) + 1) % count && index < count
      ensures count < 2 ==> index == old(index)
      ensures latest == old(latest) && drawn == old(drawn)
    {
      if count >= 2 {
        index := (index + 1) % count;
      }
    }

    /** `const token = ++drawTokenRef.current`: each run gets a fresh token,
        larger than every earlier one. */
    method BeginDraw() returns (token: nat)
      modifies this
      ensures token == latest == old(latest) + 1
      ensures index == old(index) && drawn == old(drawn)
    {
      latest := latest + 1;
      token := latest;
    }

    /** One canvas write of the run holding `token`, guarded by
        `if (drawTokenRef.current !== token) return`: a run that is no
        longer the latest writes nothing. */
    method Draw(token: nat, op: DrawOp)
      modifies this
      ensures token == latest ==> drawn == old(drawn) + [op]
      ensures token != latest ==> drawn == old(drawn)
      ensures index == old(index) && latest == old(latest)
    {
      if token == latest {
        drawn := drawn + [op];
      }
    }
  }

  /** Once a newer run has begun, an older run's writes are all dropped. */
  method StaleRunDrawsNothing(v: TimelineView, ops: seq<DrawOp>)
    modifies v
    ensures v.drawn == old(v.drawn)
  {
    var earlier := v.BeginDraw();
    var newer := v.BeginDraw();
    for i := 0 to |ops|
      invariant v.drawn == old(v.drawn) && v.latest == newer && earlier < newer
    {
      v.Draw(earlier, ops[i]);
    }
  }
}

=== FILE: layout.dfy ===
/** Placing a box inside the canvas: the three variants of `resolveLayout`.
    The image style editor and the image layer node share one variant
    (app/src/Editors/ImageStyleEditor.jsx and app/src/Nodes/LayerImageNode.jsx
    carry identical copies), the text style editor and the text layer node
    share another, and the layer timeline node has a third.

    All coordinates and sizes are integers here.  Where the source halves a
    free extent and rounds only after clamping, the model rounds first:
    `RoundAfterClamp` shows the two orders give the same integer. */
module Layout {
  import opened Common
  import opened Graph

  /** A style's `layout` object; `None` is an absent member, and for the
      coordinates and sizes also a null one.  A null ratio or preset is not
      modelled: the source's defaults replace only an absent one. */
  datatype LayoutSpec = LayoutSpec(
    x: Option<int>, y: Option<int>,
    width: Option<int>, height: Option<int>,
    widthRatio: Option<Ratio>, heightRatio: Option<Ratio>,
    preset: Option<string>, margin: int)

  /** A layout fixing every coordinate and size: what a resolved box reads back as. */
  function Explicit(b: Box): LayoutSpec {
    LayoutSpec(Some(b.x), Some(b.y), Some(b.width), Some(b.height), None, None, None, 0)
  }

  /** `Math.round(n / 2)`. */
  function Half(n: int): int { RoundDiv(n, 2) }

  /** `Math.max(0, Math.min(v, hi))`. */
  function Clamp(v: int, hi: int): (r: int)
    ensures 0 <= r && (hi >= 0 ==> r <= hi)
    ensures 0 <= v <= hi ==> r == v
  {
    Max(0, Min(v, hi))
  }

  /** Clamping half units to [0, 2·hi] and then rounding gives the same
      integer as rounding first and clamping to [0, hi]. */
  lemma RoundAfterClamp(n: int, hi: int)
    ensures Half(Max(0, Min(n, 2 * hi))) == Clamp(Half(n), hi)
  {
    assert Half(n) == (n + 1) / 2;
    assert Half(2 * hi) == hi;
    assert Half(0) == 0;
  }

  /** The nine placements of the image variants, given the free width and
      height of the canvas; any other name centres the box. */
  function ImageAnchor(preset: string, freeW: int, freeH: int): (int, int) {
    match preset
    case "top_left" => (0, 0)
    case "top_center" => (Half(freeW), 0)
    case "top_right" => (freeW, 0)
    case "left" => (0, Half(freeH))
    case "center" => (Half(freeW), Half(freeH))
    case "right" => (freeW, Half(freeH))
    case "bottom_left" => (0, freeH)
    case "bottom_center" => (Half(freeW), freeH)
    case "bottom_right" => (freeW, freeH)
    case _ => (Half(freeW), Half(freeH))
  }

  /** `imageDimensions?.width || layout.width || 1920` (an absent image size is 0). */
  function ImageBase(imageDim: int, layoutDim: Option<int>, fallback: int): int {
    OrZ(imageDim, OrZ(layoutDim.GetOr(0), fallback))
  }

  // -------------------------------------------------------------------
  // The image variant.
  // -------------------------------------------------------------------

  /** `width ?? Math.round(baseW * widthRatio)`, at least 1. */
  function ImageWidth(l: LayoutSpec, image: Size): int {
    Max(1, l.width.GetOr(RoundTimes(ImageBase(image.width, l.width, 1920), l.widthRatio.GetOr(Ratio(1, 1)))))
  }

  function ImageHeight(l: LayoutSpec, image: Size): int {
    Max(1, l.height.GetOr(RoundTimes(ImageBase(image.height, l.height, 1080), l.heightRatio.GetOr(Ratio(1, 1)))))
  }

  /** `resolveLayout` of the image style editor and the image layer node:
      the box is at least 1×1 and lies at a non-negative position no further
      than the free extent of the canvas (0 when the box does not fit). */
  function ResolveImage(l: LayoutSpec, canvas: Size, image: Size): (r: Box)
    ensures r.width >= 1 && r.height >= 1
    ensures 0 <= r.x <= Max(0, canvas.width - r.width)
    ensures 0 <= r.y <= Max(0, canvas.height - r.height)
  {
    var w := ImageWidth(l, image);
    var h := ImageHeight(l, image);
    var anchor := if l.x.None? || l.y.None?
                  then ImageAnchor(l.preset.GetOr("center"), canvas.width - w, canvas.height - h)
                  else (0, 0);
    Box(Clamp(l.x.GetOr(anchor.0), canvas.width - w),
        Clamp(l.y.GetOr(anchor.1), canvas.height - h), w, h)
  }

  /** A preset only supplies a missing coordinate: a given x or y is kept
      (up to the clamp), a missing one comes from the preset, and a name the
      table does not know places the box as `center` does. */
  lemma ImagePresetFacts(l: LayoutSpec, canvas: Size, image: Size)
    ensures var r := ResolveImage(l, canvas, image);
            var fw := canvas.width - r.width;
            var fh := canvas.height - r.height;
            && (l.x.Some? ==> r.x == Clamp(l.x.value, fw))
            && (l.y.Some? ==> r.y == Clamp(l.y.value, fh))
            && (l.x.None? ==> r.x == Clamp(ImageAnchor(l.preset.GetOr("center"), fw, fh).0, fw))
            && (l.y.None? ==> r.y == Clamp(ImageAnchor(l.preset.GetOr("center"), fw, fh).1, fh))
    ensures l.preset.Some? && l.preset.value !in {"top_left", "top_center", "top_right", "left", "right",
                                                   "bottom_left", "bottom_center", "bottom_right"}
            ==> ResolveImage(l, canvas, image) == ResolveImage(l.(preset := Some("center")), canvas, image)
    ensures l.preset.None? ==> ResolveImage(l, canvas, image) == ResolveImage(l.(preset := Some("center")), canvas, image)
  {
  }

  /** With no size given the box takes the image's natural size, else the
      layout's own size, else 1920×1080, scaled by the ratios (default 1). */
  lemma ImageSizeFallback(l: LayoutSpec, canvas: Size, image: Size)
    requires l.width.None? && l.height.None? && l.widthRatio.None? && l.heightRatio.None?
    ensures ResolveImage(l, canvas, image).width == Max(1, OrZ(image.width, 1920))
    ensures ResolveImage(l, canvas, image).height == Max(1, OrZ(image.height, 1080))
  {
    assert RoundTimes(OrZ(image.width, 1920), Ratio(1, 1)) == OrZ(image.width, 1920);
    assert RoundTimes(OrZ(image.height, 1080), Ratio(1, 1)) == OrZ(image.height, 1080);
  }

  /** Resolving a resolved box again, as an explicit layout, changes nothing. */
  lemma ImageResolveSettles(l: LayoutSpec, canvas: Size, image: Size, other: Size)
    ensures var r := ResolveImage(l, canvas, image);
            ResolveImage(Explicit(r), canvas, other) == r
  {
  }

  // -------------------------------------------------------------------
  // The text variant.
  // -------------------------------------------------------------------

  /** The text variant's placements: a margin keeps the box off the edges
      it is anchored to; any other name centres the box. */
  function TextAnchor(preset: string, freeW: int, freeH: int, m: int): (int, int) {
    match preset
    case "top_left" => (m, m)
    case "top_center" => (Half(freeW), m)
    case "top_right" => (freeW - m, m)
    case "bottom_left" => (m, freeH - m)
    case "bottom_center" => (Half(freeW), freeH - m)
    case "bottom_right" => (freeW - m, freeH - m)
    case _ => (Half(freeW), Half(freeH))
  }

  /** `width ?? (widthRatio != null ? Math.round(W * widthRatio) : W)`. */
  function TextWidth(l: LayoutSpec, canvas: Size): int {
    l.width.GetOr(if l.widthRatio.Some? then RoundTimes(canvas.width, l.widthRatio.value) else canvas.width)
  }

  /** `height ?? (heightRatio != null ? Math.round(H * heightRatio) : Math.round(H * 0.25))`. */
  function TextHeight(l: LayoutSpec, canvas: Size): int {
    l.height.GetOr(if l.heightRatio.Some? then RoundTimes(canvas.height, l.heightRatio.value)
                   else RoundTimes(canvas.height, Ratio(1, 4)))
  }

  /** `resolveLayout` of the text style editor and the text layer node: the
      position is never negative and, when the box fits, it lies inside the
      canvas.  No minimum size is enforced. */
  function ResolveText(l: LayoutSpec, canvas: Size): (r: Box)
    ensures r.x >= 0 && r.y >= 0
    ensures r.width <= canvas.width ==> r.x + r.width <= canvas.width
    ensures r.height <= canvas.height ==> r.y + r.height <= canvas.height
  {
    var w := TextWidth(l, canvas);
    var h := TextHeight(l, canvas);
    var anchor := if l.x.None? || l.y.None?
                  then TextAnchor(l.preset.GetOr("bottom_center"), canvas.width - w, canvas.height - h, l.margin)
                  else (0, 0);
    Box(Clamp(l.x.GetOr(anchor.0), canvas.width - w),
        Clamp(l.y.GetOr(anchor.1), canvas.height - h), w, h)
  }

  /** The defaults: full canvas width, a quarter of its height (rounded),
      anchored bottom centre; `top_left` starts from (margin, margin); a
      given coordinate is kept up to the clamp. */
  lemma TextDefaults(l: LayoutSpec, canvas: Size)
    ensures l.width.None? && l.widthRatio.None? ==> ResolveText(l, canvas).width == canvas.width
    ensures l.height.None? && l.heightRatio.None? ==>
              4 * ResolveText(l, canvas).height - 2 <= canvas.height < 4 * ResolveText(l, canvas).height + 2
    ensures l.preset.None? ==> ResolveText(l, canvas) == ResolveText(l.(preset := Some("bottom_center")), canvas)
    ensures l.preset == Some("top_left") && l.x.None? && l.y.None? ==>
              var r := ResolveText(l, canvas);
              r.x == Clamp(l.margin, canvas.width - r.width) && r.y == Clamp(l.margin, canvas.height - r.height)
    ensures l.x.Some? ==> ResolveText(l, canvas).x == Clamp(l.x.value, canvas.width - ResolveText(l, canvas).width)
    ensures l.y.Some? ==> ResolveText(l, canvas).y == Clamp(l.y.value, canvas.height - ResolveText(l, canvas).height)
  {
  }

  /** Resolving a resolved box again, as an explicit layout, changes nothing. */
  lemma TextResolveSettles(l: LayoutSpec, canvas: Size)
    ensures var r := ResolveText(l, canvas);
            ResolveText(Explicit(r), canvas) == r
  {
  }

  // -------------------------------------------------------------------
  // The timeline variant.
  // -------------------------------------------------------------------

  /** `resolveLayout` of the layer timeline node: sizes come from the image
      scaled by the ratios, there is no minimum size, and when either
      coordinate is missing both come from the preset. */
  function ResolveTimeline(l: LayoutSpec, canvas: Size, image: Size): (r: Box)
    ensures r.x >= 0 && r.y >= 0
    ensures r.width <= canvas.width ==> r.x + r.width <= canvas.width
    ensures r.height <= canvas.height ==> r.y + r.height <= canvas.height
  {
    var w := l.width.GetOr(RoundTimes(image.width, l.widthRatio.GetOr(Ratio(1, 1))));
    var h := l.height.GetOr(RoundTimes(image.height, l.heightRatio.GetOr(Ratio(1, 1))));
    var at := if l.x.None? || l.y.None?
              then ImageAnchor(l.preset.GetOr("center"), canvas.width - w, canvas.height - h)
              else (l.x.value, l.y.value);
    Box(Clamp(at.0, canvas.width - w), Clamp(at.1, canvas.height - h), w, h)
  }

  /** A lone given coordinate is discarded: the result is the one with
      neither coordinate given. */
  lemma TimelineDropsLoneCoordinate(l: LayoutSpec, canvas: Size, image: Size)
    requires l.x.None? || l.y.None?
    ensures ResolveTimeline(l, canvas, image) == ResolveTimeline(l.(x := None, y := None), canvas, image)
  {
  }

  /** The variants differ only where described: with both coordinates given
      or both missing, and sizes given that are at least 1, the image and
      timeline variants agree; a given size 0 is kept by the timeline but
      raised to 1 by the image variant. */
  lemma ImageTimelineAgree(l: LayoutSpec, canvas: Size, image: Size)
    requires l.x.Some? == l.y.Some?
    requires l.width.Some? && l.width.value >= 1 && l.height.Some? && l.height.value >= 1
    ensures ResolveImage(l, canvas, image) == ResolveTimeline(l, canvas, image)
    ensures ResolveTimeline(l.(width := Some(0)), canvas, image).width == 0
    ensures ResolveImage(l.(width := Some(0)), canvas, image).width == 1
  {
  }
}

=== FILE: line_colors.dfy ===
/** The colours of the export node's JSON preview, one per line
    (`computeLineColors` in app/src/Nodes/VisualNovelExportNode.jsx): a first
    pass matches `{`/`}` lines with a stack and records every block that saw
    a `"type"` line while it was the innermost open one; a second pass gives
    each line the colour of the first recorded block around it, `"no":` lines
    always green. */
module LineColors {
  import opened Common

  const DefaultColor := "#e0e0e0"
  const NumberColor := "#a5d6a7"

  /** `TYPE_COLOR[name] || '#e0e0e0'`. */
  function TypeColor(name: string): (r: string)
    ensures r != ""
  {
    if name == "image" then "#4fc3f7"
    else if name == "video" then "#ffb74d"
    else if name == "dialogue" then "#ce93d8"
    else if name == "choice" then "#fff176"
    else DefaultColor
  }

  /** `trimmed === '{' || trimmed.endsWith('{')`. */
  predicate Opens(t: string) { t == "{" || (|t| > 0 && t[|t| - 1] == '{') }

  /** `trimmed === '}' || trimmed === '},'`. */
  predicate Closes(t: string) { t == "}" || t == "}," }

  /** `trimmed.startsWith('"no":')`. */
  predicate IsNumberLine(t: string) { |t| >= 5 && t[..5] == "\"no\":" }

  // -------------------------------------------------------------------
  // The pattern /"type":\s*"([^"]+)"/.
  // -------------------------------------------------------------------

  const TypeKey := "\"type\":"

  /** The first index from q on that is not white space. */
  function SkipSpaces(t: string, q: nat): (k: nat)
    requires q <= |t|
    ensures q <= k <= |t|
    decreases |t| - q
  {
    if q < |t| && IsJsSpace(t[q]) then SkipSpaces(t, q + 1) else q
  }

  /** The first index from q on holding a quote, or |t|. */
  function NextQuote(t: string, q: nat): (k: nat)
    requires q <= |t|
    ensures q <= k <= |t|
    decreases |t| - q
  {
    if q < |t| && t[q] != '"' then NextQuote(t, q + 1) else q
  }

  /** The pattern matched at position p, with its group: `\s*` must stop
      at the opening quote and `[^"]+` at the closing one, since neither
      class contains a quote. */
  function MatchAt(t: string, p: nat): (r: Option<string>)
    requires p <= |t|
  {
    if p + |TypeKey| <= |t| && t[p..p + |TypeKey|] == TypeKey then
      var q := SkipSpaces(t, p + |TypeKey|);
      if q < |t| && t[q] == '"' then
        var e := NextQuote(t, q + 1);
        if e < |t| && e > q + 1 then Some(t[q + 1..e]) else None
      else None
    else None
  }

  /** `trimmed.match(...)?.[1]` searching from p: the leftmost match. */
  function FirstMatch(t: string, p: nat): (r: Option<string>)
    requires p <= |t|
    decreases |t| - p
  {
    if MatchAt(t, p).Some? then MatchAt(t, p)
    else if p == |t| then None
    else FirstMatch(t, p + 1)
  }

  function TypeName(t: string): Option<string> { FirstMatch(t, 0) }

  lemma {:induction false} SkipSpacesFacts(t: string, q: nat)
    requires q <= |t|
    ensures var k := SkipSpaces(t, q);
            (k < |t| ==> !IsJsSpace(t[k])) && forall j :: q <= j < k ==> IsJsSpace(t[j])
    decreases |t| - q
  {
    if q < |t| && IsJsSpace(t[q]) {
      SkipSpacesFacts(t, q + 1);
    }
  }

  lemma {:induction false} NextQuoteFacts(t: string, q: nat)
    requires q <= |t|
    ensures var k := NextQuote(t, q);
            (k < |t| ==> t[k] == '"') && forall j :: q <= j < k ==> t[j] != '"'
    decreases |t| - q
  {
    if q < |t| && t[q] != '"' {
      NextQuoteFacts(t, q + 1);
    }
  }

  /** A match at p is `"type":`, white space, a quote, a non-empty run
      without quotes (the group) and a closing quote. */
  lemma MatchAtMeaning(t: string, p: nat)
    requires p <= |t| && MatchAt(t, p).Some?
    ensures var n := MatchAt(t, p).value;
            && p + |TypeKey| <= |t| && t[p..p + |TypeKey|] == TypeKey
            && n != [] && (forall j :: 0 <= j < |n| ==> n[j] != '"')
            && exists q :: p + |TypeKey| <= q && q + |n| + 1 < |t|
                           && (forall j :: p + |TypeKey| <= j < q ==> IsJsSpace(t[j]))
                           && t[q] == '"' && t[q + 1..q + 1 + |n|] == n && t[q + 1 + |n|] == '"'
  {
    var q := SkipSpaces(t, p + |TypeKey|);
    SkipSpacesFacts(t, p + |TypeKey|);
    var e := NextQuote(t, q + 1);
    NextQuoteFacts(t, q + 1);
    var n := MatchAt(t, p).value;
    assert n == t[q + 1..e];
    assert q + 1 + |n| == e;
  }

  /** The leftmost position with a match gives the group. */
  lemma {:induction false} FirstMatchLeftmost(t: string, p: nat)
    requires p <= |t|
    ensures FirstMatch(t, p).Some? ==>
              exists k :: p <= k <= |t| && MatchAt(t, k) == FirstMatch(t, p)
                          && forall j :: p <= j < k ==> MatchAt(t, j).None?
    ensures FirstMatch(t, p).None? ==> forall k :: p <= k <= |t| ==> MatchAt(t, k).None?
    decreases |t| - p
  {
    if MatchAt(t, p).Some? {
      assert MatchAt(t, p) == FirstMatch(t, p);
    } else if p < |t| {
      FirstMatchLeftmost(t, p + 1);
      if FirstMatch(t, p).Some? {
        var k :| p + 1 <= k <= |t| && MatchAt(t, k) == FirstMatch(t, p + 1)
                 && forall j :: p + 1 <= j < k ==> MatchAt(t, j).None?;
        assert forall j :: p <= j < k ==> MatchAt(t, j).None?;
      }
    }
  }

  // -------------------------------------------------------------------
  // The first pass.
  // -------------------------------------------------------------------

  /** What the first pass reads of a line, once trimmed: whether it opens
      a block, the `"type"` it names, and whether it closes a block. */
  datatype LineInfo = LineInfo(opens: bool, name: Option<string>, closes: bool)

  function Info(line: string): LineInfo {
    var t := Trim(line);
    LineInfo(Opens(t), TypeName(t), Closes(t))
  }

  function Infos(lines: seq<string>): (r: seq<LineInfo>)
    ensures |r| == |lines|
  {
    if lines == [] then [] else [Info(lines[0])] + Infos(lines[1..])
  }

  lemma {:induction false} InfosAt(lines: seq<string>, i: nat)
    requires i < |lines|
    ensures Infos(lines)[i] == Info(lines[i])
  {
    if i > 0 {
      InfosAt(lines[1..], i - 1);
    }
  }

  /** An entry of `openBraces`; `color` None is `null`. */
  datatype Open = Open(line: nat, color: Option<string>)

  /** An entry of `blocks`. */
  datatype Block = Block(start: nat, end: nat, color: string)

  /** A `{` line pushes an uncoloured entry. */
  function Push(x: LineInfo, i: nat, stack: seq<Open>): seq<Open> {
    if x.opens then stack + [Open(i, None)] else stack
  }

  /** A `"type"` line colours the innermost open entry. */
  function Tag(x: LineInfo, stack: seq<Open>): seq<Open> {
    if x.name.Some? && stack != [] then
      stack[..|stack| - 1] + [stack[|stack| - 1].(color := Some(TypeColor(x.name.value)))]
    else stack
  }

  /** A `}` line pops the innermost entry and records it as a block when
      it is coloured; with nothing open it is ignored. */
  function Close(x: LineInfo, i: nat, stack: seq<Open>, blocks: seq<Block>): (seq<Open>, seq<Block>) {
    if x.closes && stack != [] then
      var top := stack[|stack| - 1];
      (stack[..|stack| - 1], if top.color.Some? then blocks + [Block(top.line, i, top.color.value)] else blocks)
    else (stack, blocks)
  }

  /** The first pass from line i on. */
  function Pass(xs: seq<LineInfo>, i: nat, stack: seq<Open>, blocks: seq<Block>): seq<Block>
    requires i <= |xs|
    decreases |xs| - i
  {
    if i == |xs| then blocks
    else
      var r := Close(xs[i], i, Tag(xs[i], Push(xs[i], i, stack)), blocks);
      Pass(xs, i + 1, r.0, r.1)
  }

  lemma PassStep(xs: seq<LineInfo>, i: nat, stack: seq<Open>, blocks: seq<Block>, stack': seq<Open>, blocks': seq<Block>)
    requires i < |xs| && (stack', blocks') == Close(xs[i], i, Tag(xs[i], Push(xs[i], i, stack)), blocks)
    ensures Pass(xs, i, stack, blocks) == Pass(xs, i + 1, stack', blocks')
  {
  }

  /** The blocks the first pass records. */
  function Blocks(lines: seq<string>): seq<Block> { Pass(Infos(lines), 0, [], []) }

  // -------------------------------------------------------------------
  // What the recorded blocks are.
  // -------------------------------------------------------------------

  /** Some line of xs[lo..hi] has a `"type"` whose colour is c. */
  predicate TypedIn(xs: seq<LineInfo>, lo: int, hi: int, c: string) {
    exists l :: lo <= l < hi && 0 <= l < |xs| && xs[l].name.Some? && TypeColor(xs[l].name.value) == c
  }

  /** A block runs from a `{` line to a `}` line and contains a `"type"`
      line of its colour. */
  predicate WellFormed(xs: seq<LineInfo>, b: Block) {
    && b.start <= b.end < |xs|
    && xs[b.start].opens && xs[b.end].closes
    && TypedIn(xs, b.start, b.end + 1, b.color)
  }

  /** Blocks are recorded in the order they close, and two blocks are
      nested or apart, never crossing. */
  predicate Laminar(blocks: seq<Block>) {
    forall j, k :: 0 <= j < k < |blocks| ==>
      blocks[j].end < blocks[k].end && (blocks[k].start <= blocks[j].start || blocks[j].end < blocks[k].start)
  }

  /** The open entries: `{` lines before sHi, in order, each coloured one
      holding a `"type"` line of its colour since it opened. */
  predicate StackOk(xs: seq<LineInfo>, sHi: nat, stack: seq<Open>) {
    && (forall k :: 0 <= k < |stack| ==> stack[k].line < sHi && stack[k].line < |xs| && xs[stack[k].line].opens)
    && (forall k, m :: 0 <= k < m < |stack| ==> stack[k].line < stack[m].line)
    && (forall k :: 0 <= k < |stack| && stack[k].color.Some? ==> TypedIn(xs, stack[k].line, sHi, stack[k].color.value))
  }

  /** The recorded blocks: well formed, closed before bHi, laminar. */
  predicate BlocksOk(xs: seq<LineInfo>, bHi: nat, blocks: seq<Block>) {
    && (forall b :: b in blocks ==> WellFormed(xs, b) && b.end < bHi)
    && Laminar(blocks)
  }

  /** No recorded block contains an open entry's line. */
  predicate Apart(stack: seq<Open>, blocks: seq<Block>) {
    forall k, b :: 0 <= k < |stack| && b in blocks ==> stack[k].line < b.start || b.end < stack[k].line
  }

  predicate Inv(xs: seq<LineInfo>, sHi: nat, bHi: nat, stack: seq<Open>, blocks: seq<Block>) {
    StackOk(xs, sHi, stack) && BlocksOk(xs, bHi, blocks) && Apart(stack, blocks)
  }

  lemma PushKeeps(xs: seq<LineInfo>, i: nat, stack: seq<Open>, blocks: seq<Block>)
    requires i < |xs| && Inv(xs, i, i, stack, blocks)
    ensures Inv(xs, i + 1, i, Push(xs[i], i, stack), blocks)
  {
    var s := Push(xs[i], i, stack);
    forall k | 0 <= k < |s| && s[k].color.Some?
      ensures TypedIn(xs, s[k].line, i + 1, s[k].color.value)
    {
      assert k < |stack|;
      var l :| s[k].line <= l < i && 0 <= l < |xs| && xs[l].name.Some? && TypeColor(xs[l].name.value) == s[k].color.value;
    }
  }

  lemma TagKeeps(xs: seq<LineInfo>, i: nat, stack: seq<Open>, blocks: seq<Block>)
    requires i < |xs| && Inv(xs, i + 1, i, stack, blocks)
    ensures Inv(xs, i + 1, i, Tag(xs[i], stack), blocks)
  {
    if xs[i].name.Some? && stack != [] {
      var s := Tag(xs[i], stack);
      var n := |stack| - 1;
      assert forall k :: 0 <= k < n ==> s[k] == stack[k];
      assert s[n].line == stack[n].line && s[n].color == Some(TypeColor(xs[i].name.value));
      assert TypedIn(xs, s[n].line, i + 1, s[n].color.value) by {
        assert s[n].line <= i;
      }
      assert StackOk(xs, i + 1, s);
      assert Apart(s, blocks);
    }
  }

  /** A block closing after every recorded one and crossing none keeps
      the blocks laminar. */
  lemma AppendLaminar(blocks: seq<Block>, b: Block)
    requires Laminar(blocks)
    requires forall c :: c in blocks ==> c.end < b.end && (b.start <= c.start || c.end < b.start)
    ensures Laminar(blocks + [b])
  {
    var bs := blocks + [b];
    forall j, k | 0 <= j < k < |bs|
      ensures bs[j].end < bs[k].end && (bs[k].start <= bs[j].start || bs[j].end < bs[k].start)
    {
      if k == |blocks| {
        assert bs[j] in blocks;
      }
    }
  }

  /** A block starting after every open entry keeps them apart. */
  lemma AppendApart(rest: seq<Open>, blocks: seq<Block>, b: Block)
    requires Apart(rest, blocks)
    requires forall k :: 0 <= k < |rest| ==> rest[k].line < b.start
    ensures Apart(rest, blocks + [b])
  {
  }

  /** Popping a coloured entry records a well-formed block that keeps
      the blocks laminar and apart from the entries still open. */
  lemma RecordKeeps(xs: seq<LineInfo>, i: nat, stack: seq<Open>, blocks: seq<Block>)
    requires i < |xs| && xs[i].closes && stack != [] && stack[|stack| - 1].color.Some?
    requires Inv(xs, i + 1, i, stack, blocks)
    ensures var top := stack[|stack| - 1];
            var bs := blocks + [Block(top.line, i, top.color.value)];
            BlocksOk(xs, i + 1, bs) && Apart(stack[..|stack| - 1], bs)
  {
    var n := |stack| - 1;
    var top := stack[n];
    var rest := stack[..n];
    var b := Block(top.line, i, top.color.value);
    assert WellFormed(xs, b);
    forall c | c in blocks ensures c.end < b.end && (b.start <= c.start || c.end < b.start) {
      assert top.line < c.start || c.end < top.line;
    }
    AppendLaminar(blocks, b);
    forall k | 0 <= k < |rest| ensures rest[k].line < b.start {
      assert rest[k] == stack[k];
    }
    AppendApart(rest, blocks, b);
  }

  lemma CloseKeeps(xs: seq<LineInfo>, i: nat, stack: seq<Open>, blocks: seq<Block>)
    requires i < |xs| && Inv(xs, i + 1, i, stack, blocks)
    ensures var r := Close(xs[i], i, stack, blocks);
            Inv(xs, i + 1, i + 1, r.0, r.1)
  {
    if xs[i].closes && stack != [] {
      var rest := stack[..|stack| - 1];
      assert StackOk(xs, i + 1, rest);
      if stack[|stack| - 1].color.Some? {
        RecordKeeps(xs, i, stack, blocks);
      } else {
        assert Apart(rest, blocks);
      }
    }
  }

  /** Everything the first pass records from a reachable state is a
      well-formed block, and the blocks are laminar. */
  lemma {:induction false} PassFacts(xs: seq<LineInfo>, i: nat, stack: seq<Open>, blocks: seq<Block>)
    requires i <= |xs| && Inv(xs, i, i, stack, blocks)
    ensures BlocksOk(xs, |xs|, Pass(xs, i, stack, blocks))
    decreases |xs| - i
  {
    if i < |xs| {
      PushKeeps(xs, i, stack, blocks);
      TagKeeps(xs, i, Push(xs[i], i, stack), blocks);
      CloseKeeps(xs, i, Tag(xs[i], Push(xs[i], i, stack)), blocks);
      var r := Close(xs[i], i, Tag(xs[i], Push(xs[i], i, stack)), blocks);
      PassFacts(xs, i + 1, r.0, r.1);
    }
  }

  // -------------------------------------------------------------------
  // Which `{` a line sees as innermost, by counting braces.
  // -------------------------------------------------------------------

  /** The `{` lines among xs[lo..hi]. */
  function OpensIn(xs: seq<LineInfo>, lo: nat, hi: nat): nat
    requires lo <= hi <= |xs|
    decreases hi - lo
  {
    if lo == hi then 0 else OpensIn(xs, lo, hi - 1) + (if xs[hi - 1].opens then 1 else 0)
  }

  /** The `}` lines among xs[lo..hi]. */
  function ClosesIn(xs: seq<LineInfo>, lo: nat, hi: nat): nat
    requires lo <= hi <= |xs|
    decreases hi - lo
  {
    if lo == hi then 0 else ClosesIn(xs, lo, hi - 1) + (if xs[hi - 1].closes then 1 else 0)
  }

  /** The `{` of line s is the innermost open one when line l is tagged:
      every `{` opened after it up to l has been closed by a `}` from s on
      before l. (This reads right while that `{` is still open.) */
  predicate Innermost(xs: seq<LineInfo>, s: nat, l: nat)
    requires s <= l < |xs|
  {
    OpensIn(xs, s + 1, l + 1) == ClosesIn(xs, s, l)
  }

  /** No line of xs[s..hi] closes the `{` of line s. */
  predicate OpenThrough(xs: seq<LineInfo>, s: nat, hi: nat)
    requires s <= hi <= |xs|
  {
    forall l {:trigger Innermost(xs, s, l)} :: s <= l < hi ==> !(xs[l].closes && Innermost(xs, s, l))
  }

  /** Line e holds the `}` matching the `{` of line s. */
  predicate Matches(xs: seq<LineInfo>, s: nat, e: nat)
    requires s <= e < |xs|
  {
    xs[s].opens && xs[e].closes && Innermost(xs, s, e) && OpenThrough(xs, s, e)
  }

  /** The colour of the last `"type"` line of xs[s..hi] that sees the
      `{` of line s as innermost; None if there is none. */
  function LastTag(xs: seq<LineInfo>, s: nat, hi: nat): Option<string>
    requires s <= hi <= |xs|
    decreases hi - s
  {
    if hi == s then None
    else if xs[hi - 1].name.Some? && Innermost(xs, s, hi - 1) then Some(TypeColor(xs[hi - 1].name.value))
    else LastTag(xs, s, hi - 1)
  }

  /** The last `"type"` line of xs[s..hi] that sees the `{` of line s as
      innermost, if any. */
  function LastTagLine(xs: seq<LineInfo>, s: nat, hi: nat): (r: Option<nat>)
    requires s <= hi <= |xs|
    ensures r.Some? ==> s <= r.value < hi && xs[r.value].name.Some? && Innermost(xs, s, r.value)
                        && forall m {:trigger Innermost(xs, s, m)} :: r.value < m < hi && xs[m].name.Some? ==> !Innermost(xs, s, m)
    ensures r.None? ==> forall m {:trigger Innermost(xs, s, m)} :: s <= m < hi && xs[m].name.Some? ==> !Innermost(xs, s, m)
    decreases hi - s
  {
    if hi == s then None
    else if xs[hi - 1].name.Some? && Innermost(xs, s, hi - 1) then Some(hi - 1)
    else LastTagLine(xs, s, hi - 1)
  }

  /** `LastTag` is the colour of that line. */
  lemma {:induction false} LastTagAt(xs: seq<LineInfo>, s: nat, hi: nat)
    requires s <= hi <= |xs|
    ensures LastTag(xs, s, hi).Some? <==> LastTagLine(xs, s, hi).Some?
    ensures LastTag(xs, s, hi).Some? ==>
              LastTag(xs, s, hi).value == TypeColor(xs[LastTagLine(xs, s, hi).value].name.value)
    decreases hi - s
  {
    if hi > s && !(xs[hi - 1].name.Some? && Innermost(xs, s, hi - 1)) {
      LastTagAt(xs, s, hi - 1);
    }
  }

  /** `LastTag` is the colour of the last such line, and None means no
      line of the range is one. */
  lemma LastTagMeaning(xs: seq<LineInfo>, s: nat, hi: nat)
    requires s <= hi <= |xs|
    ensures LastTag(xs, s, hi).Some? ==>
              exists l :: s <= l < hi && xs[l].name.Some? && Innermost(xs, s, l)
                          && LastTag(xs, s, hi).value == TypeColor(xs[l].name.value)
                          && forall m {:trigger Innermost(xs, s, m)} :: l < m < hi && xs[m].name.Some? ==> !Innermost(xs, s, m)
    ensures LastTag(xs, s, hi).None? ==> forall m {:trigger Innermost(xs, s, m)} :: s <= m < hi && xs[m].name.Some? ==> !Innermost(xs, s, m)
  {
    LastTagAt(xs, s, hi);
    var r := LastTagLine(xs, s, hi);
    if r.Some? {
      var l := r.value;
      assert s <= l < hi && xs[l].name.Some? && Innermost(xs, s, l);
    }
  }

  /** One open entry after the lines before i, with `above` entries over
      it: its `{` line, still unclosed; as many entries above it as braces
      opened since and not closed; its colour the last `"type"` line that
      saw it innermost. */
  predicate EntryOk(xs: seq<LineInfo>, i: nat, above: int, o: Open)
    requires i <= |xs|
  {
    && o.line < i && xs[o.line].opens
    && above == OpensIn(xs, o.line + 1, i) - ClosesIn(xs, o.line, i)
    && o.color == LastTag(xs, o.line, i)
    && OpenThrough(xs, o.line, i)
  }

  /** The same after the push and the tag of line i, before its `}`. */
  predicate MidEntryOk(xs: seq<LineInfo>, i: nat, above: int, o: Open)
    requires i < |xs|
  {
    && o.line <= i && xs[o.line].opens
    && above == OpensIn(xs, o.line + 1, i + 1) - ClosesIn(xs, o.line, i)
    && o.color == LastTag(xs, o.line, i + 1)
    && OpenThrough(xs, o.line, i)
  }

  /** Every entry of the stack, bottom first, is as `EntryOk` says. */
  predicate Levels(xs: seq<LineInfo>, i: nat, stack: seq<Open>)
    requires i <= |xs|
  {
    forall k :: 0 <= k < |stack| ==> EntryOk(xs, i, |stack| - 1 - k, stack[k])
  }

  /** Every entry of the stack is as `MidEntryOk` says. */
  predicate MidLevels(xs: seq<LineInfo>, i: nat, stack: seq<Open>)
    requires i < |xs|
  {
    forall k :: 0 <= k < |stack| ==> MidEntryOk(xs, i, |stack| - 1 - k, stack[k])
  }

  /** Every `{` before hi not yet closed by `closed` lines has an entry. */
  predicate AllOpen(xs: seq<LineInfo>, hi: nat, closed: nat, stack: seq<Open>)
    requires hi <= |xs| && closed <= |xs|
  {
    forall s :: 0 <= s < hi && s <= closed && xs[s].opens && OpenThrough(xs, s, closed) ==>
      exists k :: 0 <= k < |stack| && stack[k].line == s
  }

  /** The blocks recorded before i: exactly the matched pairs closed
      before i with a `"type"` line seeing their `{` innermost, coloured
      by the last one. */
  predicate Recorded(xs: seq<LineInfo>, i: nat, blocks: seq<Block>)
    requires i <= |xs|
  {
    && (forall b :: b in blocks ==>
          b.start <= b.end < i && Matches(xs, b.start, b.end) && LastTag(xs, b.start, b.end + 1) == Some(b.color))
    && (forall s, e :: 0 <= s <= e < i && Matches(xs, s, e) && LastTag(xs, s, e + 1).Some? ==>
          Block(s, e, LastTag(xs, s, e + 1).value) in blocks)
  }

  /** Line i extends the counts, the last tag and the unclosed range of an
      earlier `{` by one line. */
  lemma CountStep(xs: seq<LineInfo>, s: nat, i: nat)
    requires s <= i < |xs|
    ensures OpensIn(xs, s + 1, i + 1) == (if s < i then OpensIn(xs, s + 1, i) else 0) + (if s < i && xs[i].opens then 1 else 0)
    ensures ClosesIn(xs, s, i + 1) == ClosesIn(xs, s, i) + (if xs[i].closes then 1 else 0)
    ensures LastTag(xs, s, i + 1) ==
              if xs[i].name.Some? && Innermost(xs, s, i) then Some(TypeColor(xs[i].name.value)) else LastTag(xs, s, i)
    ensures OpenThrough(xs, s, i + 1) <==> OpenThrough(xs, s, i) && !(xs[i].closes && Innermost(xs, s, i))
  {
    assert ClosesIn(xs, s, s) == 0;
  }

  /** `Push` then `Tag`, entry by entry. */
  lemma PushTagAt(x: LineInfo, i: nat, stack: seq<Open>, k: nat)
    requires k < |Push(x, i, stack)|
    ensures var p := Push(x, i, stack);
            |Tag(x, p)| == |p|
            && p[k] == (if k < |stack| then stack[k] else Open(i, None))
            && Tag(x, p)[k] == (if x.name.Some? && k == |p| - 1 then p[k].(color := Some(TypeColor(x.name.value))) else p[k])
  {
  }

  lemma EntryPushTag(xs: seq<LineInfo>, i: nat, above: int, o: Open)
    requires i < |xs| && EntryOk(xs, i, above, o)
    ensures var a := above + (if xs[i].opens then 1 else 0);
            MidEntryOk(xs, i, a, if xs[i].name.Some? && a == 0 then o.(color := Some(TypeColor(xs[i].name.value))) else o)
  {
    CountStep(xs, o.line, i);
  }

  lemma NewEntry(xs: seq<LineInfo>, i: nat)
    requires i < |xs| && xs[i].opens
    ensures MidEntryOk(xs, i, 0, if xs[i].name.Some? then Open(i, Some(TypeColor(xs[i].name.value))) else Open(i, None))
  {
    CountStep(xs, i, i);
    assert LastTag(xs, i, i) == None;
    assert OpenThrough(xs, i, i);
  }

  lemma PushTagLevels(xs: seq<LineInfo>, i: nat, stack: seq<Open>)
    requires i < |xs| && Levels(xs, i, stack) && AllOpen(xs, i, i, stack)
    ensures MidLevels(xs, i, Tag(xs[i], Push(xs[i], i, stack)))
    ensures AllOpen(xs, i + 1, i, Tag(xs[i], Push(xs[i], i, stack)))
  {
    var p := Push(xs[i], i, stack);
    var t := Tag(xs[i], p);
    forall k | 0 <= k < |t| ensures MidEntryOk(xs, i, |t| - 1 - k, t[k]) {
      PushTagAt(xs[i], i, stack, k);
      if k < |stack| {
        EntryPushTag(xs, i, |stack| - 1 - k, stack[k]);
      } else {
        NewEntry(xs, i);
      }
    }
    forall s | 0 <= s < i + 1 && s <= i && xs[s].opens && OpenThrough(xs, s, i)
      ensures exists k :: 0 <= k < |t| && t[k].line == s
    {
      if s < i {
        var k :| 0 <= k < |stack| && stack[k].line == s;
        PushTagAt(xs[i], i, stack, k);
        assert t[k].line == s;
      } else {
        PushTagAt(xs[i], i, stack, |stack|);
        assert t[|stack|].line == s;
      }
    }
  }

  lemma EntryClose(xs: seq<LineInfo>, i: nat, above: int, o: Open)
    requires i < |xs| && MidEntryOk(xs, i, above, o)
    ensures Innermost(xs, o.line, i) <==> above == 0
    ensures xs[i].closes && above > 0 ==> EntryOk(xs, i + 1, above - 1, o)
    ensures !xs[i].closes ==> EntryOk(xs, i + 1, above, o)
  {
    CountStep(xs, o.line, i);
  }

  /** The entries left after line i's `}` are as `EntryOk` says. */
  lemma CloseKeepsLevels(xs: seq<LineInfo>, i: nat, stack: seq<Open>, blocks: seq<Block>)
    requires i < |xs| && MidLevels(xs, i, stack)
    ensures Levels(xs, i + 1, Close(xs[i], i, stack, blocks).0)
  {
    var r := Close(xs[i], i, stack, blocks);
    forall k | 0 <= k < |r.0| ensures EntryOk(xs, i + 1, |r.0| - 1 - k, r.0[k]) {
      assert r.0[k] == stack[k];
      EntryClose(xs, i, |stack| - 1 - k, stack[k]);
    }
  }

  /** Every `{` still open after line i keeps its entry. */
  lemma CloseKeepsOpen(xs: seq<LineInfo>, i: nat, stack: seq<Open>, blocks: seq<Block>)
    requires i < |xs| && MidLevels(xs, i, stack) && AllOpen(xs, i + 1, i, stack)
    ensures AllOpen(xs, i + 1, i + 1, Close(xs[i], i, stack, blocks).0)
  {
    var r := Close(xs[i], i, stack, blocks);
    forall s | 0 <= s < i + 1 && s <= i + 1 && xs[s].opens && OpenThrough(xs, s, i + 1)
      ensures exists k :: 0 <= k < |r.0| && r.0[k].line == s
    {
      CountStep(xs, s, i);
      var k :| 0 <= k < |stack| && stack[k].line == s;
      EntryClose(xs, i, |stack| - 1 - k, stack[k]);
      assert r.0[k] == stack[k];
    }
  }

  /** The innermost entry, closed by line i, is a matched pair coloured
      by its last tag. */
  lemma TopMatches(xs: seq<LineInfo>, i: nat, stack: seq<Open>)
    requires i < |xs| && MidLevels(xs, i, stack) && xs[i].closes && stack != []
    ensures var top := stack[|stack| - 1];
            top.line <= i && Matches(xs, top.line, i) && LastTag(xs, top.line, i + 1) == top.color
  {
    var top := stack[|stack| - 1];
    assert MidEntryOk(xs, i, 0, top);
    EntryClose(xs, i, 0, top);
  }

  /** The `}` of line i matching the `{` of line s pops the innermost
      entry, which is that `{`'s. */
  lemma TopOfClose(xs: seq<LineInfo>, i: nat, stack: seq<Open>, s: nat)
    requires i < |xs| && MidLevels(xs, i, stack) && AllOpen(xs, i + 1, i, stack)
    requires s <= i && Matches(xs, s, i)
    ensures stack != [] && stack[|stack| - 1].line == s && stack[|stack| - 1].color == LastTag(xs, s, i + 1)
  {
    var k :| 0 <= k < |stack| && stack[k].line == s;
    assert MidEntryOk(xs, i, |stack| - 1 - k, stack[k]);
    EntryClose(xs, i, |stack| - 1 - k, stack[k]);
  }

  /** A block recorded at line i is a matched pair with its last tag. */
  lemma CloseSound(xs: seq<LineInfo>, i: nat, stack: seq<Open>, blocks: seq<Block>)
    requires i < |xs| && MidLevels(xs, i, stack) && Recorded(xs, i, blocks)
    ensures forall b :: b in Close(xs[i], i, stack, blocks).1 ==>
              b.start <= b.end < i + 1 && Matches(xs, b.start, b.end) && LastTag(xs, b.start, b.end + 1) == Some(b.color)
  {
    var r := Close(xs[i], i, stack, blocks);
    if xs[i].closes && stack != [] && stack[|stack| - 1].color.Some? {
      var top := stack[|stack| - 1];
      TopMatches(xs, i, stack);
      assert r.1 == blocks + [Block(top.line, i, top.color.value)];
    } else {
      assert r.1 == blocks;
    }
  }

  /** A matched pair closed at line i with a tag is recorded. */
  lemma CloseComplete(xs: seq<LineInfo>, i: nat, stack: seq<Open>, blocks: seq<Block>)
    requires i < |xs| && MidLevels(xs, i, stack) && AllOpen(xs, i + 1, i, stack) && Recorded(xs, i, blocks)
    ensures forall s, e :: 0 <= s <= e < i + 1 && Matches(xs, s, e) && LastTag(xs, s, e + 1).Some? ==>
              Block(s, e, LastTag(xs, s, e + 1).value) in Close(xs[i], i, stack, blocks).1
  {
    var r := Close(xs[i], i, stack, blocks);
    assert blocks <= r.1;
    forall s, e | 0 <= s <= e < i + 1 && Matches(xs, s, e) && LastTag(xs, s, e + 1).Some?
      ensures Block(s, e, LastTag(xs, s, e + 1).value) in r.1
    {
      if e == i {
        TopOfClose(xs, i, stack, s);
        assert r.1 == blocks + [Block(s, i, LastTag(xs, s, i + 1).value)];
      }
    }
  }

  /** Line i's `}` keeps the invariants of the first pass. */
  lemma CloseLevels(xs: seq<LineInfo>, i: nat, stack: seq<Open>, blocks: seq<Block>)
    requires i < |xs| && MidLevels(xs, i, stack) && AllOpen(xs, i + 1, i, stack) && Recorded(xs, i, blocks)
    ensures var r := Close(xs[i], i, stack, blocks);
            Levels(xs, i + 1, r.0) && AllOpen(xs, i + 1, i + 1, r.0) && Recorded(xs, i + 1, r.1)
  {
    CloseKeepsLevels(xs, i, stack, blocks);
    CloseKeepsOpen(xs, i, stack, blocks);
    CloseSound(xs, i, stack, blocks);
    CloseComplete(xs, i, stack, blocks);
  }

  /** From a state the invariants describe, the first pass records exactly
      the matched pairs with a `"type"` line seeing their `{` innermost. */
  lemma {:induction false} PassExact(xs: seq<LineInfo>, i: nat, stack: seq<Open>, blocks: seq<Block>)
    requires i <= |xs| && Levels(xs, i, stack) && AllOpen(xs, i, i, stack) && Recorded(xs, i, blocks)
    ensures Recorded(xs, |xs|, Pass(xs, i, stack, blocks))
    decreases |xs| - i
  {
    if i < |xs| {
      PushTagLevels(xs, i, stack);
      CloseLevels(xs, i, Tag(xs[i], Push(xs[i], i, stack)), blocks);
      var r := Close(xs[i], i, Tag(xs[i], Push(xs[i], i, stack)), blocks);
      PassExact(xs, i + 1, r.0, r.1);
    }
  }

  /** A `}` with nothing open pops nothing and records nothing. */
  lemma CloseNothingOpen(x: LineInfo, i: nat, blocks: seq<Block>)
    ensures Close(x, i, [], blocks) == ([], blocks)
  {
  }

  /** The first pass records a block from line s to line e with colour c
      exactly when line e holds the `}` matching the `{` of line s and c
      is the colour of the last `"type"` line that saw that `{` innermost. */
  lemma BlockRecorded(lines: seq<string>, s: nat, e: nat, c: string)
    ensures Block(s, e, c) in Blocks(lines) <==>
              s <= e < |lines| && Matches(Infos(lines), s, e) && LastTag(Infos(lines), s, e + 1) == Some(c)
  {
    PassExact(Infos(lines), 0, [], []);
  }

  /** A recorded block runs from a `{` line to the `}` line matching it,
      and holds a `"type"` line of its colour: blocks without one are
      never recorded. */
  lemma BlockMeaning(lines: seq<string>, b: Block)
    requires b in Blocks(lines)
    ensures && b.start <= b.end < |lines|
            && Opens(Trim(lines[b.start])) && Closes(Trim(lines[b.end]))
            && exists l :: b.start <= l <= b.end && TypeName(Trim(lines[l])).Some?
                           && TypeColor(TypeName(Trim(lines[l])).value) == b.color
    ensures b.start <= b.end < |lines| && Matches(Infos(lines), b.start, b.end)
  {
    BlockEnds(lines, b);
    BlockHasType(lines, b);
  }

  /** A recorded block runs from a `{` line to the `}` line matching it. */
  lemma BlockEnds(lines: seq<string>, b: Block)
    requires b in Blocks(lines)
    ensures && b.start <= b.end < |lines| && Matches(Infos(lines), b.start, b.end)
            && Opens(Trim(lines[b.start])) && Closes(Trim(lines[b.end]))
  {
    BlockRecorded(lines, b.start, b.end, b.color);
    InfosAt(lines, b.start);
    InfosAt(lines, b.end);
  }

  /** A recorded block holds a `"type"` line of its colour. */
  lemma BlockHasType(lines: seq<string>, b: Block)
    requires b in Blocks(lines)
    ensures exists l :: b.start <= l <= b.end < |lines| && TypeName(Trim(lines[l])).Some?
                        && TypeColor(TypeName(Trim(lines[l])).value) == b.color
  {
    BlockLastTag(lines, b);
    var l := LastTagLine(Infos(lines), b.start, b.end + 1).value;
    InfosAt(lines, l);
    assert b.start <= l <= b.end < |lines| && TypeName(Trim(lines[l])).Some?;
  }

  /** A recorded block's colour comes from the last `"type"` line that saw
      its `{` innermost. */
  lemma BlockLastTag(lines: seq<string>, b: Block)
    requires b in Blocks(lines)
    ensures b.start <= b.end < |lines| && LastTagLine(Infos(lines), b.start, b.end + 1).Some?
    ensures b.start <= b.end < |lines| && LastTagLine(Infos(lines), b.start, b.end + 1).Some? &&
            b.color == TypeColor(Infos(lines)[LastTagLine(Infos(lines), b.start, b.end + 1).value].name.value)
  {
    BlockTagged(lines, b);
    LastTagLineColor(Infos(lines), b.start, b.end, b.color);
  }

  /** A recorded block's colour is its `LastTag`. */
  lemma BlockTagged(lines: seq<string>, b: Block)
    requires b in Blocks(lines)
    ensures b.start <= b.end < |lines| && LastTag(Infos(lines), b.start, b.end + 1) == Some(b.color)
  {
    BlockRecorded(lines, b.start, b.end, b.color);
  }

  /** A `LastTag` colour is the colour of the `LastTagLine` line. */
  lemma LastTagLineColor(xs: seq<LineInfo>, s: nat, e: nat, c: string)
    requires s <= e < |xs| && LastTag(xs, s, e + 1) == Some(c)
    ensures LastTagLine(xs, s, e + 1).Some? && c == TypeColor(xs[LastTagLine(xs, s, e + 1).value].name.value)
  {
    LastTagAt(xs, s, e + 1);
  }

  /** Line l is the last `"type"` line of block b that saw the block's
      `{` as the innermost open one. */
  predicate LastInnermostType(lines: seq<string>, b: Block, l: int) {
    && b.start <= l <= b.end < |lines|
    && TypeName(Trim(lines[l])).Some? && Innermost(Infos(lines), b.start, l)
    && forall m {:trigger Innermost(Infos(lines), b.start, m)} ::
         l < m <= b.end && TypeName(Trim(lines[m])).Some? ==> !Innermost(Infos(lines), b.start, m)
  }

  /** The colour of a recorded block is that of the last `"type"` line
      inside it that saw its `{` as the innermost open one: a later
      `"type"` line at the same level overwrites an earlier one, and
      `"type"` lines of nested blocks do not count. */
  lemma BlockColor(lines: seq<string>, b: Block)
    requires b in Blocks(lines)
    ensures exists l :: LastInnermostType(lines, b, l) && b.color == TypeColor(TypeName(Trim(lines[l])).value)
  {
    var xs := Infos(lines);
    BlockLastTag(lines, b);
    var l := LastTagLine(xs, b.start, b.end + 1).value;
    InfosAt(lines, l);
    forall m | l < m <= b.end && TypeName(Trim(lines[m])).Some? ensures !Innermost(xs, b.start, m) {
      InfosAt(lines, m);
    }
    assert LastInnermostType(lines, b, l);
  }

  /** The recorded blocks close in order and are nested or apart. */
  lemma BlocksLaminar(lines: seq<string>)
    ensures Laminar(Blocks(lines))
  {
    PassFacts(Infos(lines), 0, [], []);
  }

  // -------------------------------------------------------------------
  // The second pass.
  // -------------------------------------------------------------------

  predicate Covers(b: Block, i: int) { b.start <= i <= b.end }

  /** The first block in `blocks` around line i. */
  function FirstCovering(blocks: seq<Block>, i: int): Option<Block> {
    if blocks == [] then None
    else if Covers(blocks[0], i) then Some(blocks[0])
    else FirstCovering(blocks[1..], i)
  }

  /** The colour of a line, given the recorded blocks: `"no":` lines are
      green, others take the first covering block's colour, if any. */
  function ColorIn(blocks: seq<Block>, t: string, i: int): string {
    if IsNumberLine(t) then NumberColor
    else match FirstCovering(blocks, i)
      case None => DefaultColor
      case Some(b) => b.color
  }

  /** The colour of line i. */
  function LineColor(lines: seq<string>, i: int): string
    requires 0 <= i < |lines|
  {
    ColorIn(Blocks(lines), Trim(lines[i]), i)
  }

  /** No block covers line i exactly when the search finds none. */
  lemma {:induction false} FirstCoveringNone(blocks: seq<Block>, i: int)
    ensures FirstCovering(blocks, i).None? <==> forall b :: b in blocks ==> !Covers(b, i)
  {
    if blocks != [] && !Covers(blocks[0], i) {
      FirstCoveringNone(blocks[1..], i);
      assert forall b :: b in blocks ==> b == blocks[0] || b in blocks[1..];
    }
  }

  /** The block found is the first one covering line i. */
  lemma {:induction false} FirstCoveringIndex(blocks: seq<Block>, i: int)
    requires FirstCovering(blocks, i).Some?
    ensures Covers(FirstCovering(blocks, i).value, i)
    ensures exists j :: 0 <= j < |blocks| && blocks[j] == FirstCovering(blocks, i).value
                        && forall m :: 0 <= m < j ==> !Covers(blocks[m], i)
  {
    if !Covers(blocks[0], i) {
      FirstCoveringIndex(blocks[1..], i);
      var j :| 0 <= j < |blocks[1..]| && blocks[1..][j] == FirstCovering(blocks[1..], i).value
               && forall m :: 0 <= m < j ==> !Covers(blocks[1..][m], i);
      assert blocks[j + 1] == blocks[1..][j];
      forall m | 0 <= m < j + 1 ensures !Covers(blocks[m], i) {
        if m > 0 {
          assert blocks[m] == blocks[1..][m - 1];
        }
      }
    }
  }

  /** In laminar blocks, the first one around line i lies inside every
      other one around it. */
  lemma FirstIsInnermost(bs: seq<Block>, i: int)
    requires Laminar(bs) && FirstCovering(bs, i).Some?
    ensures var b := FirstCovering(bs, i).value;
            forall c :: c in bs && Covers(c, i) ==> c.start <= b.start && b.end <= c.end
  {
    FirstCoveringIndex(bs, i);
    var j :| 0 <= j < |bs| && bs[j] == FirstCovering(bs, i).value && forall m :: 0 <= m < j ==> !Covers(bs[m], i);
    forall c | c in bs && Covers(c, i) ensures c.start <= bs[j].start && bs[j].end <= c.end {
      var k :| 0 <= k < |bs| && bs[k] == c;
      if k > j {
        assert bs[j].end < bs[k].end;
      }
    }
  }

  /** The innermost block wins: the block that colours a line lies inside
      every other recorded block around that line. */
  lemma InnermostWins(lines: seq<string>, i: int)
    requires FirstCovering(Blocks(lines), i).Some?
    ensures var b := FirstCovering(Blocks(lines), i).value;
            forall c :: c in Blocks(lines) && Covers(c, i) ==> c.start <= b.start && b.end <= c.end
  {
    BlocksLaminar(lines);
    FirstIsInnermost(Blocks(lines), i);
  }

  /** The tests the first pass makes on a line: `trim()`, then the
      `{` test, the `"type"` match and the `}` test. */
  method ReadLine(lines: seq<string>, i: nat) returns (x: LineInfo)
    requires i < |lines|
    ensures x == Infos(lines)[i]
  {
    InfosAt(lines, i);
    var trimmed := Trim(lines[i]);
    x := LineInfo(Opens(trimmed), TypeName(trimmed), Closes(trimmed));
  }

  /** One iteration of the first pass on the line read as x: push on
      `{`, colour the top on a `"type"`, pop (and record a coloured entry)
      on `}`. */
  method ScanLine(x: LineInfo, i: nat, stack0: seq<Open>, blocks0: seq<Block>)
    returns (stack: seq<Open>, blocks: seq<Block>)
    ensures (stack, blocks) == Close(x, i, Tag(x, Push(x, i, stack0)), blocks0)
  {
    stack, blocks := stack0, blocks0;
    if x.opens {
      stack := stack + [Open(i, None)];
    }
    assert stack == Push(x, i, stack0);
    ghost var pushed := stack;
    if x.name.Some? && |stack| > 0 {
      var top := stack[|stack| - 1];
      stack := stack[..|stack| - 1] + [top.(color := Some(TypeColor(x.name.value)))];
    }
    assert stack == Tag(x, pushed);
    if x.closes {
      if |stack| > 0 {
        var open := stack[|stack| - 1];
        stack := stack[..|stack| - 1];
        if open.color.Some? {
          blocks := blocks + [Block(open.line, i, open.color.value)];
        }
      }
    }
  }

  /** The first pass as written: a `while` over the lines pushing and
      popping `openBraces` and appending to `blocks`. */
  method ScanBlocks(lines: seq<string>) returns (blocks: seq<Block>)
    ensures blocks == Blocks(lines)
  {
    ghost var xs := Infos(lines);
    ghost var all := Blocks(lines);
    var stack: seq<Open> := [];
    blocks := [];
    var i := 0;
    while i < |lines|
      invariant i <= |lines| == |xs|
      invariant Pass(xs, i, stack, blocks) == all
    {
      var x := ReadLine(lines, i);
      ghost var before, recorded := stack, blocks;
      stack, blocks := ScanLine(x, i, stack, blocks);
      PassStep(xs, i, before, recorded, stack, blocks);
      i := i + 1;
    }
  }

  /** The `for (const block of blocks)` search with its `break`. */
  method FindCovering(blocks: seq<Block>, i: int) returns (r: Option<Block>)
    ensures r == FirstCovering(blocks, i)
  {
    var j := 0;
    while j < |blocks|
      invariant j <= |blocks|
      invariant FirstCovering(blocks, i) == FirstCovering(blocks[j..], i)
    {
      if blocks[j].start <= i <= blocks[j].end {
        assert blocks[j..][0] == blocks[j];
        return Some(blocks[j]);
      }
      assert blocks[j..][1..] == blocks[j + 1..];
      j := j + 1;
    }
    assert blocks[j..] == [];
    return None;
  }

  /** One step of the second pass on line i, whose trimmed text is t: the
      first covering block's colour, then green over it on a `"no":`
      line.  Only `colors[i]` changes. */
  method ColorLine(colors: array<string>, blocks: seq<Block>, t: string, i: nat)
    requires i < colors.Length && colors[i] == DefaultColor
    modifies colors
    ensures colors[i] == ColorIn(blocks, t, i)
    ensures forall k :: 0 <= k < colors.Length && k != i ==> colors[k] == old(colors[k])
  {
    var found := FindCovering(blocks, i);
    if found.Some? {
      colors[i] := found.value.color;
    }
    if IsNumberLine(t) {
      colors[i] := NumberColor;
    }
  }

  /** The second pass as written: the colours start as the default and
      each line's colour is written in place. */
  method ColorLines(lines: seq<string>, blocks: seq<Block>) returns (colors: seq<string>)
    ensures |colors| == |lines|
    ensures forall i :: 0 <= i < |lines| ==> colors[i] == ColorIn(blocks, Trim(lines[i]), i)
  {
    var a := new string[|lines|](_ => DefaultColor);
    for i := 0 to |lines|
      invariant forall k :: 0 <= k < i ==> a[k] == ColorIn(blocks, Trim(lines[k]), k)
      invariant forall k :: i <= k < |lines| ==> a[k] == DefaultColor
    {
      var trimmed := Trim(lines[i]);
      ColorLine(a, blocks, trimmed, i);
    }
    colors := a[..];
  }

  /** `computeLineColors(lines)`: no lines give no colours; otherwise the
      first pass finds the blocks and the second colours every line. */
  method ComputeLineColors(lines: seq<string>) returns (colors: seq<string>)
    ensures |colors| == |lines|
    ensures forall i :: 0 <= i < |lines| ==> colors[i] == LineColor(lines, i)
  {
    if |lines| == 0 {
      return [];
    }
    var blocks := ScanBlocks(lines);
    colors := ColorLines(lines, blocks);
  }

  /** A `"no":` line is always green; any other line outside every
      recorded block keeps the default colour, and a line inside one takes
      the colour of a `"type"` line around it (which one:
      `FirstCoveringColor`). */
  lemma LineColorFacts(lines: seq<string>, i: int)
    requires 0 <= i < |lines|
    ensures IsNumberLine(Trim(lines[i])) ==> LineColor(lines, i) == NumberColor
    ensures !IsNumberLine(Trim(lines[i])) && (forall b :: b in Blocks(lines) ==> !Covers(b, i)) ==>
              LineColor(lines, i) == DefaultColor
    ensures !IsNumberLine(Trim(lines[i])) && (exists b :: b in Blocks(lines) && Covers(b, i)) ==>
              exists l :: 0 <= l < |lines| && TypeName(Trim(lines[l])).Some?
                          && LineColor(lines, i) == TypeColor(TypeName(Trim(lines[l])).value)
  {
    var found := FirstCovering(Blocks(lines), i);
    FirstCoveringNone(Blocks(lines), i);
    if !IsNumberLine(Trim(lines[i])) && found.Some? {
      FirstCoveringIndex(Blocks(lines), i);
      BlockMeaning(lines, found.value);
    }
  }

  /** A line other than a `"no":` line inside a recorded block takes the
      colour of the innermost recorded block around it, which is that of
      the last `"type"` line in that block seeing its `{` innermost. */
  lemma FirstCoveringColor(lines: seq<string>, i: int)
    requires 0 <= i < |lines| && FirstCovering(Blocks(lines), i).Some?
    ensures var b := FirstCovering(Blocks(lines), i).value;
            && b in Blocks(lines) && Covers(b, i)
            && (!IsNumberLine(Trim(lines[i])) ==> LineColor(lines, i) == b.color)
            && (forall c :: c in Blocks(lines) && Covers(c, i) ==> c.start <= b.start && b.end <= c.end)
            && exists l :: LastInnermostType(lines, b, l) && b.color == TypeColor(TypeName(Trim(lines[l])).value)
  {
    var b := FirstCovering(Blocks(lines), i).value;
    FirstCoveringIndex(Blocks(lines), i);
    InnermostWins(lines, i);
    BlockColor(lines, b);
  }
}

=== FILE: linear_chains.dfy ===
/** The linear chain collectors of `syncMediaNodes` (slideshow, video
    slideshow, dialogue preview, timeline): from the source of the node's
    first 'input' edge, keep following the first 'input' edge into the
    current node while there is one, keeping every node a picker accepts,
    then reverse the list so the most upstream node comes first.

    The loop has no visited guard, so on a cycle it never ends.  Every walk
    here therefore carries a ghost step bound `fuel`; `Chain` is `None` when
    the loop has not stopped within it, and `ChainFuel` shows that the bound
    chosen does not change a walk that stops. */
module LinearChains {
  import opened Common
  import opened Graph

  /** `prevEdge ? prevEdge.source : null`, with null as "". */
  function PrevId(g: Graph, id: string): string {
    PrevIn(g.edges, id)
  }

  function PrevIn(edges: seq<Edge>, id: string): string {
    if edges == [] then ""
    else if edges[0].target == id && edges[0].targetHandle == "input" then edges[0].source
    else PrevIn(edges[1..], id)
  }

  lemma {:induction false} PrevInFirstInput(edges: seq<Edge>, id: string)
    ensures PrevIn(edges, id) == (if FirstInput(edges, id).Some? then FirstInput(edges, id).value.source else "")
  {
    if edges != [] && !(edges[0].target == id && edges[0].targetHandle == "input") {
      PrevInFirstInput(edges[1..], id);
    }
  }

  /** The ids `while (currentId)` visits from `id`, if it stops within `fuel` steps. */
  function Chain(g: Graph, id: string, fuel: nat): (r: Option<seq<string>>)
    ensures r.Some? ==> |r.value| <= fuel && forall x :: x in r.value ==> x != ""
    ensures r.Some? && id == "" ==> r.value == []
    ensures r.Some? && id != "" ==> r.value != [] && r.value[0] == id
    decreases fuel
  {
    if id == "" then Some([])
    else if fuel == 0 then None
    else match Chain(g, PrevId(g, id), fuel - 1)
      case None => None
      case Some(rest) => Some([id] + rest)
  }

  /** One step of the loop. */
  lemma ChainUnfold(g: Graph, id: string, fuel: nat)
    requires id != "" && Chain(g, id, fuel).Some?
    ensures fuel > 0 && Chain(g, PrevId(g, id), fuel - 1).Some?
    ensures Chain(g, id, fuel).value == [id] + Chain(g, PrevId(g, id), fuel - 1).value
  {
  }

  /** A chain that stops within `f1` steps stops the same way with any larger bound. */
  lemma {:induction false} ChainFuel(g: Graph, id: string, f1: nat, f2: nat)
    requires Chain(g, id, f1).Some? && f1 <= f2
    ensures Chain(g, id, f2) == Chain(g, id, f1)
    decreases f1
  {
    if id != "" {
      ChainUnfold(g, id, f1);
      var p := PrevId(g, id);
      ChainFuel(g, p, f1 - 1, f2 - 1);
      assert Chain(g, id, f2) == Some([id] + Chain(g, p, f2 - 1).value);
    }
  }

  /** When the ids reachable by the step form a set that never yields null
      (a cycle, a self-loop), the loop does not stop, whatever the bound. */
  lemma {:induction false} CycleNeverEnds(g: Graph, s: set<string>, id: string, fuel: nat)
    requires "" !in s && id in s
    requires forall x :: x in s ==> PrevId(g, x) in s
    ensures Chain(g, id, fuel).None?
    decreases fuel
  {
    if fuel > 0 {
      CycleNeverEnds(g, s, PrevId(g, id), fuel - 1);
    }
  }

  /** Each step of a chain follows the first 'input' edge into the current
      node, and the chain stops exactly where there is none (or its source is empty). */
  lemma {:induction false} ChainSteps(g: Graph, id: string, fuel: nat, i: int)
    requires Chain(g, id, fuel).Some? && 0 <= i < |Chain(g, id, fuel).value|
    ensures var ids := Chain(g, id, fuel).value;
      if i + 1 < |ids| then
        FirstInput(g.edges, ids[i]).Some? && FirstInput(g.edges, ids[i]).value.source == ids[i + 1]
      else
        FirstInput(g.edges, ids[i]).None? || FirstInput(g.edges, ids[i]).value.source == ""
    decreases fuel
  {
    var ids := Chain(g, id, fuel).value;
    ChainUnfold(g, id, fuel);
    var rest := Chain(g, PrevId(g, id), fuel - 1).value;
    if i > 0 {
      ChainSteps(g, PrevId(g, id), fuel - 1, i - 1);
      assert ids[i] == rest[i - 1];
      if i + 1 < |ids| {
        assert ids[i + 1] == rest[i];
      }
    } else if |ids| > 1 {
      PrevInFirstInput(g.edges, id);
      assert rest[0] == PrevId(g, id);
    } else {
      PrevInFirstInput(g.edges, id);
      assert rest == [];
    }
  }

  lemma {:induction false} ChainSuffix(g: Graph, id: string, fuel: nat, i: int)
    requires Chain(g, id, fuel).Some? && 0 <= i < |Chain(g, id, fuel).value|
    ensures fuel >= i
    ensures Chain(g, Chain(g, id, fuel).value[i], fuel - i) == Some(Chain(g, id, fuel).value[i..])
    decreases fuel
  {
    var ids := Chain(g, id, fuel).value;
    if i > 0 {
      ChainUnfold(g, id, fuel);
      ChainSuffix(g, PrevId(g, id), fuel - 1, i - 1);
      assert ids[i..] == ids[1..][i - 1..];
    }
  }

  /** A chain that stops never visits a node twice (otherwise it would cycle). */
  lemma ChainDistinct(g: Graph, id: string, fuel: nat, i: int, j: int)
    requires Chain(g, id, fuel).Some? && 0 <= i < j < |Chain(g, id, fuel).value|
    ensures Chain(g, id, fuel).value[i] != Chain(g, id, fuel).value[j]
  {
    var ids := Chain(g, id, fuel).value;
    ChainSuffix(g, id, fuel, i);
    ChainSuffix(g, id, fuel, j);
    ChainFuel(g, ids[j], fuel - j, fuel - i);
    assert |ids[i..]| != |ids[j..]|;
  }

  // -------------------------------------------------------------------
  // What a chain collects.
  // -------------------------------------------------------------------

  /** What the loop keeps for node `id`: the picker's item for the node, if
      the node exists and the picker accepts it. */
  function PickAt<T>(g: Graph, id: string, pick: Node -> Option<T>): (r: seq<T>)
    ensures |r| <= 1
    ensures r != [] ==> FindNode(g.nodes, id).Some? && pick(FindNode(g.nodes, id).value) == Some(r[0])
  {
    match FindNode(g.nodes, id)
    case None => []
    case Some(n) => if pick(n).Some? then [pick(n).value] else []
  }

  /** The items pushed while visiting `ids`, in visiting order. */
  function Picks<T>(g: Graph, ids: seq<string>, pick: Node -> Option<T>): (r: seq<T>)
    ensures |r| <= |ids|
  {
    if ids == [] then [] else PickAt(g, ids[0], pick) + Picks(g, ids[1..], pick)
  }

  function Reverse<T>(s: seq<T>): (r: seq<T>)
    ensures |r| == |s|
    ensures forall i :: 0 <= i < |s| ==> r[i] == s[|s| - 1 - i]
  {
    if s == [] then [] else Reverse(s[1..]) + [s[0]]
  }

  lemma ReverseAppend<T>(a: seq<T>, b: seq<T>)
    ensures Reverse(a + b) == Reverse(b) + Reverse(a)
  {
    var r := Reverse(a + b);
    assert forall i :: 0 <= i < |r| ==> r[i] == (Reverse(b) + Reverse(a))[i];
  }

  /** The collected list after `reverse()`; [] when the loop does not stop within `fuel`. */
  function ChainItems<T>(g: Graph, start: string, pick: Node -> Option<T>, fuel: nat): seq<T> {
    Reverse(Picks(g, Chain(g, start, fuel).GetOr([]), pick))
  }

  /** Upstream first: the items of a chain are the items of the chain
      behind its first node, followed by what its first node contributes. */
  lemma ChainItemsStep<T>(g: Graph, start: string, pick: Node -> Option<T>, fuel: nat)
    requires start != "" && Chain(g, start, fuel).Some?
    ensures fuel > 0
    ensures ChainItems(g, start, pick, fuel)
         == ChainItems(g, PrevId(g, start), pick, fuel - 1) + PickAt(g, start, pick)
  {
    ChainUnfold(g, start, fuel);
    var ids := Chain(g, start, fuel).value;
    assert ids[1..] == Chain(g, PrevId(g, start), fuel - 1).value;
    ReverseAppend(PickAt(g, start, pick), Picks(g, ids[1..], pick));
    var a := PickAt(g, start, pick);
    assert Reverse(a) == a by {
      if a != [] { assert a == [a[0]]; }
    }
  }

  lemma ChainItemsEmptyStart<T>(g: Graph, pick: Node -> Option<T>, fuel: nat)
    ensures ChainItems(g, "", pick, fuel) == []
  {
  }

  /** Every item comes from a node of the chain that the picker accepts,
      and every accepted node of the chain contributes its item. */
  lemma {:induction false} PicksMembers<T>(g: Graph, ids: seq<string>, pick: Node -> Option<T>, x: T)
    ensures x in Picks(g, ids, pick) <==>
      exists i :: 0 <= i < |ids| && FindNode(g.nodes, ids[i]).Some? && pick(FindNode(g.nodes, ids[i]).value) == Some(x)
  {
    if ids != [] {
      PicksMembers(g, ids[1..], pick, x);
      if x in Picks(g, ids[1..], pick) {
        var i :| 0 <= i < |ids[1..]| && FindNode(g.nodes, ids[1..][i]).Some? && pick(FindNode(g.nodes, ids[1..][i]).value) == Some(x);
        assert ids[1..][i] == ids[i + 1];
      }
      if exists i :: 0 <= i < |ids| && FindNode(g.nodes, ids[i]).Some? && pick(FindNode(g.nodes, ids[i]).value) == Some(x) {
        var i :| 0 <= i < |ids| && FindNode(g.nodes, ids[i]).Some? && pick(FindNode(g.nodes, ids[i]).value) == Some(x);
        if i > 0 {
          assert ids[1..][i - 1] == ids[i];
        }
      }
    }
  }

  lemma PicksStep<T>(g: Graph, id: string, pick: Node -> Option<T>, fuel: nat)
    requires id != "" && Chain(g, id, fuel).Some?
    ensures fuel > 0 && Chain(g, PrevId(g, id), fuel - 1).Some?
    ensures Picks(g, Chain(g, id, fuel).value, pick)
         == PickAt(g, id, pick) + Picks(g, Chain(g, PrevId(g, id), fuel - 1).value, pick)
  {
    ChainUnfold(g, id, fuel);
    assert Chain(g, id, fuel).value[1..] == Chain(g, PrevId(g, id), fuel - 1).value;
  }

  /** One pass of the loop: the node's item moves from the chain's items
      to the ones already found. */
  lemma CollectStep<T>(g: Graph, id: string, pick: Node -> Option<T>, fuel: nat, found: seq<T>)
    requires id != "" && Chain(g, id, fuel).Some?
    ensures fuel > 0 && Chain(g, PrevId(g, id), fuel - 1).Some?
    ensures found + Picks(g, Chain(g, id, fuel).value, pick)
         == (found + PickAt(g, id, pick)) + Picks(g, Chain(g, PrevId(g, id), fuel - 1).value, pick)
  {
    PicksStep(g, id, pick, fuel);
  }

  /** The `while (currentId)` loop, then `reverse()`. */
  method CollectChain<T>(g: Graph, start: string, pick: Node -> Option<T>, ghost fuel: nat) returns (items: seq<T>)
    requires Chain(g, start, fuel).Some?
    ensures items == ChainItems(g, start, pick, fuel)
  {
    var found: seq<T> := [];
    var current := start;
    ghost var f := fuel;
    ghost var total := Picks(g, Chain(g, start, fuel).value, pick);
    while current != ""
      invariant Chain(g, current, f).Some?
      invariant found + Picks(g, Chain(g, current, f).value, pick) == total
      decreases f
    {
      CollectStep(g, current, pick, f, found);
      ghost var before := found;
      var node := FindNode(g.nodes, current);
      if node.Some? && pick(node.value).Some? {
        found := found + [pick(node.value).value];
      }
      assert found == before + PickAt(g, current, pick);
      current := PrevId(g, current);
      f := f - 1;
    }
    assert Chain(g, current, f).value == [];
    assert found == Picks(g, Chain(g, start, fuel).value, pick);
    items := Reverse(found);
  }

  // -------------------------------------------------------------------
  // The pickers.
  // -------------------------------------------------------------------

  /** SlideShowNode: nodes with an `imagePath`. */
  function SlideOf(n: Node): (r: Option<MediaItem>)
    ensures r.Some? <==> n.data.imagePath != ""
    ensures r.Some? ==> r.value.id == n.id && r.value.path == n.data.imagePath && r.value.fileName != ""
  {
    if n.data.imagePath == "" then None
    else Some(MediaItem(n.id, n.data.imagePath, n.data.imageUrl, Or(n.data.fileName, "Unknown")))
  }

  /** VideoSlideShowNode: nodes with a `videoPath`. */
  function VideoOf(n: Node): (r: Option<MediaItem>)
    ensures r.Some? <==> n.data.videoPath != ""
    ensures r.Some? ==> r.value.id == n.id && r.value.path == n.data.videoPath && r.value.fileName != ""
  {
    if n.data.videoPath == "" then None
    else Some(MediaItem(n.id, n.data.videoPath, n.data.videoUrl, Or(n.data.fileName, "Unknown")))
  }

  /** dialoguePreview: `dialogue` nodes, with display defaults. */
  function DialogueOf(n: Node): (r: Option<DialogueItem>)
    ensures r.Some? <==> n.kind == "dialogue"
    ensures r.Some? ==> r.value.id == n.id && r.value.caption != "" && r.value.nameColor != "" && r.value.headerColor != ""
  {
    if n.kind != "dialogue" then None
    else Some(DialogueItem(n.id, Or(n.data.caption, "無題の対話"), n.data.characterName, n.data.dialogueText,
                           Or(n.data.nameColor, "#ffccaa"), Or(n.data.headerColor, "#9c27b0")))
  }

  /** layerTimeline: `layerImage` nodes with an `imageUrl`. */
  function TimelineNodeOf(n: Node): (r: Option<Node>)
    ensures r.Some? <==> n.kind == "layerImage" && n.data.imageUrl != ""
    ensures r.Some? ==> r.value == n
  {
    if n.kind == "layerImage" && n.data.imageUrl != "" then Some(n) else None
  }
}

=== FILE: novel_export.dfy ===
/** The timeline the visual-novel export node builds
    (app/src/Nodes/VisualNovelExportNode.jsx): a walk from the node after the
    export node along non-branch edges, with a choice node splitting into one
    sub-timeline per `yes`/`no` edge, every entry but character images
    numbered from one counter shared by all branches. */
module NovelExport {
  import opened Common
  import opened Graph

  /** One branch of a choice: `label` is `caption`. */
  datatype Branch = Branch(caption: string, timeline: seq<Entry>)

  /** One timeline entry; `no` is its number. */
  datatype Entry =
    | Image(no: nat, path: string, fileName: string)
    | Video(no: nat, path: string, fileName: string)
    | Dialogue(no: nat, character: string, nameColor: string, text: string)
    | Choice(no: nat, question: string, choices: seq<Branch>)
    | Character(path: string, x: Option<int>, y: Option<int>, scale: Option<Ratio>, zIndex: int)

  // -------------------------------------------------------------------
  // Numbers.
  // -------------------------------------------------------------------

  /** The numbers a, a + 1, …, b - 1. */
  function Range(a: nat, b: nat): (r: seq<nat>)
    requires a <= b
    ensures |r| == b - a && forall i :: 0 <= i < |r| ==> r[i] == a + i
    decreases b - a
  {
    if a == b then [] else [a] + Range(a + 1, b)
  }

  lemma RangeAppend(a: nat, b: nat, c: nat)
    requires a <= b <= c
    ensures Range(a, b) + Range(b, c) == Range(a, c)
  {
  }

  /** The numbers an entry holds, in the order the counter hands them out:
      a choice's branches first, then the choice itself. */
  function NumbersOf(e: Entry): seq<nat>
    decreases e, 1
  {
    match e
    case Image(no, _, _) => [no]
    case Video(no, _, _) => [no]
    case Dialogue(no, _, _, _) => [no]
    case Choice(no, _, bs) => BranchNumbers(bs) + [no]
    case Character(_, _, _, _, _) => []
  }

  function NumbersIn(ts: seq<Entry>): seq<nat>
    decreases ts, 0
  {
    if ts == [] then [] else NumbersOf(ts[0]) + NumbersIn(ts[1..])
  }

  function BranchNumbers(bs: seq<Branch>): seq<nat>
    decreases bs, 0
  {
    if bs == [] then [] else NumbersIn(bs[0].timeline) + BranchNumbers(bs[1..])
  }

  /** Every choice in the entry is numbered after everything inside its
      branches. */
  predicate ChoiceAfterBranches(e: Entry)
    decreases e, 1
  {
    match e
    case Choice(no, _, bs) =>
      (forall k :: k in BranchNumbers(bs) ==> k < no) && BranchesOk(bs)
    case _ => true
  }

  predicate AllOk(ts: seq<Entry>)
    decreases ts, 0
  {
    ts == [] || (ChoiceAfterBranches(ts[0]) && AllOk(ts[1..]))
  }

  predicate BranchesOk(bs: seq<Branch>)
    decreases bs, 0
  {
    bs == [] || (AllOk(bs[0].timeline) && BranchesOk(bs[1..]))
  }

  lemma {:induction false} NumbersInAppend(a: seq<Entry>, b: seq<Entry>)
    ensures NumbersIn(a + b) == NumbersIn(a) + NumbersIn(b)
    decreases |a|
  {
    if a == [] {
      assert a + b == b;
    } else {
      assert (a + b)[0] == a[0] && (a + b)[1..] == a[1..] + b;
      NumbersInAppend(a[1..], b);
    }
  }

  lemma {:induction false} AllOkAppend(a: seq<Entry>, b: seq<Entry>)
    requires AllOk(a) && AllOk(b)
    ensures AllOk(a + b)
    decreases |a|
  {
    if a == [] {
      assert a + b == b;
    } else {
      assert (a + b)[0] == a[0] && (a + b)[1..] == a[1..] + b;
      AllOkAppend(a[1..], b);
    }
  }

  // -------------------------------------------------------------------
  // The walk as a definition.
  // -------------------------------------------------------------------

  predicate IsBranchHandle(h: string) { h == "yes" || h == "no" }

  /** The choice's `yes`/`no` edges, in edge order. */
  function ChoiceEdges(edges: seq<Edge>, id: string): (r: seq<Edge>)
    ensures forall e :: e in r <==> e in edges && e.source == id && IsBranchHandle(e.sourceHandle)
  {
    if edges == [] then []
    else (if edges[0].source == id && IsBranchHandle(edges[0].sourceHandle) then [edges[0]] else [])
         + ChoiceEdges(edges[1..], id)
  }

  /** `next?.target` for the first other edge leaving `id` ("" when none). */
  function NextTarget(edges: seq<Edge>, id: string): (r: string)
    ensures r != "" ==> exists e :: e in edges && e.source == id && !IsBranchHandle(e.sourceHandle) && e.target == r
  {
    if edges == [] then ""
    else if edges[0].source == id && !IsBranchHandle(edges[0].sourceHandle) then edges[0].target
    else NextTarget(edges[1..], id)
  }

  function BranchCaption(e: Edge): string {
    if e.sourceHandle == "yes" then "はい" else "いいえ"
  }

  /** The walk from `cur` with the ids already on the path in `visited` and
      the counter at c: the entries and the counter after them. */
  function Walk(g: Graph, cur: string, visited: set<string>, c: nat): (r: (seq<Entry>, nat))
    ensures c <= r.1
    decreases |NodeIds(g.nodes) - visited|, 0, 0
  {
    if cur == "" || cur in visited || FindNode(g.nodes, cur).None? then ([], c)
    else
      var v := visited + {cur};
      SetCardStep(NodeIds(g.nodes), visited, cur);
      var here := Step(g, FindNode(g.nodes, cur).value, v, c);
      var rest := Walk(g, NextTarget(g.edges, cur), v, here.1);
      (here.0 + rest.0, rest.1)
  }

  /** What the node n adds to the timeline. */
  function Step(g: Graph, n: Node, v: set<string>, c: nat): (r: (seq<Entry>, nat))
    ensures c <= r.1 && |r.0| <= 1
    decreases |NodeIds(g.nodes) - v|, 2, 0
  {
    if n.kind == "LoadImageNode" then ([Image(c, n.data.imagePath, n.data.fileName)], c + 1)
    else if n.kind == "LoadVideoNode" then ([Video(c, n.data.videoPath, n.data.fileName)], c + 1)
    else if n.kind == "dialogue" then
      ([Dialogue(c, n.data.characterName, Or(n.data.nameColor, "#ffffff"), n.data.dialogueText)], c + 1)
    else if n.kind == "choice" then ChoiceStep(g, n, v, c)
    else if n.kind == "characterImage" then
      ([Character(n.data.imagePath, n.data.x, n.data.y, n.data.scale, n.data.zIndex)], c)
    else ([], c)
  }

  /** A choice node: its branches, then the choice numbered after them. */
  function ChoiceStep(g: Graph, n: Node, v: set<string>, c: nat): (r: (seq<Entry>, nat))
    ensures c <= r.1 && |r.0| == 1 && r.0[0].Choice?
    decreases |NodeIds(g.nodes) - v|, 1, |ChoiceEdges(g.edges, n.id)| + 1
  {
    var bs := Branches(g, ChoiceEdges(g.edges, n.id), v, c);
    ([Choice(bs.1, n.data.question, bs.0)], bs.1 + 1)
  }

  /** `outgoing.map(...)`: the branches, built one after another with the
      same path and the shared counter. */
  function Branches(g: Graph, outs: seq<Edge>, v: set<string>, c: nat): (r: (seq<Branch>, nat))
    ensures c <= r.1
    ensures |r.0| == |outs| && forall i :: 0 <= i < |outs| ==> r.0[i].caption == BranchCaption(outs[i])
    decreases |NodeIds(g.nodes) - v|, 1, |outs|
  {
    if outs == [] then ([], c)
    else
      var t := Walk(g, outs[0].target, v, c);
      var rest := Branches(g, outs[1..], v, t.1);
      ([Branch(BranchCaption(outs[0]), t.0)] + rest.0, rest.1)
  }

  /** The walk hands out exactly the numbers c, c + 1, … up to the counter
      it ends with, in order, and numbers every choice after its branches. */
  lemma {:induction false} WalkNumbered(g: Graph, cur: string, visited: set<string>, c: nat)
    ensures var r := Walk(g, cur, visited, c);
            NumbersIn(r.0) == Range(c, r.1) && AllOk(r.0)
    decreases |NodeIds(g.nodes) - visited|, 0, 0
  {
    if !(cur == "" || cur in visited || FindNode(g.nodes, cur).None?) {
      var v := visited + {cur};
      SetCardStep(NodeIds(g.nodes), visited, cur);
      var here := Step(g, FindNode(g.nodes, cur).value, v, c);
      var rest := Walk(g, NextTarget(g.edges, cur), v, here.1);
      StepNumbered(g, FindNode(g.nodes, cur).value, v, c);
      WalkNumbered(g, NextTarget(g.edges, cur), v, here.1);
      NumbersInAppend(here.0, rest.0);
      RangeAppend(c, here.1, rest.1);
      AllOkAppend(here.0, rest.0);
    }
  }

  lemma {:induction false} StepNumbered(g: Graph, n: Node, v: set<string>, c: nat)
    ensures var r := Step(g, n, v, c);
            NumbersIn(r.0) == Range(c, r.1) && AllOk(r.0)
    decreases |NodeIds(g.nodes) - v|, 2, 0
  {
    var r := Step(g, n, v, c);
    if n.kind == "choice" {
      ChoiceNumbered(g, n, v, c);
    } else if r.0 != [] {
      assert r.0 == [r.0[0]] && r.0[1..] == [];
      assert NumbersIn(r.0) == NumbersOf(r.0[0]);
      assert AllOk(r.0) by { assert ChoiceAfterBranches(r.0[0]); }
    }
  }

  lemma {:induction false} ChoiceNumbered(g: Graph, n: Node, v: set<string>, c: nat)
    ensures var r := ChoiceStep(g, n, v, c);
            NumbersIn(r.0) == Range(c, r.1) && AllOk(r.0)
            && forall k :: k in BranchNumbers(r.0[0].choices) ==> c <= k < r.0[0].no
    decreases |NodeIds(g.nodes) - v|, 1, |ChoiceEdges(g.edges, n.id)| + 1
  {
    var bs := Branches(g, ChoiceEdges(g.edges, n.id), v, c);
    BranchesNumbered(g, ChoiceEdges(g.edges, n.id), v, c);
    var e := Choice(bs.1, n.data.question, bs.0);
    var r := ChoiceStep(g, n, v, c);
    assert r.0 == [e] && r.1 == e.no + 1;
    ChoiceEntryNumbers(e, c);
    assert r.0[0] == e;
  }

  /** A choice entry numbered right after branches holding c, …, no - 1. */
  lemma ChoiceEntryNumbers(e: Entry, c: nat)
    requires e.Choice? && c <= e.no && BranchNumbers(e.choices) == Range(c, e.no) && BranchesOk(e.choices)
    ensures NumbersIn([e]) == Range(c, e.no + 1) && AllOk([e])
    ensures forall k :: k in BranchNumbers(e.choices) ==> c <= k < e.no
  {
    var ns := BranchNumbers(e.choices);
    assert [e][1..] == [];
    assert NumbersIn([e]) == NumbersOf(e) + NumbersIn([]);
    assert Range(e.no, e.no + 1) == [e.no];
    RangeAppend(c, e.no, e.no + 1);
    forall k | k in ns ensures c <= k < e.no {
      var i :| 0 <= i < |ns| && ns[i] == k;
    }
    assert ChoiceAfterBranches(e);
  }

  lemma {:induction false} BranchesNumbered(g: Graph, outs: seq<Edge>, v: set<string>, c: nat)
    ensures var r := Branches(g, outs, v, c);
            BranchNumbers(r.0) == Range(c, r.1) && BranchesOk(r.0)
    decreases |NodeIds(g.nodes) - v|, 1, |outs|
  {
    if outs != [] {
      var t := Walk(g, outs[0].target, v, c);
      var rest := Branches(g, outs[1..], v, t.1);
      WalkNumbered(g, outs[0].target, v, c);
      BranchesNumbered(g, outs[1..], v, t.1);
      var bs := [Branch(BranchCaption(outs[0]), t.0)] + rest.0;
      assert bs[0].timeline == t.0 && bs[1..] == rest.0;
      RangeAppend(c, t.1, rest.1);
    }
  }

  // -------------------------------------------------------------------
  // Facts about the walk.
  // -------------------------------------------------------------------

  /** The walk stops at an empty id, at a node already on the path and at a
      missing node; a node of another type adds nothing but the walk goes
      on. */
  lemma WalkStops(g: Graph, cur: string, visited: set<string>, c: nat)
    ensures cur == "" || cur in visited || cur !in NodeIds(g.nodes) ==> Walk(g, cur, visited, c) == ([], c)
    ensures cur != "" && cur !in visited && FindNode(g.nodes, cur).Some? &&
            FindNode(g.nodes, cur).value.kind !in {"LoadImageNode", "LoadVideoNode", "dialogue", "choice", "characterImage"} ==>
              Walk(g, cur, visited, c) == Walk(g, NextTarget(g.edges, cur), visited + {cur}, c)
  {
    if cur != "" && cur !in visited && FindNode(g.nodes, cur).Some? {
      var rest := Walk(g, NextTarget(g.edges, cur), visited + {cur}, c);
      assert [] + rest.0 == rest.0;
    }
  }

  /** Numbers are handed out without gaps or repeats: the k-th number of the
      walk is c + k. */
  lemma NumbersDistinct(g: Graph, cur: string, visited: set<string>, c: nat)
    ensures var ns := NumbersIn(Walk(g, cur, visited, c).0);
            forall i, j :: 0 <= i < j < |ns| ==> c <= ns[i] < ns[j]
  {
    WalkNumbered(g, cur, visited, c);
  }

  /** A choice's branches: one per `yes`/`no` edge in edge order, captioned
      by the edge's handle, and numbered before the choice itself. */
  lemma ChoiceEntry(g: Graph, n: Node, v: set<string>, c: nat)
    requires n.kind == "choice"
    ensures var r := Step(g, n, v, c);
            && |r.0| == 1 && r.0[0].Choice?
            && var outs := ChoiceEdges(g.edges, n.id);
               && |r.0[0].choices| == |outs|
               && (forall i :: 0 <= i < |outs| ==> r.0[0].choices[i].caption == BranchCaption(outs[i]))
               && (forall k :: k in BranchNumbers(r.0[0].choices) ==> c <= k < r.0[0].no)
  {
    ChoiceNumbered(g, n, v, c);
  }

  // -------------------------------------------------------------------
  // The walk as written.
  // -------------------------------------------------------------------

  /** Walking further never re-enters a node of the path. */
  lemma SubsetCardStep(u: set<string>, a: set<string>, b: set<string>, id: string)
    requires a <= b && id in u && id !in b
    ensures |u - (b + {id})| < |u - a|
  {
    var small, big := u - (b + {id}), u - a;
    assert big == small + (big - small) && small * (big - small) == {};
    assert id in big - small;
  }

  /** The loop's state `result`, `cur`, `visited`, `counter` is partway
      through the walk from `start`: what is collected plus the rest of the
      walk is the whole walk. */
  predicate ChainSoFar(g: Graph, start: string, visited0: set<string>, counter0: nat,
                       result: seq<Entry>, cur: string, visited: set<string>, counter: nat)
  {
    var rest := Walk(g, cur, visited, counter);
    var whole := Walk(g, start, visited0, counter0);
    result + rest.0 == whole.0 && rest.1 == whole.1
  }

  /** Entering node `cur` and appending what it adds keeps the loop's
      state on the walk. */
  lemma ChainAdvance(g: Graph, start: string, visited0: set<string>, counter0: nat,
                     result: seq<Entry>, cur: string, visited: set<string>, counter: nat,
                     es: seq<Entry>, counter': nat)
    requires ChainSoFar(g, start, visited0, counter0, result, cur, visited, counter)
    requires cur != "" && cur !in visited && FindNode(g.nodes, cur).Some?
    requires (es, counter') == Step(g, FindNode(g.nodes, cur).value, visited + {cur}, counter)
    ensures ChainSoFar(g, start, visited0, counter0, result + es, NextTarget(g.edges, cur), visited + {cur}, counter')
  {
    var rest := Walk(g, NextTarget(g.edges, cur), visited + {cur}, counter');
    assert Walk(g, cur, visited, counter) == (es + rest.0, rest.1);
    assert result + (es + rest.0) == (result + es) + rest.0;
  }

  /** Where the loop stops, what it collected is the whole walk. */
  lemma ChainDone(g: Graph, start: string, visited0: set<string>, counter0: nat,
                  result: seq<Entry>, cur: string, visited: set<string>, counter: nat)
    requires ChainSoFar(g, start, visited0, counter0, result, cur, visited, counter)
    requires cur == "" || cur in visited || FindNode(g.nodes, cur).None?
    ensures (result, counter) == Walk(g, start, visited0, counter0)
  {
    assert Walk(g, cur, visited, counter) == ([], counter);
    assert result + [] == result;
  }

  /** `buildChainFromNode(startId, visited, counter)`: `counter.v` is passed
      in and handed back. */
  method BuildChain(g: Graph, start: string, visited0: set<string>, counter0: nat)
    returns (result: seq<Entry>, counter: nat)
    ensures (result, counter) == Walk(g, start, visited0, counter0)
    decreases |NodeIds(g.nodes) - visited0|, 0
  {
    result := [];
    counter := counter0;
    var visited := visited0;
    var cur := start;
    while cur != ""
      invariant visited0 <= visited
      invariant ChainSoFar(g, start, visited0, counter0, result, cur, visited, counter)
      decreases |NodeIds(g.nodes) - visited|
    {
      if cur in visited {
        break;
      }
      var found := FindNode(g.nodes, cur);
      if found.None? {
        break;
      }
      var n := found.value;
      SubsetCardStep(NodeIds(g.nodes), visited0, visited, cur);
      SetCardStep(NodeIds(g.nodes), visited, cur);
      var es, next := EntryOf(g, n, visited + {cur}, counter);
      ChainAdvance(g, start, visited0, counter0, result, cur, visited, counter, es, next);
      visited := visited + {cur};
      result := result + es;
      counter := next;
      cur := NextTarget(g.edges, cur);
    }
    ChainDone(g, start, visited0, counter0, result, cur, visited, counter);
  }

  /** The `if`/`else if` chain on `node.type` inside the loop: what the node
      adds and the counter after it. */
  method EntryOf(g: Graph, n: Node, v: set<string>, counter0: nat) returns (es: seq<Entry>, counter: nat)
    requires n.id in v
    ensures (es, counter) == Step(g, n, v, counter0)
    decreases |NodeIds(g.nodes) - v|, 2
  {
    counter := counter0;
    if n.kind == "LoadImageNode" {
      es := [Image(counter, n.data.imagePath, n.data.fileName)];
      counter := counter + 1;
    } else if n.kind == "LoadVideoNode" {
      es := [Video(counter, n.data.videoPath, n.data.fileName)];
      counter := counter + 1;
    } else if n.kind == "dialogue" {
      es := [Dialogue(counter, n.data.characterName, Or(n.data.nameColor, "#ffffff"), n.data.dialogueText)];
      counter := counter + 1;
    } else if n.kind == "choice" {
      var choices;
      choices, counter := BuildBranches(g, ChoiceEdges(g.edges, n.id), v, counter);
      es := [Choice(counter, n.data.question, choices)];
      counter := counter + 1;
    } else if n.kind == "characterImage" {
      es := [Character(n.data.imagePath, n.data.x, n.data.y, n.data.scale, n.data.zIndex)];
    } else {
      es := [];
    }
  }

  /** The branches built for `outs[..i]` are `bs`, and `c` is the counter
      the rest starts from. */
  predicate BranchesSoFar(g: Graph, outs: seq<Edge>, v: set<string>, c0: nat, i: nat, bs: seq<Branch>, c: nat) {
    i <= |outs|
    && bs + Branches(g, outs[i..], v, c).0 == Branches(g, outs, v, c0).0
    && Branches(g, outs[i..], v, c).1 == Branches(g, outs, v, c0).1
  }

  lemma BranchesAdvance(g: Graph, outs: seq<Edge>, v: set<string>, c0: nat, i: nat, bs: seq<Branch>, c: nat,
                        t: seq<Entry>, c': nat)
    requires i < |outs| && BranchesSoFar(g, outs, v, c0, i, bs, c)
    requires (t, c') == Walk(g, outs[i].target, v, c)
    ensures BranchesSoFar(g, outs, v, c0, i + 1, bs + [Branch(BranchCaption(outs[i]), t)], c')
  {
    assert outs[i..][1..] == outs[i + 1..];
    var rest := Branches(g, outs[i + 1..], v, c');
    assert Branches(g, outs[i..], v, c) == ([Branch(BranchCaption(outs[i]), t)] + rest.0, rest.1);
    assert bs + ([Branch(BranchCaption(outs[i]), t)] + rest.0) == (bs + [Branch(BranchCaption(outs[i]), t)]) + rest.0;
  }

  lemma BranchesDone(g: Graph, outs: seq<Edge>, v: set<string>, c0: nat, bs: seq<Branch>, c: nat)
    requires BranchesSoFar(g, outs, v, c0, |outs|, bs, c)
    ensures (bs, c) == Branches(g, outs, v, c0)
  {
    assert outs[|outs|..] == [];
    assert bs + [] == bs;
  }

  /** `outgoing.map(e => ({ label, timeline: buildChainFromNode(e.target,
      new Set(visited), counter) }))`. */
  method BuildBranches(g: Graph, outs: seq<Edge>, v: set<string>, counter0: nat)
    returns (bs: seq<Branch>, counter: nat)
    ensures (bs, counter) == Branches(g, outs, v, counter0)
    decreases |NodeIds(g.nodes) - v|, 1
  {
    bs := [];
    counter := counter0;
    assert outs[0..] == outs;
    for i := 0 to |outs|
      invariant BranchesSoFar(g, outs, v, counter0, i, bs, counter)
    {
      var t;
      var c := counter;
      t, counter := BuildChain(g, outs[i].target, v, counter);
      BranchesAdvance(g, outs, v, counter0, i, bs, c, t, counter);
      bs := bs + [Branch(BranchCaption(outs[i]), t)];
    }
    BranchesDone(g, outs, v, counter0, bs, counter);
  }

  /** The first edge leaving the export node, if any. */
  function StartEdge(edges: seq<Edge>, id: string): (r: Option<Edge>)
    ensures r.Some? ==> r.value in edges && r.value.source == id
    ensures r.None? <==> forall e :: e in edges ==> e.source != id
  {
    if edges == [] then None
    else if edges[0].source == id then Some(edges[0])
    else StartEdge(edges[1..], id)
  }

  /** `buildTimeline()` of the export node `id`: empty when no edge leaves
      it; otherwise the walk from the first such edge's target, with a
      fresh path and the numbers 1, 2, … in order. */
  method BuildTimeline(g: Graph, id: string) returns (timeline: seq<Entry>)
    ensures StartEdge(g.edges, id).None? ==> timeline == []
    ensures StartEdge(g.edges, id).Some? ==> timeline == Walk(g, StartEdge(g.edges, id).value.target, {}, 1).0
    ensures var ns := NumbersIn(timeline); forall i :: 0 <= i < |ns| ==> ns[i] == i + 1
    ensures AllOk(timeline)
  {
    var start := StartEdge(g.edges, id);
    if start.None? {
      return [];
    }
    var counter;
    timeline, counter := BuildChain(g, start.value.target, {}, 1);
    WalkNumbered(g, start.value.target, {}, 1);
  }
}

=== FILE: novel_player.dfy ===
/** The visual novel player node (app/src/Nodes/VisualNovelPlayerNode.jsx):
    it plays an exported timeline entry by entry, plays the branch a choice
    selects and leaves it again, and types each dialogue's text out one
    character per tick. */
module NovelPlayer {
  import opened Common
  import opened NovelExport

  // -------------------------------------------------------------------
  // Where the player stands.
  // -------------------------------------------------------------------

  /** `branchStack` while a branch plays: the chosen branch's timeline and
      the position in it.  The main timeline is never rewritten. */
  datatype BranchPos = BranchPos(timeline: seq<Entry>, index: nat)

  /** `index` and `branchStack` (None is `null`). */
  datatype Position = Position(index: nat, branch: Option<BranchPos>)

  /** `current`: the entry at the branch position while a branch plays,
      else the entry at the main index; None (`undefined`) past the end. */
  function Current(timeline: seq<Entry>, p: Position): Option<Entry> {
    match p.branch
    case Some(b) => if b.index < |b.timeline| then Some(b.timeline[b.index]) else None
    case None => if p.index < |timeline| then Some(timeline[p.index]) else None
  }

  /** The positions the player can reach: the main index is at most the
      length (one past the end only after a branch that followed the last
      entry), a branch is only entered from an entry of the main timeline,
      and the branch index is in range unless the branch is empty. */
  predicate ValidPos(timeline: seq<Entry>, p: Position) {
    && p.index <= |timeline|
    && (p.branch.Some? ==>
          p.index < |timeline| && (p.branch.value.index < |p.branch.value.timeline| || p.branch.value.index == 0))
  }

  /** `goNext` only reveals the full text, without moving: outside a
      branch, on a dialogue whose text is not yet fully shown. */
  predicate Reveals(timeline: seq<Entry>, p: Position, shown: string) {
    var cur := Current(timeline, p);
    p.branch.None? && cur.Some? && cur.value.Dialogue? && |shown| < |cur.value.text|
  }

  /** Where `goNext` leaves the player when `shown` is on screen. */
  function Next(timeline: seq<Entry>, p: Position, shown: string): Position {
    if Current(timeline, p).None? then p
    else match p.branch
      case Some(b) =>
        if b.index < |b.timeline| - 1 then p.(branch := Some(b.(index := b.index + 1)))
        else Position(p.index + 1, None)
      case None =>
        if Reveals(timeline, p, shown) then p
        else if p.index < |timeline| - 1 then p.(index := p.index + 1)
        else p
  }

  /** Where `goPrev` leaves the player. */
  function Prev(p: Position): Position {
    match p.branch
    case Some(b) => if b.index > 0 then p.(branch := Some(b.(index := b.index - 1))) else p.(branch := None)
    case None => if p.index > 0 then p.(index := p.index - 1) else p
  }

  /** Where `handleSelectChoice(choice)` leaves the player: at the start of
      the chosen branch, the main index untouched. */
  function Enter(p: Position, choice: Branch): Position {
    p.(branch := Some(BranchPos(choice.timeline, 0)))
  }

  /** Stepping forward keeps the player on a reachable position; outside a
      branch it never moves past the last entry, and it moves by at most
      one entry. */
  lemma NextFacts(timeline: seq<Entry>, p: Position, shown: string)
    requires ValidPos(timeline, p)
    ensures ValidPos(timeline, Next(timeline, p, shown))
    ensures p.branch.None? ==> Next(timeline, p, shown).branch.None?
    ensures p.branch.None? && p.index < |timeline| ==> Next(timeline, p, shown).index < |timeline|
    ensures p.index <= Next(timeline, p, shown).index <= p.index + 1
    ensures Reveals(timeline, p, shown) ==> Next(timeline, p, shown) == p
  {
  }

  /** Without a current entry (past the end, or in an empty branch)
      `goNext` does nothing. */
  lemma NextStuckWithoutCurrent(timeline: seq<Entry>, p: Position, shown: string)
    requires Current(timeline, p).None?
    ensures Next(timeline, p, shown) == p
  {
  }

  /** `goPrev` undoes a `goNext` that moved inside the main timeline or
      inside a branch; after a `goNext` that left a branch it returns to
      the main entry the branch was entered from (the choice), not into
      the branch. */
  lemma PrevUndoesNext(timeline: seq<Entry>, p: Position, shown: string)
    requires ValidPos(timeline, p)
    ensures var q := Next(timeline, p, shown);
            q != p && (p.branch.None? || q.branch.Some?) ==> Prev(q) == p
    ensures var q := Next(timeline, p, shown);
            p.branch.Some? && q.branch.None? ==> Prev(q) == Position(p.index, None)
  {
  }

  /** Stepping back keeps the player on a reachable position and never
      enters a branch. */
  lemma PrevFacts(timeline: seq<Entry>, p: Position)
    requires ValidPos(timeline, p)
    ensures ValidPos(timeline, Prev(p))
    ensures p.branch.None? ==> Prev(p).branch.None? && (p.index > 0 ==> Prev(p).index == p.index - 1)
    ensures p.branch.Some? ==> Prev(p).index == p.index
  {
  }

  /** A choice on screen can only be on the main timeline or in a branch
      entered from it, so entering its branch keeps the position
      reachable, and the branch's first entry becomes current. */
  lemma EnterFacts(timeline: seq<Entry>, p: Position, choice: Branch)
    requires ValidPos(timeline, p) && Current(timeline, p).Some?
    ensures ValidPos(timeline, Enter(p, choice))
    ensures choice.timeline != [] ==> Current(timeline, Enter(p, choice)) == Some(choice.timeline[0])
    ensures choice.timeline == [] ==> Current(timeline, Enter(p, choice)).None?
  {
  }

  /** When the choice is the last entry of the main timeline, finishing its
      branch leaves the player one past the end: nothing is current and
      `goNext` no longer moves, until `goPrev`. */
  lemma BranchEndPastLast(timeline: seq<Entry>, b: BranchPos, shown: string, shown': string)
    requires |timeline| > 0 && timeline[|timeline| - 1].Choice?
    requires b.index == |b.timeline| - 1
    ensures var q := Next(timeline, Position(|timeline| - 1, Some(b)), shown);
            q == Position(|timeline|, None) && Current(timeline, q).None? && Next(timeline, q, shown') == q
            && Prev(q) == Position(|timeline| - 1, None)
  {
  }

  // -------------------------------------------------------------------
  // The node's state.
  // -------------------------------------------------------------------

  class Player {
    var timeline: seq<Entry>
    var pos: Position
    /** `displayText` */
    var displayText: string
    /** `lastDialogue` (None is `null`) */
    var lastDialogue: Option<Entry>
    /** Whether `typingTimerRef.current` holds a running interval. */
    var typing: bool
    /** The running interval's `fullText` and its counter `i`. */
    var typingText: string
    var typed: nat

    predicate Valid()
      reads this
    {
      && ValidPos(timeline, pos)
      && (lastDialogue.Some? ==> lastDialogue.value.Dialogue?)
      && (typing ==> typed <= |typingText|)
    }

    /** The node as mounted: an empty timeline at index 0. */
    constructor ()
      ensures Valid()
      ensures timeline == [] && pos == Position(0, None) && displayText == "" && lastDialogue.None? && !typing
    {
      timeline := [];
      pos := Position(0, None);
      displayText := "";
      lastDialogue := None;
      typing := false;
      typingText := "";
      typed := 0;
    }

    function CurrentEntry(): Option<Entry>
      reads this
    {
      Current(timeline, pos)
    }

    /** The loader's `onload`: `loaded` is `json.timeline` when it is an
        array, None otherwise (or when the file is not JSON), in which case
        nothing changes.  A loaded timeline starts at index 0 outside any
        branch with no dialogue shown. */
    method Load(loaded: Option<seq<Entry>>)
      requires Valid()
      modifies this
      ensures Valid()
      ensures loaded.None? ==>
                timeline == old(timeline) && pos == old(pos) && displayText == old(displayText)
                && lastDialogue == old(lastDialogue)
      ensures loaded.Some? ==>
                timeline == loaded.value && pos == Position(0, None) && displayText == "" && lastDialogue.None?
      ensures typing == old(typing) && typingText == old(typingText) && typed == old(typed)
    {
      if loaded.None? {
        return;
      }
      timeline := loaded.value;
      pos := Position(0, None);
      lastDialogue := None;
      displayText := "";
    }

    /** The dialogue effect, run when `current` changes: the previous
        interval is cleared; on a dialogue, it becomes the last dialogue,
        the text is emptied and a new interval starts typing it. */
    method ShowCurrent()
      requires Valid()
      modifies this
      ensures Valid()
      ensures timeline == old(timeline) && pos == old(pos)
      ensures var cur := Current(timeline, pos);
              if cur.Some? && cur.value.Dialogue? then
                lastDialogue == cur && displayText == "" && typing && typingText == cur.value.text && typed == 0
              else
                lastDialogue == old(lastDialogue) && displayText == old(displayText) && !typing
    {
      typing := false;
      var cur := CurrentEntry();
      if cur.Some? && cur.value.Dialogue? {
        lastDialogue := cur;
        displayText := "";
        typed := 0;
        typingText := cur.value.text;
        typing := true;
      }
    }

    /** One tick of the typing interval: one more character of its text is
        shown, and the interval stops once the counter reaches the length. */
    method TypingTick()
      requires Valid()
      modifies this
      ensures Valid()
      ensures timeline == old(timeline) && pos == old(pos) && lastDialogue == old(lastDialogue)
      ensures typingText == old(typingText)
      ensures !old(typing) ==> displayText == old(displayText) && !typing && typed == old(typed)
      ensures old(typing) ==>
                && typed == old(typed) + 1
                && displayText == typingText[..Min(old(typed) + 1, |typingText|)]
                && (typing <==> old(typed) + 1 < |typingText|)
    {
      if typing {
        typed := typed + 1;
        displayText := typingText[..Min(typed, |typingText|)];
        if typed >= |typingText| {
          typing := false;
        }
      }
    }

    /** `goNext`: the position moves as `Next` says; a partly typed
        dialogue outside a branch is shown in full and its typing stops. */
    method GoNext()
      requires Valid()
      modifies this
      ensures Valid()
      ensures timeline == old(timeline) && lastDialogue == old(lastDialogue)
      ensures pos == Next(timeline, old(pos), old(displayText))
      ensures Reveals(timeline, old(pos), old(displayText)) ==>
                displayText == Current(timeline, old(pos)).value.text && !typing
      ensures !Reveals(timeline, old(pos), old(displayText)) ==>
                displayText == old(displayText) && typing == old(typing)
      ensures typingText == old(typingText) && typed == old(typed)
    {
      var cur := CurrentEntry();
      if cur.None? {
        return;
      }
      if pos.branch.Some? {
        var b := pos.branch.value;
        if b.index < |b.timeline| - 1 {
          pos := pos.(branch := Some(b.(index := b.index + 1)));
        } else {
          pos := Position(pos.index + 1, None);
        }
        return;
      }
      if cur.value.Dialogue? && |displayText| < |cur.value.text| {
        typing := false;
        displayText := cur.value.text;
        return;
      }
      if pos.index < |timeline| - 1 {
        pos := pos.(index := pos.index + 1);
      }
    }

    /** `goPrev`: the position moves as `Prev` says; nothing else changes. */
    method GoPrev()
      requires Valid()
      modifies this
      ensures Valid()
      ensures pos == Prev(old(pos))
      ensures timeline == old(timeline) && displayText == old(displayText) && lastDialogue == old(lastDialogue)
      ensures typing == old(typing) && typingText == old(typingText) && typed == old(typed)
    {
      match pos.branch
      case Some(b) =>
        if b.index > 0 {
          pos := pos.(branch := Some(b.(index := b.index - 1)));
        } else {
          pos := pos.(branch := None);
        }
      case None =>
        if pos.index > 0 {
          pos := pos.(index := pos.index - 1);
        }
    }

    /** `handleSelectChoice(choice)`, offered for each branch of the choice
        on screen: the branch starts playing from its first entry. */
    method SelectChoice(choice: Branch)
      requires Valid() && CurrentEntry().Some? && CurrentEntry().value.Choice?
      requires choice in CurrentEntry().value.choices
      modifies this
      ensures Valid()
      ensures pos == Enter(old(pos), choice)
      ensures timeline == old(timeline) && displayText == old(displayText) && lastDialogue == old(lastDialogue)
      ensures typing == old(typing) && typingText == old(typingText) && typed == old(typed)
    {
      EnterFacts(timeline, pos, choice);
      pos := pos.(branch := Some(BranchPos(choice.timeline, 0)));
    }
  }

  /** Playing a whole dialogue: after the effect starts it, as many ticks
      as the text is long show exactly the whole text and stop the
      interval. */
  method TypeOut(p: Player)
    requires p.Valid()
    requires p.CurrentEntry().Some? && p.CurrentEntry().value.Dialogue? && p.CurrentEntry().value.text != []
    modifies p
    ensures p.Valid()
    ensures p.displayText == old(p.CurrentEntry()).value.text && !p.typing
  {
    p.ShowCurrent();
    var n := |p.typingText|;
    for k := 0 to n
      invariant p.Valid() && p.typingText == old(p.CurrentEntry()).value.text && n == |p.typingText|
      invariant p.typing <==> k < n
      invariant p.typed == k
      invariant p.displayText == p.typingText[..k]
    {
      p.TypingTick();
    }
  }
}

=== FILE: patch.dfy ===
/** `{ ...data, ...patch }`: the partial updates the layer nodes hand to
    `onChange`.  A patch is a list of field writes in the order the object
    literal lists them; a later write to the same field wins, as with
    repeated spreads. */
module DataPatch {
  import opened Common
  import opened Graph

  datatype Field =
    | DisplayX(n: int) | DisplayY(n: int) | DisplayWidth(n: int) | DisplayHeight(n: int)
      /** `__nodeSize` */
    | NodeSize(size: Size)
    | Text(s: string)
    | LayerKey(s: string)
    | LayerId(s: string)
    | ZIndex(z: int)
    | StyleId(s: string)

  /** The field a write targets (the object key). */
  function Key(f: Field): string {
    match f
    case DisplayX(_) => "displayX"
    case DisplayY(_) => "displayY"
    case DisplayWidth(_) => "displayWidth"
    case DisplayHeight(_) => "displayHeight"
    case NodeSize(_) => "__nodeSize"
    case Text(_) => "text"
    case LayerKey(_) => "layer"
    case LayerId(_) => "layerId"
    case ZIndex(_) => "zIndex"
    case StyleId(_) => "styleId"
  }

  /** `data[key]` already holds the written value. */
  predicate Holds(d: NodeData, f: Field) {
    match f
    case DisplayX(n) => d.displayX == Some(n)
    case DisplayY(n) => d.displayY == Some(n)
    case DisplayWidth(n) => d.displayWidth == Some(n)
    case DisplayHeight(n) => d.displayHeight == Some(n)
    case NodeSize(s) => d.nodeSize == Some(s)
    case Text(s) => d.text == s
    case LayerKey(s) => d.layer == s
    case LayerId(s) => d.layerId == s
    case ZIndex(z) => d.zIndex == z
    case StyleId(s) => d.styleId == s
  }

  /** `d` with every field a patch can write put back as in `e`. */
  function Restored(d: NodeData, e: NodeData): NodeData {
    d.(displayX := e.displayX, displayY := e.displayY, displayWidth := e.displayWidth,
       displayHeight := e.displayHeight, nodeSize := e.nodeSize, text := e.text,
       layer := e.layer, layerId := e.layerId, zIndex := e.zIndex, styleId := e.styleId)
  }

  /** One write: it sets its own field and no other. */
  function Write(d: NodeData, f: Field): (r: NodeData)
    ensures Holds(r, f)
    ensures forall g :: Key(g) != Key(f) ==> (Holds(r, g) <==> Holds(d, g))
    ensures Restored(r, d) == d
  {
    match f
    case DisplayX(n) => d.(displayX := Some(n))
    case DisplayY(n) => d.(displayY := Some(n))
    case DisplayWidth(n) => d.(displayWidth := Some(n))
    case DisplayHeight(n) => d.(displayHeight := Some(n))
    case NodeSize(s) => d.(nodeSize := Some(s))
    case Text(s) => d.(text := s)
    case LayerKey(s) => d.(layer := s)
    case LayerId(s) => d.(layerId := s)
    case ZIndex(z) => d.(zIndex := z)
    case StyleId(s) => d.(styleId := s)
  }

  /** Writing what a field already holds changes nothing. */
  lemma WriteHeld(d: NodeData, f: Field)
    requires Holds(d, f)
    ensures Write(d, f) == d
  {
  }

  /** `{ ...data, ...patch }`. */
  function Patched(d: NodeData, patch: seq<Field>): NodeData
    decreases |patch|
  {
    if patch == [] then d else Patched(Write(d, patch[0]), patch[1..])
  }

  /** No later write in the patch targets the key of write i. */
  predicate LastFor(patch: seq<Field>, i: int)
    requires 0 <= i < |patch|
  {
    forall j :: i < j < |patch| ==> Key(patch[j]) != Key(patch[i])
  }

  /** After the spread a field holds its last write. */
  lemma {:induction false} PatchedLast(d: NodeData, patch: seq<Field>, i: int)
    requires 0 <= i < |patch| && LastFor(patch, i)
    ensures Holds(Patched(d, patch), patch[i])
    decreases |patch|
  {
    var rest := patch[1..];
    if i == 0 {
      PatchedUntouched(Write(d, patch[0]), rest, patch[0]);
    } else {
      assert rest[i - 1] == patch[i];
      assert LastFor(rest, i - 1);
      PatchedLast(Write(d, patch[0]), rest, i - 1);
    }
  }

  /** A field the patch does not name keeps what it held. */
  lemma {:induction false} PatchedUntouched(d: NodeData, patch: seq<Field>, g: Field)
    requires forall i :: 0 <= i < |patch| ==> Key(patch[i]) != Key(g)
    ensures Holds(Patched(d, patch), g) <==> Holds(d, g)
    decreases |patch|
  {
    if patch != [] {
      assert Key(patch[0]) != Key(g);
      PatchedUntouched(Write(d, patch[0]), patch[1..], g);
    }
  }

  /** Fields no patch can name are never touched. */
  lemma {:induction false} PatchedKeepsOthers(d: NodeData, patch: seq<Field>)
    ensures Restored(Patched(d, patch), d) == d
    decreases |patch|
  {
    if patch != [] {
      var d' := Write(d, patch[0]);
      PatchedKeepsOthers(d', patch[1..]);
      assert Restored(Patched(d', patch[1..]), d') == d';
    }
  }

  /** A patch none of whose writes changes anything leaves the data as it
      is: skipping `onChange` then loses nothing. */
  lemma {:induction false} PatchedHeld(d: NodeData, patch: seq<Field>)
    requires forall i :: 0 <= i < |patch| ==> Holds(d, patch[i])
    ensures Patched(d, patch) == d
    decreases |patch|
  {
    if patch != [] {
      WriteHeld(d, patch[0]);
      PatchedHeld(d, patch[1..]);
    }
  }
}

=== FILE: slideshow.dfy ===
/** `SlideShowNode` (app/src/Nodes/SlideShowNode.jsx): cycles through its
    images on a timer.  The timer's ticks, the dot clicks and the interval
    input are explicit method calls; React's effects are the methods named
    after them, called when their dependencies change. */
module SlideShow {
  import opened Common
  import opened Graph

  const DefaultInterval := 5000

  /** The index after one tick over n images. */
  function NextSlide(i: int, n: nat): (r: nat)
    requires n > 0
    ensures r < n
  {
    (i + 1) % n
  }

  /** The index after k ticks. */
  function Ticks(i: int, n: nat, k: nat): (r: int)
    requires n > 0
  {
    if k == 0 then i else NextSlide(Ticks(i, n, k - 1), n)
  }

  /** k ticks advance the index by k, wrapping around. */
  lemma {:induction false} TicksAdvance(i: int, n: nat, k: nat)
    requires n > 0 && k > 0
    ensures Ticks(i, n, k) == (i + k) % n
  {
    if k > 1 {
      TicksAdvance(i, n, k - 1);
      ModAddOne(i + k - 1, n);
    }
  }

  lemma ModAddOne(a: int, n: nat)
    requires n > 0
    ensures ((a % n) + 1) % n == (a + 1) % n
  {
    var q := a / n;
    assert a == q * n + a % n;
    assert a + 1 == q * n + (a % n + 1);
    ModShift(a % n + 1, q, n);
  }

  lemma ModShift(b: int, q: int, n: nat)
    requires n > 0
    ensures (q * n + b) % n == b % n
  {
    var r := b % n;
    var p := b / n;
    assert b == p * n + r;
    assert q * n + b == (q + p) * n + r;
    DivModUnique(q * n + b, q + p, r, n);
  }

  lemma DivModUnique(a: int, q: int, r: int, n: nat)
    requires n > 0 && a == q * n + r && 0 <= r < n
    ensures a % n == r
  {
    var q', r' := a / n, a % n;
    assert a == q' * n + r';
    var d := q - q';
    assert d * n == r' - r by {
      assert q * n - q' * n == d * n;
    }
    if d >= 1 {
      AtLeastOnce(d, n);
    } else if d <= -1 {
      AtLeastOnce(-d, n);
    }
  }

  lemma AtLeastOnce(d: int, n: nat)
    requires d >= 1
    ensures d * n >= n
  {
    assert d * n == n + (d - 1) * n;
  }

  /** Every index in range comes back after one full round of ticks. */
  lemma FullRound(i: nat, n: nat)
    requires i < n
    ensures Ticks(i, n, n) == i
  {
    TicksAdvance(i, n, n);
    DivModUnique(i + n, 1, i, n);
  }

  class Slides {
    /** `data.images || []` */
    var images: seq<MediaItem>
    /** `intervalMs` */
    var intervalMs: int
    /** `currentIndex`: never negative, as only the dots (one per image)
        set it besides the timer, so JavaScript's `%` agrees with Dafny's. */
    var index: nat
    /** Whether the slideshow effect's `setInterval` is running. */
    var running: bool

    /** The timer runs only over two images or more. */
    predicate Valid()
      reads this
    {
      running ==> |images| >= 2
    }

    /** `useState(data.transitionInterval || 5000)` and `useState(0)`:
        an absent or zero interval starts at 5000 ms. */
    constructor (imgs: seq<MediaItem>, transitionInterval: Option<int>)
      ensures Valid()
      ensures images == imgs && index == 0 && !running
      ensures intervalMs == if transitionInterval.Some? && transitionInterval.value != 0
                            then transitionInterval.value else DefaultInterval
    {
      images := imgs;
      intervalMs := OrZ(transitionInterval.GetOr(0), DefaultInterval);
      index := 0;
      running := false;
    }

    /** New `data.images`. */
    method SetImages(imgs: seq<MediaItem>)
      modifies this
      ensures images == imgs && intervalMs == old(intervalMs) && index == old(index)
      ensures running == (old(running) && |imgs| >= 2)
      ensures Valid()
    {
      images := imgs;
      running := running && |imgs| >= 2;
    }

    /** The interval-sync effect: a defined `data.transitionInterval`,
        even 0, replaces the local interval. */
    method SyncInterval(transitionInterval: Option<int>)
      requires Valid()
      modifies this
      ensures Valid()
      ensures images == old(images) && index == old(index) && running == old(running)
      ensures intervalMs == transitionInterval.GetOr(old(intervalMs))
    {
      if transitionInterval.Some? {
        intervalMs := transitionInterval.value;
      }
    }

    /** The index-safety effect: without images, or with the index past
        the last image, the index goes back to 0; an index in range stays. */
    method KeepIndexInRange()
      requires Valid()
      modifies this
      ensures Valid()
      ensures images == old(images) && intervalMs == old(intervalMs) && running == old(running)
      ensures |images| == 0 ==> index == 0
      ensures |images| > 0 && old(index) < |images| ==> index == old(index)
      ensures |images| > 0 && old(index) >= |images| ==> index == 0
    {
      if |images| == 0 {
        index := 0;
        return;
      }
      if index >= |images| {
        index := 0;
      }
    }

    /** The slideshow effect, run when the number of images or the
        interval changes: the old timer stops; under two images the index
        is forced to 0 and no timer runs, otherwise a new timer starts. */
    method RestartTimer()
      requires Valid()
      modifies this
      ensures Valid()
      ensures images == old(images) && intervalMs == old(intervalMs)
      ensures |images| < 2 ==> index == 0 && !running
      ensures |images| >= 2 ==> index == old(index) && running
    {
      running := false;
      if |images| < 2 {
        index := 0;
        return;
      }
      running := true;
    }

    /** One timer tick: the next image, wrapping after the last, so the
        index is always in range afterwards. */
    method Tick()
      requires Valid() && running
      modifies this
      ensures Valid()
      ensures images == old(images) && intervalMs == old(intervalMs) && running
      ensures index == NextSlide(old(index), |images|)
      ensures 0 <= index < |images|
      ensures 0 <= old(index) < |images| - 1 ==> index == old(index) + 1
      ensures old(index) == |images| - 1 ==> index == 0
    {
      index := (index + 1) % |images|;
    }

    /** `handleDotClick(i)`: the dot of image i selects it. */
    method DotClick(i: nat)
      requires Valid()
      modifies this
      ensures Valid()
      ensures images == old(images) && intervalMs == old(intervalMs) && running == old(running)
      ensures index == i
    {
      index := i;
    }

    /** `handleIntervalChange`: the local interval becomes the input's
        value, and the node's `onTransitionChange`, when present, is told
        (node id, value); `notified` is that call. */
    method IntervalChange(id: string, hasCallback: bool, value: int) returns (notified: Option<(string, int)>)
      requires Valid()
      modifies this
      ensures Valid()
      ensures images == old(images) && index == old(index) && running == old(running)
      ensures intervalMs == value
      ensures notified == if hasCallback then Some((id, value)) else None
    {
      intervalMs := value;
      notified := None;
      if hasCallback {
        notified := Some((id, value));
      }
    }
  }

  /** A full round of ticks over the images returns to the image it
      started from. */
  method RoundTrip(s: Slides)
    requires s.Valid() && s.running && s.index < |s.images|
    modifies s
    ensures s.index == old(s.index) && s.images == old(s.images) && s.running
  {
    var n := |s.images|;
    ghost var start := s.index;
    var k := 0;
    while k < n
      invariant 0 <= k <= n && s.Valid() && s.running && s.images == old(s.images)
      invariant s.index == Ticks(start, n, k)
    {
      s.Tick();
      k := k + 1;
    }
    FullRound(start, n);
  }
}

=== FILE: style_registry.dfy ===
/** The style registries of the two style editors
    (app/src/Editors/TextStyleEditor.jsx, app/src/Editors/ImageStyleEditor.jsx):
    the checks a new style key must pass, and the three handlers that edit
    the `styles` dictionary and the selected `activeKey`: create, delete and
    the field-wise merge of a patch into the selected style. */
module StyleRegistry {
  import opened Common

  // -------------------------------------------------------------------
  // JavaScript values as the handlers read them.
  // -------------------------------------------------------------------

  /** JavaScript truthiness of a JSON value. */
  predicate Truthy(j: Json) {
    match j
    case JNull => false
    case JBool(b) => b
    case JNum(r) => r.num != 0
    case JStr(s) => s != ""
    case JArr(_) => true
    case JObj(_) => true
  }

  /** The names every plain object inherits from `Object.prototype` that are
      made only of `[A-Za-z0-9_]`; reading any of them gives a function or
      an object, which is truthy. */
  const PrototypeNames: set<string> :=
    {"constructor", "hasOwnProperty", "isPrototypeOf", "propertyIsEnumerable",
     "toLocaleString", "toString", "valueOf", "__defineGetter__", "__defineSetter__",
     "__lookupGetter__", "__lookupSetter__", "__proto__"}

  /** `styles[key]` is truthy: an own member with a truthy value, or, when
      there is no own member, an inherited one. */
  predicate Present(styles: seq<(string, Json)>, key: string) {
    match Lookup(styles, key)
    case Some(v) => Truthy(v)
    case None => key in PrototypeNames
  }

  /** The own members `{ ...v }` copies; non-objects copy none. */
  function Members(v: Json): seq<(string, Json)> {
    if v.JObj? then v.members else []
  }

  /** `{ ...a, ...b }`: a member of b wins over a member of a. */
  function Spread(a: seq<(string, Json)>, b: seq<(string, Json)>): (r: seq<(string, Json)>)
    ensures forall k :: Lookup(r, k) == if Lookup(b, k).Some? then Lookup(b, k) else Lookup(a, k)
    decreases |b|
  {
    if b == [] then a else Put(Spread(a, b[1..]), b[0].0, b[0].1)
  }

  /** `{ ...obj, [key]: v }` where v may be `undefined` (None): an undefined
      member is the same as no member. */
  function SetMember(ms: seq<(string, Json)>, key: string, v: Option<Json>): (r: seq<(string, Json)>)
    ensures Lookup(r, key) == v
    ensures forall k :: k != key ==> Lookup(r, k) == Lookup(ms, k)
  {
    if v.Some? then Put(ms, key, v.value) else Remove(ms, key)
  }

  // -------------------------------------------------------------------
  // NewStyleModal.handleSubmit.
  // -------------------------------------------------------------------

  predicate IsKeyChar(c: char) {
    ('a' <= c <= 'z') || ('A' <= c <= 'Z') || ('0' <= c <= '9') || c == '_'
  }

  /** The key has no match for `/[^a-zA-Z0-9_]/`. */
  predicate AllKeyChars(key: string) {
    forall i :: 0 <= i < |key| ==> IsKeyChar(key[i])
  }

  /** A key of allowed characters has no white space to trim. */
  lemma KeyTrim(key: string)
    ensures AllKeyChars(key) ==> Trim(key) == key
  {
    if AllKeyChars(key) {
      TrimNoSpace(key);
    }
  }

  /** The error the modal shows, one per check. */
  datatype KeyError = BlankKey | BlankLabel | BadCharacter | KeyExists

  /** What submitting the form does: show an error, or hand the trimmed
      key and caption and the chosen base style to `onSubmit`. */
  datatype Submission = Rejected(error: KeyError) | Submitted(key: string, caption: string, base: string)

  /** The checks in the modal's order, the first failing one deciding the
      error; `taken` is the test for an existing key. */
  function CheckedSubmit(key: string, caption: string, base: string, taken: bool): (r: Submission)
  {
    if Trim(key) == [] then Rejected(BlankKey)
    else if Trim(caption) == [] then Rejected(BlankLabel)
    else if ' ' in key || !AllKeyChars(key) then Rejected(BadCharacter)
    else if taken then Rejected(KeyExists)
    else Submitted(Trim(key), Trim(caption), base)
  }

  /** `handleSubmit` as written, with `existingStyles[key]` as the test for
      an existing key. */
  function Submit(key: string, caption: string, base: string, existing: seq<(string, Json)>): (r: Submission)
    ensures r == Rejected(BlankKey) <==> IsBlank(key)
    ensures r == Rejected(BlankLabel) <==> !IsBlank(key) && IsBlank(caption)
    ensures r == Rejected(BadCharacter) <==> !IsBlank(key) && !IsBlank(caption) && !AllKeyChars(key)
    ensures r.Submitted? <==> !IsBlank(key) && !IsBlank(caption) && AllKeyChars(key) && !Present(existing, key)
    ensures r.Submitted? ==> r.key == key && r.caption == Trim(caption) && r.caption != [] && r.base == base
  {
    TrimEmptyIffBlank(key);
    TrimEmptyIffBlank(caption);
    KeyTrim(key);
    CheckedSubmit(key, caption, base, Present(existing, key))
  }

  /** A key made of allowed characters and absent from an empty registry is
      still refused as existing when it names a member of `Object.prototype`. */
  lemma PrototypeNameRefused()
    ensures Submit("toString", "Title", "", []) == Rejected(KeyExists)
  {
    assert AllKeyChars("toString");
    assert !IsBlank("toString") && !IsBlank("Title") by {
      assert !IsJsSpace("toString"[0]) && !IsJsSpace("Title"[0]);
    }
    assert Present([], "toString") by {
      assert "toString" in PrototypeNames;
    }
  }

  /** `handleSubmit` as evidently intended: only the registry's own entries
      count as existing. */
  function SubmitOwn(key: string, caption: string, base: string, existing: seq<(string, Json)>): (r: Submission)
    ensures r.Submitted? <==> !IsBlank(key) && !IsBlank(caption) && AllKeyChars(key)
                              && !(Lookup(existing, key).Some? && Truthy(Lookup(existing, key).value))
  {
    TrimEmptyIffBlank(key);
    TrimEmptyIffBlank(caption);
    CheckedSubmit(key, caption, base, Lookup(existing, key).Some? && Truthy(Lookup(existing, key).value))
  }

  /** With the intended test, any well-formed key a registry lacks is
      accepted, `toString` included. */
  lemma SubmitOwnAcceptsNew(key: string, caption: string, existing: seq<(string, Json)>)
    requires !IsBlank(key) && !IsBlank(caption) && AllKeyChars(key) && key !in Keys(existing)
    ensures SubmitOwn(key, caption, "", existing).Submitted?
    ensures SubmitOwn("toString", "Title", "", []).Submitted?
  {
    assert AllKeyChars("toString");
    assert !IsBlank("toString") by { assert !IsJsSpace("toString"[0]); }
    assert !IsBlank("Title") by { assert !IsJsSpace("Title"[0]); }
  }

  // -------------------------------------------------------------------
  // The two editors.
  // -------------------------------------------------------------------

  datatype Kind = TextStyles | ImageStyles

  /** The members `handleChange` merges field by field rather than replaces. */
  function NestedNames(kind: Kind): seq<string> {
    match kind
    case TextStyles => ["font", "layout", "box", "typing"]
    case ImageStyles => ["layout", "box", "filters"]
  }

  function Num(n: int): Json { JNum(Ratio(n, 1)) }
  function Frac(n: int, d: PosInt): Json { JNum(Ratio(n, d)) }

  /** The value of the first member with a given name is what looking the
      name up gives. */
  lemma {:induction false} LookupFirst(ms: seq<(string, Json)>, i: int)
    requires 0 <= i < |ms| && forall j :: 0 <= j < i ==> ms[j].0 != ms[i].0
    ensures Lookup(ms, ms[i].0) == Some(ms[i].1)
  {
    if i > 0 {
      LookupFirst(ms[1..], i - 1);
    }
  }

  /** The style `handleCreateNewStyle` builds when there is no base style. */
  function DefaultStyle(kind: Kind, caption: string): Json {
    match kind
    case TextStyles =>
      JObj([("label", JStr(caption)), ("maxLines", Num(4)),
            ("font", JObj([("family", JStr("'Noto Sans JP','Yu Gothic',sans-serif")), ("size", Num(28)),
                           ("color", JStr("#ffffff")), ("lineHeight", Frac(14, 10)), ("bold", JBool(false)),
                           ("italic", JBool(false)), ("strike", JBool(false))])),
            ("layout", JObj([("x", JNull), ("y", JNull), ("width", JNull), ("height", JNull),
                             ("widthRatio", Frac(95, 100)), ("heightRatio", Frac(25, 100)), ("padding", Num(5)),
                             ("alignHorizontal", JStr("center")), ("alignVertical", JStr("middle")),
                             ("positionPreset", JStr("bottom_center")), ("margin", Num(10))])),
            ("box", JObj([("enabled", JBool(true)), ("background", JStr("rgba(0,0,30,0.65)")),
                          ("borderColor", JStr("#6666aa")), ("borderWidth", Num(1)), ("borderRadius", Num(4))])),
            ("typing", JObj([("enabled", JBool(true)), ("speed", Num(50)), ("allowSkip", JBool(true))])),
            ("layer", JStr("text_main"))])
    case ImageStyles =>
      JObj([("label", JStr(caption)), ("type", JStr("background")), ("opacity", Num(1)),
            ("blendMode", JStr("normal")), ("scaleMode", JStr("cover")),
            ("layout", JObj([("x", JNull), ("y", JNull), ("width", JNull), ("height", JNull),
                             ("widthRatio", Num(1)), ("heightRatio", Num(1)), ("positionPreset", JStr("center"))])),
            ("box", JObj([("enabled", JBool(false)), ("background", JStr("rgba(0,0,0,0.4)")),
                          ("borderColor", JStr("#444488")), ("borderWidth", Num(0)), ("borderRadius", Num(0))])),
            ("filters", JObj([("brightness", Num(1)), ("contrast", Num(1)), ("saturation", Num(1)), ("blur", Num(0))]))])
  }

  /** The style a new key receives: a copy of the base style with the new
      caption when the base key is given and present, else the default. */
  function NewStyle(kind: Kind, styles: seq<(string, Json)>, caption: string, baseKey: string): (r: Json)
    ensures r.JObj? && Lookup(r.members, "label") == Some(JStr(caption))
    ensures baseKey != "" && Present(styles, baseKey) ==>
              forall m :: m != "label" ==> Lookup(r.members, m) == Lookup(Members(Lookup(styles, baseKey).GetOr(JNull)), m)
    ensures !(baseKey != "" && Present(styles, baseKey)) && kind == TextStyles ==>
              Lookup(r.members, "layer") == Some(JStr("text_main"))
    ensures !(baseKey != "" && Present(styles, baseKey)) && kind == ImageStyles ==>
              Lookup(r.members, "type") == Some(JStr("background")) && Lookup(r.members, "scaleMode") == Some(JStr("cover"))
  {
    if baseKey != "" && Present(styles, baseKey) then
      JObj(Put(Members(Lookup(styles, baseKey).GetOr(JNull)), "label", JStr(caption)))
    else
      var d := DefaultStyle(kind, caption);
      if kind == TextStyles then LookupFirst(d.members, 6); d
      else LookupFirst(d.members, 1); LookupFirst(d.members, 4); d
  }

  /** The new value of a nested member `name`: when the patch gives a
      truthy value, the old member's fields overridden by the patch's;
      otherwise the old member, even when the patch names it. */
  function NestedValue(style: seq<(string, Json)>, patch: seq<(string, Json)>, name: string): (r: Option<Json>)
    ensures Lookup(patch, name).Some? && Truthy(Lookup(patch, name).value) ==>
              r.Some? && r.value.JObj? &&
              forall f :: Lookup(r.value.members, f) ==
                if Lookup(Members(Lookup(patch, name).value), f).Some? then Lookup(Members(Lookup(patch, name).value), f)
                else Lookup(Members(Lookup(style, name).GetOr(JNull)), f)
    ensures !(Lookup(patch, name).Some? && Truthy(Lookup(patch, name).value)) ==> r == Lookup(style, name)
  {
    var p := Lookup(patch, name);
    if p.Some? && Truthy(p.value) then Some(JObj(Spread(Members(Lookup(style, name).GetOr(JNull)), Members(p.value))))
    else Lookup(style, name)
  }

  /** The nested members `names` written one after another into `s`. */
  function WithNested(s: seq<(string, Json)>, style: seq<(string, Json)>, patch: seq<(string, Json)>, names: seq<string>): (r: seq<(string, Json)>)
    ensures forall m :: Lookup(r, m) == if m in names then NestedValue(style, patch, m) else Lookup(s, m)
    decreases |names|
  {
    if names == [] then s
    else WithNested(SetMember(s, names[0], NestedValue(style, patch, names[0])), style, patch, names[1..])
  }

  /** The selected style after `handleChange(patch)`:
      `{ ...style, ...patch, font: …, layout: …, … }`. */
  function Merged(kind: Kind, style: Json, patch: seq<(string, Json)>): seq<(string, Json)> {
    WithNested(Spread(Members(style), patch), Members(style), patch, NestedNames(kind))
  }

  /** A patch replaces the members it names, except the nested ones, whose
      fields it replaces one by one; every member it does not name keeps
      its value. */
  lemma MergedFields(kind: Kind, style: Json, patch: seq<(string, Json)>, m: string)
    ensures m !in NestedNames(kind) && Lookup(patch, m).Some? ==> Lookup(Merged(kind, style, patch), m) == Lookup(patch, m)
    ensures Lookup(patch, m).None? ==> Lookup(Merged(kind, style, patch), m) == Lookup(Members(style), m)
    ensures m in NestedNames(kind) && Lookup(patch, m).Some? && Truthy(Lookup(patch, m).value) ==>
              var r := Lookup(Merged(kind, style, patch), m);
              && r.Some? && r.value.JObj?
              && forall f :: Lookup(Members(Lookup(patch, m).value), f).None? ==>
                   Lookup(r.value.members, f) == Lookup(Members(Lookup(Members(style), m).GetOr(JNull)), f)
  {
  }

  /** `{ ...styles, [key]: value }` followed by `delete next[key]` gives back
      the registry when it did not have the key. */
  lemma {:induction false} RemovePutNew(styles: seq<(string, Json)>, key: string, v: Json)
    requires key !in Keys(styles)
    ensures Remove(Put(styles, key, v), key) == styles
    decreases |styles|
  {
    if styles != [] {
      assert Keys(styles) == [styles[0].0] + Keys(styles[1..]);
      RemovePutNew(styles[1..], key, v);
    }
  }

  /** One style editor's registry state. */
  class StyleEditor {
    const kind: Kind
    /** `styles`, in the order of `Object.keys`. */
    var styles: seq<(string, Json)>
    /** `activeKey`; None is `null`. */
    var active: Option<string>

    /** Every selected key names a style. */
    predicate Valid()
      reads this
    {
      active.Some? ==> active.value in Keys(styles)
    }

    /** The member `styles[activeKey]` reads: a null key reads `"null"`. */
    function ActiveName(): string
      reads this
    {
      if active.Some? then active.value else "null"
    }

    /** Mounting: the loaded dictionary (None when the load gives nothing
        usable) becomes `styles`, and its first key is selected. */
    constructor (kind: Kind, loaded: Option<seq<(string, Json)>>)
      ensures this.kind == kind && Valid()
      ensures loaded.None? ==> styles == [] && active.None?
      ensures loaded.Some? ==> styles == loaded.value
      ensures loaded.Some? && loaded.value != [] ==> active == Some(loaded.value[0].0)
      ensures loaded.Some? && loaded.value == [] ==> active.None?
    {
      this.kind := kind;
      if loaded.Some? && loaded.value != [] {
        styles := loaded.value;
        active := Some(loaded.value[0].0);
      } else {
        styles := if loaded.Some? then loaded.value else [];
        active := None;
      }
    }

    /** `handleChange(patch)`, which the editor form offers only while the
        selected style is truthy: the selected style becomes the merge of
        the patch into it, and nothing else changes. */
    method Change(patch: seq<(string, Json)>)
      requires Valid() && Present(styles, ActiveName()) && Lookup(styles, ActiveName()).Some?
      modifies this
      ensures Valid() && active == old(active)
      ensures Keys(styles) == old(Keys(styles))
      ensures Lookup(styles, ActiveName()) == Some(JObj(Merged(kind, old(Lookup(styles, ActiveName()).value), patch)))
      ensures forall k :: k != ActiveName() ==> Lookup(styles, k) == old(Lookup(styles, k))
    {
      var name := ActiveName();
      var style := Lookup(styles, name).value;
      styles := Put(styles, name, JObj(Merged(kind, style, patch)));
    }

    /** `handleCreateNewStyle(key, caption, baseStyleKey)`: a present key
        changes nothing; otherwise the key gets its new style and becomes
        the selected one. */
    method Create(key: string, caption: string, baseKey: string)
      requires Valid()
      modifies this
      ensures Valid()
      ensures old(Present(styles, key)) ==> styles == old(styles) && active == old(active)
      ensures !old(Present(styles, key)) ==>
                && styles == Put(old(styles), key, NewStyle(kind, old(styles), caption, baseKey))
                && active == Some(key) && Present(styles, key)
    {
      if Present(styles, key) {
        return;
      }
      var base := NewStyle(kind, styles, caption, baseKey);
      styles := Put(styles, key, base);
      active := Some(key);
    }

    /** `handleDeleteStyle()`, with `confirmed` the answer to the
        confirmation dialog.  Nothing changes without a selected key, when
        the selected style is null or missing (reading its caption throws), or
        when the user declines; otherwise the style is removed and the first
        remaining key, if any, is selected. */
    method Delete(confirmed: bool)
      requires Valid()
      modifies this
      ensures Valid()
      ensures var k := old(active);
              var proceeds := k.Some? && k.value != "" && Lookup(old(styles), k.value).Some?
                              && Lookup(old(styles), k.value).value != JNull && confirmed;
              && (!proceeds ==> styles == old(styles) && active == old(active))
              && (proceeds ==>
                    && styles == Remove(old(styles), k.value)
                    && Lookup(styles, k.value).None?
                    && (forall j :: j != k.value ==> Lookup(styles, j) == old(Lookup(styles, j)))
                    && var rest := RemoveAll(old(Keys(styles)), k.value);
                       active == (if rest != [] && rest[0] != "" then Some(rest[0]) else None))
    {
      if active.None? || active.value == "" {
        return;
      }
      var k := active.value;
      var selected := Lookup(styles, k);
      if selected.None? || selected.value == JNull || !confirmed {
        return;
      }
      var rest := RemoveAll(Keys(styles), k);
      styles := Remove(styles, k);
      active := if rest != [] && rest[0] != "" then Some(rest[0]) else None;
    }
  }

  /** Creating a style under a key the registry never had and then
      deleting it restores the registry and selects its first key. */
  method CreateThenDelete(e: StyleEditor, key: string, caption: string, baseKey: string)
    requires e.Valid() && key != "" && key !in Keys(e.styles) && key !in PrototypeNames
    modifies e
    ensures e.styles == old(e.styles)
    ensures old(e.styles) != [] && old(e.styles)[0].0 != "" ==> e.active == Some(old(e.styles)[0].0)
  {
    e.Create(key, caption, baseKey);
    RemovePutNew(old(e.styles), key, NewStyle(e.kind, old(e.styles), caption, baseKey));
    e.Delete(true);
  }
}

=== FILE: sync_media.dfy ===
/** `syncMediaNodes(nodes, edges)`: one recomputation pass over every node.
    Each node kind with a branch recomputes one stored list from the graph
    as it was before the pass and writes it only when it differs from what
    is stored; every other node passes through.  The pass returns the very
    same node array when no node changed (`changed` false here). */
module SyncMedia {
  import opened Common
  import opened Graph
  import opened Dedup
  import opened ChainLayers
  import opened UpstreamLayers
  import opened LinearChains
  import opened TimelineFrames
  import opened Walk

  /** The kinds whose recomputation follows a linear chain. */
  predicate FollowsChain(kind: string) {
    kind == "SlideShowNode" || kind == "VideoSlideShowNode" || kind == "dialoguePreview" || kind == "layerTimeline"
  }

  /** The kinds that have a branch. */
  predicate HasBranch(kind: string) {
    FollowsChain(kind) || kind == "layerOnOff" || kind == "layerImage" || kind == "layerPreview"
  }

  /** Every linear chain the pass walks stops within `fuel` steps (the
      source loops forever otherwise). */
  predicate ChainsEnd(g: Graph, fuel: nat) {
    forall n :: n in g.nodes && FollowsChain(n.kind) && FirstInput(g.edges, n.id).Some? ==>
      Chain(g, FirstInput(g.edges, n.id).value.source, fuel).Some?
  }

  /** The write-back guard shared by the list branches: write the computed list
      (Some) only when it differs from the stored one, absent counting as []. */
  function Rewrite<T(==)>(stored: Option<seq<T>>, computed: seq<T>): (r: Option<seq<T>>)
    ensures r.Some? <==> computed != stored.GetOr([])
    ensures r.Some? ==> r.value == computed
  {
    if computed != stored.GetOr([]) then Some(computed) else None
  }


  // -------------------------------------------------------------------
  // layerOnOff
  // -------------------------------------------------------------------

  /** The chain layers of every input edge, in edge order, before deduplication. */
  function ChainsOf(g: Graph, es: seq<Edge>): seq<Layer> {
    Concat(es, (e: Edge) => ChainLayersOf(g, e.source))
  }

  /** The list a controller holds: the chain layers of all its inputs, the
      first record per producer node kept, in ascending z order. */
  function ControllerLayers(g: Graph, ins: seq<Edge>): seq<Layer> {
    SortByKey(FirstPerKey(ChainsOf(g, ins), LayerNodeId, {}), ZKey)
  }

  function OnOffBranch(g: Graph, n: Node): Option<NodeData> {
    var ins := IncomingInput(g.edges, n.id);
    var computed := if ins == [] then [] else ControllerLayers(g, ins);
    match Rewrite(n.data.layers, computed)
    case None => None
    case Some(ls) => Some(n.data.(layers := Some(ls)))
  }

  method OnOffBranchRun(g: Graph, n: Node) returns (r: Option<NodeData>)
    ensures r == OnOffBranch(g, n)
  {
    var ins := IncomingInput(g.edges, n.id);
    if |ins| == 0 {
      if |n.data.layers.GetOr([])| > 0 {
        return Some(n.data.(layers := Some([])));
      }
      return None;
    }
    var all := OnOffCollect(g, ins);
    var sorted := SortByKey(all, ZKey);
    if sorted != n.data.layers.GetOr([]) {
      return Some(n.data.(layers := Some(sorted)));
    }
    return None;
  }

  /** The per-edge loop of the layerOnOff branch: every input's chain
      layers, the first record per producer node kept. */
  method OnOffCollect(g: Graph, ins: seq<Edge>) returns (all: seq<Layer>)
    ensures all == FirstPerKey(ChainsOf(g, ins), LayerNodeId, {})
  {
    all := [];
    var processed: set<string> := {};
    for i := 0 to |ins|
      invariant all == FirstPerKey(ChainsOf(g, ins[..i]), LayerNodeId, {})
      invariant processed == {} + KeySet(ChainsOf(g, ins[..i]), LayerNodeId)
    {
      var chain := CollectChainLayers(g, ins[i].source);
      OnOffStep(g, ins, i);
      all, processed := KeepFirst(all, processed, chain, LayerNodeId);
    }
    assert ins[..|ins|] == ins;
  }

  /** One more input edge for the layerOnOff loop. */
  lemma OnOffStep(g: Graph, ins: seq<Edge>, i: int)
    requires 0 <= i < |ins|
    ensures var c := ChainLayersOf(g, ins[i].source);
      && FirstPerKey(ChainsOf(g, ins[..i + 1]), LayerNodeId, {})
         == FirstPerKey(ChainsOf(g, ins[..i]), LayerNodeId, {})
            + FirstPerKey(c, LayerNodeId, {} + KeySet(ChainsOf(g, ins[..i]), LayerNodeId))
      && {} + KeySet(ChainsOf(g, ins[..i + 1]), LayerNodeId)
         == {} + KeySet(ChainsOf(g, ins[..i]), LayerNodeId) + KeySet(c, LayerNodeId)
  {
    var c := ChainLayersOf(g, ins[i].source);
    var before := ChainsOf(g, ins[..i]);
    ConcatPrefixStep(ins, (e: Edge) => ChainLayersOf(g, e.source), i);
    assert ChainsOf(g, ins[..i + 1]) == before + c;
    FirstPerKeyAppend(before, c, LayerNodeId, {});
    KeySetAppend(before, c, LayerNodeId);
  }

  // -------------------------------------------------------------------
  // SlideShowNode, VideoSlideShowNode, dialoguePreview
  // -------------------------------------------------------------------

  /** The chain behind the node's first 'input' edge, [] without one. */
  function ChainFrom<T>(g: Graph, n: Node, pick: Node -> Option<T>, fuel: nat): seq<T> {
    match FirstInput(g.edges, n.id)
    case None => []
    case Some(e) => ChainItems(g, e.source, pick, fuel)
  }

  function SlideBranch(g: Graph, n: Node, fuel: nat): Option<NodeData> {
    match Rewrite(n.data.images, ChainFrom(g, n, SlideOf, fuel))
    case None => None
    case Some(v) => Some(n.data.(images := Some(v)))
  }

  function VideoBranch(g: Graph, n: Node, fuel: nat): Option<NodeData> {
    match Rewrite(n.data.videos, ChainFrom(g, n, VideoOf, fuel))
    case None => None
    case Some(v) => Some(n.data.(videos := Some(v)))
  }

  function DialogueBranch(g: Graph, n: Node, fuel: nat): Option<NodeData> {
    match Rewrite(n.data.dialogues, ChainFrom(g, n, DialogueOf, fuel))
    case None => None
    case Some(v) => Some(n.data.(dialogues := Some(v)))
  }

  method ChainFromRun<T>(g: Graph, n: Node, pick: Node -> Option<T>, ghost fuel: nat) returns (items: seq<T>)
    requires FirstInput(g.edges, n.id).Some? ==> Chain(g, FirstInput(g.edges, n.id).value.source, fuel).Some?
    ensures items == ChainFrom(g, n, pick, fuel)
  {
    var incoming := FirstInput(g.edges, n.id);
    if incoming.None? {
      return [];
    }
    items := CollectChain(g, incoming.value.source, pick, fuel);
  }

  // -------------------------------------------------------------------
  // layerImage
  // -------------------------------------------------------------------

  /** Copies the image of the source of the first edge into the node (any
      handle) when that source has an `imagePath` different from the node's. */
  function ImageBranch(g: Graph, n: Node): Option<NodeData> {
    var es := Incoming(g.edges, n.id);
    if es == [] then None
    else match FindNode(g.nodes, es[0].source)
      case None => None
      case Some(src) =>
        if src.data.imagePath != "" && n.data.imagePath != src.data.imagePath then
          Some(n.data.(imagePath := src.data.imagePath, imageUrl := src.data.imageUrl))
        else None
  }

  /** The image branch rewrites the node exactly when the source of its
      first incoming edge exists, has an image path, and that path differs
      from the node's own; the rewrite copies the source's path and URL and
      leaves every other field as it was. */
  lemma ImageBranchFacts(g: Graph, n: Node)
    ensures ImageBranch(g, n).Some? <==>
              Incoming(g.edges, n.id) != []
              && FindNode(g.nodes, Incoming(g.edges, n.id)[0].source).Some?
              && FindNode(g.nodes, Incoming(g.edges, n.id)[0].source).value.data.imagePath != ""
              && FindNode(g.nodes, Incoming(g.edges, n.id)[0].source).value.data.imagePath != n.data.imagePath
    ensures ImageBranch(g, n).Some? ==>
              var src := FindNode(g.nodes, Incoming(g.edges, n.id)[0].source).value;
              var d := ImageBranch(g, n).value;
              && src in g.nodes && src.id == Incoming(g.edges, n.id)[0].source
              && Incoming(g.edges, n.id)[0] in g.edges && Incoming(g.edges, n.id)[0].target == n.id
              && d.imagePath == src.data.imagePath && d.imageUrl == src.data.imageUrl
              && d.imagePath != n.data.imagePath
              && d.(imagePath := n.data.imagePath, imageUrl := n.data.imageUrl) == n.data
  {
  }

  // -------------------------------------------------------------------
  // layerPreview
  // -------------------------------------------------------------------

  /** The layers every input edge's upstream walk shows, edge by edge. */
  function PreviewLayersOf(g: Graph, es: seq<Edge>): seq<Layer> {
    Concat(es, (e: Edge) => UpstreamLayersOf(g, e.source).layers)
  }

  /** `Object.assign` of every edge's states, later edges overriding. */
  function PreviewStatesOf(g: Graph, es: seq<Edge>): map<string, bool>
    decreases |es|
  {
    if es == [] then map[] else PreviewStatesOf(g, es[..|es| - 1]) + UpstreamLayersOf(g, es[|es| - 1].source).states
  }

  function PreviewLayers(g: Graph, ins: seq<Edge>): seq<Layer> {
    SortByKey(FirstPerKey(PreviewLayersOf(g, ins), LayerId, {}), ZKey)
  }

  function PreviewBranch(g: Graph, n: Node): Option<NodeData> {
    var ins := IncomingInput(g.edges, n.id);
    if ins == [] then
      match Rewrite(n.data.layers, [])
      case None => None
      case Some(v) => Some(n.data.(layers := Some(v)))
    else
      var ls := PreviewLayers(g, ins);
      var st := PreviewStatesOf(g, ins);
      if ls != n.data.layers.GetOr([]) || st != n.data.layerStates.GetOr(map[]) then
        Some(n.data.(layers := Some(ls), layerStates := Some(st)))
      else None
  }

  /** The per-edge loop of the layerPreview branch: layers merged with the
      first record per id kept, states merged with later edges overriding. */
  method PreviewCollect(g: Graph, ins: seq<Edge>) returns (layers: seq<Layer>, states: map<string, bool>)
    ensures layers == FirstPerKey(PreviewLayersOf(g, ins), LayerId, {})
    ensures states == PreviewStatesOf(g, ins)
  {
    layers := [];
    states := map[];
    var ids: set<string> := {};
    for i := 0 to |ins|
      invariant layers == FirstPerKey(PreviewLayersOf(g, ins[..i]), LayerId, {})
      invariant ids == {} + KeySet(PreviewLayersOf(g, ins[..i]), LayerId)
      invariant states == PreviewStatesOf(g, ins[..i])
    {
      var collected := CollectAllUpstreamLayers(g, ins[i].source);
      PreviewStep(g, ins, i);
      layers, ids := KeepFirst(layers, ids, collected.layers, LayerId);
      states := states + collected.states;
    }
    assert ins[..|ins|] == ins;
  }

  /** One more input edge for the preview loop. */
  lemma PreviewStep(g: Graph, ins: seq<Edge>, i: int)
    requires 0 <= i < |ins|
    ensures var u := UpstreamLayersOf(g, ins[i].source);
      && FirstPerKey(PreviewLayersOf(g, ins[..i + 1]), LayerId, {})
         == FirstPerKey(PreviewLayersOf(g, ins[..i]), LayerId, {})
            + FirstPerKey(u.layers, LayerId, {} + KeySet(PreviewLayersOf(g, ins[..i]), LayerId))
      && {} + KeySet(PreviewLayersOf(g, ins[..i + 1]), LayerId)
         == {} + KeySet(PreviewLayersOf(g, ins[..i]), LayerId) + KeySet(u.layers, LayerId)
      && PreviewStatesOf(g, ins[..i + 1]) == PreviewStatesOf(g, ins[..i]) + u.states
  {
    var u := UpstreamLayersOf(g, ins[i].source);
    var before := PreviewLayersOf(g, ins[..i]);
    ConcatPrefixStep(ins, (e: Edge) => UpstreamLayersOf(g, e.source).layers, i);
    assert PreviewLayersOf(g, ins[..i + 1]) == before + u.layers;
    assert ins[..i + 1][..i] == ins[..i];
    FirstPerKeyAppend(before, u.layers, LayerId, {});
    KeySetAppend(before, u.layers, LayerId);
  }

  method PreviewBranchRun(g: Graph, n: Node) returns (r: Option<NodeData>)
    ensures r == PreviewBranch(g, n)
  {
    var ins := IncomingInput(g.edges, n.id);
    if |ins| == 0 {
      if |n.data.layers.GetOr([])| > 0 {
        return Some(n.data.(layers := Some([])));
      }
      return None;
    }
    var layers, states := PreviewCollect(g, ins);
    var sorted := SortByKey(layers, ZKey);
    if sorted != n.data.layers.GetOr([]) || states != n.data.layerStates.GetOr(map[]) {
      return Some(n.data.(layers := Some(sorted), layerStates := Some(states)));
    }
    return None;
  }

  // -------------------------------------------------------------------
  // layerTimeline
  // -------------------------------------------------------------------

  /** `node.data.editorConfig?.layers ?? {}`. */
  function ConfigOf(n: Node): seq<(string, LayerDef)> {
    if n.data.editorConfig.None? then [] else n.data.editorConfig.value.layers
  }

  function TimelineFramesOf(g: Graph, n: Node, fuel: nat): seq<Frame> {
    match FirstInput(g.edges, n.id)
    case None => []
    case Some(e) =>
      var cfg := ConfigOf(n);
      FramesOf(cfg, BackgroundKeyOf(cfg), ChainItems(g, e.source, TimelineNodeOf, fuel)).frames
  }

  function TimelineBranch(g: Graph, n: Node, fuel: nat): Option<NodeData> {
    match Rewrite(n.data.frames, TimelineFramesOf(g, n, fuel))
    case None => None
    case Some(v) => Some(n.data.(frames := Some(v)))
  }

  method TimelineFramesRun(g: Graph, n: Node, ghost fuel: nat) returns (frames: seq<Frame>)
    requires FirstInput(g.edges, n.id).Some? ==> Chain(g, FirstInput(g.edges, n.id).value.source, fuel).Some?
    ensures frames == TimelineFramesOf(g, n, fuel)
  {
    var incoming := FirstInput(g.edges, n.id);
    if incoming.None? {
      return [];
    }
    var ordered := CollectChain(g, incoming.value.source, TimelineNodeOf, fuel);
    var cfg := ConfigOf(n);
    var bg := BackgroundKey(cfg);
    frames := BuildFrames(cfg, bg, ordered);
  }

  // -------------------------------------------------------------------
  // The pass.
  // -------------------------------------------------------------------

  /** The new data of node n, or None when the pass returns it as it is. */
  function SyncNode(g: Graph, n: Node, fuel: nat): (r: Option<NodeData>)
    ensures !HasBranch(n.kind) ==> r.None?
    ensures r.Some? ==> r.value != n.data
  {
    if n.kind == "layerOnOff" then OnOffBranch(g, n)
    else if n.kind == "SlideShowNode" then SlideBranch(g, n, fuel)
    else if n.kind == "VideoSlideShowNode" then VideoBranch(g, n, fuel)
    else if n.kind == "dialoguePreview" then DialogueBranch(g, n, fuel)
    else if n.kind == "layerImage" then ImageBranch(g, n)
    else if n.kind == "layerPreview" then PreviewBranch(g, n)
    else if n.kind == "layerTimeline" then TimelineBranch(g, n, fuel)
    else None
  }

  /** The node the pass puts in place of n. */
  function Synced(g: Graph, n: Node, fuel: nat): Node {
    match SyncNode(g, n, fuel)
    case None => n
    case Some(d) => n.(data := d)
  }

  method SyncNodeRun(g: Graph, n: Node, ghost fuel: nat) returns (r: Option<NodeData>)
    requires n in g.nodes && ChainsEnd(g, fuel)
    ensures r == SyncNode(g, n, fuel)
  {
    if n.kind == "layerOnOff" {
      r := OnOffBranchRun(g, n);
    } else if n.kind == "SlideShowNode" {
      var items := ChainFromRun(g, n, SlideOf, fuel);
      r := if items != n.data.images.GetOr([]) then Some(n.data.(images := Some(items))) else None;
    } else if n.kind == "VideoSlideShowNode" {
      var items := ChainFromRun(g, n, VideoOf, fuel);
      r := if items != n.data.videos.GetOr([]) then Some(n.data.(videos := Some(items))) else None;
    } else if n.kind == "dialoguePreview" {
      var items := ChainFromRun(g, n, DialogueOf, fuel);
      r := if items != n.data.dialogues.GetOr([]) then Some(n.data.(dialogues := Some(items))) else None;
    } else if n.kind == "layerImage" {
      r := ImageBranch(g, n);
    } else if n.kind == "layerPreview" {
      r := PreviewBranchRun(g, n);
    } else if n.kind == "layerTimeline" {
      var frames := TimelineFramesRun(g, n, fuel);
      r := if frames != n.data.frames.GetOr([]) then Some(n.data.(frames := Some(frames))) else None;
    } else {
      r := None;
    }
  }

  /** `currentNodes.map(...)` with the `hasAnyChange` flag; `nodes` is the
      array returned, `changed` false when it is the input array itself. */
  method SyncMediaNodes(g: Graph, ghost fuel: nat) returns (nodes: seq<Node>, changed: bool)
    requires ChainsEnd(g, fuel)
    ensures changed <==> exists i :: 0 <= i < |g.nodes| && SyncNode(g, g.nodes[i], fuel).Some?
    ensures !changed ==> nodes == g.nodes
    ensures |nodes| == |g.nodes|
    ensures forall i :: 0 <= i < |g.nodes| ==> nodes[i] == Synced(g, g.nodes[i], fuel)
  {
    var updated;
    ghost var results;
    updated, changed, results := SyncEach(g, fuel);
    forall i | 0 <= i < |g.nodes|
      ensures results[i] == SyncNode(g, g.nodes[i], fuel)
    {
      assert Computed(g, fuel, i, results[i]);
    }
    if changed {
      nodes := updated;
    } else {
      nodes := g.nodes;
    }
  }

  /** `d` is what the pass computes for the j-th node. */
  predicate Computed(g: Graph, fuel: nat, j: int, d: Option<NodeData>) {
    0 <= j < |g.nodes| && d == SyncNode(g, g.nodes[j], fuel)
  }

  /** The callback of the map for the i-th node. */
  method SyncAt(g: Graph, ghost fuel: nat, i: nat) returns (d: Option<NodeData>)
    requires ChainsEnd(g, fuel) && i < |g.nodes|
    ensures Computed(g, fuel, i, d)
  {
    d := SyncNodeRun(g, g.nodes[i], fuel);
  }

  /** The map itself: every node replaced by its recomputed form, `results`
      holding what was computed for each, and whether any was rewritten. */
  method SyncEach(g: Graph, ghost fuel: nat)
    returns (updated: seq<Node>, changed: bool, ghost results: seq<Option<NodeData>>)
    requires ChainsEnd(g, fuel)
    ensures |results| == |g.nodes| && |updated| == |g.nodes|
    ensures forall j {:trigger Computed(g, fuel, j, results[j])} :: 0 <= j < |g.nodes| ==> Computed(g, fuel, j, results[j])
    ensures changed <==> exists j :: 0 <= j < |results| && results[j].Some?
    ensures !changed ==> updated == g.nodes
    ensures forall j :: 0 <= j < |g.nodes| ==> updated[j] == Applied(g.nodes[j], results[j])
  {
    updated := [];
    changed := false;
    results := [];
    for i := 0 to |g.nodes|
      invariant |results| == i
      invariant SyncedSoFar(g, fuel, updated, results, changed)
    {
      var d := SyncAt(g, fuel, i);
      SyncStep(g, fuel, updated, results, changed, d);
      changed := changed || d.Some?;
      updated := updated + [Applied(g.nodes[i], d)];
      results := results + [d];
    }
    assert g.nodes[..|g.nodes|] == g.nodes;
  }

  /** The loop's invariant over the first |results| nodes. */
  predicate MappedSoFar(nodes: seq<Node>, updated: seq<Node>, results: seq<Option<NodeData>>, changed: bool) {
    |updated| == |results| <= |nodes|
    && (forall j :: 0 <= j < |results| ==> updated[j] == Applied(nodes[j], results[j]))
    && (changed <==> exists j :: 0 <= j < |results| && results[j].Some?)
    && (!changed ==> updated == nodes[..|results|])
  }

  /** The same, with every result the recomputation of its node. */
  ghost predicate SyncedSoFar(g: Graph, fuel: nat, updated: seq<Node>, results: seq<Option<NodeData>>, changed: bool) {
    MappedSoFar(g.nodes, updated, results, changed)
    && forall j {:trigger Computed(g, fuel, j, results[j])} :: 0 <= j < |results| ==> Computed(g, fuel, j, results[j])
  }

  lemma SyncStep(g: Graph, fuel: nat, updated: seq<Node>, results: seq<Option<NodeData>>, changed: bool, d: Option<NodeData>)
    requires SyncedSoFar(g, fuel, updated, results, changed) && Computed(g, fuel, |results|, d)
    ensures SyncedSoFar(g, fuel, updated + [Applied(g.nodes[|results|], d)], results + [d], changed || d.Some?)
  {
    MapStep(g.nodes, updated, results, changed, d);
    var r' := results + [d];
    forall j | 0 <= j < |r'| ensures Computed(g, fuel, j, r'[j]) {
      if j < |results| {
        assert r'[j] == results[j];
      }
    }
  }

  lemma MapStep(nodes: seq<Node>, updated: seq<Node>, results: seq<Option<NodeData>>, changed: bool, d: Option<NodeData>)
    requires MappedSoFar(nodes, updated, results, changed) && |results| < |nodes|
    ensures MappedSoFar(nodes, updated + [Applied(nodes[|results|], d)], results + [d], changed || d.Some?)
  {
    var i := |results|;
    assert nodes[..i + 1] == nodes[..i] + [nodes[i]];
    var r' := results + [d];
    assert forall j :: 0 <= j < i ==> r'[j] == results[j];
  }

  // -------------------------------------------------------------------
  // Properties of the pass.
  // -------------------------------------------------------------------

  /** The pass keeps every node's id and kind, in order. */
  lemma SyncKeepsShape(g: Graph, fuel: nat, nodes: seq<Node>)
    requires |nodes| == |g.nodes|
    requires forall i :: 0 <= i < |g.nodes| ==> nodes[i] == Synced(g, g.nodes[i], fuel)
    ensures SameShape(g.nodes, nodes)
  {
  }

  /** Each branch writes its own stored list(s) and leaves every other field of
      the node's data as it was. */
  lemma SyncNodeWritesOnlyItsField(g: Graph, n: Node, fuel: nat)
    ensures var r := SyncNode(g, n, fuel);
      r.Some? ==>
        && (n.kind == "layerOnOff" ==> r.value == n.data.(layers := r.value.layers))
        && (n.kind == "SlideShowNode" ==> r.value == n.data.(images := r.value.images))
        && (n.kind == "VideoSlideShowNode" ==> r.value == n.data.(videos := r.value.videos))
        && (n.kind == "dialoguePreview" ==> r.value == n.data.(dialogues := r.value.dialogues))
        && (n.kind == "layerImage" ==> r.value == n.data.(imagePath := r.value.imagePath, imageUrl := r.value.imageUrl))
        && (n.kind == "layerPreview" ==> r.value == n.data.(layers := r.value.layers, layerStates := r.value.layerStates))
        && (n.kind == "layerTimeline" ==> r.value == n.data.(frames := r.value.frames))
  {
  }

  /** The write-back guards settle: a node rewritten by the pass needs no
      further rewrite against the same graph. */
  lemma SyncNodeSettles(g: Graph, n: Node, fuel: nat)
    requires SyncNode(g, n, fuel).Some?
    ensures SyncNode(g, n.(data := SyncNode(g, n, fuel).value), fuel).None?
  {
    var d := SyncNode(g, n, fuel).value;
    var m := n.(data := d);
    if n.kind == "layerOnOff" {
      OnOffSettles(g, n);
    } else if n.kind == "SlideShowNode" {
      assert ChainFrom(g, m, SlideOf, fuel) == ChainFrom(g, n, SlideOf, fuel);
    } else if n.kind == "VideoSlideShowNode" {
      assert ChainFrom(g, m, VideoOf, fuel) == ChainFrom(g, n, VideoOf, fuel);
    } else if n.kind == "dialoguePreview" {
      assert ChainFrom(g, m, DialogueOf, fuel) == ChainFrom(g, n, DialogueOf, fuel);
    } else if n.kind == "layerImage" {
    } else if n.kind == "layerPreview" {
      PreviewSettles(g, n);
    } else {
      assert TimelineFramesOf(g, m, fuel) == TimelineFramesOf(g, n, fuel);
    }
  }

  lemma OnOffSettles(g: Graph, n: Node)
    requires OnOffBranch(g, n).Some?
    ensures OnOffBranch(g, n.(data := OnOffBranch(g, n).value)).None?
  {
  }

  lemma PreviewSettles(g: Graph, n: Node)
    requires PreviewBranch(g, n).Some?
    ensures PreviewBranch(g, n.(data := PreviewBranch(g, n).value)).None?
  {
  }

  /** The step bound does not change what the pass computes, as long as the chains stop within it. */
  lemma SyncNodeFuel(g: Graph, n: Node, f1: nat, f2: nat)
    requires n in g.nodes && ChainsEnd(g, f1) && f1 <= f2
    ensures SyncNode(g, n, f2) == SyncNode(g, n, f1)
  {
    if n.kind == "SlideShowNode" {
      ChainFromFuel(g, n, SlideOf, f1, f2);
    } else if n.kind == "VideoSlideShowNode" {
      ChainFromFuel(g, n, VideoOf, f1, f2);
    } else if n.kind == "dialoguePreview" {
      ChainFromFuel(g, n, DialogueOf, f1, f2);
    } else if n.kind == "layerTimeline" {
      ChainFromFuel(g, n, TimelineNodeOf, f1, f2);
      assert TimelineFramesOf(g, n, f2) == TimelineFramesOf(g, n, f1);
    }
  }

  lemma ChainFromFuel<T>(g: Graph, n: Node, pick: Node -> Option<T>, f1: nat, f2: nat)
    requires n in g.nodes && FollowsChain(n.kind) && ChainsEnd(g, f1) && f1 <= f2
    ensures ChainFrom(g, n, pick, f2) == ChainFrom(g, n, pick, f1)
  {
    match FirstInput(g.edges, n.id)
    case None =>
    case Some(e) => ChainFuel(g, e.source, f1, f2);
  }

  /** Keeping the first element per key and then sorting by z gives a list
      sorted by z, with pairwise distinct keys, drawn from the input, that
      has an element for every key of the input. */
  lemma DedupSortFacts<T>(all: seq<T>, key: T -> string, z: T -> int)
    ensures var ls := SortByKey(FirstPerKey(all, key, {}), z);
      && SortedByKey(ls, z)
      && DistinctKeys(ls, key)
      && (forall x :: x in ls ==> x in all)
      && (forall x :: x in all ==> exists y :: y in ls && key(y) == key(x))
  {
    var kept := FirstPerKey(all, key, {});
    var ls := SortByKey(kept, z);
    SortByKeyFacts(kept, z);
    forall x | x in ls ensures x in all { SortByKeyMembers(kept, z, x); }
    forall x | x in all ensures exists y :: y in ls && key(y) == key(x) {
      FirstPerKeyCovers(all, key, {}, x);
      var y :| y in kept && key(y) == key(x);
      SortByKeyMembers(kept, z, y);
    }
    DistinctKeysPerm(kept, ls, key);
  }

  /** A controller's list is sorted by z and holds exactly one record per
      producer node that any input's chain reached (the first one met). */
  lemma ControllerLayersFacts(g: Graph, ins: seq<Edge>)
    ensures var ls := ControllerLayers(g, ins);
      && SortedByKey(ls, ZKey)
      && (forall i, j :: 0 <= i < j < |ls| ==> ls[i].nodeId != ls[j].nodeId)
      && (forall l :: l in ls ==> l in ChainsOf(g, ins))
      && (forall l :: l in ChainsOf(g, ins) ==> exists m :: m in ls && m.nodeId == l.nodeId)
  {
    DedupSortFacts(ChainsOf(g, ins), LayerNodeId, ZKey);
  }

  /** A controller without 'input' edges ends up with an empty list. */
  lemma OnOffWithoutInputs(g: Graph, n: Node)
    requires IncomingInput(g.edges, n.id) == []
    ensures var r := OnOffBranch(g, n);
      (r.Some? <==> n.data.layers.Some? && n.data.layers.value != []) && (r.Some? ==> r.value.layers == Some([]))
  {
  }

  /** The layers a preview receives from its inputs, edge by edge. */
  lemma PreviewLayersOfMembers(g: Graph, es: seq<Edge>, l: Layer)
    ensures l in PreviewLayersOf(g, es) <==> exists i :: 0 <= i < |es| && l in UpstreamLayersOf(g, es[i].source).layers
  {
    ConcatMembers(es, (e: Edge) => UpstreamLayersOf(g, e.source).layers, l);
  }

  /** A preview's list is sorted by z, shows each layer id once, shows only
      layers its inputs collected (see `PreviewLayersOfMembers`) and shows a
      layer for every id they collected. */
  lemma PreviewLayersFacts(g: Graph, ins: seq<Edge>)
    ensures var ls := PreviewLayers(g, ins);
      && SortedByKey(ls, ZKey)
      && (forall i, j :: 0 <= i < j < |ls| ==> ls[i].id != ls[j].id)
      && (forall l :: l in ls ==> l in PreviewLayersOf(g, ins))
      && (forall l :: l in PreviewLayersOf(g, ins) ==> exists m :: m in ls && m.id == l.id)
  {
    DedupSortFacts(PreviewLayersOf(g, ins), LayerId, ZKey);
  }

  /** With no controller upstream of any input, a preview shows nothing and its map is empty. */
  lemma {:induction false} PreviewWithoutControllers(g: Graph, ins: seq<Edge>)
    requires forall i, x :: 0 <= i < |ins| && Upstream(g, ins[i].source, x) ==> !IsControllerAt(g, x)
    ensures PreviewLayersOf(g, ins) == [] && PreviewStatesOf(g, ins) == map[]
    decreases |ins|
  {
    if ins != [] {
      var init := ins[..|ins| - 1];
      forall i, x | 0 <= i < |init| && Upstream(g, init[i].source, x) ensures !IsControllerAt(g, x) {
        assert init[i] == ins[i];
      }
      PreviewWithoutControllers(g, init);
      FoundIffControllerUpstream(g, ins[|ins| - 1].source);
    }
  }
}

=== FILE: timeline_frames.dfy ===
/** The frame builder of the `layerTimeline` branch of `syncMediaNodes`:
    the background layer is the config layer with the smallest `z`; the
    chain's `layerImage` nodes are replayed oldest first into a per-layer
    state, and every update of a non-background layer emits a frame that
    holds the current state of every layer, in ascending `zIndex`. */
module TimelineFrames {
  import opened Common
  import opened Graph

  // -------------------------------------------------------------------
  // The background layer.
  // -------------------------------------------------------------------

  /** The loop's two variables; `minZ` None stands for `Infinity`. */
  datatype MinScan = MinScan(minZ: Option<int>, key: Option<string>)

  /** `for (const [key, def] of Object.entries(layersConfig)) if (z < minZ) ...`
      over the first |entries| entries. */
  function ScanMin(entries: seq<(string, LayerDef)>): MinScan
    decreases |entries|
  {
    if entries == [] then MinScan(None, None)
    else
      var b := ScanMin(entries[..|entries| - 1]);
      var last := entries[|entries| - 1];
      if b.minZ.None? || last.1.z < b.minZ.value then MinScan(Some(last.1.z), Some(last.0)) else b
  }

  function BackgroundKeyOf(entries: seq<(string, LayerDef)>): Option<string> {
    ScanMin(entries).key
  }

  /** `i` is the first position holding the smallest `z`. */
  predicate FirstMinimum(entries: seq<(string, LayerDef)>, i: int) {
    0 <= i < |entries|
    && (forall j :: 0 <= j < |entries| ==> entries[i].1.z <= entries[j].1.z)
    && (forall j :: 0 <= j < i ==> entries[j].1.z > entries[i].1.z)
  }

  lemma {:induction false} ScanMinFacts(entries: seq<(string, LayerDef)>)
    ensures ScanMin(entries).minZ.None? <==> entries == []
    ensures ScanMin(entries).key.None? <==> entries == []
    ensures entries != [] ==>
      exists i :: FirstMinimum(entries, i) && ScanMin(entries) == MinScan(Some(entries[i].1.z), Some(entries[i].0))
    decreases |entries|
  {
    if entries != [] {
      var init := entries[..|entries| - 1];
      var last := entries[|entries| - 1];
      ScanMinFacts(init);
      var b := ScanMin(init);
      if init == [] {
        assert FirstMinimum(entries, 0);
      } else {
        var i :| FirstMinimum(init, i) && b == MinScan(Some(init[i].1.z), Some(init[i].0));
        assert init[i] == entries[i];
        if last.1.z < b.minZ.value {
          assert FirstMinimum(entries, |entries| - 1) by {
            forall j | 0 <= j < |entries| ensures last.1.z <= entries[j].1.z {
              if j < |entries| - 1 { assert init[j] == entries[j]; }
            }
            forall j | 0 <= j < |entries| - 1 ensures entries[j].1.z > last.1.z {
              assert init[j] == entries[j];
            }
          }
        } else {
          assert FirstMinimum(entries, i) by {
            forall j | 0 <= j < |entries| ensures entries[i].1.z <= entries[j].1.z {
              if j < |entries| - 1 { assert init[j] == entries[j]; }
            }
            forall j | 0 <= j < i ensures entries[j].1.z > entries[i].1.z {
              assert init[j] == entries[j];
            }
          }
        }
      }
    }
  }

  /** The background key is absent exactly for an empty config; otherwise it
      is the key of the first entry with the smallest `z`. */
  lemma BackgroundKeyIsFirstMinimum(entries: seq<(string, LayerDef)>)
    ensures BackgroundKeyOf(entries).None? <==> entries == []
    ensures entries != [] ==> exists i :: FirstMinimum(entries, i) && BackgroundKeyOf(entries) == Some(entries[i].0)
  {
    ScanMinFacts(entries);
  }

  /** The scan as the source writes it. */
  method BackgroundKey(entries: seq<(string, LayerDef)>) returns (key: Option<string>)
    ensures key == BackgroundKeyOf(entries)
  {
    var minZ: Option<int> := None;
    key := None;
    for i := 0 to |entries|
      invariant MinScan(minZ, key) == ScanMin(entries[..i])
    {
      assert entries[..i + 1][..i] == entries[..i];
      var z := entries[i].1.z;
      if minZ.None? || z < minZ.value {
        minZ := Some(z);
        key := Some(entries[i].0);
      }
    }
    assert entries[..|entries|] == entries;
  }

  // -------------------------------------------------------------------
  // The frames.
  // -------------------------------------------------------------------

  function FrameZ(l: FrameLayer): int { l.zIndex }

  /** `layerState[layerKey] = { id, imageUrl, x ?? 0, y ?? 0, scale ?? 1, zIndex: z }`. */
  function FrameLayerOf(n: Node, def: LayerDef): FrameLayer {
    FrameLayer(n.id, n.data.imageUrl, n.data.x.GetOr(0), n.data.y.GetOr(0),
               n.data.scale.GetOr(Ratio(1, 1)), def.z)
  }

  /** The node's layer key if it names a config layer (`!layerKey || !layersConfig[layerKey]` skips it). */
  predicate InConfig(cfg: seq<(string, LayerDef)>, n: Node) {
    n.data.layer != "" && n.data.layer in Keys(cfg)
  }

  predicate Emits(cfg: seq<(string, LayerDef)>, bg: Option<string>, n: Node) {
    InConfig(cfg, n) && bg != Some(n.data.layer)
  }

  datatype TimelineAcc = TimelineAcc(layerState: seq<(string, FrameLayer)>, frames: seq<Frame>)

  /** One pass of `for (const n of ordered)`. */
  function FrameStep(cfg: seq<(string, LayerDef)>, bg: Option<string>, acc: TimelineAcc, n: Node): TimelineAcc {
    if !InConfig(cfg, n) then acc
    else
      var st := Put(acc.layerState, n.data.layer, FrameLayerOf(n, Lookup(cfg, n.data.layer).value));
      if !Emits(cfg, bg, n) then TimelineAcc(st, acc.frames)
      else TimelineAcc(st, acc.frames + [Frame(SortByKey(Values(st), FrameZ),
                                              n.data.backgroundWidth.GetOr(1280),
                                              n.data.backgroundHeight.GetOr(720))])
  }

  function FramesOf(cfg: seq<(string, LayerDef)>, bg: Option<string>, ordered: seq<Node>): TimelineAcc
    decreases |ordered|
  {
    if ordered == [] then TimelineAcc([], [])
    else FrameStep(cfg, bg, FramesOf(cfg, bg, ordered[..|ordered| - 1]), ordered[|ordered| - 1])
  }

  /** The loop as the source writes it. */
  method BuildFrames(cfg: seq<(string, LayerDef)>, bg: Option<string>, ordered: seq<Node>) returns (frames: seq<Frame>)
    ensures frames == FramesOf(cfg, bg, ordered).frames
  {
    var layerState: seq<(string, FrameLayer)> := [];
    frames := [];
    for i := 0 to |ordered|
      invariant TimelineAcc(layerState, frames) == FramesOf(cfg, bg, ordered[..i])
    {
      assert ordered[..i + 1][..i] == ordered[..i];
      var n := ordered[i];
      var key := n.data.layer;
      if key == "" || Lookup(cfg, key).None? {
        continue;
      }
      var def := Lookup(cfg, key).value;
      layerState := Put(layerState, key, FrameLayerOf(n, def));
      if bg != Some(key) {
        frames := frames + [Frame(SortByKey(Values(layerState), FrameZ),
                                  n.data.backgroundWidth.GetOr(1280), n.data.backgroundHeight.GetOr(720))];
      }
    }
    assert ordered[..|ordered|] == ordered;
  }

  // -------------------------------------------------------------------
  // Properties.
  // -------------------------------------------------------------------

  /** The nodes that emit a frame. */
  function Emitting(cfg: seq<(string, LayerDef)>, bg: Option<string>, ordered: seq<Node>): (r: seq<Node>)
    ensures forall n :: n in r <==> n in ordered && Emits(cfg, bg, n)
    decreases |ordered|
  {
    if ordered == [] then []
    else
      var last := ordered[|ordered| - 1];
      var init := ordered[..|ordered| - 1];
      assert ordered == init + [last];
      Emitting(cfg, bg, init) + (if Emits(cfg, bg, last) then [last] else [])
  }

  /** One frame per chain node that updates a non-background config layer;
      nodes outside the config and background updates emit none. */
  lemma {:induction false} FrameCount(cfg: seq<(string, LayerDef)>, bg: Option<string>, ordered: seq<Node>)
    ensures |FramesOf(cfg, bg, ordered).frames| == |Emitting(cfg, bg, ordered)|
    decreases |ordered|
  {
    if ordered != [] {
      FrameCount(cfg, bg, ordered[..|ordered| - 1]);
    }
  }

  /** Every frame lists its layers in ascending `zIndex`. */
  lemma {:induction false} FramesSorted(cfg: seq<(string, LayerDef)>, bg: Option<string>, ordered: seq<Node>)
    ensures forall f :: f in FramesOf(cfg, bg, ordered).frames ==> SortedByKey(f.layers, FrameZ)
    decreases |ordered|
  {
    if ordered != [] {
      var init := ordered[..|ordered| - 1];
      FramesSorted(cfg, bg, init);
      var st := Put(FramesOf(cfg, bg, init).layerState, ordered[|ordered| - 1].data.layer,
                    FrameLayerOf(ordered[|ordered| - 1], Lookup(cfg, ordered[|ordered| - 1].data.layer).GetOr(EmptyDef)));
      SortByKeyFacts(Values(st), FrameZ);
    }
  }

  /** The last node of the chain that updates config layer k. */
  function LastFor(cfg: seq<(string, LayerDef)>, ordered: seq<Node>, k: string): (r: Option<Node>)
    ensures r.Some? ==> r.value in ordered && InConfig(cfg, r.value) && r.value.data.layer == k
    decreases |ordered|
  {
    if ordered == [] then None
    else
      var last := ordered[|ordered| - 1];
      if InConfig(cfg, last) && last.data.layer == k then Some(last)
      else LastFor(cfg, ordered[..|ordered| - 1], k)
  }

  /** The per-layer state holds, for every config layer, the latest chain
      node that updated it, and nothing for layers no node updated. */
  lemma {:induction false} LatestStatePerLayer(cfg: seq<(string, LayerDef)>, bg: Option<string>, ordered: seq<Node>, k: string)
    ensures Lookup(FramesOf(cfg, bg, ordered).layerState, k)
         == (if LastFor(cfg, ordered, k).Some? then Some(FrameLayerOf(LastFor(cfg, ordered, k).value, Lookup(cfg, k).value)) else None)
    decreases |ordered|
  {
    if ordered != [] {
      LatestStatePerLayer(cfg, bg, ordered[..|ordered| - 1], k);
    }
  }

  /** The frame a node emits holds the whole current state: every layer's
      latest record, once each, re-ordered by `zIndex`. */
  lemma LastFrameHoldsState(cfg: seq<(string, LayerDef)>, bg: Option<string>, ordered: seq<Node>)
    requires ordered != [] && Emits(cfg, bg, ordered[|ordered| - 1])
    ensures var acc := FramesOf(cfg, bg, ordered);
      acc.frames != [] && multiset(acc.frames[|acc.frames| - 1].layers) == multiset(Values(acc.layerState))
  {
    var acc := FramesOf(cfg, bg, ordered);
    SortByKeyFacts(Values(acc.layerState), FrameZ);
  }
}

=== FILE: typing_box.dfy ===
/** `TypingPreviewBox` (app/src/utils/TypingPreviewBox.jsx): a text box that
    types its text out over time, can be skipped by a click, and shows at
    most `maxLines` lines.  Animation frames are modelled as explicit calls
    carrying their timestamp in whole milliseconds. */
module TypingBox {
  import opened Common

  // -------------------------------------------------------------------
  // Visible lines.
  // -------------------------------------------------------------------

  /** `s.split('\n')`: never empty; an empty string is one empty line. */
  function Split(s: string): (r: seq<string>)
    ensures |r| >= 1
  {
    if s == [] then [[]]
    else if s[0] == '\n' then [[]] + Split(s[1..])
    else
      var rest := Split(s[1..]);
      [[s[0]] + rest[0]] + rest[1..]
  }

  /** `lines.join('\n')`. */
  function Join(lines: seq<string>): string {
    if lines == [] then []
    else if |lines| == 1 then lines[0]
    else lines[0] + "\n" + Join(lines[1..])
  }

  predicate NoNewline(s: string) {
    forall i :: 0 <= i < |s| ==> s[i] != '\n'
  }

  lemma {:induction false} SplitNoNewline(s: string)
    ensures forall k :: 0 <= k < |Split(s)| ==> NoNewline(Split(s)[k])
    decreases |s|
  {
    if s != [] {
      SplitNoNewline(s[1..]);
    }
  }

  /** Joining the split lines gives the text back. */
  lemma {:induction false} JoinSplit(s: string)
    ensures Join(Split(s)) == s
    decreases |s|
  {
    if s != [] {
      JoinSplit(s[1..]);
      if s[0] == '\n' {
        JoinSplitNewline(s);
      } else {
        JoinSplitChar(s);
      }
    }
  }

  lemma JoinSplitNewline(s: string)
    requires s != [] && s[0] == '\n' && Join(Split(s[1..])) == s[1..]
    ensures Join(Split(s)) == s
  {
    var rest := Split(s[1..]);
    assert Split(s) == [[]] + rest;
    assert s == [] + "\n" + Join(rest);
  }

  lemma JoinSplitChar(s: string)
    requires s != [] && s[0] != '\n' && Join(Split(s[1..])) == s[1..]
    ensures Join(Split(s)) == s
  {
    var rest := Split(s[1..]);
    assert Split(s) == [[s[0]] + rest[0]] + rest[1..];
    JoinCons(s[0], rest);
    assert s == [s[0]] + s[1..];
  }

  /** A character put in front of the first line is in front of the
      joined lines. */
  lemma JoinCons(c: char, lines: seq<string>)
    requires |lines| >= 1
    ensures Join([[c] + lines[0]] + lines[1..]) == [c] + Join(lines)
  {
    var r := [[c] + lines[0]] + lines[1..];
    assert r[0] == [c] + lines[0] && r[1..] == lines[1..];
    if |lines| >= 2 {
      var a, j := lines[0], Join(lines[1..]);
      assert Join(r) == ([c] + a) + "\n" + j;
      assert Join(lines) == a + "\n" + j;
      Assoc3(c, a, j);
    }
  }

  lemma Assoc3(c: char, a: string, j: string)
    ensures ([c] + a) + "\n" + j == [c] + (a + "\n" + j)
  {
  }

  lemma SplitCons(c: char, s: string)
    requires c != '\n'
    ensures Split([c] + s)[0] == [c] + Split(s)[0] && Split([c] + s)[1..] == Split(s)[1..]
  {
    assert ([c] + s)[1..] == s;
  }

  /** A line without a newline, then a newline, then more text: the line
      comes first among the split lines. */
  lemma {:induction false} SplitLine(line: string, s: string)
    requires NoNewline(line)
    ensures Split(line + "\n" + s) == [line] + Split(s)
    decreases |line|
  {
    if line == [] {
      assert line + "\n" + s == "\n" + s;
      assert ("\n" + s)[1..] == s;
    } else {
      SplitLine(line[1..], s);
      assert line + "\n" + s == [line[0]] + (line[1..] + "\n" + s);
      SplitCons(line[0], line[1..] + "\n" + s);
      assert line == [line[0]] + line[1..];
    }
  }

  lemma {:induction false} SplitNoNewlineLine(line: string)
    requires NoNewline(line)
    ensures Split(line) == [line]
    decreases |line|
  {
    if line != [] {
      SplitNoNewlineLine(line[1..]);
      SplitCons(line[0], line[1..]);
      assert line == [line[0]] + line[1..];
    }
  }

  /** Splitting joined lines gives them back, when none holds a newline. */
  lemma {:induction false} SplitJoin(lines: seq<string>)
    requires |lines| >= 1 && forall k :: 0 <= k < |lines| ==> NoNewline(lines[k])
    ensures Split(Join(lines)) == lines
    decreases |lines|
  {
    if |lines| == 1 {
      SplitNoNewlineLine(lines[0]);
    } else {
      SplitJoin(lines[1..]);
      SplitLine(lines[0], Join(lines[1..]));
      assert lines == [lines[0]] + lines[1..];
    }
  }

  /** The first k lines, joined, begin the joined text. */
  lemma {:induction false} JoinPrefix(lines: seq<string>, k: nat)
    requires k <= |lines|
    ensures Join(lines[..k]) <= Join(lines)
    decreases k
  {
    if k >= 1 && |lines| >= 2 {
      if k == 1 {
        assert lines[..1] == [lines[0]];
      } else {
        JoinPrefix(lines[1..], k - 1);
        assert lines[..k][1..] == lines[1..][..k - 1];
      }
    } else if k == 1 {
      assert lines[..1] == lines;
    }
  }

  /** How many lines `.slice(0, maxLines)` keeps out of n: all of them when
      `maxLines` is undefined, at most `maxLines` of them, and for a
      negative `maxLines` all but that many from the end. */
  function KeptLines(n: nat, maxLines: Option<int>): (k: nat)
    ensures k <= n
  {
    match maxLines
    case None => n
    case Some(m) => if m >= 0 then Min(m, n) else Max(0, n + m)
  }

  /** `visibleText`. */
  function VisibleText(displayed: string, maxLines: Option<int>): string {
    var lines := Split(displayed);
    Join(lines[..KeptLines(|lines|, maxLines)])
  }

  /** The visible text begins the displayed text; it is exactly the first
      kept lines (so at most `maxLines` of them) or, when none is kept,
      empty; with no limit it is the whole displayed text. */
  lemma VisibleTextFacts(displayed: string, maxLines: Option<int>)
    ensures VisibleText(displayed, maxLines) <= displayed
    ensures var lines := Split(displayed);
            var k := KeptLines(|lines|, maxLines);
            && (k >= 1 ==> Split(VisibleText(displayed, maxLines)) == lines[..k])
            && (k == 0 ==> VisibleText(displayed, maxLines) == [])
    ensures maxLines.Some? && maxLines.value >= 1 ==>
              |Split(VisibleText(displayed, maxLines))| <= maxLines.value
    ensures maxLines.None? ==> VisibleText(displayed, maxLines) == displayed
  {
    var lines := Split(displayed);
    var k := KeptLines(|lines|, maxLines);
    JoinPrefix(lines, k);
    JoinSplit(displayed);
    assert lines[..|lines|] == lines;
    if k >= 1 {
      SplitNoNewline(displayed);
      SplitJoin(lines[..k]);
    }
  }

  // -------------------------------------------------------------------
  // The typing animation.
  // -------------------------------------------------------------------

  /** `style.typing`, or `{ enabled: false, speed: 50, allowSkip: true }`
      when the style has none; `speed` None is an absent speed. */
  datatype Typing = Typing(enabled: bool, speed: Option<int>, allowSkip: bool)

  const DefaultSpeed := 50

  /** `Math.floor(elapsed / speed)` for a whole number of milliseconds:
      a whole number, or +Infinity, or NaN / -Infinity (which compare
      false against any index). */
  datatype Target = At(n: int) | PastEnd | Nowhere

  function TargetIndex(elapsed: int, speed: int): (r: Target)
    ensures r.At? ==> speed != 0
    ensures r.At? && speed > 0 ==> r.n * speed <= elapsed < (r.n + 1) * speed
    ensures r.At? && speed < 0 ==> (r.n + 1) * speed < elapsed <= r.n * speed
  {
    if speed > 0 then
      var n := elapsed / speed;
      assert elapsed == speed * n + elapsed % speed;
      At(n)
    else if speed < 0 then
      var n := (-elapsed) / (-speed);
      assert -elapsed == (-speed) * n + (-elapsed) % (-speed);
      At(n)
    else if elapsed > 0 then PastEnd
    else Nowhere
  }

  /** What a frame does to the character index: Some(new index) when the
      target passes the current index (`Math.min(target, length)`), None
      when it does not. */
  function Advance(target: Target, index: nat, length: nat): (r: Option<nat>)
    requires index <= length
    ensures r.Some? ==> index <= r.value <= length
  {
    match target
    case At(n) => if n > index then Some(Min(n, length)) else None
    case PastEnd => Some(length)
    case Nowhere => None
  }

  /** With a positive speed, a frame at least `speed * length` ms after
      the start reaches the end of the text; before `speed * (index + 1)`
      ms it changes nothing. */
  lemma AdvanceTimes(elapsed: int, speed: int, index: nat, length: nat)
    requires speed > 0 && index <= length
    ensures index < length && elapsed >= speed * length ==> Advance(TargetIndex(elapsed, speed), index, length) == Some(length)
    ensures elapsed < speed * (index + 1) ==> Advance(TargetIndex(elapsed, speed), index, length).None?
  {
    var n := TargetIndex(elapsed, speed).n;
    if index < length && elapsed >= speed * length {
      MulMonotone(length, n + 1, speed);
    }
    if elapsed < speed * (index + 1) {
      MulMonotone(n, index + 1, speed);
    }
  }

  /** Contrapositive of monotonic multiplication by a positive factor. */
  lemma MulMonotone(a: int, b: int, f: int)
    requires f > 0 && a * f < b * f
    ensures a < b
  {
    assert b * f - a * f == (b - a) * f;
  }

  /** A zero speed shows the whole text on the first frame after the
      start; a negative speed never advances at a time after the start. */
  lemma AdvanceOddSpeeds(elapsed: int, speed: int, index: nat, length: nat)
    requires index <= length
    ensures speed == 0 && elapsed > 0 ==> Advance(TargetIndex(elapsed, speed), index, length) == Some(length)
    ensures speed < 0 && elapsed >= 0 ==> Advance(TargetIndex(elapsed, speed), index, length).None?
  {
    if speed < 0 && elapsed >= 0 {
      assert (-elapsed) / (-speed) <= 0;
    }
  }

  class TypingPreview {
    /** `fullText` as of the last effect run (`charsRef.current`: Dafny
        characters are code points, as `Array.from` yields them). */
    var text: string
    /** `displayedText` */
    var displayed: string
    /** `isSkipped` */
    var skipped: bool
    /** Whether `rafRef.current` holds a requested animation frame. */
    var pending: bool
    /** `startTimeRef.current` */
    var startTime: int
    /** `charIndexRef.current` */
    var charIndex: nat
    /** `t.speed ?? 50` as the running `animate` sees it. */
    var speed: int
    /** The value of `isSkipped` the running `animate` closure captured:
        the one of the render whose effect created it. */
    var seesSkipped: bool

    /** A frame is requested only while typing: then nothing is skipped
        and the displayed text is exactly the first `charIndex`
        characters; the displayed text is always a prefix of the text. */
    predicate Valid()
      reads this
    {
      && charIndex <= |text|
      && displayed <= text
      && (pending ==> !skipped && displayed == text[..charIndex])
    }

    /** The first render: nothing shown, nothing skipped. */
    constructor ()
      ensures Valid()
      ensures text == "" && displayed == "" && !skipped && !pending && charIndex == 0
    {
      text := "";
      displayed := "";
      skipped := false;
      pending := false;
      startTime := 0;
      charIndex := 0;
      speed := DefaultSpeed;
      seesSkipped := false;
    }

    /** The animation effect, run when the text, `enabled` or `speed`
        changes: the outstanding frame is cancelled, the shown text and
        the index reset; with typing disabled the whole text is shown at
        once, otherwise a frame is requested.  The new `animate` closure
        sees `isSkipped` as it was before the reset. */
    method Start(fullText: string, typing: Typing, now: int)
      requires Valid()
      modifies this
      ensures Valid()
      ensures text == fullText && charIndex == 0 && !skipped
      ensures !typing.enabled ==> displayed == fullText && !pending
      ensures typing.enabled ==>
                && displayed == "" && pending && startTime == now
                && speed == typing.speed.GetOr(DefaultSpeed)
                && seesSkipped == old(skipped)
    {
      pending := false;
      var wasSkipped := skipped;
      displayed := "";
      skipped := false;
      charIndex := 0;
      text := fullText;
      if !typing.enabled {
        displayed := fullText;
        return;
      }
      startTime := now;
      speed := typing.speed.GetOr(DefaultSpeed);
      seesSkipped := wasSkipped;
      pending := true;
    }

    /** The part of `animate` after its skip test: the index moves to the
        target when the target passes it; the animation stops at the end
        of the text and otherwise requests the next frame. */
    method Step(now: int)
      requires Valid() && pending
      modifies this
      ensures Valid()
      ensures text == old(text) && skipped == old(skipped) && startTime == old(startTime)
      ensures speed == old(speed) && seesSkipped == old(seesSkipped)
      ensures old(charIndex) <= charIndex <= |text| && displayed == text[..charIndex]
      ensures match Advance(TargetIndex(now - startTime, speed), old(charIndex), |text|)
              case Some(k) => charIndex == k && (pending <==> k < |text|)
              case None => charIndex == old(charIndex) && pending
    {
      var target := TargetIndex(now - startTime, speed);
      var next := Advance(target, charIndex, |text|);
      if next.Some? {
        var newIndex := next.value;
        displayed := text[..newIndex];
        charIndex := newIndex;
        if newIndex >= |text| {
          pending := false;
          return;
        }
      }
    }

    /** `animate(now)` as written: a closure that captured a skipped state
        does nothing and requests no further frame. */
    method Frame(now: int)
      requires Valid() && pending
      modifies this
      ensures Valid()
      ensures text == old(text) && skipped == old(skipped) && startTime == old(startTime)
      ensures speed == old(speed) && seesSkipped == old(seesSkipped)
      ensures seesSkipped ==> !pending && displayed == old(displayed) && charIndex == old(charIndex)
      ensures !seesSkipped ==>
                && old(charIndex) <= charIndex <= |text| && displayed == text[..charIndex]
                && match Advance(TargetIndex(now - startTime, speed), old(charIndex), |text|)
                   case Some(k) => charIndex == k && (pending <==> k < |text|)
                   case None => charIndex == old(charIndex) && pending
    {
      if seesSkipped {
        pending := false;
        return;
      }
      Step(now);
    }

    /** `animate(now)` testing the current `isSkipped` instead of the
        captured one. */
    method FrameIntended(now: int)
      requires Valid() && pending
      modifies this
      ensures Valid()
      ensures text == old(text) && skipped == old(skipped) && startTime == old(startTime)
      ensures speed == old(speed) && seesSkipped == old(seesSkipped)
      ensures old(charIndex) <= charIndex <= |text| && displayed == text[..charIndex]
      ensures match Advance(TargetIndex(now - startTime, speed), old(charIndex), |text|)
              case Some(k) => charIndex == k && (pending <==> k < |text|)
              case None => charIndex == old(charIndex) && pending
    {
      if skipped {
        assert false;
      }
      Step(now);
    }

    /** `handleClick`: with skipping allowed and the text not yet skipped,
        the whole text is shown, it counts as skipped and the outstanding
        frame is cancelled; otherwise nothing changes. */
    method Click(allowSkip: bool)
      requires Valid()
      modifies this
      ensures Valid()
      ensures text == old(text) && charIndex == old(charIndex)
      ensures allowSkip && !old(skipped) ==> displayed == text && skipped && !pending
      ensures !(allowSkip && !old(skipped)) ==>
                displayed == old(displayed) && skipped == old(skipped) && pending == old(pending)
    {
      if allowSkip && !skipped {
        displayed := text;
        skipped := true;
        pending := false;
      }
    }
  }

  const Animated := Typing(true, Some(50), true)

  /** A text typed out, skipped by a click, then replaced: the new text's
      first frame, however late, shows nothing and requests no other frame,
      so the new text never appears until it is clicked. */
  method SkipThenNewText() returns (shown: string, animating: bool)
    ensures shown == "" && !animating
  {
    var box := new TypingPreview();
    box.Start("ab", Animated, 0);
    box.Click(true);
    box.Start("cd", Animated, 1000);
    box.Frame(1000 + 50 * 2);
    shown, animating := box.displayed, box.pending;
  }

  /** The same sequence with the skip test reading the current state: the
      new text is typed out in full. */
  method SkipThenNewTextIntended() returns (shown: string, animating: bool)
    ensures shown == "cd" && !animating
  {
    var box := new TypingPreview();
    box.Start("ab", Animated, 0);
    box.Click(true);
    box.Start("cd", Animated, 1000);
    AdvanceTimes(50 * 2, 50, 0, 2);
    box.FrameIntended(1000 + 50 * 2);
    assert box.text[..2] == "cd";
    shown, animating := box.displayed, box.pending;
  }
}

=== FILE: upstream_layers.dfy ===
/** `collectAllUpstreamLayers`: what a layer preview shows.  A first walk
    merges the on/off maps of every controller upstream; a second walk
    gathers, for each slot id switched on, the first image or text layer
    node found upstream that fills it. */
module UpstreamLayers {
  import opened Common
  import opened Graph
  import opened Walk
  import opened Dedup

  // -------------------------------------------------------------------
  // First walk: merge the controllers' on/off maps.
  // -------------------------------------------------------------------

  /** The map a controller contributes: its `layerStates` when present,
      otherwise `true` for every output layer with an id. */
  function ControllerStates(n: Node): (r: map<string, bool>)
    ensures n.data.layerStates.Some? ==> r == n.data.layerStates.value
    ensures n.data.layerStates.None? && n.data.outputLayers.Some? ==>
      forall k :: (k in r <==> k != "" && exists l :: l in n.data.outputLayers.value && l.id == k)
                  && (k in r ==> r[k])
    ensures n.data.layerStates.None? && n.data.outputLayers.None? ==> r == map[]
  {
    if n.data.layerStates.Some? then n.data.layerStates.value
    else if n.data.outputLayers.Some? then OutputsOn(n.data.outputLayers.value, map[])
    else map[]
  }

  /** `outputLayers.forEach(layer => { if (layer?.id) states[layer.id] = true })`. */
  function OutputsOn(outs: seq<Layer>, m: map<string, bool>): (r: map<string, bool>)
    ensures forall k :: k in r <==> k in m || (k != "" && exists l :: l in outs && l.id == k)
    ensures forall k :: k in r ==> r[k] == (if k != "" && (exists l :: l in outs && l.id == k) then true else m[k])
  {
    if outs == [] then m
    else OutputsOn(outs[1..], if outs[0].id != "" then m[outs[0].id := true] else m)
  }

  /** The config slots a controller declares, in declaration order. */
  function ConfigEntries(n: Node): seq<(string, LayerDef)> {
    if n.data.editorConfig.Some? then n.data.editorConfig.value.layers else []
  }

  /** Slots still unset take `!!config.enabled`; set ones keep their value. */
  function ConfigDefaults(m: map<string, bool>, entries: seq<(string, LayerDef)>): (r: map<string, bool>)
    ensures forall k :: k in r <==> k in m || k in Keys(entries)
    ensures forall k :: k in m ==> r[k] == m[k]
    ensures forall k :: k !in m && k in Keys(entries) ==> r[k] == Lookup(entries, k).value.enabled
    decreases |entries|
  {
    if entries == [] then m
    else
      var k0 := entries[0].0;
      ConfigDefaults(if k0 in m then m else m[k0 := entries[0].1.enabled], entries[1..])
  }

  /** What one controller does to the merged map: `Object.assign` of its own
      map, then config defaults for slots still unset. */
  function MergeController(m: map<string, bool>, n: Node): (r: map<string, bool>)
    ensures forall k :: k in ControllerStates(n) ==> k in r && r[k] == ControllerStates(n)[k]
    ensures forall k :: k !in ControllerStates(n) && k in m ==> k in r && r[k] == m[k]
    ensures forall k :: k !in ControllerStates(n) && k !in m && k in Keys(ConfigEntries(n))
                        ==> k in r && r[k] == SlotDef(n.data.editorConfig, k).enabled
    ensures forall k :: k in r <==> k in m || k in ControllerStates(n) || k in Keys(ConfigEntries(n))
  {
    ConfigDefaults(m + ControllerStates(n), ConfigEntries(n))
  }

  datatype OnOffAcc = OnOffAcc(found: bool, merged: map<string, bool>)

  function OnOffStep(n: Node, a: OnOffAcc): OnOffAcc {
    if n.kind == "layerOnOff" then OnOffAcc(true, MergeController(a.merged, n)) else a
  }

  function NeverStop(a: OnOffAcc): bool { false }

  function OnOffPass(g: Graph, start: string): OnOffAcc {
    Dfs(g, start, WalkState({}, OnOffAcc(false, map[])), OnOffStep, NeverStop).acc
  }

  // -------------------------------------------------------------------
  // Second walk: gather one producer per slot id switched on.
  // -------------------------------------------------------------------

  /** `data.layerId || data.layer || 'layer_' + node.id`. */
  function SlotIdOf(n: Node): string {
    Or(n.data.layerId, Or(n.data.layer, "layer_" + n.id))
  }

  predicate IsLayerNode(n: Node) {
    n.kind == "layerImage" || n.kind == "layerText"
  }

  /** The record gathered for slot `lid` from producer `n`. */
  function UpstreamLayer(n: Node, lid: string): (r: Layer)
    ensures r.id == lid && r.nodeId == n.id && r.sourceNodeId == n.id
  {
    var def := SlotDef(n.data.editorConfig, lid);
    MkLayer(lid, Or(def.caption, Or(n.data.caption, n.kind)),
            if n.kind == "layerImage" then "image" else "text",
            OrZ(def.z, n.data.zIndex), n.id, Picked(n.data, def)).(source := "chain", sourceNodeId := n.id)
  }

  datatype DataAcc = DataAcc(pending: set<string>, collected: seq<Layer>)

  function DataStep(n: Node, a: DataAcc): DataAcc {
    if IsLayerNode(n) && SlotIdOf(n) in a.pending then
      DataAcc(a.pending - {SlotIdOf(n)}, a.collected + [UpstreamLayer(n, SlotIdOf(n))])
    else a
  }

  /** `if (pendingLayerIds.size === 0) return`. */
  function AllFound(a: DataAcc): bool { a.pending == {} }

  function OnIds(m: map<string, bool>): set<string> {
    set k | k in m && m[k]
  }

  datatype Collected = Collected(layers: seq<Layer>, states: map<string, bool>)

  /** `collectAllUpstreamLayers(startNodeId, nodes, edges)`. */
  function UpstreamLayersOf(g: Graph, start: string): Collected {
    var p1 := OnOffPass(g, start);
    if !p1.found then Collected([], map[])
    else if OnIds(p1.merged) == {} then Collected([], p1.merged)
    else
      var p2 := Dfs(g, start, WalkState({}, DataAcc(OnIds(p1.merged), [])), DataStep, AllFound).acc;
      Collected(SortByKey(p2.collected, ZKey), p1.merged)
  }

  /** The two walks as the source runs them, each with its own shared state. */
  method CollectAllUpstreamLayers(g: Graph, start: string) returns (u: Collected)
    ensures u == UpstreamLayersOf(g, start)
  {
    var w1 := new Walker(OnOffAcc(false, map[]));
    w1.Explore(g, start, OnOffStep, NeverStop);
    var p1 := w1.acc;
    if !p1.found {
      return Collected([], map[]);
    }
    var on := OnIds(p1.merged);
    if on == {} {
      return Collected([], p1.merged);
    }
    var w2 := new Walker(DataAcc(on, []));
    w2.Explore(g, start, DataStep, AllFound);
    u := Collected(SortByKey(w2.acc.collected, ZKey), p1.merged);
  }

  // -------------------------------------------------------------------
  // Properties.
  // -------------------------------------------------------------------

  ghost predicate IsControllerAt(g: Graph, v: string) {
    FindNode(g.nodes, v).Some? && FindNode(g.nodes, v).value.kind == "layerOnOff"
  }

  ghost predicate FoundInv(g: Graph, w: WalkState<OnOffAcc>) {
    w.acc.found <==> exists v :: v in w.visited && IsControllerAt(g, v)
  }

  lemma {:induction false} DfsFound(g: Graph, id: string, w: WalkState<OnOffAcc>)
    requires FoundInv(g, w)
    ensures FoundInv(g, Dfs(g, id, w, OnOffStep, NeverStop))
    decreases |NodeIds(g.nodes) - w.visited|, 0
  {
    if id !in w.visited {
      match FindNode(g.nodes, id)
      case None =>
        assert !IsControllerAt(g, id);
      case Some(n) =>
        SetCardStep(NodeIds(g.nodes), w.visited, id);
        var w1 := WalkState(w.visited + {id}, OnOffStep(n, w.acc));
        assert FoundInv(g, w1) by {
          if n.kind == "layerOnOff" { assert IsControllerAt(g, id); }
        }
        DfsEdgesFound(g, Incoming(g.edges, id), w1);
    }
  }

  lemma {:induction false} DfsEdgesFound(g: Graph, es: seq<Edge>, w: WalkState<OnOffAcc>)
    requires FoundInv(g, w)
    ensures FoundInv(g, DfsEdges(g, es, w, OnOffStep, NeverStop))
    decreases |NodeIds(g.nodes) - w.visited|, 1, |es|
  {
    if es != [] {
      var w1 := Dfs(g, es[0].source, w, OnOffStep, NeverStop);
      DfsFound(g, es[0].source, w);
      SubsetCard(NodeIds(g.nodes), w.visited, w1.visited);
      DfsEdgesFound(g, es[1..], w1);
    }
  }

  /** The first walk finds a controller exactly when one lies upstream of
      the start node; with none upstream, the preview gets no layers and an
      empty on/off map. */
  lemma FoundIffControllerUpstream(g: Graph, start: string)
    ensures OnOffPass(g, start).found <==> exists x :: Upstream(g, start, x) && IsControllerAt(g, x)
    ensures (forall x :: Upstream(g, start, x) ==> !IsControllerAt(g, x))
            ==> UpstreamLayersOf(g, start) == Collected([], map[])
  {
    var w0 := WalkState({}, OnOffAcc(false, map[]));
    var r := Dfs(g, start, w0, OnOffStep, NeverStop);
    DfsFound(g, start, w0);
    UpstreamRefl(g, start);
    DfsSound(g, start, start, w0, OnOffStep, NeverStop);
    if exists x :: Upstream(g, start, x) && IsControllerAt(g, x) {
      var x :| Upstream(g, start, x) && IsControllerAt(g, x);
      DfsComplete(g, start, OnOffAcc(false, map[]), OnOffStep, NeverStop, x);
    }
  }

  /** The gathered slot ids and the pending ones split the ids switched on,
      each gathered id once. */
  ghost predicate SplitsOn(on: set<string>, a: DataAcc) {
    && a.pending <= on
    && (forall i :: 0 <= i < |a.collected| ==> a.collected[i].id in on && a.collected[i].id !in a.pending)
    && (forall i, j :: 0 <= i < j < |a.collected| ==> a.collected[i].id != a.collected[j].id)
    && (forall k :: k in on && k !in a.pending ==> exists i :: 0 <= i < |a.collected| && a.collected[i].id == k)
  }

  /** Each record was built from a layer node of the graph filling that slot. */
  ghost predicate FromLayerNodes(g: Graph, a: DataAcc) {
    forall l :: l in a.collected ==>
      exists n :: n in g.nodes && IsLayerNode(n) && SlotIdOf(n) == l.id && l == UpstreamLayer(n, l.id)
  }

  /** The second walk's invariant. */
  ghost predicate DataInv(g: Graph, on: set<string>, a: DataAcc) {
    SplitsOn(on, a) && FromLayerNodes(g, a)
  }

  lemma SplitsOnStep(on: set<string>, n: Node, a: DataAcc)
    requires SplitsOn(on, a)
    ensures SplitsOn(on, DataStep(n, a))
  {
    if IsLayerNode(n) && SlotIdOf(n) in a.pending {
      var b := DataStep(n, a);
      var k := SlotIdOf(n);
      assert b.collected == a.collected + [UpstreamLayer(n, k)];
      assert b.collected[|a.collected|].id == k;
      forall i | 0 <= i < |a.collected| ensures b.collected[i] == a.collected[i] {}
      forall k' | k' in on && k' !in b.pending
        ensures exists i :: 0 <= i < |b.collected| && b.collected[i].id == k'
      {
        if k' != k {
          var i :| 0 <= i < |a.collected| && a.collected[i].id == k';
          assert b.collected[i].id == k';
        }
      }
    }
  }

  lemma FromLayerNodesStep(g: Graph, n: Node, a: DataAcc)
    requires FromLayerNodes(g, a) && n in g.nodes
    ensures FromLayerNodes(g, DataStep(n, a))
  {
    if IsLayerNode(n) && SlotIdOf(n) in a.pending {
      var b := DataStep(n, a);
      forall l | l in b.collected
        ensures exists m :: m in g.nodes && IsLayerNode(m) && SlotIdOf(m) == l.id && l == UpstreamLayer(m, l.id)
      {
        if l !in a.collected {
          assert l == UpstreamLayer(n, SlotIdOf(n));
        }
      }
    }
  }

  lemma DataStepKeeps(g: Graph, on: set<string>, n: Node, a: DataAcc)
    requires DataInv(g, on, a) && n in g.nodes
    ensures DataInv(g, on, DataStep(n, a))
  {
    SplitsOnStep(on, n, a);
    FromLayerNodesStep(g, n, a);
  }

  lemma {:induction false} DfsData(g: Graph, on: set<string>, id: string, w: WalkState<DataAcc>)
    requires DataInv(g, on, w.acc)
    ensures DataInv(g, on, Dfs(g, id, w, DataStep, AllFound).acc)
    decreases |NodeIds(g.nodes) - w.visited|, 0
  {
    if !AllFound(w.acc) && id !in w.visited {
      match FindNode(g.nodes, id)
      case None =>
      case Some(n) =>
        SetCardStep(NodeIds(g.nodes), w.visited, id);
        DataStepKeeps(g, on, n, w.acc);
        DfsEdgesData(g, on, Incoming(g.edges, id), WalkState(w.visited + {id}, DataStep(n, w.acc)));
    }
  }

  lemma {:induction false} DfsEdgesData(g: Graph, on: set<string>, es: seq<Edge>, w: WalkState<DataAcc>)
    requires DataInv(g, on, w.acc)
    ensures DataInv(g, on, DfsEdges(g, es, w, DataStep, AllFound).acc)
    decreases |NodeIds(g.nodes) - w.visited|, 1, |es|
  {
    if es != [] {
      var w1 := Dfs(g, es[0].source, w, DataStep, AllFound);
      DfsData(g, on, es[0].source, w);
      SubsetCard(NodeIds(g.nodes), w.visited, w1.visited);
      DfsEdgesData(g, on, es[1..], w1);
    }
  }

  /** Node v of the graph is a layer node filling slot k. */
  ghost predicate Fills(g: Graph, v: string, k: string) {
    FindNode(g.nodes, v).Some? && IsLayerNode(FindNode(g.nodes, v).value) && SlotIdOf(FindNode(g.nodes, v).value) == k
  }

  /** Record l is the one node v gives for its slot. */
  ghost predicate Produces(g: Graph, v: string, l: Layer) {
    Fills(g, v, l.id) && l == UpstreamLayer(FindNode(g.nodes, v).value, l.id)
  }

  /** What the second walk has done so far: every layer node it entered no
      longer has its slot pending, and every record came from a node it
      entered. */
  ghost predicate Tracked(g: Graph, w: WalkState<DataAcc>) {
    && (forall v, k :: v in w.visited && Fills(g, v, k) ==> k !in w.acc.pending)
    && (forall l :: l in w.acc.collected ==> exists v :: v in w.visited && Produces(g, v, l))
  }

  lemma TrackedStep(g: Graph, id: string, w: WalkState<DataAcc>)
    requires Tracked(g, w) && FindNode(g.nodes, id).Some?
    ensures Tracked(g, WalkState(w.visited + {id}, DataStep(FindNode(g.nodes, id).value, w.acc)))
  {
    var n := FindNode(g.nodes, id).value;
    var w1 := WalkState(w.visited + {id}, DataStep(n, w.acc));
    assert w1.acc.pending <= w.acc.pending;
    forall l | l in w1.acc.collected ensures exists v :: v in w1.visited && Produces(g, v, l) {
      if l !in w.acc.collected {
        assert Produces(g, id, l);
      }
    }
  }

  lemma {:induction false} DfsTracked(g: Graph, id: string, w: WalkState<DataAcc>)
    requires Tracked(g, w)
    ensures Tracked(g, Dfs(g, id, w, DataStep, AllFound))
    decreases |NodeIds(g.nodes) - w.visited|, 0
  {
    if !AllFound(w.acc) && id !in w.visited {
      match FindNode(g.nodes, id)
      case None =>
        assert forall k :: !Fills(g, id, k);
      case Some(n) =>
        SetCardStep(NodeIds(g.nodes), w.visited, id);
        TrackedStep(g, id, w);
        DfsEdgesTracked(g, Incoming(g.edges, id), WalkState(w.visited + {id}, DataStep(n, w.acc)));
    }
  }

  lemma {:induction false} DfsEdgesTracked(g: Graph, es: seq<Edge>, w: WalkState<DataAcc>)
    requires Tracked(g, w)
    ensures Tracked(g, DfsEdges(g, es, w, DataStep, AllFound))
    decreases |NodeIds(g.nodes) - w.visited|, 1, |es|
  {
    if es != [] {
      var w1 := Dfs(g, es[0].source, w, DataStep, AllFound);
      DfsTracked(g, es[0].source, w);
      SubsetCard(NodeIds(g.nodes), w.visited, w1.visited);
      DfsEdgesTracked(g, es[1..], w1);
    }
  }

  /** The second walk from `start` gathers exactly from upstream: each
      record comes from a layer node upstream of `start`, and every slot
      switched on that some layer node upstream of `start` fills is
      gathered. */
  /** Every record in `ls` is produced by a layer node upstream of `start`. */
  ghost predicate ProducedUpstream(g: Graph, start: string, ls: seq<Layer>) {
    forall l :: l in ls ==> exists v :: Upstream(g, start, v) && Produces(g, v, l)
  }

  /** Every slot in `on` that a layer node upstream of `start` fills has a
      record in `ls`. */
  ghost predicate CoversUpstream(g: Graph, start: string, on: set<string>, ls: seq<Layer>) {
    forall v, k :: Upstream(g, start, v) && Fills(g, v, k) && k in on ==> exists l :: l in ls && l.id == k
  }

  lemma GatherReach(g: Graph, start: string, on: set<string>)
    ensures var c := Dfs(g, start, WalkState({}, DataAcc(on, [])), DataStep, AllFound).acc.collected;
      ProducedUpstream(g, start, c) && CoversUpstream(g, start, on, c)
  {
    var w0 := WalkState({}, DataAcc(on, []));
    var r := Dfs(g, start, w0, DataStep, AllFound);
    DfsTracked(g, start, w0);
    DfsData(g, on, start, w0);
    UpstreamRefl(g, start);
    DfsSound(g, start, start, w0, DataStep, AllFound);
    forall v, k | Upstream(g, start, v) && Fills(g, v, k) && k in on
      ensures exists l :: l in r.acc.collected && l.id == k
    {
      DfsCompleteUnlessStopped(g, start, DataAcc(on, []), DataStep, AllFound, v);
      assert k !in r.acc.pending;
      var i :| 0 <= i < |r.acc.collected| && r.acc.collected[i].id == k;
    }
  }

  /** Only slot ids whose merged state is exactly true are shown, each at
      most once, each from a layer node of the graph filling that slot, in
      ascending z order. */
  lemma UpstreamLayersFacts(g: Graph, start: string)
    ensures var u := UpstreamLayersOf(g, start);
      && SortedByKey(u.layers, ZKey)
      && (forall l :: l in u.layers ==> l.id in u.states && u.states[l.id])
      && (forall i, j :: 0 <= i < j < |u.layers| ==> u.layers[i].id != u.layers[j].id)
      && (forall l :: l in u.layers ==>
            exists n :: n in g.nodes && IsLayerNode(n) && SlotIdOf(n) == l.id && l == UpstreamLayer(n, l.id))
  {
    var p1 := OnOffPass(g, start);
    if p1.found && OnIds(p1.merged) != {} {
      var on := OnIds(p1.merged);
      var c := Dfs(g, start, WalkState({}, DataAcc(on, [])), DataStep, AllFound).acc.collected;
      DfsData(g, on, start, WalkState({}, DataAcc(on, [])));
      SortByKeyFacts(c, ZKey);
      var s := SortByKey(c, ZKey);
      forall l | l in s ensures l in c { SortByKeyMembers(c, ZKey, l); }
      assert DistinctKeys(c, LayerId);
      DistinctKeysPerm(c, s, LayerId);
    }
  }

  /** What the preview shows is gathered from upstream of it, both ways:
      each record comes from a layer node upstream of the start, and every
      slot switched on that a layer node upstream of the start fills is
      shown. */
  lemma UpstreamLayersReach(g: Graph, start: string)
    ensures var u := UpstreamLayersOf(g, start);
      && (forall l :: l in u.layers ==> exists v :: Upstream(g, start, v) && Produces(g, v, l))
      && (forall v, k :: Upstream(g, start, v) && Fills(g, v, k) && k in OnIds(u.states) ==>
            exists l :: l in u.layers && l.id == k)
  {
    var p1 := OnOffPass(g, start);
    if p1.found && OnIds(p1.merged) != {} {
      var on := OnIds(p1.merged);
      var c := Dfs(g, start, WalkState({}, DataAcc(on, [])), DataStep, AllFound).acc.collected;
      GatherReach(g, start, on);
      var s := SortByKey(c, ZKey);
      assert UpstreamLayersOf(g, start).layers == s;
      forall l | l in s ensures l in c { SortByKeyMembers(c, ZKey, l); }
      forall l | l in c ensures l in s { SortByKeyMembers(c, ZKey, l); }
      ReachSameMembers(g, start, on, c, s);
    }
  }

  /** Both reach properties depend only on which records a list holds. */
  lemma ReachSameMembers(g: Graph, start: string, on: set<string>, a: seq<Layer>, b: seq<Layer>)
    requires ProducedUpstream(g, start, a) && CoversUpstream(g, start, on, a)
    requires forall l :: l in a <==> l in b
    ensures ProducedUpstream(g, start, b) && CoversUpstream(g, start, on, b)
  {
    forall v, k | Upstream(g, start, v) && Fills(g, v, k) && k in on
      ensures exists l :: l in b && l.id == k
    {
      var l :| l in a && l.id == k;
      assert l in b;
    }
  }

  /** The merged map keeps each controller's entries over earlier ones and
      gives every config slot of a controller a value. */
  lemma MergeControllerCoversConfig(m: map<string, bool>, n: Node, k: string)
    requires k in Keys(ConfigEntries(n))
    ensures k in MergeController(m, n)
    ensures k !in m && k !in ControllerStates(n) ==> MergeController(m, n)[k] == SlotDef(n.data.editorConfig, k).enabled
  {
  }
}

=== FILE: walk.dfy ===
/** The upstream depth-first walk with one `visited` set shared by the whole
    walk, as the preview collectors write it: enter a node once, do the
    node's work, then follow every edge that ends at it.  The node's work is
    a `step` on an accumulator; `stop` is the early exit tested on entry. */
module Walk {
  import opened Common
  import opened Graph

  datatype WalkState<S> = WalkState(visited: set<string>, acc: S)

  lemma SubsetCard(u: set<string>, a: set<string>, b: set<string>)
    requires a <= b
    ensures |u - b| <= |u - a|
  {
    assert u - b <= u - a;
    SetCardMono(u - b, u - a);
  }

  lemma SetCardMono(a: set<string>, b: set<string>)
    requires a <= b
    ensures |a| <= |b|
  {
    assert b == a + (b - a);
  }

  /** `explore(nodeId)`: returns once `stop` holds or the node was entered
      before; a node missing from the graph is marked and ends the branch. */
  function Dfs<S>(g: Graph, id: string, w: WalkState<S>, step: (Node, S) -> S, stop: S -> bool): (r: WalkState<S>)
    ensures w.visited <= r.visited
    decreases |NodeIds(g.nodes) - w.visited|, 0
  {
    if stop(w.acc) || id in w.visited then w
    else match FindNode(g.nodes, id)
      case None => WalkState(w.visited + {id}, w.acc)
      case Some(n) =>
        SetCardStep(NodeIds(g.nodes), w.visited, id);
        DfsEdges(g, Incoming(g.edges, id), WalkState(w.visited + {id}, step(n, w.acc)), step, stop)
  }

  /** `edges.filter(e => e.target === nodeId).forEach(e => explore(e.source))`. */
  function DfsEdges<S>(g: Graph, es: seq<Edge>, w: WalkState<S>, step: (Node, S) -> S, stop: S -> bool): (r: WalkState<S>)
    ensures w.visited <= r.visited
    decreases |NodeIds(g.nodes) - w.visited|, 1, |es|
  {
    if es == [] then w
    else
      var w1 := Dfs(g, es[0].source, w, step, stop);
      SubsetCard(NodeIds(g.nodes), w.visited, w1.visited);
      DfsEdges(g, es[1..], w1, step, stop)
  }

  /** The walk as the source writes it: a recursive method over shared state. */
  class Walker<S> {
    var visited: set<string>
    var acc: S

    constructor (init: S)
      ensures visited == {} && acc == init
    {
      visited := {};
      acc := init;
    }

    function State(): WalkState<S>
      reads this
    {
      WalkState(visited, acc)
    }

    method Explore(g: Graph, id: string, step: (Node, S) -> S, stop: S -> bool)
      modifies this
      ensures State() == Dfs(g, id, old(State()), step, stop)
      decreases |NodeIds(g.nodes) - visited|, 0
    {
      if stop(acc) || id in visited {
        return;
      }
      visited := visited + {id};
      var found := FindNode(g.nodes, id);
      if found.None? {
        return;
      }
      SetCardStep(NodeIds(g.nodes), old(visited), id);
      acc := step(found.value, acc);
      ExploreAll(g, Incoming(g.edges, id), step, stop);
    }

    method ExploreAll(g: Graph, es: seq<Edge>, step: (Node, S) -> S, stop: S -> bool)
      modifies this
      ensures State() == DfsEdges(g, es, old(State()), step, stop)
      decreases |NodeIds(g.nodes) - visited|, 1
    {
      var i := 0;
      while i < |es|
        invariant 0 <= i <= |es|
        invariant old(visited) <= visited
        invariant DfsEdges(g, es[i..], State(), step, stop) == DfsEdges(g, es, old(State()), step, stop)
      {
        assert es[i..][1..] == es[i + 1..];
        SubsetCard(NodeIds(g.nodes), old(visited), visited);
        Explore(g, es[i].source, step, stop);
        i := i + 1;
      }
    }
  }

  // -------------------------------------------------------------------
  // What the walk reaches.
  // -------------------------------------------------------------------

  /** p walks upstream: from each node of the graph on it, along an edge
      ending there, to the edge's source. */
  ghost predicate UpPath(g: Graph, p: seq<string>) {
    |p| >= 1 && forall i :: 0 <= i < |p| - 1 ==> UpStep(g, p[i], p[i + 1])
  }

  /** a is a node of the graph and some edge leads from b into a. */
  ghost predicate UpStep(g: Graph, a: string, b: string) {
    FindNode(g.nodes, a).Some? && exists e :: e in g.edges && e.target == a && e.source == b
  }

  /** x lies upstream of start (or is start). */
  ghost predicate Upstream(g: Graph, start: string, x: string) {
    exists p :: UpPath(g, p) && p[0] == start && p[|p| - 1] == x
  }

  lemma UpstreamStep(g: Graph, start: string, x: string, e: Edge)
    requires Upstream(g, start, x) && FindNode(g.nodes, x).Some?
    requires e in g.edges && e.target == x
    ensures Upstream(g, start, e.source)
  {
    var p :| UpPath(g, p) && p[0] == start && p[|p| - 1] == x;
    var q := p + [e.source];
    assert q[|q| - 2] == x;
    assert UpPath(g, q) by {
      forall i | 0 <= i < |q| - 1 ensures UpStep(g, q[i], q[i + 1]) {
        if i < |p| - 1 {
          assert q[i] == p[i] && q[i + 1] == p[i + 1];
        } else {
          assert q[i] == x && q[i + 1] == e.source;
        }
      }
    }
  }

  /** No node entered and finished (outside `stack`) has an unentered
      upstream neighbour. */
  ghost predicate Closed(g: Graph, visited: set<string>, stack: set<string>) {
    forall v, e :: v in visited && v !in stack && FindNode(g.nodes, v).Some? && e in Incoming(g.edges, v)
      ==> e.source in visited
  }

  lemma {:induction false} DfsCloses<S>(g: Graph, id: string, w: WalkState<S>, step: (Node, S) -> S,
                                        stop: S -> bool, stack: set<string>)
    requires forall s :: !stop(s)
    requires stack <= w.visited && Closed(g, w.visited, stack)
    ensures var r := Dfs(g, id, w, step, stop); id in r.visited && Closed(g, r.visited, stack)
    decreases |NodeIds(g.nodes) - w.visited|, 0
  {
    if id !in w.visited {
      assert !stop(w.acc);
      match FindNode(g.nodes, id)
      case None =>
      case Some(n) =>
        SetCardStep(NodeIds(g.nodes), w.visited, id);
        var w1 := WalkState(w.visited + {id}, step(n, w.acc));
        DfsEdgesCloses(g, Incoming(g.edges, id), w1, step, stop, stack + {id});
    }
  }

  lemma {:induction false} DfsEdgesCloses<S>(g: Graph, es: seq<Edge>, w: WalkState<S>, step: (Node, S) -> S,
                                             stop: S -> bool, stack: set<string>)
    requires forall s :: !stop(s)
    requires stack <= w.visited && Closed(g, w.visited, stack)
    ensures var r := DfsEdges(g, es, w, step, stop);
      Closed(g, r.visited, stack) && forall e :: e in es ==> e.source in r.visited
    decreases |NodeIds(g.nodes) - w.visited|, 1, |es|
  {
    if es != [] {
      var w1 := Dfs(g, es[0].source, w, step, stop);
      DfsCloses(g, es[0].source, w, step, stop, stack);
      SubsetCard(NodeIds(g.nodes), w.visited, w1.visited);
      DfsEdgesCloses(g, es[1..], w1, step, stop, stack);
    }
  }

  lemma UpPathTail(g: Graph, p: seq<string>)
    requires UpPath(g, p) && |p| > 1
    ensures UpPath(g, p[1..])
  {
    var q := p[1..];
    forall i | 0 <= i < |q| - 1 ensures UpStep(g, q[i], q[i + 1]) {
      assert q[i] == p[i + 1] && q[i + 1] == p[i + 2];
    }
  }

  lemma {:induction false} ClosedHoldsPath(g: Graph, visited: set<string>, p: seq<string>)
    requires Closed(g, visited, {}) && UpPath(g, p) && p[0] in visited
    ensures p[|p| - 1] in visited
    decreases |p|
  {
    if |p| > 1 {
      assert UpStep(g, p[0], p[1]);
      var e :| e in g.edges && e.target == p[0] && e.source == p[1];
      assert e in Incoming(g.edges, p[0]);
      assert p[1] in visited;
      UpPathTail(g, p);
      ClosedHoldsPath(g, visited, p[1..]);
      assert p[1..][|p[1..]| - 1] == p[|p| - 1];
    }
  }

  /** Without an early exit, a walk from `start` enters every node upstream of it. */
  lemma DfsComplete<S>(g: Graph, start: string, init: S, step: (Node, S) -> S, stop: S -> bool, x: string)
    requires forall s :: !stop(s)
    requires Upstream(g, start, x)
    ensures x in Dfs(g, start, WalkState({}, init), step, stop).visited
  {
    DfsCloses(g, start, WalkState({}, init), step, stop, {});
    var p :| UpPath(g, p) && p[0] == start && p[|p| - 1] == x;
    ClosedHoldsPath(g, Dfs(g, start, WalkState({}, init), step, stop).visited, p);
  }

  /** The walk enters nothing but nodes upstream of where it started. */
  lemma {:induction false} DfsSound<S>(g: Graph, start: string, id: string, w: WalkState<S>,
                                       step: (Node, S) -> S, stop: S -> bool)
    requires forall v :: v in w.visited ==> Upstream(g, start, v)
    requires Upstream(g, start, id)
    ensures forall v :: v in Dfs(g, id, w, step, stop).visited ==> Upstream(g, start, v)
    decreases |NodeIds(g.nodes) - w.visited|, 0
  {
    if !stop(w.acc) && id !in w.visited {
      match FindNode(g.nodes, id)
      case None =>
      case Some(n) =>
        SetCardStep(NodeIds(g.nodes), w.visited, id);
        var es := Incoming(g.edges, id);
        forall e | e in es ensures Upstream(g, start, e.source) {
          UpstreamStep(g, start, id, e);
        }
        DfsEdgesSound(g, start, es, WalkState(w.visited + {id}, step(n, w.acc)), step, stop);
    }
  }

  lemma {:induction false} DfsEdgesSound<S>(g: Graph, start: string, es: seq<Edge>, w: WalkState<S>,
                                            step: (Node, S) -> S, stop: S -> bool)
    requires forall v :: v in w.visited ==> Upstream(g, start, v)
    requires forall e :: e in es ==> Upstream(g, start, e.source)
    ensures forall v :: v in DfsEdges(g, es, w, step, stop).visited ==> Upstream(g, start, v)
    decreases |NodeIds(g.nodes) - w.visited|, 1, |es|
  {
    if es != [] {
      var w1 := Dfs(g, es[0].source, w, step, stop);
      DfsSound(g, start, es[0].source, w, step, stop);
      SubsetCard(NodeIds(g.nodes), w.visited, w1.visited);
      DfsEdgesSound(g, start, es[1..], w1, step, stop);
    }
  }

  lemma UpstreamRefl(g: Graph, start: string)
    ensures Upstream(g, start, start)
  {
    assert UpPath(g, [start]);
  }

  /** Once the early exit holds, the walk enters no more nodes and its
      accumulator stays as it is. */
  lemma {:induction false} StoppedWalkIsInert<S>(g: Graph, es: seq<Edge>, w: WalkState<S>,
                                                 step: (Node, S) -> S, stop: S -> bool)
    requires stop(w.acc)
    ensures DfsEdges(g, es, w, step, stop) == w
    decreases |es|
  {
    if es != [] {
      StoppedWalkIsInert(g, es[1..], w, step, stop);
    }
  }

  /** With an early exit, a walk either stops or closes over what it
      entered, as a walk without one does. */
  lemma {:induction false} DfsClosesUnlessStopped<S>(g: Graph, id: string, w: WalkState<S>,
                                                     step: (Node, S) -> S, stop: S -> bool, stack: set<string>)
    requires stack <= w.visited && (stop(w.acc) || Closed(g, w.visited, stack))
    ensures var r := Dfs(g, id, w, step, stop);
      stop(r.acc) || (id in r.visited && Closed(g, r.visited, stack))
    decreases |NodeIds(g.nodes) - w.visited|, 0
  {
    if !stop(w.acc) && id !in w.visited {
      match FindNode(g.nodes, id)
      case None =>
      case Some(n) =>
        SetCardStep(NodeIds(g.nodes), w.visited, id);
        var w1 := WalkState(w.visited + {id}, step(n, w.acc));
        DfsEdgesClosesUnlessStopped(g, Incoming(g.edges, id), w1, step, stop, stack + {id});
    }
  }

  lemma {:induction false} DfsEdgesClosesUnlessStopped<S>(g: Graph, es: seq<Edge>, w: WalkState<S>,
                                                          step: (Node, S) -> S, stop: S -> bool, stack: set<string>)
    requires stack <= w.visited && (stop(w.acc) || Closed(g, w.visited, stack))
    ensures var r := DfsEdges(g, es, w, step, stop);
      stop(r.acc) || (Closed(g, r.visited, stack) && forall e :: e in es ==> e.source in r.visited)
    decreases |NodeIds(g.nodes) - w.visited|, 1, |es|
  {
    if es != [] {
      var w1 := Dfs(g, es[0].source, w, step, stop);
      DfsClosesUnlessStopped(g, es[0].source, w, step, stop, stack);
      SubsetCard(NodeIds(g.nodes), w.visited, w1.visited);
      DfsEdgesClosesUnlessStopped(g, es[1..], w1, step, stop, stack);
      if stop(w1.acc) {
        StoppedWalkIsInert(g, es[1..], w1, step, stop);
      }
    }
  }

  /** A walk from `start` with an early exit either stops or enters every
      node upstream of it. */
  lemma DfsCompleteUnlessStopped<S>(g: Graph, start: string, init: S, step: (Node, S) -> S,
                                    stop: S -> bool, x: string)
    requires Upstream(g, start, x)
    ensures var r := Dfs(g, start, WalkState({}, init), step, stop);
      stop(r.acc) || x in r.visited
  {
    var r := Dfs(g, start, WalkState({}, init), step, stop);
    DfsClosesUnlessStopped(g, start, WalkState({}, init), step, stop, {});
    if !stop(r.acc) {
      var p :| UpPath(g, p) && p[0] == start && p[|p| - 1] == x;
      ClosedHoldsPath(g, r.visited, p);
    }
  }
}

=== FILE: workflow_load.dfy ===
/** The layer chains the editor rebuilds after loading a saved workflow.
    First every on/off controller gathers, for each config slot, the first
    layer node found upstream that fills it and publishes the result as
    its layers, states and outputs; then every layer preview takes the
    merged states of the controllers wired straight into it.  The two
    delayed updates run here one after the other. */
module WorkflowLoad {
  import opened Common
  import opened Graph
  import opened Walk
  import opened Dedup
  import UpstreamLayers
  import EditorEffects

  // -------------------------------------------------------------------
  // Controller chains
  // -------------------------------------------------------------------

  /** The `layerMap` entry a producer makes for config slot `key`. */
  function ChainEntry(n: Node, key: string, cfg: Option<EditorConfig>): (r: Layer)
    ensures r.id == key && r.nodeId == n.id && r.zIndex == SlotDef(cfg, key).z && r.enabled == Some(true)
  {
    var def := SlotDef(cfg, key);
    MkLayer(key, Or(def.caption, key), if n.kind == "layerImage" then "image" else "text", def.z, n.id, Copied(n.data))
      .(source := "chain", enabled := Some(true))
  }

  function Ids(m: seq<Layer>): set<string> { set l | l in m :: l.id }

  /** One node of the walk: a layer node naming a config slot not yet in
      the map adds its entry at the end; the first producer of a slot wins. */
  function Gathered(cfg: Option<EditorConfig>, n: Node, m: seq<Layer>): (r: seq<Layer>)
    ensures m <= r
    ensures EditorEffects.LayerKey(n) in Ids(m) ==> r == m
    ensures r != m <==>
      (UpstreamLayers.IsLayerNode(n) && EditorEffects.LayerKey(n) != "" && HasSlot(cfg, EditorEffects.LayerKey(n))
       && EditorEffects.LayerKey(n) !in Ids(m))
  {
    var key := EditorEffects.LayerKey(n);
    if UpstreamLayers.IsLayerNode(n) && key != "" && HasSlot(cfg, key) && key !in Ids(m)
    then m + [ChainEntry(n, key, cfg)] else m
  }

  function GatherStep(cfg: Option<EditorConfig>): (Node, seq<Layer>) -> seq<Layer> {
    (n, m) => Gathered(cfg, n, m)
  }

  function NoStop(m: seq<Layer>): bool { false }

  /** `incomingEdges.forEach(edge => collectLayers(edge.source))`: every
      edge starts a walk with a fresh `visited` set; the map is shared. */
  function GatherEdges(g: Graph, es: seq<Edge>, cfg: Option<EditorConfig>, m: seq<Layer>): seq<Layer>
    decreases |es|
  {
    if es == [] then m
    else GatherEdges(g, es[1..], cfg, Dfs(g, es[0].source, WalkState({}, m), GatherStep(cfg), NoStop).acc)
  }

  /** The controller's gathered layers, sorted by z. */
  function ChainLayersOf(g: Graph, id: string, cfg: Option<EditorConfig>): seq<Layer> {
    SortByKey(GatherEdges(g, Incoming(g.edges, id), cfg, []), ZKey)
  }

  /** `layerStates[layer.id] = true` for every gathered layer. */
  function AllOn(ls: seq<Layer>): (r: map<string, bool>)
    ensures forall k :: k in r <==> k in Ids(ls)
    ensures forall k :: k in r ==> r[k]
  {
    map k | k in Ids(ls) :: true
  }

  /** `editorConfig?.layers?.[id] || {id, type, label, z, enabled: true}`. */
  function ConfigOrFallback(l: Layer, cfg: Option<EditorConfig>): LayerDef {
    if HasSlot(cfg, l.id) then SlotDef(cfg, l.id) else LayerDef(l.name, l.kind, l.zIndex, true, 0, 0, 0, 0)
  }

  function OutputEntry(l: Layer, cfg: Option<EditorConfig>): (r: Layer)
    ensures r.id == l.id && r.name == l.name && r.kind == l.kind && r.zIndex == l.zIndex
  {
    MkLayer(l.id, l.name, l.kind, l.zIndex, "", NoPayload)
      .(enabled := Some(true), config := Some(ConfigOrFallback(l, cfg)), visible := Some(true), hasChain := true)
  }

  function OutputEntries(ls: seq<Layer>, cfg: Option<EditorConfig>): (r: seq<Layer>)
    ensures |r| == |ls|
    ensures forall i :: 0 <= i < |ls| ==> r[i] == OutputEntry(ls[i], cfg)
  {
    if ls == [] then [] else [OutputEntry(ls[0], cfg)] + OutputEntries(ls[1..], cfg)
  }

  /** The data a controller with gathered layers `ls` is given. */
  function ChainData(n: Node, ls: seq<Layer>, cfg: Option<EditorConfig>): NodeData {
    n.data.(layers := Some(ls), layerStates := Some(AllOn(ls)), outputLayers := Some(OutputEntries(ls, cfg)))
  }

  /** The data a controller is given; it is always written. */
  function ChainBuilt(g: Graph, cfg: Option<EditorConfig>, n: Node): NodeData {
    ChainData(n, ChainLayersOf(g, n.id, cfg), cfg)
  }

  function ChainSync(g: Graph, cfg: Option<EditorConfig>, n: Node): Option<NodeData> {
    if n.kind == "layerOnOff" then Some(ChainBuilt(g, cfg, n)) else None
  }

  /** The gathering for one controller, as the source runs it. */
  method GatherFor(g: Graph, id: string, cfg: Option<EditorConfig>) returns (ls: seq<Layer>)
    ensures ls == ChainLayersOf(g, id, cfg)
  {
    var es := Incoming(g.edges, id);
    var m: seq<Layer> := [];
    for i := 0 to |es|
      invariant GatherEdges(g, es[i..], cfg, m) == GatherEdges(g, es, cfg, [])
    {
      assert es[i..][1..] == es[i + 1..];
      var w := new Walker(m);
      w.Explore(g, es[i].source, GatherStep(cfg), NoStop);
      m := w.acc;
    }
    assert es[|es|..] == [];
    ls := SortByKey(m, ZKey);
  }

  function ChainRewrite(g: Graph, cfg: Option<EditorConfig>): Node -> Option<NodeData> {
    n => ChainSync(g, cfg, n)
  }

  /** The `currentNodes.map` callback for one node, as the source runs it. */
  method ChainUpdate(g: Graph, cfg: Option<EditorConfig>, n: Node) returns (d: Option<NodeData>)
    ensures d == ChainRewrite(g, cfg)(n)
  {
    d := None;
    if n.kind == "layerOnOff" {
      var ls := GatherFor(g, n.id, cfg);
      d := Some(ChainData(n, ls, cfg));
    }
  }

  /** The first delayed update: nothing without a controller, otherwise
      every controller's chain is rebuilt. */
  method BuildChains(nodes: seq<Node>, edges: seq<Edge>, cfg: Option<EditorConfig>) returns (result: seq<Node>)
    ensures !EditorEffects.HasController(nodes) ==> result == nodes
    ensures EditorEffects.HasController(nodes) ==> result == RewriteEach(nodes, ChainRewrite(Graph(nodes, edges), cfg))
  {
    if !exists n :: n in nodes && n.kind == "layerOnOff" {
      return nodes;
    }
    var g := Graph(nodes, edges);
    var changed := false;
    result := [];
    for i := 0 to |nodes|
      invariant RewrittenSoFar(nodes, ChainRewrite(g, cfg), i, result, changed)
    {
      var d := ChainUpdate(g, cfg, nodes[i]);
      RewriteStep(nodes, ChainRewrite(g, cfg), i, result, changed, d);
      result := result + [Applied(nodes[i], d)];
      changed := changed || d.Some?;
    }
    RewriteDone(nodes, ChainRewrite(g, cfg), result, changed);
  }

  // -------------------------------------------------------------------
  // What a controller gathers.
  // -------------------------------------------------------------------

  /** Every entry names a config slot and was made by a layer node of the
      graph filling it; no slot has two entries. */
  ghost predicate EntriesOk(g: Graph, cfg: Option<EditorConfig>, m: seq<Layer>) {
    && DistinctKeys(m, LayerId)
    && forall l :: l in m ==>
         && l.id != "" && HasSlot(cfg, l.id)
         && exists n :: n in g.nodes && UpstreamLayers.IsLayerNode(n) && EditorEffects.LayerKey(n) == l.id
                        && l == ChainEntry(n, l.id, cfg)
  }

  /** A layer node of the graph that fills a config slot. */
  ghost predicate FillsSlot(g: Graph, cfg: Option<EditorConfig>, v: string) {
    && FindNode(g.nodes, v).Some? && UpstreamLayers.IsLayerNode(FindNode(g.nodes, v).value)
    && EditorEffects.LayerKey(FindNode(g.nodes, v).value) != ""
    && HasSlot(cfg, EditorEffects.LayerKey(FindNode(g.nodes, v).value))
  }

  /** The invariant of one edge's walk that started from map m0. */
  ghost predicate GatherInv(g: Graph, cfg: Option<EditorConfig>, m0: seq<Layer>, w: WalkState<seq<Layer>>) {
    && m0 <= w.acc
    && EntriesOk(g, cfg, w.acc)
    && forall v :: v in w.visited && FillsSlot(g, cfg, v) ==> EditorEffects.LayerKey(FindNode(g.nodes, v).value) in Ids(w.acc)
  }

  /** A step keeps the entries well formed. */
  lemma GatheredEntriesOk(g: Graph, cfg: Option<EditorConfig>, n: Node, m: seq<Layer>)
    requires EntriesOk(g, cfg, m) && n in g.nodes
    ensures EntriesOk(g, cfg, Gathered(cfg, n, m))
  {
    var r := Gathered(cfg, n, m);
    if r != m {
      var key := EditorEffects.LayerKey(n);
      var e := ChainEntry(n, key, cfg);
      assert r == m + [e];
      assert DistinctKeys(r, LayerId) by {
        forall i, j | 0 <= i < j < |r| ensures LayerId(r[i]) != LayerId(r[j]) {
          if j == |m| {
            assert r[i] == m[i] && m[i] in m;
          } else {
            assert r[i] == m[i] && r[j] == m[j];
          }
        }
      }
      forall l | l in r
        ensures exists n' :: n' in g.nodes && UpstreamLayers.IsLayerNode(n') && EditorEffects.LayerKey(n') == l.id
                             && l == ChainEntry(n', l.id, cfg)
      {
        if l != e {
          assert l in m;
        }
      }
    }
  }

  lemma GatherStepKeeps(g: Graph, cfg: Option<EditorConfig>, m0: seq<Layer>, id: string, n: Node, w: WalkState<seq<Layer>>)
    requires GatherInv(g, cfg, m0, w) && FindNode(g.nodes, id) == Some(n)
    ensures GatherInv(g, cfg, m0, WalkState(w.visited + {id}, GatherStep(cfg)(n, w.acc)))
  {
    var m := w.acc;
    var r := Gathered(cfg, n, m);
    assert GatherStep(cfg)(n, m) == r;
    GatheredEntriesOk(g, cfg, n, m);
    IdsMono(m, r);
    forall v | v in w.visited + {id} && FillsSlot(g, cfg, v)
      ensures EditorEffects.LayerKey(FindNode(g.nodes, v).value) in Ids(r)
    {
      if v == id && EditorEffects.LayerKey(n) !in Ids(m) {
        assert ChainEntry(n, EditorEffects.LayerKey(n), cfg) in r;
      }
    }
  }

  lemma {:induction false} DfsGather(g: Graph, cfg: Option<EditorConfig>, m0: seq<Layer>, id: string, w: WalkState<seq<Layer>>)
    requires GatherInv(g, cfg, m0, w)
    ensures GatherInv(g, cfg, m0, Dfs(g, id, w, GatherStep(cfg), NoStop))
    decreases |NodeIds(g.nodes) - w.visited|, 0
  {
    if id !in w.visited {
      match FindNode(g.nodes, id)
      case None =>
        assert !FillsSlot(g, cfg, id);
      case Some(n) =>
        SetCardStep(NodeIds(g.nodes), w.visited, id);
        GatherStepKeeps(g, cfg, m0, id, n, w);
        DfsEdgesGather(g, cfg, m0, Incoming(g.edges, id), WalkState(w.visited + {id}, GatherStep(cfg)(n, w.acc)));
    }
  }

  lemma {:induction false} DfsEdgesGather(g: Graph, cfg: Option<EditorConfig>, m0: seq<Layer>, es: seq<Edge>, w: WalkState<seq<Layer>>)
    requires GatherInv(g, cfg, m0, w)
    ensures GatherInv(g, cfg, m0, DfsEdges(g, es, w, GatherStep(cfg), NoStop))
    decreases |NodeIds(g.nodes) - w.visited|, 1, |es|
  {
    if es != [] {
      var w1 := Dfs(g, es[0].source, w, GatherStep(cfg), NoStop);
      DfsGather(g, cfg, m0, es[0].source, w);
      SubsetCard(NodeIds(g.nodes), w.visited, w1.visited);
      DfsEdgesGather(g, cfg, m0, es[1..], w1);
    }
  }

  /** Over all the edges: entries are only ever appended, so the first
      producer of a slot stays, and every entry stays well formed. */
  lemma {:induction false} GatherEdgesKeeps(g: Graph, es: seq<Edge>, cfg: Option<EditorConfig>, m: seq<Layer>)
    requires EntriesOk(g, cfg, m)
    ensures m <= GatherEdges(g, es, cfg, m) && EntriesOk(g, cfg, GatherEdges(g, es, cfg, m))
    decreases |es|
  {
    if es != [] {
      var w0 := WalkState({}, m);
      DfsGather(g, cfg, m, es[0].source, w0);
      GatherEdgesKeeps(g, es[1..], cfg, Dfs(g, es[0].source, w0, GatherStep(cfg), NoStop).acc);
    }
  }

  /** One edge's walk gives an entry to every slot filled by a layer node
      upstream of the edge's source. */
  lemma WalkReachesSlots(g: Graph, src: string, cfg: Option<EditorConfig>, m: seq<Layer>, x: string)
    requires EntriesOk(g, cfg, m)
    requires Upstream(g, src, x) && FillsSlot(g, cfg, x)
    ensures EditorEffects.LayerKey(FindNode(g.nodes, x).value) in Ids(Dfs(g, src, WalkState({}, m), GatherStep(cfg), NoStop).acc)
  {
    DfsGather(g, cfg, m, src, WalkState({}, m));
    DfsComplete(g, src, m, GatherStep(cfg), NoStop, x);
  }

  /** Every slot filled by a layer node upstream of one of the edges' sources has an entry. */
  ghost predicate SlotsReached(g: Graph, es: seq<Edge>, cfg: Option<EditorConfig>, r: seq<Layer>) {
    forall e, x :: e in es && Upstream(g, e.source, x) && FillsSlot(g, cfg, x)
      ==> EditorEffects.LayerKey(FindNode(g.nodes, x).value) in Ids(r)
  }

  lemma IdsMono(a: seq<Layer>, b: seq<Layer>)
    requires a <= b
    ensures Ids(a) <= Ids(b)
  {
    forall k | k in Ids(a) ensures k in Ids(b) {
      var l :| l in a && l.id == k;
      var i :| 0 <= i < |a| && a[i] == l;
      assert b[i] == l;
    }
  }

  /** Every slot filled by a layer node upstream of one of the edges'
      sources gets an entry. */
  lemma {:induction false} GatherEdgesReach(g: Graph, es: seq<Edge>, cfg: Option<EditorConfig>, m: seq<Layer>)
    requires EntriesOk(g, cfg, m)
    ensures SlotsReached(g, es, cfg, GatherEdges(g, es, cfg, m))
    decreases |es|
  {
    if es != [] {
      var w0 := WalkState({}, m);
      var m1 := Dfs(g, es[0].source, w0, GatherStep(cfg), NoStop).acc;
      DfsGather(g, cfg, m, es[0].source, w0);
      GatherEdgesReach(g, es[1..], cfg, m1);
      GatherEdgesKeeps(g, es[1..], cfg, m1);
      var r := GatherEdges(g, es[1..], cfg, m1);
      assert r == GatherEdges(g, es, cfg, m);
      IdsMono(m1, r);
      forall e, x | e in es && Upstream(g, e.source, x) && FillsSlot(g, cfg, x)
        ensures EditorEffects.LayerKey(FindNode(g.nodes, x).value) in Ids(r)
      {
        if e == es[0] {
          WalkReachesSlots(g, e.source, cfg, m, x);
        } else {
          assert e in es[1..];
        }
      }
    }
  }

  /** What a controller gathers on load: one layer per config slot, made
      by a layer node of the graph that fills that slot; a layer for every
      slot filled by a layer node upstream of the controller; sorted by z. */
  lemma ChainLayersFacts(g: Graph, id: string, cfg: Option<EditorConfig>)
    ensures var ls := ChainLayersOf(g, id, cfg);
      && SortedByKey(ls, ZKey)
      && EntriesOk(g, cfg, ls)
      && SlotsReached(g, Incoming(g.edges, id), cfg, ls)
  {
    var es := Incoming(g.edges, id);
    GatherEdgesKeeps(g, es, cfg, []);
    GatherEdgesReach(g, es, cfg, []);
    var c := GatherEdges(g, es, cfg, []);
    var ls := SortByKey(c, ZKey);
    SortByKeyFacts(c, ZKey);
    DistinctKeysPerm(c, ls, LayerId);
    forall l | l in ls ensures l in c { SortByKeyMembers(c, ZKey, l); }
    forall k | k in Ids(c) ensures k in Ids(ls) {
      var l :| l in c && l.id == k;
      SortByKeyMembers(c, ZKey, l);
    }
  }

  /** What a controller publishes from its gathered layers: every gathered
      slot switched on and nothing else, and an output entry per layer, in
      the same order, visible and marked as coming from a chain, carrying
      the slot's config. */
  lemma ChainDataFacts(g: Graph, n: Node, ls: seq<Layer>, cfg: Option<EditorConfig>)
    requires EntriesOk(g, cfg, ls)
    ensures var d := ChainData(n, ls, cfg);
      && d.layers == Some(ls)
      && (forall k :: k in d.layerStates.value <==> k in Ids(ls))
      && (forall k :: k in d.layerStates.value ==> d.layerStates.value[k])
      && |d.outputLayers.value| == |ls|
      && (forall i :: 0 <= i < |ls| ==>
            var o := d.outputLayers.value[i];
            o.id == ls[i].id && o.zIndex == ls[i].zIndex && o.visible == Some(true) && o.hasChain
            && o.config == Some(SlotDef(cfg, ls[i].id)))
  {
    forall i | 0 <= i < |ls| ensures HasSlot(cfg, ls[i].id) {
      assert ls[i] in ls;
    }
  }

  // -------------------------------------------------------------------
  // Preview inputs
  // -------------------------------------------------------------------

  /** `Object.assign(layerStates, source.data.layerStates)` for every edge
      whose source is a controller with states. */
  function MergeDirect(nodes: seq<Node>, es: seq<Edge>, m: map<string, bool>): map<string, bool>
    decreases |es|
  {
    if es == [] then m
    else
      var src := FindNode(nodes, es[0].source);
      MergeDirect(nodes, es[1..],
                  if src.Some? && src.value.kind == "layerOnOff" && src.value.data.layerStates.Some?
                  then m + src.value.data.layerStates.value else m)
  }

  /** A controller fed straight into the preview, with states. */
  ghost predicate DirectController(nodes: seq<Node>, es: seq<Edge>, c: Node) {
    exists e :: e in es && FindNode(nodes, e.source) == Some(c) && c.kind == "layerOnOff" && c.data.layerStates.Some?
  }

  /** The merged map holds exactly the keys of the starting map and of the
      direct controllers' states, and is all true when they all are. */
  lemma {:induction false} MergeDirectFacts(nodes: seq<Node>, es: seq<Edge>, m: map<string, bool>)
    ensures var r := MergeDirect(nodes, es, m);
      forall k :: k in r <==> k in m || exists c :: DirectController(nodes, es, c) && k in c.data.layerStates.value
    ensures (forall k :: k in m ==> m[k])
            && (forall c, k :: DirectController(nodes, es, c) && k in c.data.layerStates.value ==> c.data.layerStates.value[k])
            ==> forall k :: k in MergeDirect(nodes, es, m) ==> MergeDirect(nodes, es, m)[k]
    decreases |es|
  {
    if es != [] {
      var src := FindNode(nodes, es[0].source);
      var hit := src.Some? && src.value.kind == "layerOnOff" && src.value.data.layerStates.Some?;
      var m1 := if hit then m + src.value.data.layerStates.value else m;
      MergeDirectFacts(nodes, es[1..], m1);
      forall c | DirectController(nodes, es[1..], c) ensures DirectController(nodes, es, c) {
        var e :| e in es[1..] && FindNode(nodes, e.source) == Some(c) && c.kind == "layerOnOff" && c.data.layerStates.Some?;
        assert e in es;
      }
      forall c | DirectController(nodes, es, c) && !DirectController(nodes, es[1..], c)
        ensures hit && c == src.value
      {
        var e :| e in es && FindNode(nodes, e.source) == Some(c) && c.kind == "layerOnOff" && c.data.layerStates.Some?;
        if e != es[0] {
          assert e in es[1..];
        }
      }
      if hit {
        assert DirectController(nodes, es, src.value);
      }
    }
  }

  /** The data a layer preview is given in the second delayed update. */
  function PreviewInputs(nodes: seq<Node>, edges: seq<Edge>, n: Node): Option<NodeData> {
    if n.kind != "layerPreview" then None
    else Some(n.data.(inputStates := Some(MergeDirect(nodes, Incoming(edges, n.id), map[]))))
  }

  method SetPreviewInputs(nodes: seq<Node>, edges: seq<Edge>) returns (result: seq<Node>)
    ensures |result| == |nodes|
    ensures forall i :: 0 <= i < |nodes| ==> result[i] == Applied(nodes[i], PreviewInputs(nodes, edges, nodes[i]))
  {
    result := [];
    for i := 0 to |nodes|
      invariant |result| == i
      invariant forall j :: 0 <= j < i ==> result[j] == Applied(nodes[j], PreviewInputs(nodes, edges, nodes[j]))
    {
      var n := nodes[i];
      if n.kind == "layerPreview" {
        result := result + [n.(data := n.data.(inputStates := Some(MergeDirect(nodes, Incoming(edges, n.id), map[]))))];
      } else {
        result := result + [n];
      }
    }
  }

  /** After the first update every controller's states are all on. */
  lemma BuiltControllersAllOn(nodes: seq<Node>, edges: seq<Edge>, cfg: Option<EditorConfig>, built: seq<Node>, c: Node)
    requires !EditorEffects.HasController(nodes) ==> built == nodes
    requires EditorEffects.HasController(nodes) ==> built == RewriteEach(nodes, ChainRewrite(Graph(nodes, edges), cfg))
    requires c in built && c.kind == "layerOnOff" && c.data.layerStates.Some?
    ensures forall k :: k in c.data.layerStates.value ==> c.data.layerStates.value[k]
  {
    var j :| 0 <= j < |built| && built[j] == c;
    if EditorEffects.HasController(nodes) {
      assert built[j] == Applied(nodes[j], ChainRewrite(Graph(nodes, edges), cfg)(nodes[j]));
    }
  }

  lemma MergedAllOn(nodes: seq<Node>, edges: seq<Edge>, cfg: Option<EditorConfig>, built: seq<Node>, es: seq<Edge>)
    requires !EditorEffects.HasController(nodes) ==> built == nodes
    requires EditorEffects.HasController(nodes) ==> built == RewriteEach(nodes, ChainRewrite(Graph(nodes, edges), cfg))
    ensures forall k :: k in MergeDirect(built, es, map[]) ==> MergeDirect(built, es, map[])[k]
  {
    MergeDirectFacts(built, es, map[]);
    forall c | DirectController(built, es, c)
      ensures forall k :: k in c.data.layerStates.value ==> c.data.layerStates.value[k]
    {
      var e :| e in es && FindNode(built, e.source) == Some(c) && c.kind == "layerOnOff" && c.data.layerStates.Some?;
      BuiltControllersAllOn(nodes, edges, cfg, built, c);
    }
  }

  /** The nodes after the first delayed update: controllers rebuilt when
      there is any. */
  function Built(nodes: seq<Node>, edges: seq<Edge>, cfg: Option<EditorConfig>): seq<Node> {
    if EditorEffects.HasController(nodes) then RewriteEach(nodes, ChainRewrite(Graph(nodes, edges), cfg)) else nodes
  }

  /** Both delayed updates, in order; the second sees the first's nodes.
      Every node is the first update's node with the second update's
      preview inputs applied, and every preview ends up with an on/off map
      whose entries are all on, since every controller it reads was just
      rebuilt with all its gathered slots switched on. */
  method LoadChains(nodes: seq<Node>, edges: seq<Edge>, cfg: Option<EditorConfig>) returns (result: seq<Node>)
    ensures |result| == |nodes|
    ensures var built := Built(nodes, edges, cfg);
      forall i :: 0 <= i < |nodes| ==> result[i] == Applied(built[i], PreviewInputs(built, edges, built[i]))
    ensures forall i :: 0 <= i < |nodes| ==> result[i].id == nodes[i].id && result[i].kind == nodes[i].kind
    ensures forall i :: 0 <= i < |nodes| && nodes[i].kind == "layerPreview" ==>
      result[i].data.inputStates.Some? && forall k :: k in result[i].data.inputStates.value ==> result[i].data.inputStates.value[k]
  {
    var built := BuildChains(nodes, edges, cfg);
    result := SetPreviewInputs(built, edges);
    assert forall j :: 0 <= j < |nodes| ==> built[j].id == nodes[j].id && built[j].kind == nodes[j].kind;
    forall i | 0 <= i < |nodes| && nodes[i].kind == "layerPreview"
      ensures result[i].data.inputStates.Some?
      ensures forall k :: k in result[i].data.inputStates.value ==> result[i].data.inputStates.value[k]
    {
      assert result[i].data.inputStates == Some(MergeDirect(built, Incoming(edges, nodes[i].id), map[]));
      MergedAllOn(nodes, edges, cfg, built, Incoming(edges, nodes[i].id));
    }
  }
}
